=== FILE: README.md ===
# EduLearn core, modelled in Dafny

EduLearn is an online-learning platform with a Django REST backend and a
Next.js web client. This project models the parts of both that hold its
rules, and proves properties of the models:

- the real-time layer: the websocket consumer's registry of logged-in
  sockets, the helpers that store and push notifications, the websocket JWT
  middleware and the HTTP JWT gate;
- the accounts: student and staff registration, login and token refresh,
  and the `name` rule of the two profile models;
- courses on the server: the course model's duration and rating, course
  detail with its access rules, lesson detail and navigation, lesson
  progress, the public and instructor listings with pagination, course
  creation, update with section and lesson reconciliation, and soft
  deletion;
- applications, favourites, discussions, the notification inbox, learning
  paths and the instructor statistics;
- the web client: the streak store and its widgets, the course-upload
  editor, the instructor course list and dashboard, the public catalogue
  page, the course viewer's duration and navigation logic, the query-string
  builder and resources client, the two challenge runners and the challenge
  board, the candidate course, certificate and application pages, the
  personalised-learning wizard, the role guard, the header initials, the
  notification counter, and the sign-up, sign-in and password-reset forms.

Each Dafny module follows one source area. Databases, files and the socket
registry are values (maps and sequences) that the operations take and
return. Each request handler or event handler is one pure function from the
old state to the new state and its reply. Python's and JavaScript's value
rules are written out where the code depends on them: truthiness,
dictionary keys where `True == 1`, `split`, `trim`, JavaScript's `Number()`
giving `NaN`, and `%` truncating towards zero. Clocks, random identifiers,
token signatures, password hashing and the answers of remote services are
parameters.

Shared modules: `Wrappers` (`Option`), `Text` (prefixes, substrings, case,
trimming, splitting, decimal numerals), `Lists` (filter, count, sum, map,
dedup), `Json` (the JSON value type and Python's view of it), `JsNumber`.

Two places where the code does less than its own comments promise:

- The `JwtAuthMiddleware` docstring (backend/api/socket/jwt_auth.py:34-40)
  says it processes JWT tokens from the query string. The code looks up
  `bytes` keys in a dictionary whose keys are `str`, so it never finds a
  token and every websocket stays anonymous. See Findings.
- The consumer's `receive` (backend/api/socket/consumer.py:131-144) labels
  its `JSONDecodeError` branch "Handle invalid JSON" and answers the fixed
  `Invalid JSON format`. JSON that is not an object (`[1]`, `"x"`), or a
  login whose `user_id` is a list or an object, is valid JSON that still
  fails. It reaches the general branch, whose reply carries that
  exception's own message.

## Model

| member | source | states |
|---|---|---|
| Consumer.Connect | backend/api/socket/consumer.py:13-39 | Every socket is accepted. It starts with no identity and receives exactly one `connection_established` frame. |
| Consumer.Disconnect | backend/api/socket/consumer.py:43-46 | Closing removes the entry keyed by the socket's own identity, if it has a truthy one, and leaves every other entry as it was. |
| Consumer.Receive | backend/api/socket/consumer.py:53-144 | One frame yields one or two outbound frames, and the last goes back to the sender. The registry only gains entries. A changed entry now points at the sender, and only after a login with a truthy, hashable id. Text that is not JSON gives the fixed `Invalid JSON format` error and no state change. |
| Consumer.LoginRegisters | backend/api/socket/consumer.py:59-84 | A login with a truthy, hashable `user_id` sets the identity and maps the id to this socket, replacing any earlier socket for that id. The reply confirms the same id. |
| Consumer.LoginWithoutIdRejected | backend/api/socket/consumer.py:85-90 | A login whose `user_id` is missing or falsy leaves the registry and the session unchanged and answers `Missing user_id in login message`. |
| Consumer.PingIsPure | backend/api/socket/consumer.py:93-97 | `ping` gets exactly one `pong` carrying the server time and changes no state, whether or not the socket has logged in. |
| Consumer.NotificationForwardedIff | backend/api/socket/consumer.py:100-123 | A relay frame is forwarded exactly when `recipient_id` is truthy and registered. The recipient gets `notification` with the data and the sender gets `notification_delivered`. Otherwise the sender gets `notification_pending` and nothing else happens. |
| Consumer.OtherTypesAcknowledged | backend/api/socket/consumer.py:56-131 | Any other `type`, and a missing one read as `''`, is echoed back in an `acknowledgment`. |
| Consumer.NonObjectJsonReportsException | backend/api/socket/consumer.py:139-144 | JSON that is not an object fails on `.get`. The error frame carries the exception's own message and the session stays open and unchanged. |
| Consumer.LastLoginWins | backend/api/socket/consumer.py:63-70 | After two sockets log in under one id, the id maps to the second socket and no other key is added. |
| Consumer.StaleDisconnectEvictsNewer | backend/api/socket/consumer.py:43-70 | When the older of two sockets with the same id closes, the newer socket's live entry is removed. Removal is keyed by identity, not by connection. |
| Consumer.RenamedSocketLeaksOldEntry | backend/api/socket/consumer.py:45-70 | A socket that logs in as A and then as B leaves A's entry behind when it closes. Only B is removed. |
| Consumer.ConnectThenDisconnect | backend/api/socket/consumer.py:31-46 | A socket that never logged in leaves the registry exactly as it found it. |
| NotificationBridge.SendNotification | backend/api/utils/notification_utils.py:9-33 | It reports success exactly when the id is registered and the send does not raise. It then sends one `notification` frame to that socket and otherwise sends nothing. The registry is only read. |
| NotificationBridge.CourseWatchNotification | backend/api/utils/notification_utils.py:40-75 | A course with no instructor does nothing. A missing student raises before anything is stored. Otherwise exactly one `course_viewed` record for the instructor is appended and returned, with the student's name in the message, and a push is attempted to the instructor's `staff_id`. |
| NotificationBridge.Excerpt | backend/api/utils/notification_utils.py:135 | A comment excerpt is the comment itself up to 50 characters. Beyond that it is its first 50 characters followed by `...`. |
| NotificationBridge.SenderName | backend/api/utils/notification_utils.py:146-154 | The sender is the student's name, else the staff member's, else `Unknown`. |
| NotificationBridge.CommentNotification | backend/api/utils/notification_utils.py:77-170 | With no recipient, or a failed insert, it returns `None` and changes nothing. Otherwise it appends and returns exactly one record for the recipient, which is the given one or the course instructor, and attempts one push. |
| NotificationBridge.CommentRecordIndependentOfDelivery | backend/api/utils/notification_utils.py:127-170 | The stored record and the returned value are the same whether or not the recipient is connected and whether or not the push raises. |
| SocketAuth.QueryParams | backend/api/socket/jwt_auth.py:51 | The parsed query string has exactly the `str` keys of the query, and no `bytes` key. |
| SocketAuth.UserFromToken | backend/api/socket/jwt_auth.py:15-31 | A token that does not verify, or whose payload lacks a truthy `user_id`, yields no user. A found user exists and has the payload's id. |
| SocketAuth.Gate | backend/api/socket/jwt_auth.py:43-72 | Non-websocket scopes pass through untouched. A websocket always continues, either anonymous or authenticated as an existing user, and is never rejected. |
| SocketAuth.AsWrittenAlwaysAnonymous | backend/api/socket/jwt_auth.py:55-59 | As written, the `bytes`-key tests never match, so every websocket stays anonymous whatever its query string. |
| SocketAuth.ValidTokenIgnoredAsWritten | backend/api/socket/jwt_auth.py:55-65 | `?token=t` with a valid token for user 7 stays anonymous as written and authenticates user 7 with `str` keys. |
| SocketAuth.IntendedAuthenticatesIff | backend/api/socket/jwt_auth.py:54-65 | With `str` keys, a websocket is authenticated exactly when the token it selects resolves to a user. It selects `token`, else `access_token`. |
| HttpGate.AnyPrefix | backend/api/utils/jwt_middleware.py:30 | True exactly when some listed prefix starts the path. |
| HttpGate.ProcessRequest | backend/api/utils/jwt_middleware.py:26-59 | Exempt paths pass with no user. Otherwise, a header not starting with `Bearer ` gives 401. A token that does not verify gives 401 "Invalid or expired token". For a verified payload: no `user_id`, or an id the ORM cannot read, fails with 500; an id naming a user passes as that user; any other id gives 401 "User not found". |
| HttpGate.TokenForUserPasses | backend/api/utils/jwt_middleware.py:41-59 | Outside the exempt paths, `Bearer <token>` whose payload carries an existing user's integer id passes as exactly that user. |
| HttpGate.PassedUserNamedByToken | backend/api/utils/jwt_middleware.py:41-59 | Outside the exempt paths, a request passes only as an existing user whose id the token's own payload names. |
| HttpGate.ConnectionNotExemptAsWritten | backend/api/utils/jwt_middleware.py:21-22 | Because of the missing comma, `/connection/` is not exempt as written. |
| HttpGate.RefreshNotExemptAsWritten | backend/api/utils/jwt_middleware.py:13 | The routed refresh path `/api/auth/token/refresh/` is not exempt. A refresh request without a bearer header is refused with 401. |
| HttpGate.IntendedExemptsConnectionAndRefresh | backend/api/utils/jwt_middleware.py:9-23 | The corrected list lets `/connection/` and the refresh route through with any header. |
| HttpGate.IntendedCoversAsWritten | backend/api/utils/jwt_middleware.py:9-23 | Every path exempt as written is still exempt under the corrected list. |
| People.DisplayName | backend/api/models/student.py:21-29 | Without a first name the name is the username. With one, it starts with the first name, and it adds `" " + last` exactly when a last name is set. |
| People.LastNameAloneIgnored | backend/api/models/student.py:21-29 | A last name without a first name is ignored and the username is shown. |
| People.NewStudent | backend/api/models/student.py:6-15 | A new student has no skills and no names, and has the given email. |
| People.InsertStaff | backend/api/models/staff.py:5-15 | An insert fails exactly when the generated `staff_id` is taken. On success the ids stay unique and only the new row is added. |
| People.InsertStudent | backend/api/models/student.py:6 | An insert fails exactly when the email is taken. On success emails stay unique and only the new row is added. |
| Json.TrueCollidesWithOne | backend/api/socket/consumer.py:66-70 | `true` and `1` are different JSON ids but the same registry key, so a login as one replaces the other's socket. |
| Durations.ParseMmSs | backend/api/models/course.py:78-79 | A duration without exactly one colon, or with a non-integer field, fails to parse. A parsed value came from exactly two fields. |
| Durations.LessonSeconds | backend/api/models/course.py:75-81 | A missing, empty or malformed duration adds nothing to the total. |
| Durations.TotalSecondsAppend | backend/api/models/course.py:72-81 | The seconds of two lesson lists add up to the seconds of their concatenation. |
| Durations.TotalSecondsIgnoresUnparsable | backend/api/models/course.py:75-81 | A list whose durations are all unparsable totals 0 seconds. |
| Durations.FormatMmSs | backend/api/models/course.py:84-86 | The total is written `MM:SS`: at least five characters, with the colon third from the end, and exactly five below 100 minutes. |
| Durations.FormatSecondsField | backend/api/models/course.py:84-86 | The seconds field is two digits whose value is the total modulo 60, so it is below 60. |
| Durations.FormatParseRoundTrip | backend/api/models/course.py:78-86 | Parsing a formatted nonnegative total gives the same number of seconds back. |
| Durations.TotalOfOneFormattedLesson | backend/api/models/course.py:69-86 | A course whose only lesson's duration is a formatted total reports that same string as its total. |
| Durations.SecondsNotRangeChecked | backend/api/models/course.py:78-79 | Seconds are not range-checked: `m:s` with `s` of 60 or more still parses to `60*m + s`. |
| Durations.OverlongSecondsCarry | backend/api/models/course.py:78-86 | Such a lesson adds its full count, and the course total carries the excess into the minutes. |
| Durations.OtherShapesIgnored | backend/api/models/course.py:78-81 | `"90"` and `"1:02:03"` are not durations and add nothing. |
| Durations.HmsParts | backend/api/utils/course_utils.py:299-301 | Hours, minutes and seconds recompose to the total, with minutes and seconds below 60. |
| Durations.HmsDisplayPrecision | backend/api/utils/course_utils.py:299-306 | Under an hour the display shows minutes and seconds. From an hour on, seconds are dropped, so totals within the same minute display alike. |
| Catalog.NewCourse | backend/api/models/course.py:33-54 | A new course is unpublished, not featured, active and unrated, at level `all_levels` in English, with no sections, requirements or objectives. |
| Catalog.NewLesson | backend/api/models/course.py:127-136 | A new lesson is an unpublished video lesson at order 0, with no duration, content or video. |
| Catalog.Flatten | backend/api/models/course.py:64-67 | The course's lessons are exactly the lessons of its sections, unpublished ones included. |
| Catalog.AverageRating | backend/api/models/course.py:88-93 | The rating is the stored one once someone has rated the course, and 0 before that. |
| Catalog.UnratedIgnoresStoredRating | backend/api/models/course.py:88-93 | While the rating count is 0, no stored rating value is ever shown. |
| Catalog.AscendingPairs | backend/api/models/course.py:111-112 | In a list ascending by `order`, every earlier row has an order no larger than every later row. |
| Catalog.InsertByKey | backend/api/models/course.py:111-112 | Inserting a row into a list ascending by `order` gives an ascending list one longer, headed by the new row or by the old head. |
| Catalog.InsertCounts | backend/api/models/course.py:111-112 | The insertion adds exactly the new row and loses none of the old ones. |
| Catalog.SortByKey | backend/api/models/course.py:111-112 | The sort by `order` gives an ascending list of the same length. |
| Catalog.SortPermutes | backend/api/models/course.py:111-112 | The sort is a permutation: the same rows, each as often. |
| Catalog.SortKeepsMembers | backend/api/models/course.py:111-112 | A row is in the sorted list exactly when it is in the original. |
| Catalog.SortKeepsAscending | backend/api/models/course.py:111-112 | A list already ascending by `order` comes back unchanged. |
| Catalog.InsertWithKey | backend/api/models/course.py:111-112 | Among the rows of one `order`, an inserted row comes before those already there. |
| Catalog.SortStable | backend/api/models/course.py:111-112 | The sort is stable: the rows of any one `order` come out in the order they went in. |
| Catalog.LessonsInOrder | backend/api/models/course.py:138-139 | A section read back keeps its id, title and order, and lists the same lessons ascending by `order`. |
| Catalog.InOrder | backend/api/views/course_views.py:606-612 | The curriculum read back lists the sections ascending by `order`, each with its lessons ascending by `order`. It holds exactly the stored sections, each with its lessons so sorted. |
| Catalog.InOrderHas | backend/api/views/course_views.py:610-612 | Every stored section appears in the read-back curriculum, with its lessons in order. |
| Catalog.InOrderKeepsOrdered | backend/api/views/course_views.py:606-612 | A curriculum already ordered by `order` at both levels reads back unchanged. |
| Catalog.GetOrCreateEnrollment | backend/api/views/application_views.py:220-227 | Afterwards the student is enrolled. `created` is true exactly when they were not enrolled before, and no other pair changes. |
| Catalog.GetOrCreateIdempotent | backend/api/models/course.py:210-211 | Creating the same enrollment twice changes nothing the second time and reports no creation. |
| Catalog.UpsertProgress | backend/api/utils/course_utils.py:645-649 | Afterwards exactly the (student, lesson) row holds the new flag. `created` is true exactly when the row was new, and other rows are unchanged. |
| Catalog.PublishedLessons | backend/api/utils/course_utils.py:663-666 | The lessons counted towards the total are exactly the published ones. |
| CourseAccess.StandingFor | backend/api/utils/course_utils.py:19-53 | The caller is the instructor exactly when their staff record owns the course, and enrolled exactly when an enrollment exists. Access holds exactly for a published course, its instructor or an enrolled student. An application status is read only for a student who is not enrolled. |
| CourseAccess.Visible | backend/api/utils/course_utils.py:67-70 | The listed lessons are exactly the published ones, or all of them for the instructor. |
| CourseAccess.ViewLessons | backend/api/utils/course_utils.py:67-103 | One view per visible lesson, in order. |
| CourseAccess.ViewedLessonsRespectVisibility | backend/api/utils/course_utils.py:69-83 | Nobody but the instructor sees an unpublished lesson. Article content is present exactly for an article shown to the instructor or to an enrolled student. |
| CourseAccess.ViewSections | backend/api/utils/course_utils.py:65-115 | The instructor gets every section. Anyone else gets only the sections with at least one visible lesson. Each section lists exactly its visible lessons. |
| CourseAccess.ProgressPercent | backend/api/utils/course_utils.py:145-157 | The floored percentage is at most 100 and is 0 with nothing done. For a non-empty course it is 100 exactly when everything is done. |
| CourseAccess.CourseDetail | backend/api/utils/course_utils.py:8-207 | An unknown course gives 404. A known course gives 403 exactly under the denial rule. A detail reports progress of at most 100, and 0 to anyone not enrolled. Its lesson total counts every lesson. |
| CourseAccess.DetailDeniedIff | backend/api/utils/course_utils.py:57-61 | 403 happens exactly for an unpublished course seen by someone who is not its instructor, not enrolled, and has no truthy application status. |
| CourseAccess.RejectedApplicantSeesOutline | backend/api/utils/course_utils.py:45-57 | A student with a rejected application to an unpublished course is not refused. They get the outline without access, and only its published lessons. |
| CourseAccess.FormatSections | backend/api/utils/course_utils.py:232-296 | With unpublished lessons included every section is kept. Otherwise only sections with at least one published lesson are kept. Each lists exactly its included lessons. |
| CourseAccess.InstructorName | backend/api/utils/course_utils.py:320-328 | The name is the username, or starts with a non-blank first name. A first name with no last name is used alone. |
| CourseAccess.InstructorNameAgreesWithStaffName | backend/api/models/staff.py:20-27 | The detail's instructor name equals the staff profile's `name` property. |
| CourseAccess.FallbackShortDescription | backend/api/utils/course_utils.py:330-333 | The fallback is at most 150 characters. A longer description is cut to 147 characters followed by `...`. |
| CourseAccess.ShortDescriptionIntended | backend/api/utils/course_utils.py:330-344 | The stored short description when set, else the fallback. The corrected reading of the `getattr` default. |
| CourseAccess.ShortDescriptionFallbackUnused | backend/api/utils/course_utils.py:344 | As written, a course with no stored short description is served null, while the fallback would have served its description. |
| CourseAccess.FormatDetail | backend/api/utils/course_utils.py:217-372 | The lesson total counts exactly the included lessons, and every lesson when unpublished ones are included. The duration display shows the parsed total of the included lessons. The short description is the stored one, null when none is stored, so the computed fallback is never served. The instructor name follows the name rule. |
| CourseAccess.LessonCourse | backend/api/utils/course_utils.py:385-395 | A found course holds a lesson with the id. None means no course holds one. |
| CourseAccess.IndexOfId | backend/api/utils/course_utils.py:540-544 | The first position holding the id, or -1 exactly when no lesson has it. |
| CourseAccess.Neighbours | backend/api/utils/course_utils.py:546-563 | A previous lesson exists exactly when the lesson is not first, and a next one exactly when it is not last. They are the adjacent lessons in section-then-lesson order. |
| CourseAccess.NeighboursAtEnds | backend/api/utils/course_utils.py:546-563 | The first lesson has no previous lesson and the last has no next. Otherwise the second and the second-to-last are found. |
| CourseAccess.LessonDetails | backend/api/utils/course_utils.py:375-602 | 404 exactly when no course holds the lesson. A full answer carries the lesson found by id, its neighbours in course order, and its content only for an article. |
| CourseAccess.LessonAccessRule | backend/api/utils/course_utils.py:430-440 | 403 exactly when the lesson or its course is unpublished and the caller is neither the instructor nor enrolled. The instructor and enrolled students always get the full lesson. |
| CourseAccess.PendingApplicantSeesLessThanAnonymous | backend/api/utils/course_utils.py:442-496 | On a published lesson, an anonymous visitor gets the full lesson while a pending applicant gets the version without content or navigation. |
| CourseAccess.MarkPercent | backend/api/utils/course_utils.py:674-676 | The percentage is 0 for an empty course, and otherwise completed times 100 over total. |
| CourseAccess.FallbackCounts | backend/api/utils/course_utils.py:697-712 | After an internal failure the reply claims one lesson, completed exactly when the request said so, at 0 or 100 percent. |
| CourseAccess.MarkLessonProgress | backend/api/utils/course_utils.py:605-720 | The checks come in order: 401, then 404, then 403 for a non-student, then 403 for a student who is not enrolled. Rejections change nothing. On success exactly one row takes the new flag and the instructor is notified exactly when the row is new. The total counts published lessons, while the completed count covers any lesson. |
| CourseAccess.MarkTwiceNotifiesOnce | backend/api/utils/course_utils.py:645-660 | Marking the same lesson twice keeps one row and notifies the instructor only the first time. |
| CourseAccess.CompletedCanExceedTotal | backend/api/utils/course_utils.py:663-676 | With one published and one unpublished lesson, both completed, the reply says 2 of 1 and 200 percent. |
| Paging.PageCount | frontend/app/dashboard/instructor/courses/page.tsx:165 | There is at least one page. The pages hold all items, and the last page is not empty unless there is only one page. |
| Paging.PageOf | frontend/app/dashboard/instructor/courses/page.tsx:166-169 | A page holds at most `size` items, namely the items from its start index on, up to the "to" label. A page starting past the end is empty. |
| Paging.ItemOnItsPage | frontend/app/dashboard/instructor/page.tsx:290-294 | Every item appears on the page its index divides into, at the matching position. Consecutive pages cover the list. |
| Paging.ItemPageCounted | frontend/app/dashboard/instructor/courses/page.tsx:165-169 | The page an item lies on is within the page count. |
| Paging.PagesUpToCountAreFilled | backend/api/views/course_views.py:57-64 | In a non-empty list, every page up to the count shows at least one item. |
| Paging.NextPage | frontend/app/dashboard/instructor/courses/page.tsx:558 | "Next" moves one page on, clamped to the last page. |
| Paging.PrevPage | frontend/app/dashboard/instructor/courses/page.tsx:546 | "Previous" moves one page back, clamped to page 1. |
| Paging.MovesStayInRange | frontend/app/dashboard/instructor/courses/page.tsx:546-558 | From a valid page both moves stay in `1..total`, and away from the ends each undoes the other. |
| CourseListing.InsertNewest | backend/api/views/course_views.py:52 | Inserting keeps the list newest first and adds exactly the one course. |
| CourseListing.SortNewest | backend/api/views/course_views.py:52 | The ordering is newest first and is a permutation of the input. |
| CourseListing.Filter | backend/api/views/course_views.py:38-50 | It keeps exactly the courses passing the test, and nothing else. |
| CourseListing.FilterKeepsOrder | backend/api/views/course_views.py:38-52 | Filtering a newest-first list leaves it newest first. |
| CourseListing.Matching | backend/api/views/course_views.py:33-52 | The catalogue holds exactly the published courses passing the category, level, title-search and featured filters, newest first. |
| CourseListing.ResolvePage | backend/api/views/course_views.py:54-64 | A missing or non-integer page shows page 1. An integer page in range is shown as asked. Any other integer shows the last page. |
| CourseListing.PublicCourses | backend/api/views/course_views.py:31-117 | It answers exactly when the page size is a positive integer and the page is absent or an integer. The answer shows the resolved page of the matching courses, with correct totals and next/previous flags. The echoed page number is the requested one. The categories are those of all published courses. |
| CourseListing.Categories | backend/api/views/course_views.py:93-94 | The offered categories are exactly the non-empty categories of published courses. |
| CourseListing.PageOfSorted | backend/api/views/course_views.py:59-67 | A page of the newest-first list is newest first, and it holds only listed courses. |
| CourseListing.ShownPageFilled | backend/api/views/course_views.py:59-64 | When anything matches, the shown page is not empty. |
| CourseListing.EveryMatchOnItsPage | backend/api/views/course_views.py:54-67 | Every matching course is listed on the page its position divides into, which is a valid page. |
| CourseListing.EchoedPageDiffersFromShown | backend/api/views/course_views.py:59-105 | For a requested page below 1, the last page is shown with no "next", yet `current_page` echoes the request. |
| CourseListing.ListingShortAsWritten | backend/api/views/course_views.py:71 | The short description when set. Otherwise the first 150 characters of the description, or all of it when shorter, always followed by `...`. |
| CourseListing.ListingShortIntended | backend/api/views/course_views.py:1292 | The short description when set. Otherwise the description, cut to 150 characters followed by `...` only when it is longer. |
| CourseListing.ShortListingAlwaysEllipsised | backend/api/views/course_views.py:71 | As written, a course with no short description and at most 150 characters of description is shown as the whole description followed by `...`, unlike the intended rule. The two rules agree otherwise. |
| CourseListing.EnrolledDescription | backend/api/views/course_views.py:1292 | The enrolled lists show the description itself up to 150 characters, and the intended short form beyond that. |
| CourseListing.ListingCard | backend/api/views/course_views.py:68-76 | A card carries the course's id, title and level, the catalogue's short description as written, and the instructor's trimmed full name. Without a short description the card's text always ends in `...`, even when nothing was cut. |
| CourseListing.CourseList | backend/api/views/course_views.py:122-136 | With an `instructor` parameter the list holds exactly that instructor's courses that are not deleted, drafts included. Without it, exactly the published courses that are not deleted. Newest first either way. |
| CourseListing.NewestKept | backend/api/views/course_views.py:122-136 | The selected courses are exactly those of the catalogue that pass the filter, newest first. |
| CourseListing.DraftsOnlyInInstructorList | backend/api/views/course_views.py:128-133 | An active draft appears in its instructor's list and not in the general list. |
| CourseListing.SoftDeletedListing | backend/api/views/course_views.py:38 | A soft-deleted course leaves both forms of the course list. A still-published deleted course that matches is still offered by the public catalogue. |
| CourseListing.Percent | backend/api/views/course_views.py:1346-1348 | 0 for an empty course, and otherwise completed times 100 over total. |
| CourseListing.CompletionAsWritten | backend/api/views/course_views.py:1335-1350 | As written, the total counts published lessons while the completed count counts completed lessons of any kind. The percentage is completed over total, and the course is complete exactly when the two counts are equal and positive. |
| CourseListing.CompletionIntended | backend/api/views/course_views.py:1335-1350 | Corrected: completed never exceeds total, the percentage is at most 100, and "completed" means every published lesson is done. |
| CourseListing.PercentAtMost100 | backend/api/views/course_views.py:1346-1348 | With no more done than total, the percentage is at most 100. |
| CourseListing.CountAllIff | backend/api/views/course_views.py:1350 | The completed count equals the number of lessons exactly when every lesson is completed. |
| CourseListing.CompletedCourses | backend/api/views/course_views.py:1329-1369 | Every row is the as-written completion of a course with some progress record and at least one completed lesson, published or not. Every such course has its row, and there are never more rows than courses. |
| CourseListing.UnpublishedCompletionListed | backend/api/views/course_views.py:1339-1351 | A course whose only completed lesson is unpublished is listed with one completed lesson out of zero published ones, and not as complete. |
| CourseListing.CompletionCountsUnpublished | backend/api/views/course_views.py:1340-1350 | A course with two published lessons, one done, plus a done unpublished lesson is reported complete as written but not when corrected. |
| CourseEditing.KeepNonBlank | backend/api/views/course_views.py:249-273 | One row per non-blank text and none for blank or missing ones. Rows are in list order, each keeping its text and its position in the sent list as `order`. |
| CourseEditing.ResourceFile | backend/api/views/course_views.py:297-301 | A resource receives an upload only in a multipart request, only for a file-like kind, and only under `file_{id}` for a truthy id. |
| CourseEditing.BuildResources | backend/api/views/course_views.py:276-303 | Exactly one resource per entry with a non-empty title, in list order. Each is ordered by its position and built from its own entry. |
| CourseEditing.CreateLesson | backend/api/views/course_views.py:319-327 | A created lesson takes each field sent. Absent fields default to `Lesson {j+1}`, `video`, unpublished, `00:00`, empty content, and the position as order. It has no video. |
| CourseEditing.EditLesson | backend/api/views/course_views.py:533-540 | An updated lesson keeps its id and video. Each field sent replaces the old value, and every other field is kept. The order falls back to the position. |
| CourseEditing.CreateLessons | backend/api/views/course_views.py:316-329 | Each sent lesson becomes one created lesson with the next fresh id, filed under its sent id or under `lesson-{j}`. |
| CourseEditing.CreateSections | backend/api/views/course_views.py:305-329 | One section per entry, with consecutive ids. The title defaults to `Section {i+1}` and the order to the position. A section has as many lessons as its entry sent. |
| CourseEditing.IdMap | backend/api/views/course_views.py:306-329 | The lesson map has exactly the keys filed, each pointing to a lesson filed under it. The last lesson filed under a key wins. |
| CourseEditing.AttachVideos | backend/api/views/course_views.py:331-340 | Attaching uploads changes no section's id, title, order or lesson count. |
| CourseEditing.FormFlag | backend/api/views/course_views.py:195-196 | A multipart flag is true only when sent, and only as some casing of `true`. |
| CourseEditing.BuildCourse | backend/api/views/course_views.py:232-364 | The stored course belongs to the caller and is active and unrated. It takes the title, description, level, category and flags as sent. It has one section per sent entry, listed ascending by `order` with their lessons likewise. Entry `i` becomes the section with the `i`-th fresh id, its title and order as sent or defaulted, and as many lessons as it sent. Requirements and objectives are the non-blank texts sent. |
| CourseEditing.CreatedRows | backend/api/views/course_views.py:305-340 | The rows written for the sections come in entry order: entry `i` gives the `i`-th fresh id, its title and order as sent or defaulted, and as many lessons as it sent. |
| CourseEditing.CreatedReadBack | backend/api/views/course_views.py:358-364 | Reading the written rows back by `order` loses none: each entry's section is still found, with its id, title, order and lesson count. |
| CourseEditing.CreateCourse | backend/api/views/course_views.py:174-356 | 403 exactly for a caller with no staff profile. Then 400 exactly for a missing or empty title. A lesson id that cannot be a dictionary key fails the whole request. Otherwise it stores the built course and resources. |
| CourseEditing.DefaultKeysCollide | backend/api/views/course_views.py:317-329 | Two sections' first lessons sent without ids share the key `lesson-0`, and the map keeps only the later one. |
| CourseEditing.ShadowedLessonGetsNoVideo | backend/api/views/course_views.py:331-340 | A lesson whose key was taken over by a later lesson never receives an upload. |
| CourseEditing.IdOf | backend/api/views/course_views.py:504-506 | A sent id names a row only when it is truthy and the ORM reads it as that integer. |
| CourseEditing.ReconcileLessons | backend/api/views/course_views.py:523-558 | After a non-empty lesson list, an existing lesson survives exactly when some sent id names it. Every surviving lesson is either named or new, and ids stay distinct. |
| CourseEditing.NamesLessonIff | backend/api/views/course_views.py:529-531 | A lesson is named exactly when some sent entry's id refers to it. |
| CourseEditing.EditSection | backend/api/views/course_views.py:506-512 | An updated section keeps its id. The title is kept when none is sent and the order falls back to the position. Without a lesson list its lessons are untouched. |
| CourseEditing.NewSection | backend/api/views/course_views.py:513-520 | A new section gets a fresh id and the default title and order. Without a lesson list it has no lessons. |
| CourseEditing.ReconcileSections | backend/api/views/course_views.py:496-563 | After a section list, an existing section survives exactly when some sent id names it. Every surviving section is named or new. A named section whose entries send no lessons keeps all its lessons. |
| CourseEditing.NamedIff | backend/api/views/course_views.py:504-506 | A section is named exactly when some sent entry's id refers to it. |
| CourseEditing.PatchFields | backend/api/views/course_views.py:450-493 | Exactly the fields present in the body are replaced. Sent requirement and objective lists replace the old ones wholesale. The curriculum is untouched. |
| CourseEditing.UpdateCourse | backend/api/views/course_views.py:436-585 | 404 exactly for an unknown course, then 403 exactly unless the caller teaches it. A section list with an id the ORM cannot read fails, yet keeps the already-saved fields. Otherwise the fields follow the body, and a sent section list reconciles the curriculum, which the answer lists ascending by `order` at both levels. |
| CourseEditing.UpdateReadsBack | backend/api/views/course_views.py:496-612 | An instructor's update with a readable section list answers with the reconciled rows read back by `order`. |
| CourseEditing.ReadBackIds | backend/api/views/course_views.py:606-612 | Reading the rows back by `order` keeps exactly their section ids. |
| CourseEditing.SwappedSectionsReadBackSwapped | backend/api/views/course_views.py:496-612 | Sections A (order 0) and B (order 1), sent back as `[{"id": 2}, {"id": 1}]`, take their positions as orders, and the answer lists B before A. |
| CourseEditing.SwappedPass | backend/api/views/course_views.py:496-563 | In that example the reconciled rows, in write order, are A with order 1 and then B with order 0. |
| CourseEditing.SwappedReadBack | backend/api/views/course_views.py:610 | Read back by `order`, those rows list B before A. |
| CourseEditing.PassTwo | backend/api/views/course_views.py:501-519 | A pass over two section entries applies the two entries in turn and touches both their sections. |
| CourseEditing.KeepBoth | backend/api/views/course_views.py:560-563 | When both sections are touched, the deletion removes neither. |
| CourseEditing.EmptyUpdateChangesNothing | backend/api/views/course_views.py:450-496 | An empty body leaves the course exactly as it was. |
| CourseEditing.UpdateKeepsUnsentLessons | backend/api/views/course_views.py:523 | A section kept by the update with no lessons sent keeps every lesson, each as often. If they were already ascending by `order`, they come back in the same order. |
| CourseEditing.KeptSectionReadBack | backend/api/views/course_views.py:610-612 | A written section is read back with the same id and the same lessons. Lessons already ascending by `order` keep their order. |
| CourseEditing.SoftDelete | backend/api/views/course_views.py:587-604 | 404 exactly for an unknown course, 403 exactly unless the caller teaches it. Otherwise only `is_active` changes, to false. |
| CurriculumEditor.InitialEditable | frontend/app/upload/page.tsx:56-70 | The form opens with one section, "Section 1", holding one lesson, "Lesson 1", so no list is empty. |
| CurriculumEditor.RemoveAt | frontend/app/upload/page.tsx:188-189 | `splice(i, 1)`: one entry fewer, the entries before `i` kept in place and those after it shifted down by one, and the removed entry is the only one lost. |
| CurriculumEditor.MoveUp | frontend/app/upload/page.tsx:216-224 | The entry swaps with the one before it, and the first entry stays put. The list keeps the same entries. |
| CurriculumEditor.MoveDown | frontend/app/upload/page.tsx:227-235 | The entry swaps with the one after it, and the last entry stays put. The list keeps the same entries. |
| CurriculumEditor.UpThenDown | frontend/app/upload/page.tsx:216-235 | Moving an entry up and then down again restores the list. |
| CurriculumEditor.DownThenUp | frontend/app/upload/page.tsx:216-235 | Moving an entry down and then up again restores the list. |
| CurriculumEditor.AddSection | frontend/app/upload/page.tsx:165-182 | A new last section "Section n+1", with one fresh "Lesson 1", is added after the existing ones, which are kept. |
| CurriculumEditor.RemoveSection | frontend/app/upload/page.tsx:185-191 | The only section is never removed. Otherwise exactly the chosen section is dropped, and at least one section remains. |
| CurriculumEditor.AddLesson | frontend/app/upload/page.tsx:194-204 | Section `i` gains "Lesson k+1" at the end of its k lessons, and every other section is unchanged. |
| CurriculumEditor.RemoveLesson | frontend/app/upload/page.tsx:207-213 | The only lesson of a section is never removed. Otherwise exactly the chosen lesson of that section is dropped. |
| CurriculumEditor.MoveSectionUp | frontend/app/upload/page.tsx:216-224 | The section swaps with the previous one, and the form keeps a lesson in every section. |
| CurriculumEditor.MoveSectionDown | frontend/app/upload/page.tsx:227-235 | The section swaps with the next one, and the form keeps a lesson in every section. |
| CurriculumEditor.MoveLessonUp | frontend/app/upload/page.tsx:238-247 | Within the one section, the lesson swaps with the previous one. The section keeps the same lessons, and other sections are unchanged. |
| CurriculumEditor.MoveLessonDown | frontend/app/upload/page.tsx:250-260 | Within the one section, the lesson swaps with the next one. The section keeps the same lessons, and other sections are unchanged. |
| CurriculumEditor.LessonUpThenDown | frontend/app/upload/page.tsx:238-260 | Moving a lesson up and back down restores the curriculum. |
| CurriculumEditor.Apply | frontend/app/upload/page.tsx:165-260 | Any click on a rendered button leaves at least one section, each with at least one lesson. |
| CurriculumEditor.EditsKeepForm | frontend/app/upload/page.tsx:165-260 | After any sequence of clicks, the form still has at least one section, each with at least one lesson. |
| CurriculumEditor.FormValidIff | frontend/app/upload/page.tsx:280-287 | The form is valid exactly when the title and the description each hold a non-space character, and a category and a level are chosen. |
| CurriculumEditor.BlankTitleInvalid | frontend/app/upload/page.tsx:280-287 | A title of spaces only never makes the form valid. |
| Applications.FindCourse | backend/api/views/application_views.py:37-44 | A course found for the sent id is one of the courses, and its primary key is what the id coerces to. |
| Applications.Apply | backend/api/views/application_views.py:16-82 | 401 exactly for an anonymous caller. 400 for a falsy course id, 500 for an id the lookup raises on, and 403 exactly when the course exists but the caller has no student record. 201 exactly when a student applies to an existing course for the first time, and then a pending application is added. Every other answer leaves the state unchanged. At most one application per student and course is kept. |
| Applications.ApplyTwiceRefused | backend/api/models/application.py:32-33 | A second identical application is refused with 400 and changes nothing. |
| Applications.Manage | backend/api/views/application_views.py:173-252 | 401 exactly for an anonymous caller, 400 for a status other than approved or rejected, and 404 for an unknown application. 200 exactly when the caller teaches the application's course, and then the status is set whatever it was before. Approval adds the enrollment and reports it created exactly when it was absent. Rejection leaves enrollments alone. Other answers change nothing. |
| Applications.ReapprovalCreatesNothing | backend/api/views/application_views.py:215-227 | Approving twice reports no new enrollment the second time and leaves the state as the first approval did. |
| Applications.RejectAfterApprovalKeepsEnrollment | backend/api/views/application_views.py:215-227 | Rejecting an approved application keeps the enrollment the approval created. |
| Applications.Cancel | backend/api/views/application_views.py:254-300 | 401 exactly for an anonymous caller and 404 exactly for an unknown application. 200 exactly when the caller is the applicant, and then only that application is removed and enrollments stay. Other answers change nothing. |
| Applications.Listing | backend/api/views/application_views.py:84-165 | 401 exactly for an anonymous caller, and 403 exactly for one who is neither student nor staff. A student sees exactly their own applications. Staff see exactly the applications to courses they teach. A caller with both records is answered as a student. |
| Favorites.Add | backend/api/views/favoritecourse_views.py:47-95 | 401 exactly when signed out, and 400 for a falsy course id. 200 exactly when the favourite is already stored, and then nothing changes. 201 exactly when it is added, and then exactly that one row is added. Rows stay free of duplicates. |
| Favorites.Remove | backend/api/views/favoritecourse_views.py:97-137 | 401 exactly when signed out, and 400 for a falsy course id. 200 exactly when the favourite is stored, and then only that row goes. Otherwise nothing changes, and nothing is ever added. |
| Favorites.Favourites | backend/api/views/favoritecourse_views.py:12-45 | 401 exactly when signed out. Otherwise the answer holds exactly the caller's favourite courses. |
| Favorites.AddIdempotent | backend/api/views/favoritecourse_views.py:64-74 | Adding a favourite twice stores it once, and the second add answers 200. |
| Favorites.RemoveTwiceNotFound | backend/api/views/favoritecourse_views.py:115-131 | Removing a favourite twice answers 404 the second time. |
| Favorites.AddThenRemove | backend/api/views/favoritecourse_views.py:47-137 | Adding a favourite that was absent and then removing it restores the rows and answers 200. |
| Discussions.LoadComments | backend/api/views/course_discussions.py:21-28 | A missing file, or one that does not parse, reads as no threads. Otherwise it reads as its parsed content. |
| Discussions.FindComment | backend/api/views/course_discussions.py:44-54 | None exactly when no course's thread holds the id. Otherwise it is the first match in the first course, in file order, that holds one. |
| Discussions.View | backend/api/views/course_discussions.py:40-62 | With a comment id: 404 exactly when no thread holds it, otherwise that comment with a `replies` list added. Without one: the course's comments in order, each with a `replies` list. Unknown courses show none. |
| Discussions.Post | backend/api/views/course_discussions.py:64-140 | 400 exactly for empty content. 201 exactly when an author and the course exist. 500 otherwise, and yet the comment is already appended when the author exists. The new comment goes last in its course's thread and other threads are untouched. |
| Discussions.PostBody | backend/api/views/course_discussions.py:64-140 | A body that is not JSON gives 400 and changes nothing. Parsed JSON that is not an object gives 500 and changes nothing. An object is posted with its `content`, so 400 means an unparsable body or empty content, and 201 needs an object with content, an author and the course. |
| Discussions.Delete | backend/api/views/course_discussions.py:142-167 | 200 exactly when the course's thread holds the id, and then only the first such comment goes. 404 otherwise, with no change. Other threads and the set of courses are untouched. |
| Discussions.ReplierName | backend/api/views/notification_views.py:169 | The stripped full name, or the username when that is blank. |
| Discussions.FirstTruthy | backend/api/views/notification_views.py:140 | Python `or`: truthy exactly when one of the three is, and the first truthy value wins. |
| Discussions.ReplyTo | backend/api/views/notification_views.py:135-192 | 401 for an anonymous caller, 400 unless comment id, course id and message are all truthy, and 403 for a non-staff caller. 200 exactly when the course's thread holds a comment with that id as a string, and then one reply is appended to the first such comment and nothing else changes. 404 otherwise, with no change. |
| Discussions.AddReply | backend/api/views/notification_views.py:164-174 | The reply is appended to the chosen comment's replies, which start empty when missing. Every other field of that comment, every other comment and every other course's thread stay as they were, and course keys stay distinct. |
| Discussions.FirstWithIdAppended | backend/api/views/course_discussions.py:148-158 | A comment appended behind comments with other ids is the first with its id. |
| Discussions.PostThenDelete | backend/api/views/course_discussions.py:64-167 | Deleting a just-posted comment by its id succeeds and restores every thread. |
| Discussions.UnreadableFileIsReplacedOnPost | backend/api/views/course_discussions.py:21-120 | When the file is missing or unreadable, the next comment leaves a file with one thread holding just that comment. |
| Discussions.PostedCommentListed | backend/api/views/course_discussions.py:40-129 | After a post, the course listing grows by one, and its last comment is the new one with no replies. |
| NotificationInbox.Inbox | backend/api/views/notification_views.py:26-33 | The listed notifications are exactly the stored ones addressed to the caller's staff record, or else to its student record. The newest such record comes first. |
| NotificationInbox.NewestListedFirst | backend/api/models/notification.py:38-39 | A newly created notification heads its recipient's list, ahead of all earlier ones. Other callers' lists are unchanged. |
| NotificationInbox.InboxSplits | backend/api/models/notification.py:38-39 | Newest first at every cut: the caller's notifications stored after any row are all listed before those stored up to it. |
| NotificationInbox.ListedSenderName | backend/api/views/notification_views.py:37-42 | The staff sender's name when there is one, else the student sender's name, else "System". |
| NotificationInbox.ListNotifications | backend/api/views/notification_views.py:16-77 | 401 exactly for an anonymous caller, otherwise 200. Exactly the caller's notifications are listed, newest first, and none for an account with no role. |
| NotificationInbox.StaffRecordHidesStudentInbox | backend/api/views/notification_views.py:28-33 | A caller with both records never sees what was sent only to its student record. |
| NotificationInbox.SenderPreferenceDiffers | backend/api/views/notification_views.py:37-42 | For a notification with both a student and a staff sender, the list names the staff member, while the live push names the student. |
| NotificationInbox.FilterIds | backend/api/views/notification_views.py:110-114 | The `id__in` filter: a number, boolean or null is refused. A list is accepted exactly when every element is readable as an id, and then the filter holds exactly those ids. |
| NotificationInbox.ListIds | backend/api/views/notification_views.py:110-111 | Accepted exactly when every element is readable as an id, and then it holds exactly those ids. |
| NotificationInbox.MarkSelected | backend/api/views/notification_views.py:110-114 | Exactly the caller's unread notifications with a selected id become read, and nothing else changes. The count returned is the drop in unread notifications. None stays selected. |
| NotificationInbox.MarkRead | backend/api/views/notification_views.py:79-130 | 401 exactly for an anonymous caller, and 400 exactly for missing or empty ids. 403 exactly for a caller with no role. 500 exactly for ids the filter refuses. Any failure changes nothing. On 200, the selected notifications are marked and the updated count is reported. |
| NotificationInbox.MarkReadBody | backend/api/views/notification_views.py:79-130 | 401 exactly for an anonymous caller, checked before the body. Then a body that is not JSON gives 400, and parsed JSON that is not an object gives 500, each changing nothing. 400 means an unparsable body or missing or empty ids. An object is handled as `MarkRead` handles its fields. |
| NotificationInbox.MarkReadTwiceCountsZero | backend/api/views/notification_views.py:110-114 | Repeating a successful mark-as-read reports 0 and changes nothing. |
| NotificationInbox.NothingSelectedCountsZero | backend/api/views/notification_views.py:110-114 | After marking, no notification remains selected, so a second pass counts nothing. |
| NotificationInbox.OthersUntouched | backend/api/views/notification_views.py:97-114 | A notification not addressed to the caller is never changed. |
| NotificationInbox.ConvertUuids | backend/api/views/notification_views.py:177-186 | The result contains no UUID. Each UUID becomes its string, dicts and lists keep their keys and lengths, and other values are unchanged. |
| NotificationInbox.ConvertUuidsIdentity | backend/api/views/notification_views.py:177-186 | A value without UUIDs passes through unchanged. |
| NotificationInbox.ConvertUuidsIdempotent | backend/api/views/notification_views.py:177-186 | Converting twice gives the same result as converting once. |
| NotificationInbox.FromJson | backend/api/views/notification_views.py:155 | Parsed JSON never holds a UUID. |
| NotificationInbox.LoadedCommentsUnchanged | backend/api/views/notification_views.py:177-188 | What the comments file parsed to is saved back unchanged by the conversion. |
| Auth.CreateUser | backend/api/views/auth_views.py:41 | Fails exactly for an empty or taken username, and otherwise appends the account. Usernames stay unique. |
| Auth.RegisterStudent | backend/api/views/auth_views.py:15-67 | 400 exactly for a missing field, a taken username or a taken email. 500 exactly when the email cannot become a new username. 201 otherwise, and then one account and one student record are added. Any failure changes nothing. Usernames and student emails stay unique. |
| Auth.FieldOr | backend/api/views/auth_views.py:77-78 | Python `data.get(key, default)`: the default when the key is absent, otherwise the sent value, which may be null. |
| Auth.RegisterStaffAsWritten | backend/api/views/auth_views.py:72-123 | 400 exactly for a missing username or password, or a username that is already an account's username. 201 exactly when the account, stored under the email, and the staff record can be created. 500 otherwise. Any failure changes nothing. |
| Auth.StaffInsert | backend/api/views/auth_views.py:96-106 | The atomic block: 201 exactly when the account and staff record can both be created, and then exactly those two are added. Otherwise 500 with nothing changed. |
| Auth.RegisterStaff | backend/api/views/auth_views.py:88-106 | With the duplicate test on the stored username, a repeated registration gives 400. On success exactly one staff record is added. Usernames stay unique. |
| Auth.StaffRegisteredTwice | backend/api/views/auth_views.py:88-106 | Registering the same staff member twice: as written the second attempt fails with 500, and with the corrected test it is refused with 400. |
| Auth.StaffWithoutEmailFails | backend/api/views/auth_views.py:77-98 | A staff registration without an email fails with 500 and creates nothing. |
| Auth.StaffDataAsWritten | backend/api/views/auth_views.py:112-116 | As written, the answer's keys are username, staff_id and the submitted address itself, which holds the account's e-mail. The username and staff id hold their values unless the address collides with their key. |
| Auth.StaffData | backend/api/views/auth_views.py:112-116 | The corrected answer, with the literal key "email" that line 115 evidently intends: its keys are exactly username, staff_id and email, holding the account's username, staff id and e-mail. |
| Auth.StaffDataLacksEmailKey | backend/api/views/auth_views.py:115 | As written, the staff answer has no "email" key for an ordinary address. The corrected answer has one. |
| Auth.Authenticate | backend/api/views/auth_views.py:141 | A match is a stored account with that username and password, the first such. No match means no account with that username has that password. |
| Auth.StudentOf | backend/api/views/auth_views.py:152 | The student record found belongs to the account, and none is found exactly when the account has none. |
| Auth.StaffOf | backend/api/views/auth_views.py:174 | The staff record found belongs to the account, and none is found exactly when the account has none. |
| Auth.Login | backend/api/views/auth_views.py:128-205 | 400 exactly for a missing email or password, or an unknown user type. 401 exactly when the credentials do not authenticate. 403 exactly when the account lacks the chosen role. On 200, the tokens carry the authenticated account's claims. The role is the requested type, which defaults to student and ignores case. A student is named by their first name, else by the username. No other answer carries tokens. |
| Auth.RegisteredStudentCanLogIn | backend/api/views/auth_views.py:15-170 | A newly registered student can log in as a student with their email and password. |
| Auth.AuthenticateFindsNew | backend/api/views/auth_views.py:41-141 | An account added under a username no one else has authenticates with its password. |
| Auth.StudentOfFindsNew | backend/api/views/auth_views.py:48-152 | A student record added for an account with none is the one found for it. |
| Auth.Refresh | backend/api/views/auth_views.py:213-260 | 400 exactly for a missing token. 200 exactly for a refresh token that verifies to an existing user, and then that user is named. No other answer names a user. |
| Auth.AccessTokenCannotRefresh | backend/api/views/auth_views.py:231-235 | An access token never refreshes: 401. |
| Auth.LoginThenRefresh | backend/api/views/auth_views.py:148-254 | The refresh token a login issues refreshes for the same account. |
| LearningPaths.DisplayTitle | backend/api/views/learning_path_views.py:30 | A non-empty stored title is shown as is. Otherwise the title is "Learning Path " followed by digits that read back as the path's id. The title is never empty. |
| LearningPaths.LookupStudent | backend/api/views/learning_path_views.py:23 | The student lookup raises exactly for an anonymous caller, and finds no student exactly for a member without a student record. Otherwise it names the caller's own student record. |
| LearningPaths.ListPaths | backend/api/views/learning_path_views.py:16-50 | 200 exactly for a student, and then exactly their own paths are listed, each once, with keys strictly decreasing, newest first. 500 exactly for an anonymous caller and 403 for any other non-student, each listing nothing. |
| LearningPaths.MaxOf | backend/api/models/learning_path.py:20-21 | A non-empty set of keys has a member that no other key exceeds. |
| LearningPaths.Newest | backend/api/models/learning_path.py:20-21 | The keys of a set, each once, in strictly decreasing order. |
| LearningPaths.ListedNewestFirst | backend/api/models/learning_path.py:20-21 | In a table whose creation times grow with the keys, every listed path was created no earlier than the ones listed after it. |
| LearningPaths.NewPathListedFirst | backend/api/models/learning_path.py:20-21 | A path created under a key above every key in use heads its owner's list, followed by the paths listed before. |
| LearningPaths.CreateKeepsChronological | backend/api/models/learning_path.py:15-21 | Creating a path under the largest key, with a clock that has not gone back, keeps creation times growing with the keys. |
| LearningPaths.StoredText | backend/api/models/learning_path.py:15 | The text column keeps a sent string as it is, and any other value as Python's `str()` of it. |
| LearningPaths.CreatePath | backend/api/views/learning_path_views.py:52-105 | 400 exactly for empty path data. 201 exactly for a student, and then one path owned by the caller is added under the new key, holding the sent data as text and stamped with the current time. 500 for an anonymous caller and 403 for a non-student. Failures change nothing. |
| LearningPaths.Owned | backend/api/views/learning_path_views.py:112-151 | 200 exactly when the path exists and belongs to the calling student. 404 exactly for a student asking for a path that is missing or someone else's. 403 exactly for a non-student and 500 exactly for an anonymous caller. |
| LearningPaths.PathDetail | backend/api/views/learning_path_views.py:112-151 | The ownership status when it is not 200. For an owned path, 200 exactly when `json.loads` reads the stored text, and then the path, its display title and the parsed value are served. Stored text that does not parse gives 500. |
| LearningPaths.DeletePath | backend/api/views/learning_path_views.py:153-182 | The ownership status. On 200 exactly that path is removed, and otherwise nothing changes. |
| LearningPaths.UpdatePath | backend/api/views/learning_path_views.py:184-230 | The ownership status. On 200 only that path changes: a sent title replaces the old one, even when empty, and a sent favourite flag replaces the old flag. Otherwise nothing changes. |
| LearningPaths.ForeignPathLooksMissing | backend/api/views/learning_path_views.py:120-146 | Another student's path is answered exactly as if it did not exist. |
| LearningPaths.EmptyUpdateKeepsPath | backend/api/views/learning_path_views.py:199-204 | An update that sends neither field changes nothing. |
| LearningPaths.EmptyTitleFallsBack | backend/api/views/learning_path_views.py:199-211 | Renaming a path to the empty string brings back the generated "Learning Path <id>" title. |
| LearningPaths.CreatedPathReadable | backend/api/views/learning_path_views.py:52-151 | A path created with text that `json.loads` reads is in its owner's list, and its detail answers 200 with the parsed value, not the sent text. |
| LearningPaths.UnparsablePathDataFails | backend/api/views/learning_path_views.py:52-151 | A path whose stored text does not parse, such as `"hello"`, is created with 201 and listed, yet its detail answers 500. |
| InstructorStats.MonthsBack | backend/api/views/instructor_views.py:78-82 | The month i months before the current one, in the right year and numbered 1 to 12. |
| InstructorStats.MonthSeries | backend/api/views/instructor_views.py:73-94 | Six months, each numbered 1 to 12, consecutive and ending with the current month. |
| InstructorStats.Reverse | backend/api/views/instructor_views.py:94 | The same elements in the opposite order. |
| InstructorStats.SeriesIsChronological | backend/api/views/instructor_views.py:78-94 | After the reversal, the months run strictly forward, one month apart. |
| InstructorStats.PublishedPlusDrafts | backend/api/views/instructor_views.py:103-104 | An instructor's courses split exactly into published ones and drafts. |
| InstructorStats.InstructorStats | backend/api/views/instructor_views.py:22-118 | 401 exactly for an anonymous caller, 404 exactly for a caller without a staff record, and 200 exactly for a staff caller. On 200: the instructor's course count, published plus drafts equal to it, and the rated courses being exactly the published ones with ratings. `total_students` is the number of distinct students enrolled in one of their courses, and those students are exactly the ones with such an enrollment. The six-month series ends now. |
| InstructorStats.StudentsAtMostEnrollments | backend/api/views/instructor_views.py:46-47 | Counting distinct students never gives more than the number of enrollment rows. |
| InstructorStats.TotalStudentsBound | backend/api/views/instructor_views.py:46-47 | The instructor's student count is at most their number of enrollments. |
| InstructorStats.EnrollingCountsOnce | backend/api/views/instructor_views.py:46-47 | A new enrollment in one of the instructor's courses adds its student to the counted set. The count rises by one exactly when that student was not yet counted. |
| StreakStore.DayOfWeek | frontend/lib/store/streakstore.ts:119 | The weekday number lies in 0..6, with Sunday as 0. |
| StreakStore.FindDay | frontend/lib/store/streakstore.ts:39 | The index found holds the date, and no earlier entry does. Nothing is found exactly when no entry holds the date. |
| StreakStore.HasVisited | frontend/lib/store/streakstore.ts:105-108 | True exactly when some stored day is today. |
| StreakStore.WeekDays | frontend/lib/store/streakstore.ts:116-131 | Seven consecutive days, starting on the Sunday of today's week, with today among them. |
| StreakStore.WeekStreak | frontend/lib/store/streakstore.ts:95-103 | One entry per day of the current week, in order. Each is the stored entry for that day, or a zero count when there is none. |
| StreakStore.CountLogin | frontend/lib/store/streakstore.ts:39-48 | A day already stored gets its count raised by one and nothing else changes. A new day is appended with count 1. Dates stay unique, and today is always present afterwards. |
| StreakStore.NextStreak | frontend/lib/store/streakstore.ts:55-79 | A login on the same day keeps the streak, and one on the day after the stored date extends it by one. Anything else, including a stored value that is not a date, restarts it at 1. |
| StreakStore.RecordLogin | frontend/lib/store/streakstore.ts:34-93 | After a login, today is the stored date and the streak follows the streak rule. Today's login is counted, and the week view reflects the new counts. |
| StreakStore.Reload | frontend/lib/store/streakstore.ts:110-112 | Persisting and reloading turns a stored date into its text and changes nothing else. |
| StreakStore.ReloadResetsStreak | frontend/lib/store/streakstore.ts:57-70 | Logging in on two consecutive days extends the streak to 2 without a reload. With a page load in between, the second login restarts it at 1. |
| StreakStore.NextStreakRevived | frontend/lib/store/streakstore.ts:55-79 | The streak rule that accepts the stored day either as a date or as its text. |
| StreakStore.RecordLoginRevived | frontend/lib/store/streakstore.ts:34-93 | The login with the stored day read back from its text. Otherwise it is the same as a login. |
| StreakStore.ReloadHarmlessWhenRevived | frontend/lib/store/streakstore.ts:57-70 | With the text read back, a page load changes nothing a login computes. |
| StreakStore.RevivedAgreesOnDates | frontend/lib/store/streakstore.ts:57-70 | The corrected login and the original agree whenever the store holds a real date. |
| StreakStore.ConsecutiveDaysBuildStreak | frontend/lib/store/streakstore.ts:34-93 | With page loads between them, n daily logins from a fresh store build a streak of n, and each day is stored once with count 1. |
| StreakStore.SameDayTwice | frontend/lib/store/streakstore.ts:39-68 | A second login on the same day keeps the streak, and today's entry is not duplicated. |
| StreakStore.LoginKeepsStreakSet | frontend/lib/store/streakstore.ts:55-79 | Every login leaves a streak of at least one. |
| StreakAlerts.CheckMilestone | frontend/lib/streak-utils.ts:12-75 | A toast fires exactly for a milestone streak that is not the one last announced, and that milestone is then remembered. Otherwise what is stored is kept. |
| StreakAlerts.MilestoneAnnouncedOnce | frontend/lib/streak-utils.ts:16-21 | Asking again with what was stored does not announce the same milestone twice. |
| StreakAlerts.NextMilestoneAnnounced | frontend/lib/streak-utils.ts:16-21 | A different milestone is announced even after an earlier one. |
| StreakAlerts.CheckStreakRisk | frontend/lib/streak-utils.ts:88-107 | A reminder fires exactly for a streak of three or more, no visit today, and no reminder yet today. Today is then remembered. |
| StreakAlerts.OneReminderPerDay | frontend/lib/streak-utils.ts:92-104 | After a reminder, none fires again the same day. |
| StreakStats.SortDays | frontend/components/streak-stats.tsx:51-53 | The login days in ascending order, a permutation of the input. |
| StreakStats.Dates | frontend/components/streak-stats.tsx:51-56 | The stored dates in order. |
| StreakStats.BestStreak | frontend/components/streak-stats.tsx:45-76 | At least the current streak, and no shorter than any run of consecutive days of two or more. It equals the current streak or the length of one such run. |
| StreakStats.Recompute | frontend/components/streak-stats.tsx:29-94 | An empty history changes nothing. Otherwise the total is the number of stored days. The best streak is at least the current one and every run in the history, and it equals the current streak or the length of one logged run: the larger of the two. |
| StreakStats.Intensity | frontend/components/streak-stats.tsx:181 | Half the count rounded up, capped at 3: 3 exactly from 5 logins up, 0 exactly for a count of 0 or -1. |
| StreakStats.Calendar | frontend/components/streak-stats.tsx:179 | The last 28 stored days, or all of them when there are fewer. |
| StreakWidget.ArcLength | frontend/components/dashboard-streak-widget.tsx:77 | 30 per streak day, capped at the full circle of 283. |
| StreakWidget.DayUnit | frontend/components/dashboard-streak-widget.tsx:50 | "day" exactly for a streak of one, otherwise "days". |
| StreakWidget.NextMilestone | frontend/components/dashboard-streak-widget.tsx:88-97 | Shown exactly for a positive streak. Below 100 it is the nearest of 7, 30 and 100 above the streak, with the days remaining. From 100 on it is 365 without a count. |
| JsNumber.ToNumber | frontend/app/dashboard/instructor/courses/page.tsx:194 | Blank text is 0. Other text gives a number exactly when it reads as a signed decimal integer, and then that integer. |
| JsNumber.ToNumberOfNumeral | frontend/app/dashboard/instructor/courses/page.tsx:194 | Every integer's numeral reads back as that integer. |
| JsNumber.NonNumeralIsNaN | frontend/app/dashboard/instructor/courses/page.tsx:194 | Text whose first character is neither a sign, a digit nor a space, and whose last is not a space, is not a number. |
| JsNumber.FieldAt | frontend/app/dashboard/instructor/courses/page.tsx:194 | A missing part reads as NaN, and a present one as its number. |
| JsNumber.Add | frontend/app/dashboard/instructor/courses/page.tsx:195-196 | A sum is a number exactly when both operands are, and then it is their sum. |
| JsNumber.Scale | frontend/lib/api/course-viewer.ts:374 | A product is a number exactly when the operand is, and then it is the product. |
| JsNumber.FloorDiv | frontend/app/dashboard/instructor/courses/page.tsx:201 | The floored quotient: a number exactly when the dividend is, bracketed by d times itself and d times itself plus d. |
| JsNumber.Rem | frontend/app/dashboard/instructor/courses/page.tsx:202 | The remainder takes the dividend's sign: in 0..d-1 for a non-negative dividend, and in -(d-1)..0 for a negative one. |
| JsNumber.RemOfNegation | frontend/app/dashboard/instructor/courses/page.tsx:202 | Negating the dividend negates the remainder, unlike a Euclidean remainder. |
| JsNumber.FloorRemRecombine | frontend/app/dashboard/instructor/courses/page.tsx:201-202 | For a non-negative total, the floored minutes and the remainder give back the total seconds. |
| JsNumber.Show | frontend/app/dashboard/instructor/courses/page.tsx:204-206 | NaN prints as "NaN", and a number's text reads back as that number. |
| JsNumber.PadStart2 | frontend/app/dashboard/instructor/courses/page.tsx:204-206 | Text of two characters or more is unchanged. Shorter text is left-padded with zeros to length 2. |
| JsNumber.PadStartOfNumeral | frontend/app/dashboard/instructor/courses/page.tsx:204-206 | Padding a non-negative value's text gives the two-digit format used elsewhere. |
| InstructorPages.ActiveCourses | frontend/app/dashboard/instructor/courses/page.tsx:161-163 | Exactly the listed courses not explicitly marked inactive, never more than were listed. |
| InstructorPages.ActiveOfConcat | frontend/app/dashboard/instructor/courses/page.tsx:161-163 | Filtering splits over concatenation, so the kept courses keep their order. |
| InstructorPages.ActiveIdempotent | frontend/app/dashboard/instructor/courses/page.tsx:161-163 | Filtering twice hides nothing more. |
| InstructorPages.Click | frontend/app/dashboard/instructor/courses/page.tsx:507-567 | Choosing a size goes back to page 1. Previous and next move by one within the page range, and every click keeps an in-range pager in range. |
| InstructorPages.InitialInRange | frontend/app/dashboard/instructor/courses/page.tsx:88-89 | The table opens on page 1 with the first offered size, which is in range for any list. |
| InstructorPages.Showing | frontend/app/dashboard/instructor/courses/page.tsx:506-510 | The first label is the position of the page's first slot, unclamped. The second is clamped to both the list length and the page end. |
| InstructorPages.ShowingCountsPage | frontend/app/dashboard/instructor/courses/page.tsx:161-169 | On an in-range page of a non-empty list, the labels count exactly the courses shown, and the first label is the first shown course's position. |
| InstructorPages.ShowingAfterShrink | frontend/app/dashboard/instructor/courses/page.tsx:506-510 | When the list shrinks under the current page, the first label runs past the second: "6 to 5". |
| InstructorPages.DashboardPages | frontend/app/dashboard/instructor/page.tsx:378-386 | The rounded-up number of five-course pages, which is 0 for an empty list. |
| InstructorPages.DashboardShowing | frontend/app/dashboard/instructor/page.tsx:352-360 | Both dashboard labels are clamped to the list length. |
| InstructorPages.DashboardMovesInRange | frontend/app/dashboard/instructor/page.tsx:364-389 | With the controls shown, previous and next keep the page in range, and each undoes the other away from the ends. |
| InstructorPages.DashboardShowingClamped | frontend/app/dashboard/instructor/page.tsx:352-360 | The dashboard never shows a first label past the list, and on an in-range page the labels are in order. |
| InstructorPages.ReadStats | frontend/app/dashboard/instructor/page.tsx:84-86 | A missing figure reads 0, and a present one is shown as sent. |
| InstructorPages.VideosIn | frontend/app/dashboard/instructor/courses/page.tsx:175-177 | At most the number of lessons: 0 exactly when none is a video, and all exactly when every one is. |
| InstructorPages.TotalVideos | frontend/app/dashboard/instructor/courses/page.tsx:171-179 | 0 without a section list. Otherwise the video lessons across all sections that have a lesson list. |
| InstructorPages.VideosInConcat | frontend/app/dashboard/instructor/courses/page.tsx:174-178 | Counting videos splits over concatenated lesson lists. |
| InstructorPages.VideosOfSections | frontend/app/dashboard/instructor/courses/page.tsx:174-178 | Counting section by section equals counting the flattened lessons. |
| InstructorPages.SumFields | frontend/app/dashboard/instructor/courses/page.tsx:189-199 | The minute total is a number exactly when every video lesson's minutes are, and likewise for seconds. |
| InstructorPages.CardDuration | frontend/app/dashboard/instructor/courses/page.tsx:181-207 | `getTotalDuration`, which the page defines but never calls: "00:00" without a section list, and the server's total when that is non-empty. |
| InstructorPages.CardDurationFallback | frontend/app/dashboard/instructor/courses/page.tsx:186-206 | Without a server total, the figure comes from the summed video minutes and seconds. |
| InstructorPages.CardDurationMatchesServerFormat | frontend/app/dashboard/instructor/courses/page.tsx:186-206 | When every field is a number and the sums are non-negative, the client figure is the server's "MM:SS" text of the total seconds. |
| InstructorPages.TotalsMatchServerFormat | frontend/app/dashboard/instructor/courses/page.tsx:201-206 | Carrying the seconds into minutes and padding both gives the server's "MM:SS" text. |
| InstructorPages.CarryMinutes | frontend/app/dashboard/instructor/courses/page.tsx:201-202 | Carrying whole minutes out of the seconds is the same as dividing the total. |
| InstructorPages.NaNSecondsShowNaN | frontend/app/dashboard/instructor/courses/page.tsx:201-206 | Once the seconds total is NaN, both fields of the figure are NaN. |
| InstructorPages.BadSecondsSpoilFigure | frontend/app/dashboard/instructor/courses/page.tsx:192-206 | One video lesson whose seconds are not a number turns the figure into "NaN:NaN". |
| InstructorPages.MalformedDurationShowsNaN | frontend/app/dashboard/instructor/courses/page.tsx:194-206 | A video duration with no seconds field ("5"), or non-numeric fields ("a:b"), shows "NaN:NaN". |
| InstructorPages.NoVideosNoDuration | frontend/app/dashboard/instructor/courses/page.tsx:186-206 | With no video lessons, the figure is "00:00" whatever the other lessons hold. |
| InstructorPages.NoVideoSumsZero | frontend/app/dashboard/instructor/courses/page.tsx:189-199 | Lists without videos sum to zero minutes and zero seconds. |
| InstructorPages.ShownVideoCount | frontend/app/dashboard/instructor/courses/page.tsx:307 | The table's video count is the server's lesson count when that is a non-zero number, else the video lessons counted on the client. It is 0 exactly when both are absent or zero. |
| InstructorPages.ShownDuration | frontend/app/dashboard/instructor/courses/page.tsx:310-312 | The table prints the server's `total_duration` as sent, or nothing when it is absent, followed by " total". |
| InstructorPages.TableIgnoresLessons | frontend/app/dashboard/instructor/courses/page.tsx:310-312 | The printed duration depends on the server's total alone. Without one the table shows a bare " total", while the unused helper would sum the video lessons. |
| CourseViewer.DurationSeconds | frontend/lib/api/course-viewer.ts:369-378 | A missing or empty duration is 0 seconds. |
| CourseViewer.BlankNotParsed | frontend/lib/api/course-viewer.ts:373 | Whitespace-only text is not an integer for the server, though Number reads it as 0. |
| CourseViewer.NumberAgreesWithParse | frontend/lib/api/course-viewer.ts:373 | A field the server reads as an integer is the same integer for Number. |
| CourseViewer.AgreesWithServerParse | frontend/lib/api/course-viewer.ts:369-378 | Whenever the server parses a duration, the client computes the same number of seconds. |
| CourseViewer.BlankMinutesDiffer | frontend/lib/api/course-viewer.ts:369-378 | A duration with nothing before the colon and digits after it counts as just those seconds on the client, but the server cannot parse it. |
| CourseViewer.MalformedIsNaN | frontend/lib/api/course-viewer.ts:369-378 | A duration without a colon, such as "5", is NaN on the client but 0 on the server. |
| CourseViewer.OrZeroDuration | frontend/lib/api/course-viewer.ts:390 | The defaulted duration is never missing or empty. |
| CourseViewer.ZeroDurationIsZero | frontend/lib/api/course-viewer.ts:390 | The default duration reads as zero seconds. |
| CourseViewer.SumAgreesWithServer | frontend/lib/api/course-viewer.ts:381-395 | When the server can read every duration, the client's sum equals the server's total. |
| CourseViewer.MalformedSpoilsSum | frontend/lib/api/course-viewer.ts:381-395 | One malformed duration anywhere makes the course total NaN. |
| CourseViewer.CourseSeconds | frontend/lib/api/course-viewer.ts:381-395 | 0 without a section list. Otherwise it is the sum over the durations of every lesson in sections that have a lesson list. |
| CourseViewer.FindLesson | frontend/lib/api/course-viewer.ts:189 | The index found holds the id and no earlier lesson does. Nothing is found exactly when no lesson has the id. |
| CourseViewer.SearchSections | frontend/lib/api/course-viewer.ts:188-196 | A hit names a section with a lesson list, and every section before it has one too. A miss happens exactly when every section has a list and none holds the id. |
| CourseViewer.SearchCourses | frontend/lib/api/course-viewer.ts:182-198 | A hit names a course with sections, and a section within the course's listed prefix. A miss happens exactly when every course's sections are searched completely without finding the id. |
| CourseViewer.ListedPrefix | frontend/lib/api/course-viewer.ts:229 | The leading sections that have a lesson list. The section after them has none, and the count is the whole course exactly when every section has a list. |
| CourseViewer.Flatten | frontend/lib/api/course-viewer.ts:229 | A lesson is in the flattened list exactly when some section holds it. |
| CourseViewer.IndexOf | frontend/lib/api/course-viewer.ts:230-232 | The first position of a lesson with the id. |
| CourseViewer.SectionHolding | frontend/lib/api/course-viewer.ts:236-238 | The section found holds a lesson with the id. |
| CourseViewer.RefTo | frontend/lib/api/course-viewer.ts:239-244 | The reference carries the lesson's own id and title. |
| CourseViewer.Neighbours | frontend/lib/api/course-viewer.ts:229-258 | There is a previous lesson exactly when the lesson is not first, and a next exactly when it is not last. These are the adjacent lessons in the flattened course. |
| CourseViewer.NextThenPrevious | frontend/lib/api/course-viewer.ts:229-258 | With distinct ids, the next lesson's previous lesson is the lesson itself. |
| CourseViewer.LessonFallback | frontend/lib/api/course-viewer.ts:182-258 | Nothing when the search does not hit. After a hit, the lookup fails exactly when the course has an unlisted section and the lesson found is the last lesson of the listed prefix, because the next entry is then `undefined`. Otherwise the result holds the lesson's title, seconds, section and course, and its neighbours within the listed prefix. |
| CourseViewer.ListedCourseShowsLesson | frontend/lib/api/course-viewer.ts:229-258 | When every section of the course has a lesson list, a lesson the search finds is always shown. |
| CourseViewer.UnlistedSectionAfterLesson | frontend/lib/api/course-viewer.ts:229-258 | With sections A = [1, 2] and an unlisted B, lesson 1 is shown with lesson 2 as next, while lesson 2 fails. |
| CourseViewer.MarkProgress | frontend/lib/api/course-viewer.ts:273-328 | Always an answer carrying Number of the lesson id. Without a usable reply, it reports the requested state and zeros. With a reply, each missing field takes the requested state or 0. |
| CourseViewer.EmptyAnswerEchoesRequest | frontend/lib/api/course-viewer.ts:286-297 | A reply without fields reports exactly what an unavailable endpoint would. |
| CoursesApi.TextParam | frontend/lib/api/courses-api.ts:64-66 | At most one parameter, under its own key: present exactly when the field is set and non-empty, and then it carries that text. |
| CoursesApi.NumberParam | frontend/lib/api/courses-api.ts:69-71 | At most one parameter, under its own key: present exactly when the number is set and not 0, and then it carries the number's text. |
| CoursesApi.FlagParam | frontend/lib/api/courses-api.ts:67-68 | At most one parameter, under its own key: present exactly when the flag is given, false included, and then it carries "true" or "false". |
| CoursesApi.AppendLater | frontend/lib/api/courses-api.ts:64-71 | Appending at most one parameter of a later key keeps the fixed order. |
| CoursesApi.QueryParams | frontend/lib/api/courses-api.ts:59-76 | The parameters follow the fixed order of category, level, search, featured, page and page size, with at most six. |
| CoursesApi.TextFiltersSent | frontend/lib/api/courses-api.ts:64-66 | Category, level and search are each sent exactly when set and non-empty, with the value given. |
| CoursesApi.OtherFiltersSent | frontend/lib/api/courses-api.ts:67-71 | The featured flag is sent whenever it is given. Page and page size are sent only when set and not 0. |
| CoursesApi.QueryExamples | frontend/lib/api/courses-api.ts:64-71 | An empty filter asks for nothing. Page 0 and an empty search are dropped, while featured false is still sent. |
| CoursesApi.FileParts | frontend/lib/api/courses-api.ts:95-99 | One file part per resource that holds a browser file, named after its id, and never more parts than resources. There are none when no resource holds a file. |
| CoursesApi.ParsedResourcesAddNoFiles | frontend/lib/api/courses-api.ts:87-99 | Resources read back from JSON text hold no browser file, so no file part is ever added. |
| CoursesApi.EveryFileHasPart | frontend/lib/api/courses-api.ts:95-99 | Each resource holding a browser file contributes its own part. |
| CoursesPage.Filters | frontend/app/courses/page.tsx:55-61 | "all" means no category or level, and an empty search means none. The page is sent as is, with nine courses a page. |
| CoursesPage.RequestParams | frontend/app/courses/page.tsx:55-65 | The request never names the "all" choices and always asks for nine courses. It carries a search exactly when one is applied. |
| CoursesPage.Step | frontend/app/courses/page.tsx:37-72 | Typing only changes the box. The timer and a submit apply the box and return to page 1. Selectors keep the page. Previous and next move only when the last answer allows it. |
| CoursesPage.SelectorKeepsPage | frontend/app/courses/page.tsx:128-141 | Changing the category on page 3 stays on page 3. |
| CoursesPage.SubmitIdempotent | frontend/app/courses/page.tsx:46-72 | Submitting twice, or after the timer fired, is the same as submitting once. |
| CoursesPage.WindowFrom | frontend/app/courses/page.tsx:312-321 | Exactly the linked pages from the starting page on, ascending. |
| CoursesPage.Window | frontend/app/courses/page.tsx:312-321 | Exactly the pages linked: the first, the last and those next to the current one, ascending. |
| CoursesPage.WindowHasEnds | frontend/app/courses/page.tsx:316-321 | The window starts at page 1 and holds the last page, and the current page when it is one. |
| CoursesPage.Render | frontend/app/courses/page.tsx:322-357 | One entry per linked page, active exactly for the current page. An ellipsis comes before an entry exactly when it follows a gap. |
| CoursesPage.EllipsisIffSkipped | frontend/app/courses/page.tsx:322-341 | An ellipsis stands before a page exactly when the page just below it has no link. |
| CoursesPage.MiddleOfLongList | frontend/app/courses/page.tsx:312-341 | On page 5 of 10, the links are 1, 4, 5, 6 and 10. |
| CoursesPage.WindowAtMostFive | frontend/app/courses/page.tsx:312-321 | The window never holds more than five pages. |
| CoursesPage.DistinctWithin | frontend/app/courses/page.tsx:312-321 | An increasing list drawn from a set is no longer than the set. |
| CoursesPage.FracJs | frontend/app/courses/page.tsx:77 | JavaScript's x % 1: for a non-negative rating, the fractional part in [0, 1), and in (-1, 0] for a negative one. |
| CoursesPage.StarRow | frontend/app/courses/page.tsx:74-104 | A half star exactly when the fraction is at least one half. For a non-negative rating the full stars are its floor, and a rating from 0 to 5 draws exactly five stars. |
| CoursesPage.StarsRoundDownToHalf | frontend/app/courses/page.tsx:74-104 | The filled halves are the rating rounded down to a half. |
| CoursesPage.StarsMonotone | frontend/app/courses/page.tsx:74-104 | A higher rating never draws fewer filled halves. |
| Challenges.FormatTime | frontend/components/challenges.tsx:81-87 | For a non-negative count of seconds, the clock text is the same "MM:SS" text the server writes for durations. |
| Challenges.ClockShape | frontend/components/challenges.tsx:81-87 | Below 100 minutes the clock is five characters with the colon in the middle. |
| Challenges.Tick | frontend/components/challenges.tsx:91-97 | The timer never goes below 0 and counts down by one while positive. |
| Challenges.Countdown | frontend/components/challenges.tsx:89-101 | After n ticks from a start, the clock shows the start minus n, or 0 once n reaches the start. |
| Challenges.InputCheck | frontend/components/challenges.tsx:289-300 | The input test passes exactly when the code mentions "<input", and otherwise reports the missing element. |
| Challenges.ButtonCheck | frontend/components/challenges.tsx:302-317 | The original runner wants a button tag with its closing tag, or an input of type button or submit. The other copy accepts "<button" or type="button" anywhere. A pass is the plain pass verdict. |
| Challenges.AlertCheck | frontend/components/challenges.tsx:319-351 | Passes exactly when the code has both an alert call and a listener. Otherwise it names what is missing, with the three distinct messages. |
| Challenges.Probe | frontend/components/challenges.tsx:359-397 | A call passes exactly when the solution exists and returns the expected value. An unexpected value fails with the test's own expectation. |
| Challenges.Functional | frontend/components/challenges.tsx:353-397 | A test mentioning "correct" fails with the missing-function message when there is no solution. |
| Challenges.MissingSolutionNeverCalled | frontend/components/challenges.tsx:353-357 | Without a solution, a "correct" test fails with the missing-function message and every other test passes for manual review. |
| Challenges.ProbedPassesIffExpected | frontend/components/challenges.tsx:359-394 | Each of the five functional tests passes exactly when the solution returns the expected value on each of its calls. |
| Challenges.JsCheck | frontend/components/challenges.tsx:287-398 | The rules are tried in order: the input test, then the button test, then the alert test, then the functional tests. |
| Challenges.AlertOnClickOnlyCheckedByPrimary | frontend/components/challanges.tsx:237-308 | The other copy has no alert rule, so "Alert on click" passes there as a manual check. The original passes it exactly when both the alert and the listener are present. |
| Challenges.ButtonRulesDisagree | frontend/components/challanges.tsx:252-261 | The two button rules disagree both ways: on an unclosed "<button>", and on a submit input. |
| Challenges.HtmlCheck | frontend/components/challenges.tsx:103-271 | The original fails on a parse error. A known test gets its DOM check's verdict. An unknown test passes for basic validation in the original, but fails as unimplemented in the other copy. |
| Challenges.UnknownHtmlTestVerdictsDiffer | frontend/components/challanges.tsx:212-220 | An HTML test without a specific check passes in the original runner and fails in the other copy. |
| Challenges.RunCode | frontend/components/challenges.tsx:400-432 | One result per test, each judged by the challenge's category. Other categories fail every test. The output tab is filled exactly for HTML challenges, or JavaScript code holding a full document, in the original runner. |
| Challenges.PassedCount | frontend/components/challenges.tsx:434 | The number of passed results never exceeds the number of results. |
| Challenges.AllPassedIff | frontend/components/challenges.tsx:434-435 | The count reaches the length exactly when every result passed. |
| Challenges.CompleteIffAllPassed | frontend/components/challenges.tsx:603-611 | After a run, the button offers completion exactly when every test passed. Before any run, it does so only for a challenge without tests. |
| Challenges.UnsupportedNeverCompletes | frontend/components/challenges.tsx:423-428 | A challenge of another category with at least one test can never be completed. |
| ChallengeBoard.Shown | frontend/app/dashboard/candidate/challenges/page.tsx:135-162 | Exactly the challenges that every filter accepts, in list order. |
| ChallengeBoard.TabIsIntersection | frontend/app/dashboard/candidate/challenges/page.tsx:480-481 | Each tab shows exactly the challenges that pass the filters and have its status. |
| ChallengeBoard.NoFiltersShowAll | frontend/app/dashboard/candidate/challenges/page.tsx:135-162 | With no query and both selectors on "all", nothing is hidden. |
| ChallengeBoard.SelectorsCombineConjunctively | frontend/app/dashboard/candidate/challenges/page.tsx:148-151 | A challenge hidden by the category selector stays hidden whatever the search. |
| ChallengeBoard.TagsAreCaseSensitive | frontend/app/dashboard/candidate/challenges/page.tsx:143 | Tags are searched without lower-casing, so the query "API" misses the tag "API". |
| ChallengeBoard.CategoryChoices | frontend/app/dashboard/candidate/challenges/page.tsx:164-168 | "all" first, then each category exactly once. |
| ChallengeBoard.BoardTotals | frontend/app/dashboard/candidate/challenges/page.tsx:170-182 | The completed and in-progress counts together never exceed the list. |
| ChallengeBoard.DisjointCounts | frontend/app/dashboard/candidate/challenges/page.tsx:171-176 | Completed and in-progress challenges never overlap. |
| ChallengeBoard.TotalsMatchTabs | frontend/app/dashboard/candidate/challenges/page.tsx:170-182 | The counts are the sizes of the unfiltered tabs, and the points are the sum over the unfiltered completed tab. |
| CandidateCourses.Enrolled | frontend/app/dashboard/candidate/courses/page.tsx:103-106 | Exactly the student's courses whose id is not among the completed courses. |
| CandidateCourses.Shown | frontend/app/dashboard/candidate/courses/page.tsx:109-127 | Exactly the enrolled courses that every filter accepts. |
| CandidateCourses.InProgressSameAsNotStarted | frontend/app/dashboard/candidate/courses/page.tsx:120-125 | The "in-progress" and "not-started" status filters show the same courses. |
| CandidateCourses.CompletedNeverEnrolled | frontend/app/dashboard/candidate/courses/page.tsx:103-106 | A completed course is never shown on the enrolled tab. |
| CandidateCourses.CategoryChoices | frontend/app/dashboard/candidate/courses/page.tsx:129-132 | "all" first, then each category of the student's courses exactly once. |
| CandidateCourses.TabCaptions | frontend/app/dashboard/candidate/courses/page.tsx:182-184 | The enrolled caption counts the enrolled courses, at most all of the student's courses. |
| CandidateCourses.CaptionCountsUnfiltered | frontend/app/dashboard/candidate/courses/page.tsx:109-184 | The caption never counts fewer courses than the filtered tab shows. |
| Certificates.Found | frontend/app/dashboard/certificates/page.tsx:66-71 | Exactly the certificates whose title, category or instructor contains the query, ignoring case. |
| Certificates.Tab | frontend/app/dashboard/certificates/page.tsx:74-79 | A tab holds exactly the matching certificates with its status, completed or in progress. |
| Certificates.TabsPartitionMatches | frontend/app/dashboard/certificates/page.tsx:66-79 | No certificate is on both tabs. Together the tabs hold exactly the matches whose status is completed or in progress. |
| Certificates.TabsKeepOrder | frontend/app/dashboard/certificates/page.tsx:74-79 | Each tab keeps the list order. |
| Certificates.EmptyQueryFindsAll | frontend/app/dashboard/certificates/page.tsx:66-71 | An empty query finds every certificate. |
| Certificates.EmptyHint | frontend/app/dashboard/certificates/page.tsx:113-115 | The hint asks for a different term exactly when a query is typed. |
| ApplicationsPage.TabList | frontend/app/dashboard/instructor/applications/page.tsx:117-122 | A status tab lists exactly the applications with that status. Any other tab lists everything. |
| ApplicationsPage.BadgeMatchesPendingTab | frontend/app/dashboard/instructor/applications/page.tsx:143-147 | The pending badge counts exactly what the pending tab lists. |
| ApplicationsPage.HandleStatusUpdate | frontend/app/dashboard/instructor/applications/page.tsx:85-100 | Nothing is sent, and the dialog is kept, exactly when no application or no action is chosen. Otherwise one request goes out for that application with status approved or rejected, and the dialog closes. |
| ApplicationsPage.ConfirmSendsChosenStatus | frontend/app/dashboard/instructor/applications/page.tsx:85-115 | Confirming an opened dialog sends "approved" for approve and "rejected" for reject, then closes. |
| ApplicationsPage.SecondConfirmIsNoOp | frontend/app/dashboard/instructor/applications/page.tsx:85-100 | Confirming a second time sends nothing. |
| RoleGuard.RunEffect | frontend/components/gaurds.tsx:24-48 | Nothing happens before the store is initialised. After that, navigation happens exactly when the user is not allowed, and goes to the user's own dashboard or the redirect. An allowed user is authorised. |
| RoleGuard.Render | frontend/components/gaurds.tsx:50-62 | The page appears exactly when initialised, not loading and authorised. |
| RoleGuard.FirstDecision | frontend/components/gaurds.tsx:24-62 | On the first decision the page appears exactly for an allowed user, and everyone else is navigated away. A signed-out visitor sees the loader. |
| RoleGuard.WrongRoleGoesHome | frontend/components/gaurds.tsx:38-41 | Staff at a student page go to the instructor dashboard, and a student at a staff page goes to the candidate dashboard. |
| RoleGuard.AuthorizationIsSticky | frontend/components/gaurds.tsx:30-36 | Once the page shows, a later run without a user navigates away, but the page stays rendered. |
| Initials.JoinPair | frontend/components/candidate-header.tsx:26 | Two characters give the two upper-cased letters. One missing character shows as "UNDEFINED" on its side. When both are missing the call fails, because JavaScript adds two undefineds to the number NaN, which has no `toUpperCase`. |
| Initials.Slice2 | frontend/components/candidate-header.tsx:28 | The first two characters, or the whole text when shorter. |
| Initials.HeaderInitials | frontend/components/candidate-header.tsx:21-31 | Empty for no user. A one-word username gives its first two letters in upper case. Without a username, the email's first two letters are used, or nothing. |
| Initials.HeaderInitialsThrows | frontend/components/candidate-header.tsx:24-26 | The initials fail exactly for a username that is a single space or starts with two spaces, when the first two words are both empty. |
| Initials.TwoWordName | frontend/components/candidate-header.tsx:24-26 | A two-word name gives the upper-cased first letter of each word. |
| Initials.LeadingSpaceShowsUndefined | frontend/components/candidate-header.tsx:24-26 | A name with a leading space shows "UNDEFINED" followed by the next word's initial. |
| Initials.LeadingWordEmpty | frontend/components/candidate-header.tsx:24 | The first word of the split is empty exactly when the text is empty or starts with a space. |
| Initials.FirstChars | frontend/app/dashboard/instructor/applications/page.tsx:252-254 | One character per word at most, and exactly each word's first character when no word is empty. |
| Initials.ApplicantInitials | frontend/app/dashboard/instructor/applications/page.tsx:252-256 | The upper-cased first characters of the non-empty words. |
| Initials.WellSpacedApplicantInitials | frontend/app/dashboard/instructor/applications/page.tsx:252-256 | With single spaces between words, there is one upper-cased initial per word, in order. |
| Initials.InitialsStartWords | frontend/app/dashboard/instructor/applications/page.tsx:252-255 | Every character of the applicant initials starts a non-empty word of the name. |
| NotificationCounter.Step | frontend/components/notification-counter.tsx:17-33 | A notification raises the count by one, and a click resets it to 0. |
| NotificationCounter.CountSinceLastClick | frontend/components/notification-counter.tsx:14-33 | The count is the number of notifications since the last click, and all of them when there was no click. |
| NotificationCounter.BadgeFollowsLastEvent | frontend/components/notification-counter.tsx:43 | The badge shows exactly when the last event was a notification. |
| NotificationCounter.BadgeLabel | frontend/components/notification-counter.tsx:48 | "9+" exactly above nine, and otherwise the single digit of the count. |
| CourseResources.BodyFor | frontend/lib/api/course-resources.ts:56-85 | The body is multipart exactly for a file entry that holds a file. It always carries the title and the file, carries the description exactly when one is non-empty, and carries the type only when adding. |
| CourseResources.RequestFor | frontend/lib/api/course-resources.ts:176-187 | An update exactly when the entry has an id key. An id key whose value is missing addresses "undefined". |
| CourseResources.BulkRequests | frontend/lib/api/course-resources.ts:159-195 | One request per kept entry. |
| CourseResources.BulkConcat | frontend/lib/api/course-resources.ts:166-188 | The requests for a concatenated list are the requests for each part, in order. |
| CourseResources.BulkOne | frontend/lib/api/course-resources.ts:166-187 | A lone entry yields its own request when kept and nothing otherwise. |
| CourseResources.ExistingFileKeptAsJsonUpdate | frontend/lib/api/course-resources.ts:170-181 | A file entry with an id but no new file is kept, and updated with a JSON body. |
| CourseResources.Send | frontend/lib/api/course-resources.ts:164-194 | All requests are sent exactly when none is refused. Otherwise sending stops at the first refused request, after a prefix of accepted ones. |
| CourseResources.DeleteResult | frontend/lib/api/course-resources.ts:148 | Deletion reports success exactly when the answer's status is "success". |
| LearningWizard.Answer | frontend/app/dashboard/candidate/personalized-learning/page.tsx:170-175 | The answered question holds the new answer. Every other answer is kept, no other key appears, and the question shown does not move. |
| LearningWizard.Previous | frontend/app/dashboard/candidate/personalized-learning/page.tsx:192-196 | One question back, unless already at the first, where nothing changes. Answers are kept and the index stays on a question. |
| LearningWizard.Next | frontend/app/dashboard/candidate/personalized-learning/page.tsx:177-190 | An unanswered question only asks for an answer and changes nothing. An answered question that is not the last moves one forward. On the last question, the path is generated and the result tab opens. The index always stays on a question. |
| LearningWizard.AutoSave | frontend/app/dashboard/candidate/personalized-learning/page.tsx:212-219 | The automatic save after generation is titled "Learning Path - " and the date. It sends the goal, background, time commitment and preferred style exactly as answered, or absent when unanswered. |
| LearningWizard.Reset | frontend/app/dashboard/candidate/personalized-learning/page.tsx:243-248 | Back to the first question, with no answers, no path and the questions tab open. |
| LearningWizard.IndexStaysInRange | frontend/app/dashboard/candidate/personalized-learning/page.tsx:177-196 | After any sequence of answers, next, previous and reset presses, the index is still on one of the four questions. |
| LearningWizard.ResetAsksAgain | frontend/app/dashboard/candidate/personalized-learning/page.tsx:177-183 | After a reset, the next press only asks for an answer. |
| LearningWizard.AnswersStayOnQuestionIds | frontend/app/dashboard/candidate/personalized-learning/page.tsx:170-175 | Answering the questions on screen only ever stores question ids as keys. |
| LearningWizard.OrEmpty | frontend/app/dashboard/candidate/personalized-learning/page.tsx:616-619 | An unanswered question reads as the empty text, and an answered one as its answer. |
| LearningWizard.SaveTitle | frontend/app/dashboard/candidate/personalized-learning/page.tsx:606-610 | With goals, the title is "Learning Path: " followed by the goals up to their first full stop. Without goals, it is "Learning Path " and the date. |
| LearningWizard.ManualSaveAsWritten | frontend/app/dashboard/candidate/personalized-learning/page.tsx:601-637 | The save button sends the title and the goal, background and time commitment, each defaulting to empty. The style is read from the "learningStyle" key. |
| LearningWizard.StyleNeverSaved | frontend/app/dashboard/candidate/personalized-learning/page.tsx:619 | Because no question writes "learningStyle", the save button always sends an empty style. |
| LearningWizard.ChosenStyleLost | frontend/app/dashboard/candidate/personalized-learning/page.tsx:619 | A visitor who chose "visual" has "" saved by the button, while the automatic save sends "visual". |
| LearningWizard.ManualSave | frontend/app/dashboard/candidate/personalized-learning/page.tsx:612-621 | The corrected save reads the style from the question's own "preferredStyle" id. |
| LearningWizard.ManualSaveAgreesWithAutoSave | frontend/app/dashboard/candidate/personalized-learning/page.tsx:212-219 | Once every question is answered, the corrected save button stores the same four answers as the automatic save. |
| LearningWizard.Block | frontend/app/dashboard/candidate/personalized-learning/page.tsx:673-679 | A headed list is absent exactly when it has no items. Otherwise it is the heading, one line per item in order, then a blank line. |
| LearningWizard.ResourceLine | frontend/app/dashboard/candidate/personalized-learning/page.tsx:685-689 | A resource becomes a link "- [name](url)" exactly when it has a non-empty url, and a bold "- **name**" otherwise. |
| LearningWizard.StageLines | frontend/app/dashboard/candidate/personalized-learning/page.tsx:667-702 | A stage starts with "### Stage N: name (duration)". A stage without milestones, resources or projects has only its heading and description. |
| LearningWizard.ResourcesSection | frontend/app/dashboard/candidate/personalized-learning/page.tsx:682-692 | The resources heading comes right after the milestones, followed by one line per resource, in order. |
| LearningWizard.StagesLines | frontend/app/dashboard/candidate/personalized-learning/page.tsx:667-702 | There are no stage lines exactly when there are no stages, and the first line is the first stage's heading. |
| LearningWizard.Header | frontend/app/dashboard/candidate/personalized-learning/page.tsx:651-665 | The document opens with the "Personalized Learning Path" title, then the Assessment heading. |
| LearningWizard.TipsLines | frontend/app/dashboard/candidate/personalized-learning/page.tsx:705-710 | The tips section is absent exactly when there are no tips. Otherwise it is the heading, then one "- tip" line per tip, in order. |
| LearningWizard.ExportLines | frontend/app/dashboard/candidate/personalized-learning/page.tsx:647-710 | The export is the header, then the stages in order, then the tips. |
| LearningWizard.TipsOnlyWhenPresent | frontend/app/dashboard/candidate/personalized-learning/page.tsx:705-710 | Without tips, the export ends with the last stage. With tips, it ends with one line per tip, in order. |
| LearningWizard.Markdown | frontend/app/dashboard/candidate/personalized-learning/page.tsx:647-710 | The exported text begins with the title and the Assessment heading. |
| AuthForms.Required | frontend/app/register/page.tsx:36-49 | A trimmed field has no problem exactly when it is non-empty and its extra check passes. An empty field reports its "missing" message first. |
| AuthForms.FirstError | frontend/app/register/page.tsx:34-61 | A field shows no message exactly when none of the problems is its own. Otherwise it shows one of its problems. |
| AuthForms.FirstErrorSkips | frontend/app/register/page.tsx:34-61 | Problems of other fields placed in front do not change a field's message. |
| AuthForms.FirstErrorKeeps | frontend/app/register/page.tsx:34-61 | A field's message comes from the first group of problems that holds one of its own. |
| AuthForms.EmailIssues | frontend/app/register/page.tsx:40-44 | The email passes exactly when it is non-empty and has the shape of an address. |
| AuthForms.PasswordIssues | frontend/app/register/page.tsx:45-49 | The password passes exactly when it is non-empty and at least the minimum length. An empty one reports "Please enter your password". |
| AuthForms.MatchIssues | frontend/app/register/page.tsx:58-61 | The confirmation fails exactly when it differs from the password, with "Passwords do not match" on the confirmation field. |
| AuthForms.TermsIssues | frontend/app/register/page.tsx:54-56 | The terms fail exactly when not accepted. |
| AuthForms.BeforePassword | frontend/app/register/page.tsx:36-44 | The username and email checks never report on the password. |
| AuthForms.AfterPassword | frontend/app/register/page.tsx:50-61 | The checks after the password never report on it, and a mismatch is reported last. |
| AuthForms.SignupIssues | frontend/app/register/page.tsx:34-61 | A trimmed sign-up has no problems exactly when the username is present, the email is present and well formed, the password has 8 or more characters, the confirmation matches and the terms are accepted. |
| AuthForms.RegisterIssues | frontend/app/register/page.tsx:34-61 | The same conditions, checked on the trimmed values of the form as typed. |
| AuthForms.SignupMismatch | frontend/app/register/page.tsx:58-61 | A valid password with a confirmation that differs leaves the password without a message and reports the mismatch last. |
| AuthForms.MismatchMarksConfirmation | frontend/app/register/page.tsx:45-61 | A long enough password with a differing confirmation puts the mismatch on the confirmation, not on the password. |
| AuthForms.BlankPasswordMissing | frontend/app/register/page.tsx:45-49 | A password of spaces only is reported as missing, not as too short. |
| AuthForms.Register | frontend/app/register/page.tsx:86-96 | A request is sent exactly when the form has no problems. It goes to the student route for the candidate tab and to the staff route otherwise, with the trimmed username, password and email. |
| AuthForms.LoginIssues | frontend/app/login/page.tsx:36-52 | Sign-in passes exactly when the trimmed email is present and well formed and the trimmed password has 7 or more characters. |
| AuthForms.SignInAcceptsShorterPassword | frontend/app/login/page.tsx:45-50 | A 7-character password is accepted at sign-in but rejected by every sign-up form. |
| AuthForms.Login | frontend/app/login/page.tsx:74-81 | A request is sent exactly when the form passes. It carries the trimmed email and password, and user_type "student" for the candidate tab and "staff" otherwise. |
| AuthForms.StoredAfterLogin | frontend/app/login/page.tsx:89-97 | The store keeps the role, email, username and staff id the server reports, and its access token. |
| AuthForms.LandingPage | frontend/app/login/page.tsx:99-103 | A sign-in navigates exactly when the reported role is staff or student: staff to the instructor dashboard, students to the candidate dashboard. |
| AuthForms.LandingAgreesWithGuard | frontend/app/login/page.tsx:99-103 | The landing page is the dashboard that the role guard sends the stored user to. |
| AuthForms.ResetSubmit | frontend/app/reset-password/page.tsx:44-69 | The reset proceeds exactly when the untrimmed password has 8 or more characters and matches the confirmation. Otherwise it shows the length message first, then the mismatch. The previous error is cleared. |
| AuthForms.ResetForgetsPreviousError | frontend/app/reset-password/page.tsx:44 | The outcome does not depend on the error shown before. |
| AuthForms.ResetDoesNotTrim | frontend/app/reset-password/page.tsx:47-50 | Eight spaces pass the reset form, while sign-up reports the same password as missing. |

Some behaviours of the code are modelled as they are and proved as
stated above, without being treated as bugs:

- a malformed lesson duration makes `getTotalDuration` show `NaN`, although the course table never calls it and prints the server's `total_duration` as sent;
- the "Showing" start is not clamped after the list shrinks;
- a category change keeps the current page;
- `createCourse` never adds file parts for resources;
- a duration with blank minutes, such as `":30"`, is read one way by the client and another by the server;
- challenge tags are matched case-sensitively;
- the candidate's "in progress" and "not started" filters select the same courses;
- a username with a leading space shows the initials "UNDEFINED", and one starting with two spaces (or a single space) makes the initials fail;
- the role guard's authorisation stays set once granted;
- the alternate challenge runner passes "Alert on click" tests and fails unknown HTML tests;
- an update for an entry whose id is `undefined` goes to `/resources/undefined/`;
- a multipart resource update omits the type;
- the reset form does not trim, but sign-up does;
- sign-in accepts 7-character passwords, while sign-up needs 8;
- the sign-up mismatch check runs alongside the field errors;
- soft-deleted courses stay in the public listing;
- a rejected applicant still sees the course outline;
- lesson progress can report more than 100%;
- the notification list and the live push name different senders for a reply;
- a comment is saved before the course lookup, so an unknown course answers 500 with the comment stored.

## Left out

- Concurrency: each websocket handler and each view is one atomic transition, so interleavings of the async runtime and cross-thread access to the registry are not modelled.
- The database, the ORM and the filesystem are maps and sequences. Query costs, transactions beyond the single atomic block, file storage and thumbnails are not modelled.
- JWT signing, expiry and verification, password hashing, fresh UUIDs and the clock are parameters.
- Floating point: the instructor statistics' average rating and revenue, the course price, and the catalogue's star fractions (`CoursesPage` uses exact reals) are not modelled as IEEE doubles.
- NotificationInbox.Inbox: takes a row's place in the table as its `created_at` order. Rows stamped with the same instant have no defined order in the database, and the model lists the later-stored one first.
- Catalog.InOrder: rows of equal `order` have no defined order in the database. The model keeps such rows in the order they were written, since its sort is stable; the database may return them in any order.
- CourseEditing.UpdateCourse: request bodies are typed. Titles are text or absent, orders are naturals or absent, and JSON numbers are integers. Three cases are not modelled. An explicit `null` section or lesson title violates the NOT NULL columns (backend/api/models/course.py:105, 127); the 500 this raises inside the atomic block rolls back the nested rows, but the course fields saved before it stay. A negative `order` fails the `PositiveIntegerField` check (lines 107 and 134). A fractional id such as 1.5, which the ORM reads as 1, is not modelled either.
- CourseEditing.CreateCourse: the same typed bodies, so a `null` title or a negative `order` in a section or lesson, which fails the whole atomic create with 500, is not modelled.
- CourseAccess.ProgressPercent: takes the floor of the exact quotient `done * 100 / total`. The source truncates the IEEE double `(done / total) * 100`, which can land just below a whole number: 29 of 100 lessons gives 28.999999999999996, so the source reports 28 where the model reports 29. Doubles are not modelled.
- CourseAccess.MarkPercent: the exact real percentage. The response sends `round(x, 1)` of an IEEE double (backend/api/utils/course_utils.py:687), and that one-decimal rounding is not modelled.
- CourseListing.Percent: the exact real percentage. The enrolled and completed lists send `round(x, 1)` of an IEEE double (backend/api/views/course_views.py:1364, 1440), and that rounding is not modelled.
- The random view counts, trend figures and monthly chart values of the instructor statistics are left out, because they are random.
- `InstructorStats` members require a month in 1..12, which Python's `datetime` guarantees.
- JavaScript `Number()` on decimals, exponents, hexadecimal and `Infinity` is not modelled. Only blank text, signed decimal integers and `NaN` are.
- Python `int()` with underscores in the digits is not modelled.
- Case mapping and whitespace trimming are ASCII only. There is no Unicode case folding or normalisation. Trimming removes space, tab, line feed, carriage return, vertical tab and form feed for both languages. Python's `str.strip()` also removes the separators `\x1c` to `\x1f`, and both languages remove non-ASCII spaces; neither is modelled.
- The shape of a valid e-mail address (zod's pattern) is a parameter of the form models.
- The percent-encoding of `URLSearchParams.toString` is not modelled. Query parameters are an ordered list of pairs.
- LearningPaths.PathDetail: `json.loads` is the parameter `parse`, and Python's `str()` of a sent value that is not a string is the parameter `pyStr` of `CreatePath`. So the model does not decide which texts parse. For example, it does not show that an object sent as `path_data` is stored in Python's quoting and then fails to parse. The frontend's `JSON.parse` and the generator's reply are not modelled.
- LearningPaths.ListPaths: orders by key, newest first. The source orders by `created_at`, and the two agree when creation times grow with the keys (`Chronological`). Paths created in the same instant have no defined database order.
- Json.JVal: JSON numbers are integers only. A fractional id, which the ORM reads as its integer part (1.5 as 1), and a float flag such as `0.0`, which is falsy, are not modelled. This affects the ids of `Applications`, `Favorites`, `Auth.Refresh` and `NotificationInbox`, as well as the curriculum ids of `CourseEditing`.
- Toasts, dialogs, spinners and page layout are not modelled, apart from the state they change.
- Dates are whole day numbers, and the current time is a parameter. The mismatch between the streak store's UTC day keys and the local weekday is out of scope.
- The streak statistics' "this month" and "last week" counts depend on calendar months and the local clock, and are not modelled. Only the total days and the best streak are.
- The browser side of the challenge runners is given as parameters: the parsed document of the user's HTML and the result of calling the user's `solution` function. The score's `Math.round` and the optional `testCases?.length` are not modelled.
- `FavoriteCourseView` parses the request body before it checks authentication. The model takes the course id as already parsed, so a malformed body, which fails with 500 even for an unauthenticated caller, is not represented.
- The lesson `preview` exception is not modelled as a field. The `Lesson` model has no `preview` attribute, so the exception never applies.
- In the course viewer's fallback lookup, every throw is answered with `None`. The model does not describe which error is raised, nor the message that the catch block wraps around it.
- PDF certificates, Markdown rendering and the download of the exported Markdown file are library output, and are not modelled. The Markdown text itself is.
- The HTTP clients' transport, the LLM service and the axios wrappers are network plumbing. Their answers are parameters.

## Findings

| source | as written | input that shows it | evidently intended | confidence | as-written member | corrected member |
|---|---|---|---|---|---|---|
| backend/api/utils/jwt_middleware.py:21-22 | Two adjacent string literals with no comma between them, `'/connection/'` and `'/ws/connection/'`, form the one entry `/connection//ws/connection/`. | A request to `/connection/` with no token is refused with 401. | `/connection/` is its own exempt prefix. | not executed | HttpGate.ConnectionNotExemptAsWritten | HttpGate.IntendedExemptsConnectionAndRefresh |
| backend/api/utils/jwt_middleware.py:13 | The refresh exemption is `/api/auth/refresh`, which does not prefix the routed `/api/auth/token/refresh/`. | A refresh request without an access token is refused with 401. | The refresh route is exempt, since a client refreshes precisely when its access token has expired. | not executed | HttpGate.RefreshNotExemptAsWritten | HttpGate.IntendedExemptsConnectionAndRefresh |
| backend/api/socket/jwt_auth.py:55-59 | `parse_qs` of a decoded `str` has `str` keys, but the tests ask for `b'token'` and `b'access_token'`. | `?token=t`, where `t` is a valid token for user 7: the socket stays anonymous. | A socket presenting a valid token is authenticated as that token's user. | not executed | SocketAuth.ValidTokenIgnoredAsWritten | SocketAuth.IntendedAuthenticatesIff |
| backend/api/utils/course_utils.py:344 | The detail reads the stored short description directly, so the computed fallback is never used. | A course with no short description and the description "Intro" is served a null short description. | The fallback from the description is served when none is stored. | not executed | CourseAccess.ShortDescriptionFallbackUnused | CourseAccess.ShortDescriptionIntended |
| backend/api/views/course_views.py:71 | `description[:150] + "..."` appends the ellipsis whatever the length. | The description "Intro", with no short description, is listed as "Intro...". | The ellipsis is added only when the text was cut. | not executed | CourseListing.ShortListingAlwaysEllipsised | CourseListing.ListingShortIntended |
| backend/api/views/course_views.py:1340-1350 | The total counts published lessons, but the completed count counts every completed lesson of the course. | Two published lessons with one done, plus one done unpublished lesson, report 100% while a lesson remains. | The completed lessons counted are the published ones, so the percentage is at most 100. | not executed | CourseListing.CompletionCountsUnpublished | CourseListing.CompletionIntended |
| backend/api/views/auth_views.py:88-103 | The duplicate check looks for an account named by the submitted username, but the account is stored under the e-mail address. | Registering the same staff username twice: the second attempt fails in the insert (500) instead of giving 400. | A repeated username is refused with 400 before any insert. | not executed | Auth.StaffRegisteredTwice | Auth.RegisterStaff |
| backend/api/views/auth_views.py:115 | The answer's dictionary uses the e-mail address itself as the key. | Registering with `a@b.c` answers `{"a@b.c": "a@b.c", ...}`, with no `email` key. | The key is the literal `"email"`. | not executed | Auth.StaffDataLacksEmailKey | Auth.StaffData |
| frontend/lib/store/streakstore.ts:57-70 | After a page load the persisted last streak date is a string, and the date arithmetic on it fails, so the streak restarts at 1. | A login on day 10, a reload, then a login on day 11 gives streak 1 instead of 2. | The stored text is read back as a date, so a reload changes nothing. | not executed | StreakStore.ReloadResetsStreak | StreakStore.ReloadHarmlessWhenRevived |
| frontend/app/dashboard/candidate/personalized-learning/page.tsx:619 | The save button reads the style from the `learningStyle` key, which no question writes. | Choosing "visual" and pressing save stores the style "". | The style is read from the question's `preferredStyle` id, as the automatic save does. | not executed | LearningWizard.ChosenStyleLost | LearningWizard.ManualSaveAgreesWithAutoSave |

=== FILE: applications.dfy ===
/** Course applications (`CourseApplicationView`, `ManageApplicationView`):
    a student applies once per course, the course's instructor approves or
    rejects, approval enrols the student idempotently, and the applicant may
    withdraw. Tables are maps; the status code is returned with the new state. */
module Applications {
  import opened Wrappers
  import opened Json
  import opened People
  import opened Catalog

  datatype Status = Pending | Approved | Rejected

  datatype Application = Application(student: nat, course: nat, message: string, status: Status)

  /** Applications by primary key, and the enrollments approval creates. */
  datatype State = State(apps: map<nat, Application>, enrollments: Enrollments)

  /** `unique_together = ['student', 'course']`. */
  predicate OnePerPair(apps: map<nat, Application>) {
    forall a, b :: a in apps && b in apps && apps[a].student == apps[b].student && apps[a].course == apps[b].course ==> a == b
  }

  predicate HasApplied(apps: map<nat, Application>, student: nat, course: nat) {
    exists a :: a in apps && apps[a].student == student && apps[a].course == course
  }

  /** The course a sent `course_id` names, if the lookup finds one; `courses`
      maps each course to its instructor's staff key. */
  function FindCourse(v: JVal, courses: map<nat, nat>): (r: Option<nat>)
    ensures r.Some? ==> r.value in courses && CoerceId(v) == LookupId(r.value as int)
  {
    match CoerceId(v)
    case LookupId(n) => if n >= 0 && n as nat in courses then Some(n as nat) else None
    case _ => None
  }

  /** `CourseApplicationView.post`: 401, 400 without a course id, 404 for an
      unknown course, 403 for a non-student, 400 for a second application,
      500 for an id the ORM cannot read; otherwise one new pending
      application under the fresh key. */
  function Apply(s: State, caller: Caller, courseId: JVal, message: string, courses: map<nat, nat>, newId: nat): (r: (State, nat))
    requires newId !in s.apps
    ensures r.1 == 401 <==> caller.Anonymous?
    ensures r.1 == 201 <==>
      && caller.Member? && Truthy(courseId) && FindCourse(courseId, courses).Some?
      && caller.studentPk.Some? && !HasApplied(s.apps, caller.studentPk.value, FindCourse(courseId, courses).value)
    ensures r.1 == 201 ==>
      r.0 == s.(apps := s.apps[newId := Application(caller.studentPk.value, FindCourse(courseId, courses).value, message, Pending)])
    ensures r.1 != 201 ==> r.0 == s
    ensures caller.Member? && !Truthy(courseId) ==> r.1 == 400
    ensures caller.Member? && Truthy(courseId) && CoerceId(courseId).LookupRaises? ==> r.1 == 500
    ensures r.1 == 403 <==> caller.Member? && Truthy(courseId) && FindCourse(courseId, courses).Some? && caller.studentPk.None?
    ensures OnePerPair(s.apps) ==> OnePerPair(r.0.apps)
  {
    if caller.Anonymous? then (s, 401)
    else if !Truthy(courseId) then (s, 400)
    else if CoerceId(courseId).LookupRaises? then (s, 500)
    else
      match FindCourse(courseId, courses)
      case None => (s, 404)
      case Some(course) =>
        if caller.studentPk.None? then (s, 403)
        else if HasApplied(s.apps, caller.studentPk.value, course) then (s, 400)
        else
          var app := Application(caller.studentPk.value, course, message, Pending);
          var apps' := s.apps[newId := app];
          assert OnePerPair(s.apps) ==> OnePerPair(apps') by {
            if OnePerPair(s.apps) {
              AddKeepsOnePerPair(s.apps, newId, app);
            }
          }
          (s.(apps := apps'), 201)
  }

  /** An application for a pair nobody has applied for keeps one
      application per pair. */
  lemma AddKeepsOnePerPair(apps: map<nat, Application>, newId: nat, app: Application)
    requires newId !in apps && OnePerPair(apps) && !HasApplied(apps, app.student, app.course)
    ensures OnePerPair(apps[newId := app])
  {
    var apps' := apps[newId := app];
    forall a, b | a in apps' && b in apps' && apps'[a].student == apps'[b].student && apps'[a].course == apps'[b].course
      ensures a == b
    {
      if a != newId && b != newId {
        assert apps'[a] == apps[a] && apps'[b] == apps[b];
      } else if a != b {
        assert false;
      }
    }
  }

  /** A second application by the same student to the same course is refused. */
  lemma ApplyTwiceRefused(s: State, caller: Caller, courseId: JVal, message: string, courses: map<nat, nat>,
                          newId: nat, newId2: nat, message2: string)
    requires newId !in s.apps && newId2 != newId && newId2 !in s.apps
    requires Apply(s, caller, courseId, message, courses, newId).1 == 201
    ensures var s1 := Apply(s, caller, courseId, message, courses, newId).0;
      Apply(s1, caller, courseId, message2, courses, newId2) == (s1, 400)
  {
    var s1 := Apply(s, caller, courseId, message, courses, newId).0;
    assert s1.apps[newId].student == caller.studentPk.value;
  }

  /** The outcome of a status change; `enrollmentCreated` is reported only
      for an approval. */
  datatype Managed = Managed(state: State, code: nat, enrollmentCreated: Option<bool>)

  /** `status` must be the string `approved` or `rejected`. */
  function NewStatus(v: JVal): Option<Status> {
    if v == JStr("approved") then Some(Approved)
    else if v == JStr("rejected") then Some(Rejected)
    else None
  }

  /** `ManageApplicationView.put`: 401, 400 for any other status value, 404
      for an unknown application, 403 unless the caller is staff teaching the
      course; otherwise the status is set (from any status) and an approval
      creates the enrollment only if it is absent. */
  function Manage(s: State, caller: Caller, appId: nat, status: JVal, courses: map<nat, nat>): (r: Managed)
    requires forall a :: a in s.apps ==> s.apps[a].course in courses
    ensures r.code == 401 <==> caller.Anonymous?
    ensures caller.Member? && NewStatus(status).None? ==> r.code == 400
    ensures caller.Member? && NewStatus(status).Some? && appId !in s.apps ==> r.code == 404
    ensures r.code == 200 <==>
      && caller.Member? && NewStatus(status).Some? && appId in s.apps
      && caller.staffPk == Some(courses[s.apps[appId].course])
    ensures r.code == 200 ==>
      var app := s.apps[appId];
      && r.state.apps == s.apps[appId := app.(status := NewStatus(status).value)]
      && (NewStatus(status) == Some(Approved) ==>
            && r.state.enrollments == s.enrollments + {(app.course, app.student)}
            && r.enrollmentCreated == Some((app.course, app.student) !in s.enrollments))
      && (NewStatus(status) == Some(Rejected) ==> r.state.enrollments == s.enrollments && r.enrollmentCreated.None?)
    ensures r.code != 200 ==> r.state == s
    ensures OnePerPair(s.apps) ==> OnePerPair(r.state.apps)
  {
    if caller.Anonymous? then Managed(s, 401, None)
    else if NewStatus(status).None? then Managed(s, 400, None)
    else if appId !in s.apps then Managed(s, 404, None)
    else
      var app := s.apps[appId];
      if caller.staffPk != Some(courses[app.course]) then Managed(s, 403, None)
      else
        var apps' := s.apps[appId := app.(status := NewStatus(status).value)];
        assert OnePerPair(s.apps) ==> OnePerPair(apps') by {
          if OnePerPair(s.apps) {
            forall a, b | a in apps' && b in apps' && apps'[a].student == apps'[b].student && apps'[a].course == apps'[b].course
              ensures a == b {
              assert s.apps[a].student == apps'[a].student && s.apps[a].course == apps'[a].course;
              assert s.apps[b].student == apps'[b].student && s.apps[b].course == apps'[b].course;
            }
          }
        }
        if NewStatus(status) == Some(Approved) then
          var (e, created) := GetOrCreateEnrollment(s.enrollments, app.course, app.student);
          Managed(State(apps', e), 200, Some(created))
        else Managed(State(apps', s.enrollments), 200, None)
  }

  /** Approving twice enrols once: the second approval reports no new
      enrollment and leaves the enrollments as the first left them. */
  lemma ReapprovalCreatesNothing(s: State, caller: Caller, appId: nat, courses: map<nat, nat>)
    requires forall a :: a in s.apps ==> s.apps[a].course in courses
    requires Manage(s, caller, appId, JStr("approved"), courses).code == 200
    ensures var s1 := Manage(s, caller, appId, JStr("approved"), courses).state;
      var again := Manage(s1, caller, appId, JStr("approved"), courses);
      again.code == 200 && again.enrollmentCreated == Some(false) && again.state == s1
  {
    var s1 := Manage(s, caller, appId, JStr("approved"), courses).state;
    assert s1.apps[appId] == s.apps[appId].(status := Approved);
    assert s1.apps[appId := s1.apps[appId].(status := Approved)] == s1.apps;
  }

  /** Rejecting an approved application leaves the student enrolled. */
  lemma RejectAfterApprovalKeepsEnrollment(s: State, caller: Caller, appId: nat, courses: map<nat, nat>)
    requires forall a :: a in s.apps ==> s.apps[a].course in courses
    requires Manage(s, caller, appId, JStr("approved"), courses).code == 200
    ensures var s1 := Manage(s, caller, appId, JStr("approved"), courses).state;
      var s2 := Manage(s1, caller, appId, JStr("rejected"), courses);
      && s2.code == 200 && s2.state.apps[appId].status == Rejected
      && (s.apps[appId].course, s.apps[appId].student) in s2.state.enrollments
  {
    var s1 := Manage(s, caller, appId, JStr("approved"), courses).state;
    assert s1.apps[appId] == s.apps[appId].(status := Approved);
  }

  /** `ManageApplicationView.delete`: 401, 404 for an unknown application,
      403 unless the caller is the student who applied (in any status);
      otherwise the application is removed and enrollments stay. */
  function Cancel(s: State, caller: Caller, appId: nat): (r: (State, nat))
    ensures r.1 == 401 <==> caller.Anonymous?
    ensures r.1 == 404 <==> caller.Member? && appId !in s.apps
    ensures r.1 == 200 <==> caller.Member? && appId in s.apps && caller.studentPk == Some(s.apps[appId].student)
    ensures r.1 == 200 ==> r.0.apps == s.apps - {appId} && r.0.enrollments == s.enrollments
    ensures r.1 != 200 ==> r.0 == s
    ensures OnePerPair(s.apps) ==> OnePerPair(r.0.apps)
  {
    if caller.Anonymous? then (s, 401)
    else if appId !in s.apps then (s, 404)
    else if caller.studentPk != Some(s.apps[appId].student) then (s, 403)
    else (s.(apps := s.apps - {appId}), 200)
  }

  /** The applications a caller may list: a student's own, or those for the
      courses a staff member teaches; anyone else is refused. A caller with
      both records is answered as a student. */
  function Listing(s: State, caller: Caller, courses: map<nat, nat>): (r: (set<nat>, nat))
    requires forall a :: a in s.apps ==> s.apps[a].course in courses
    ensures r.1 == 401 <==> caller.Anonymous?
    ensures r.1 == 403 <==> caller.Member? && caller.studentPk.None? && caller.staffPk.None?
    ensures r.1 != 200 ==> r.0 == {}
    ensures caller.Member? && caller.studentPk.Some? ==>
      r.1 == 200 && forall a :: a in r.0 <==> a in s.apps && s.apps[a].student == caller.studentPk.value
    ensures caller.Member? && caller.studentPk.None? && caller.staffPk.Some? ==>
      r.1 == 200 && forall a :: a in r.0 <==> a in s.apps && courses[s.apps[a].course] == caller.staffPk.value
  {
    if caller.Anonymous? then ({}, 401)
    else if caller.studentPk.Some? then (set a | a in s.apps && s.apps[a].student == caller.studentPk.value, 200)
    else if caller.staffPk.Some? then (set a | a in s.apps && courses[s.apps[a].course] == caller.staffPk.value, 200)
    else ({}, 403)
  }
}

=== FILE: applications_page.dfy ===
/** The instructor's applications page: the status tabs, the pending badge,
    the approve/reject dialog and the status update it sends. The list of
    applications is a parameter. */
module ApplicationsPage {
  import opened Wrappers
  import opened Lists

  datatype ApplicationView = ApplicationView(id: string, status: string, studentName: string, courseTitle: string)

  function StatusIs(status: string): ApplicationView -> bool {
    (a: ApplicationView) => a.status == status
  }

  /** The three named tabs keep their own status; any other tab value keeps
      every application. */
  function TabFilter(tab: string): ApplicationView -> bool {
    (a: ApplicationView) => if tab in {"pending", "approved", "rejected"} then a.status == tab else true
  }

  /** `filteredApplications`. */
  function TabList(apps: seq<ApplicationView>, tab: string): (r: seq<ApplicationView>)
    ensures tab in {"pending", "approved", "rejected"} ==> forall a :: a in r <==> a in apps && a.status == tab
    ensures tab !in {"pending", "approved", "rejected"} ==> r == apps
  {
    if tab !in {"pending", "approved", "rejected"} then
      WhereAll(apps, TabFilter(tab));
      Where(apps, TabFilter(tab))
    else Where(apps, TabFilter(tab))
  }

  /** The badge on the pending tab. */
  function PendingBadge(apps: seq<ApplicationView>): nat {
    CountWhere(apps, StatusIs("pending"))
  }

  /** The badge counts exactly what the pending tab lists. */
  lemma BadgeMatchesPendingTab(apps: seq<ApplicationView>)
    ensures PendingBadge(apps) == |TabList(apps, "pending")|
  {
    WhereSame(apps, StatusIs("pending"), TabFilter("pending"));
  }

  /** Approve and reject buttons appear on pending applications only. */
  predicate ShowsActions(a: ApplicationView) {
    a.status == "pending"
  }

  datatype Verdict = Approve | Reject

  function StatusFor(v: Verdict): string {
    match v
    case Approve => "approved"
    case Reject => "rejected"
  }

  datatype Dialog = Dialog(isOpen: bool, applicationId: Option<string>, action: Option<Verdict>,
                           studentName: string, courseTitle: string)

  const ClosedDialog := Dialog(false, None, None, "", "")

  function OpenDialog(id: string, v: Verdict, studentName: string, courseTitle: string): Dialog {
    Dialog(true, Some(id), Some(v), studentName, courseTitle)
  }

  /** The request `handleStatusUpdate` sends: application id and new status. */
  datatype StatusRequest = StatusRequest(applicationId: string, status: string)

  /** `handleStatusUpdate`: nothing happens without an application id (an
      empty id counts as none) or an action; otherwise one request is sent
      and the dialog is reset at once, without waiting for the answer. */
  function HandleStatusUpdate(d: Dialog): (r: (Dialog, Option<StatusRequest>))
    ensures r.1.None? <==> d.applicationId.None? || d.applicationId.value == "" || d.action.None?
    ensures r.1.None? ==> r.0 == d
    ensures r.1.Some? ==> r.0 == ClosedDialog && r.1.value.applicationId == d.applicationId.value
    ensures r.1.Some? ==> r.1.value.status in {"approved", "rejected"}
  {
    if d.applicationId.None? || d.applicationId.value == "" || d.action.None? then (d, None)
    else (ClosedDialog, Some(StatusRequest(d.applicationId.value, StatusFor(d.action.value))))
  }

  /** Confirming a dialog opened on an application sends that application's
      id with "approved" for approve and "rejected" for reject, and closes
      the dialog. */
  lemma ConfirmSendsChosenStatus(id: string, v: Verdict, studentName: string, courseTitle: string)
    requires id != ""
    ensures HandleStatusUpdate(OpenDialog(id, v, studentName, courseTitle)) ==
      (ClosedDialog, Some(StatusRequest(id, if v == Approve then "approved" else "rejected")))
  {
  }

  /** Confirming a second time sends nothing. */
  lemma SecondConfirmIsNoOp(d: Dialog)
    ensures HandleStatusUpdate(HandleStatusUpdate(d).0).1.None?
  {
  }
}

=== FILE: auth.dfy ===
/** Registration, login and token refresh (`StudentRegisterView`,
    `StaffRegisterView`, `LoginView`, `TokenRefreshView`). Accounts, role
    records and the password check are tables; signing and verifying tokens
    is a parameter (`decoded` maps each token that verifies to its payload),
    and the payloads the server signs are modelled exactly. Request fields
    that are absent or `null` are `None`. */
module Auth {
  import opened Wrappers
  import opened Text
  import opened Json
  import opened People

  /** Accounts, the password each account logs in with, and the role tables. */
  datatype Accounts = Accounts(users: seq<Account>, passwords: map<nat, string>, students: seq<Student>, staff: seq<Staff>)

  predicate UsernameTaken(users: seq<Account>, name: string) {
    exists i :: 0 <= i < |users| && users[i].username == name
  }

  /** `User.username` is unique. */
  predicate UniqueUsernames(users: seq<Account>) {
    forall i, j :: 0 <= i < j < |users| ==> users[i].username != users[j].username
  }

  predicate UserIdTaken(users: seq<Account>, id: nat) {
    exists i :: 0 <= i < |users| && users[i].id == id
  }

  /** Django's `create_user`: an empty username raises `ValueError`, a taken
      one breaks the unique index; otherwise the account is appended. */
  function CreateUser(users: seq<Account>, a: Account): (r: Option<seq<Account>>)
    ensures r.None? <==> a.username == "" || UsernameTaken(users, a.username)
    ensures r.Some? ==> r.value == users + [a]
    ensures r.Some? && UniqueUsernames(users) ==> UniqueUsernames(r.value)
  {
    if a.username == "" || UsernameTaken(users, a.username) then None
    else
      assert UniqueUsernames(users) ==> UniqueUsernames(users + [a]) by {
        if UniqueUsernames(users) {
          forall i, j | 0 <= i < j < |users + [a]| ensures (users + [a])[i].username != (users + [a])[j].username {
            if j == |users| { assert users[i].username != a.username; }
          }
        }
      }
      Some(users + [a])
  }

  // ---------------------------------------------------------------------------
  // Registration

  /** `StudentRegisterView.post`: 400 unless username, password and email
      are all given, 400 when an account already has the submitted username
      or a student the email; the account is then created under
      `username = email`, so an email that is another account's username
      fails the unique index (500). On success one account (with the
      password) and one student record are added. */
  function RegisterStudent(st: Accounts, username: Option<string>, password: Option<string>, email: Option<string>,
                           newUser: nat, newStudent: nat): (r: (Accounts, nat))
    requires !UserIdTaken(st.users, newUser) && newUser !in st.passwords
    ensures r.1 == 400 <==> (!Filled(username) || !Filled(password) || !Filled(email)
      || UsernameTaken(st.users, username.value) || EmailTaken(st.students, email.value))
    ensures r.1 == 500 <==> (Filled(username) && Filled(password) && Filled(email)
      && !UsernameTaken(st.users, username.value) && !EmailTaken(st.students, email.value)
      && UsernameTaken(st.users, email.value))
    ensures r.1 != 201 ==> r.0 == st
    ensures r.1 == 201 ==>
      && r.0.users == st.users + [Account(newUser, email.value, email.value, "", "")]
      && r.0.passwords == st.passwords[newUser := password.value]
      && r.0.students == st.students + [NewStudent(newStudent, newUser, email.value)]
      && r.0.staff == st.staff
    ensures r.1 in {201, 400, 500}
    ensures UniqueUsernames(st.users) ==> UniqueUsernames(r.0.users)
    ensures UniqueEmails(st.students) ==> UniqueEmails(r.0.students)
  {
    if !Filled(username) || !Filled(password) || !Filled(email) then (st, 400)
    else if UsernameTaken(st.users, username.value) then (st, 400)
    else if EmailTaken(st.students, email.value) then (st, 400)
    else
      var e := email.value;
      match CreateUser(st.users, Account(newUser, e, e, "", ""))
      case None => (st, 500)
      case Some(users) =>
        var s := NewStudent(newStudent, newUser, e);
        assert UniqueEmails(st.students) ==> UniqueEmails(st.students + [s]) by {
          if UniqueEmails(st.students) {
            forall i, j | 0 <= i < j < |st.students + [s]|
              ensures (st.students + [s])[i].email != (st.students + [s])[j].email {
              if j == |st.students| { assert st.students[i].email != e; }
            }
          }
        }
        (Accounts(users, st.passwords[newUser := password.value], st.students + [s], st.staff), 201)
  }

  /** A request field with a default: `None` when the key is absent. */
  function FieldOr(f: Option<Option<string>>, default: string): (r: Option<string>)
    ensures f.None? ==> r == Some(default)
    ensures f.Some? ==> r == f.value
  {
    match f
    case None => Some(default)
    case Some(v) => v
  }

  /** The account a staff registration creates: named by the submitted
      username as first name and `last_name` (default "-"), logging in as its
      email. `None` when `last_name` is sent as `null`, which the
      non-nullable column refuses. */
  function StaffAccount(id: nat, username: string, email: Option<string>, lastName: Option<Option<string>>): Option<Account> {
    match FieldOr(lastName, "-")
    case None => None
    case Some(last) => Some(Account(id, email.GetOr(""), email.GetOr(""), username, last))
  }

  /** `StaffRegisterView.post` with the duplicate test as written: it looks
      for the submitted `username`, while the account is stored under its
      email. 400 unless username and password are given or when the username
      is taken; 500 when the account cannot be created (no email, an email
      that is already a username, a `null` last name) or the generated
      `staff_id` is taken; otherwise one account and one staff record. */
  function RegisterStaffAsWritten(st: Accounts, username: Option<string>, password: Option<string>, email: Option<string>,
                                  lastName: Option<Option<string>>, newUser: nat, newStaff: nat, generated: string): (r: (Accounts, nat))
    requires !UserIdTaken(st.users, newUser) && newUser !in st.passwords
    ensures r.1 == 400 <==> !Filled(username) || !Filled(password) || UsernameTaken(st.users, username.value)
    ensures r.1 == 201 <==> (Filled(username) && Filled(password) && !UsernameTaken(st.users, username.value)
      && StaffAccount(newUser, username.value, email, lastName).Some?
      && CreateUser(st.users, StaffAccount(newUser, username.value, email, lastName).value).Some?
      && !StaffIdTaken(st.staff, generated))
    ensures r.1 != 201 ==> r.0 == st
    ensures r.1 == 201 ==>
      && r.0.users == st.users + [StaffAccount(newUser, username.value, email, lastName).value]
      && r.0.passwords == st.passwords[newUser := password.value]
      && r.0.staff == st.staff + [Staff(newStaff, newUser, generated)]
      && r.0.students == st.students
    ensures r.1 in {201, 400, 500}
  {
    if !Filled(username) || !Filled(password) then (st, 400)
    else if UsernameTaken(st.users, username.value) then (st, 400)
    else StaffInsert(st, username.value, password.value, email, lastName, newUser, newStaff, generated)
  }

  /** The atomic block both staff registrations share: account, then staff
      record; any failure leaves nothing behind. */
  function StaffInsert(st: Accounts, username: string, password: string, email: Option<string>,
                       lastName: Option<Option<string>>, newUser: nat, newStaff: nat, generated: string): (r: (Accounts, nat))
    ensures r.1 == 201 <==> (StaffAccount(newUser, username, email, lastName).Some?
      && CreateUser(st.users, StaffAccount(newUser, username, email, lastName).value).Some?
      && !StaffIdTaken(st.staff, generated))
    ensures r.1 != 201 ==> r.1 == 500 && r.0 == st
    ensures r.1 == 201 ==>
      && r.0.users == st.users + [StaffAccount(newUser, username, email, lastName).value]
      && r.0.passwords == st.passwords[newUser := password]
      && r.0.staff == st.staff + [Staff(newStaff, newUser, generated)]
      && r.0.students == st.students
  {
    match StaffAccount(newUser, username, email, lastName)
    case None => (st, 500)
    case Some(a) =>
      match CreateUser(st.users, a)
      case None => (st, 500)
      case Some(users) =>
        if StaffIdTaken(st.staff, generated) then (st, 500)
        else (Accounts(users, st.passwords[newUser := password], st.students, st.staff + [Staff(newStaff, newUser, generated)]), 201)
  }

  /** The staff registration with the duplicate test on the username the
      account is actually stored under, so a repeated registration is
      refused with 400. */
  function RegisterStaff(st: Accounts, username: Option<string>, password: Option<string>, email: Option<string>,
                         lastName: Option<Option<string>>, newUser: nat, newStaff: nat, generated: string): (r: (Accounts, nat))
    requires !UserIdTaken(st.users, newUser) && newUser !in st.passwords
    ensures r.1 == 400 <==> (!Filled(username) || !Filled(password) || UsernameTaken(st.users, username.value)
      || UsernameTaken(st.users, email.GetOr("")))
    ensures r.1 != 201 ==> r.0 == st
    ensures r.1 == 201 ==> r.0.staff == st.staff + [Staff(newStaff, newUser, generated)]
    ensures r.1 == 201 ==>
      && StaffAccount(newUser, username.value, email, lastName).Some?
      && r.0.users == st.users + [StaffAccount(newUser, username.value, email, lastName).value]
    ensures UniqueUsernames(st.users) ==> UniqueUsernames(r.0.users)
  {
    if !Filled(username) || !Filled(password) then (st, 400)
    else if UsernameTaken(st.users, username.value) || UsernameTaken(st.users, email.GetOr("")) then (st, 400)
    else StaffInsert(st, username.value, password.value, email, lastName, newUser, newStaff, generated)
  }

  /** Registering the same staff member twice: as written the second
      attempt passes the duplicate test and fails on the unique index (500);
      with the test on the stored username it is refused with 400. */
  lemma StaffRegisteredTwice(st: Accounts, username: string, password: string, email: string,
                             newUser: nat, newStaff: nat, generated: string, newUser2: nat, newStaff2: nat, generated2: string)
    requires !UserIdTaken(st.users, newUser) && newUser !in st.passwords
    requires username != "" && password != "" && email != "" && username != email
    requires newUser2 != newUser && !UserIdTaken(st.users, newUser2) && newUser2 !in st.passwords
    requires RegisterStaffAsWritten(st, Some(username), Some(password), Some(email), None, newUser, newStaff, generated).1 == 201
    ensures var once := RegisterStaffAsWritten(st, Some(username), Some(password), Some(email), None, newUser, newStaff, generated).0;
      && RegisterStaffAsWritten(once, Some(username), Some(password), Some(email), None, newUser2, newStaff2, generated2).1 == 500
      && RegisterStaff(once, Some(username), Some(password), Some(email), None, newUser2, newStaff2, generated2).1 == 400
  {
    var once := RegisterStaffAsWritten(st, Some(username), Some(password), Some(email), None, newUser, newStaff, generated).0;
    var a := StaffAccount(newUser, username, Some(email), None).value;
    assert once.users[|once.users| - 1] == a;
    assert UsernameTaken(once.users, email);
    assert !UserIdTaken(once.users, newUser2) by {
      forall i | 0 <= i < |once.users| ensures once.users[i].id != newUser2 {
        if i < |st.users| { assert once.users[i] == st.users[i]; }
      }
    }
  }

  /** A staff member registering without an email never gets an account:
      the account's username would be empty. */
  lemma StaffWithoutEmailFails(st: Accounts, username: string, password: string, email: Option<string>,
                               lastName: Option<Option<string>>, newUser: nat, newStaff: nat, generated: string)
    requires !UserIdTaken(st.users, newUser) && newUser !in st.passwords
    requires username != "" && password != "" && !UsernameTaken(st.users, username)
    requires !Filled(email)
    ensures RegisterStaffAsWritten(st, Some(username), Some(password), email, lastName, newUser, newStaff, generated) == (st, 500)
  {
  }

  /** The `data` object of the staff registration answer as written: the
      email sits under a key equal to the address itself, not under "email". */
  function StaffDataAsWritten(a: Account, staffId: string, email: string): (r: JVal)
    ensures r.JObj? && r.fields.Keys == {"username", "staff_id", email}
    ensures r.fields[email] == JStr(a.email)
    ensures email != "username" ==> r.fields["username"] == JStr(a.username)
    ensures email != "staff_id" ==> r.fields["staff_id"] == JStr(staffId)
  {
    JObj(map["username" := JStr(a.username), "staff_id" := JStr(staffId), email := JStr(a.email)])
  }

  /** The answer with the email under "email", as the other views answer. */
  function StaffData(a: Account, staffId: string): (r: JVal)
    ensures r.JObj? && r.fields.Keys == {"username", "staff_id", "email"}
    ensures r.fields["email"] == JStr(a.email) && r.fields["username"] == JStr(a.username)
    ensures r.fields["staff_id"] == JStr(staffId)
  {
    JObj(map["username" := JStr(a.username), "staff_id" := JStr(staffId), "email" := JStr(a.email)])
  }

  /** For any address other than the literal strings "email", "username" and
      "staff_id", the written answer carries no "email" field at all. */
  lemma StaffDataLacksEmailKey(a: Account, staffId: string, email: string)
    requires email !in {"email", "username", "staff_id"}
    ensures "email" !in StaffDataAsWritten(a, staffId, email).fields
    ensures "email" in StaffData(a, staffId).fields
  {
  }

  // ---------------------------------------------------------------------------
  // Login

  /** Django's `authenticate(username=email, password=password)`: the first
      account with that username whose password matches. */
  function Authenticate(users: seq<Account>, passwords: map<nat, string>, username: string, password: string): (r: Option<Account>)
    ensures r.Some? ==> (r.value in users && r.value.username == username
      && r.value.id in passwords && passwords[r.value.id] == password)
    ensures r.None? ==> forall i :: 0 <= i < |users| && users[i].username == username ==>
      users[i].id !in passwords || passwords[users[i].id] != password
  {
    if |users| == 0 then None
    else if users[0].username == username && users[0].id in passwords && passwords[users[0].id] == password then Some(users[0])
    else
      var r := Authenticate(users[1..], passwords, username, password);
      assert r.None? ==> forall i :: 0 < i < |users| && users[i].username == username ==>
        users[i].id !in passwords || passwords[users[i].id] != password by {
        if r.None? {
          forall i | 0 < i < |users| && users[i].username == username
            ensures users[i].id !in passwords || passwords[users[i].id] != password {
            assert users[i] == users[1..][i - 1];
          }
        }
      }
      r
  }

  /** The role record attached to an account, if any. */
  function StudentOf(students: seq<Student>, userId: nat): (r: Option<Student>)
    ensures r.Some? ==> r.value in students && r.value.userId == userId
    ensures r.None? ==> forall i :: 0 <= i < |students| ==> students[i].userId != userId
  {
    if |students| == 0 then None
    else if students[0].userId == userId then Some(students[0])
    else
      var r := StudentOf(students[1..], userId);
      assert r.None? ==> forall i :: 0 < i < |students| ==> students[i].userId != userId by {
        if r.None? {
          forall i | 0 < i < |students| ensures students[i].userId != userId {
            assert students[i] == students[1..][i - 1];
          }
        }
      }
      r
  }

  function StaffOf(staff: seq<Staff>, userId: nat): (r: Option<Staff>)
    ensures r.Some? ==> r.value in staff && r.value.userId == userId
    ensures r.None? ==> forall i :: 0 <= i < |staff| ==> staff[i].userId != userId
  {
    if |staff| == 0 then None
    else if staff[0].userId == userId then Some(staff[0])
    else
      var r := StaffOf(staff[1..], userId);
      assert r.None? ==> forall i :: 0 < i < |staff| ==> staff[i].userId != userId by {
        if r.None? {
          forall i | 0 < i < |staff| ensures staff[i].userId != userId {
            assert staff[i] == staff[1..][i - 1];
          }
        }
      }
      r
  }

  /** The claims the server signs: an access token carries the user's id
      and username; a refresh token also carries `token_type: "refresh"`.
      Expiry is left to the verifier. */
  function AccessClaims(a: Account): map<string, JVal> {
    map["user_id" := JInt(a.id), "username" := JStr(a.username)]
  }

  function RefreshClaims(a: Account): map<string, JVal> {
    AccessClaims(a)["token_type" := JStr("refresh")]
  }

  /** What a login answers: the status, the role, the display name, the
      staff id, and the claims of the two tokens issued. */
  datatype LoginReply = LoginReply(code: nat, role: string, name: string, staffId: Option<string>,
                                   tokens: Option<(map<string, JVal>, map<string, JVal>)>)

  /** `LoginView.post`: 400 without email or password, 401 when they do not
      authenticate; `user_type` (default "student", compared without case)
      then selects the role, which the account must hold (else 403); any
      other type is 400, and a `null` type raises (500). A student is named
      by its first name, else its username; staff by the username. */
  function Login(st: Accounts, email: Option<string>, password: Option<string>, userType: Option<Option<string>>): (r: LoginReply)
    ensures r.code == 400 <==> (!Filled(email) || !Filled(password)
      || (Authenticate(st.users, st.passwords, email.value, password.value).Some?
          && FieldOr(userType, "student").Some?
          && Lower(FieldOr(userType, "student").value) !in {"student", "staff"}))
    ensures r.code == 401 <==> Filled(email) && Filled(password) && Authenticate(st.users, st.passwords, email.value, password.value).None?
    ensures r.code == 200 ==>
      var a := Authenticate(st.users, st.passwords, email.value, password.value).value;
      && r.tokens == Some((AccessClaims(a), RefreshClaims(a)))
      && (r.role == "student" ==> (StudentOf(st.students, a.id).Some?
            && r.name == DisplayName(StudentOf(st.students, a.id).value.firstName, None, a.username)))
      && (r.role == "staff" ==> (StaffOf(st.staff, a.id).Some? && r.name == a.username
            && r.staffId == Some(StaffOf(st.staff, a.id).value.staffId)))
      && FieldOr(userType, "student").Some?
      && (r.role == "student" <==> Lower(FieldOr(userType, "student").value) == "student")
      && (r.role == "staff" <==> Lower(FieldOr(userType, "student").value) == "staff")
    ensures r.code == 403 <==> (Filled(email) && Filled(password)
      && Authenticate(st.users, st.passwords, email.value, password.value).Some?
      && FieldOr(userType, "student").Some?
      && var a := Authenticate(st.users, st.passwords, email.value, password.value).value;
      && var t := Lower(FieldOr(userType, "student").value);
      ((t == "student" && StudentOf(st.students, a.id).None?) || (t == "staff" && StaffOf(st.staff, a.id).None?)))
    ensures r.code != 200 ==> r.tokens.None?
    ensures r.code in {200, 400, 401, 403, 500}
  {
    if !Filled(email) || !Filled(password) then LoginReply(400, "", "", None, None)
    else match Authenticate(st.users, st.passwords, email.value, password.value)
      case None => LoginReply(401, "", "", None, None)
      case Some(a) =>
        var tokens := Some((AccessClaims(a), RefreshClaims(a)));
        match FieldOr(userType, "student")
        case None => LoginReply(500, "", "", None, None)
        case Some(t) =>
          if Lower(t) == "student" then
            match StudentOf(st.students, a.id)
            case Some(s) =>
              var name := if Filled(s.firstName) then s.firstName.value else a.username;
              LoginReply(200, "student", name, None, tokens)
            case None => LoginReply(403, "", "", None, None)
          else if Lower(t) == "staff" then
            match StaffOf(st.staff, a.id)
            case Some(s) => LoginReply(200, "staff", a.username, Some(s.staffId), tokens)
            case None => LoginReply(403, "", "", None, None)
          else LoginReply(400, "", "", None, None)
  }

  /** A student who has just registered can log in with the email and
      password, as a student, under the email. */
  lemma RegisteredStudentCanLogIn(st: Accounts, username: string, password: string, email: string,
                                  newUser: nat, newStudent: nat, userType: string)
    requires !UserIdTaken(st.users, newUser) && newUser !in st.passwords
    requires RegisterStudent(st, Some(username), Some(password), Some(email), newUser, newStudent).1 == 201
    requires !exists i :: 0 <= i < |st.students| && st.students[i].userId == newUser
    requires Lower(userType) == "student"
    ensures var reg := RegisterStudent(st, Some(username), Some(password), Some(email), newUser, newStudent).0;
      var r := Login(reg, Some(email), Some(password), Some(Some(userType)));
      r.code == 200 && r.role == "student" && r.name == email
  {
    var reg := RegisterStudent(st, Some(username), Some(password), Some(email), newUser, newStudent).0;
    var a := Account(newUser, email, email, "", "");
    AuthenticateFindsNew(st.users, st.passwords, a, password);
    var s := NewStudent(newStudent, newUser, email);
    StudentOfFindsNew(st.students, s);
  }

  lemma {:induction false} AuthenticateFindsNew(users: seq<Account>, passwords: map<nat, string>, a: Account, password: string)
    requires !UsernameTaken(users, a.username)
    ensures Authenticate(users + [a], passwords[a.id := password], a.username, password) == Some(a)
  {
    if |users| > 0 {
      assert (users + [a])[1..] == users[1..] + [a];
      assert !UsernameTaken(users[1..], a.username) by {
        forall i | 0 <= i < |users[1..]| ensures users[1..][i].username != a.username {
          assert users[1..][i] == users[i + 1];
        }
      }
      AuthenticateFindsNew(users[1..], passwords, a, password);
    }
  }

  lemma {:induction false} StudentOfFindsNew(students: seq<Student>, s: Student)
    requires forall i :: 0 <= i < |students| ==> students[i].userId != s.userId
    ensures StudentOf(students + [s], s.userId) == Some(s)
  {
    if |students| > 0 {
      assert (students + [s])[1..] == students[1..] + [s];
      StudentOfFindsNew(students[1..], s);
    }
  }

  // ---------------------------------------------------------------------------
  // Refresh

  /** What a refresh answers: the status and, on success, the account the
      new tokens are issued for. */
  datatype Refreshed = Refreshed(code: nat, user: Option<nat>)

  /** `TokenRefreshView.post`: 400 without a token; 401 when it does not
      verify (or verifies to an empty payload), when `token_type` is not
      "refresh", or when no account has the payload's `user_id`; a payload
      without `user_id`, or with one the ORM cannot read, raises (500). */
  function Refresh(st: Accounts, token: JVal, decoded: map<string, map<string, JVal>>): (r: Refreshed)
    ensures r.code == 400 <==> !Truthy(token)
    ensures r.code == 200 <==> (Truthy(token) && token.JStr? && token.s in decoded
      && Get(decoded[token.s], "token_type") == JStr("refresh")
      && "user_id" in decoded[token.s]
      && CoerceId(decoded[token.s]["user_id"]).LookupId?
      && CoerceId(decoded[token.s]["user_id"]).id >= 0
      && UserIdTaken(st.users, CoerceId(decoded[token.s]["user_id"]).id as nat))
    ensures r.code == 200 ==> r.user == Some(CoerceId(decoded[token.s]["user_id"]).id as nat)
    ensures r.code != 200 ==> r.user.None?
    ensures r.code in {200, 400, 401, 500}
  {
    if !Truthy(token) then Refreshed(400, None)
    else if !token.JStr? || token.s !in decoded || |decoded[token.s]| == 0 then Refreshed(401, None)
    else
      var payload := decoded[token.s];
      if Get(payload, "token_type") != JStr("refresh") then Refreshed(401, None)
      else if "user_id" !in payload then Refreshed(500, None)
      else match CoerceId(payload["user_id"])
        case LookupRaises => Refreshed(500, None)
        case NoRowMatches => Refreshed(401, None)
        case LookupId(n) =>
          if n >= 0 && UserIdTaken(st.users, n as nat) then Refreshed(200, Some(n as nat)) else Refreshed(401, None)
  }

  /** An access token can never be used to refresh. */
  lemma AccessTokenCannotRefresh(st: Accounts, token: string, decoded: map<string, map<string, JVal>>, a: Account)
    requires token != "" && token in decoded && decoded[token] == AccessClaims(a)
    ensures Refresh(st, JStr(token), decoded).code == 401
  {
  }

  /** The refresh token a successful login issues refreshes for the same
      account, as long as the account still exists. */
  lemma LoginThenRefresh(st: Accounts, email: Option<string>, password: Option<string>, userType: Option<Option<string>>,
                         token: string, decoded: map<string, map<string, JVal>>)
    requires Login(st, email, password, userType).code == 200
    requires token != "" && token in decoded && decoded[token] == Login(st, email, password, userType).tokens.value.1
    ensures Refresh(st, JStr(token), decoded) == Refreshed(200, Some(Authenticate(st.users, st.passwords, email.value, password.value).value.id))
  {
    var a := Authenticate(st.users, st.passwords, email.value, password.value).value;
    var i :| 0 <= i < |st.users| && st.users[i] == a;
    assert UserIdTaken(st.users, a.id);
  }
}

=== FILE: auth_forms.dfy ===
/** The sign-up, sign-in and password-reset forms of the web client: which
    input each accepts, which message each field shows, and what an accepted
    form sends or does. The sign-up and sign-in forms validate trimmed values
    field by field and show each field's first problem; whether a string is a
    well-formed e-mail address is a parameter. */
module AuthForms {
  import opened Wrappers
  import opened Text
  import RoleGuard

  datatype Field = Username | Email | Password | ConfirmPassword | AgreeToTerms

  /** One validation problem, attached to a form field. */
  datatype Issue = Issue(field: Field, message: string)

  /** A field's problems in the order they are checked, on its trimmed
      value: the required check and, when `extra` is given, one more. */
  function Required(field: Field, value: string, missing: string, extra: Option<string>): (r: seq<Issue>)
    ensures forall i :: 0 <= i < |r| ==> r[i].field == field
    ensures r == [] <==> value != "" && extra.None?
    ensures value == "" ==> r[0].message == missing
  {
    (if value == "" then [Issue(field, missing)] else [])
      + (if extra.Some? then [Issue(field, extra.value)] else [])
  }

  /** The message a field shows: its first problem. */
  function FirstError(issues: seq<Issue>, field: Field): (r: Option<string>)
    ensures r.None? <==> forall i :: 0 <= i < |issues| ==> issues[i].field != field
    ensures r.Some? ==> exists i :: 0 <= i < |issues| && issues[i] == Issue(field, r.value)
  {
    if issues == [] then None
    else if issues[0].field == field then Some(issues[0].message)
    else
      var rest := FirstError(issues[1..], field);
      assert forall i :: 1 <= i < |issues| ==> issues[i] == issues[1..][i - 1];
      rest
  }

  predicate NoneFor(issues: seq<Issue>, field: Field) {
    forall i :: 0 <= i < |issues| ==> issues[i].field != field
  }

  /** Problems of other fields in front do not change a field's message. */
  lemma {:induction false} FirstErrorSkips(a: seq<Issue>, b: seq<Issue>, field: Field)
    requires NoneFor(a, field)
    ensures FirstError(a + b, field) == FirstError(b, field)
    decreases |a|
  {
    if a == [] {
      assert a + b == b;
    } else {
      assert (a + b)[1..] == a[1..] + b;
      assert (a + b)[0] == a[0];
      FirstErrorSkips(a[1..], b, field);
    }
  }

  /** A field's message comes from the first part holding one of its
      problems. */
  lemma {:induction false} FirstErrorKeeps(a: seq<Issue>, b: seq<Issue>, field: Field)
    requires FirstError(a, field).Some?
    ensures FirstError(a + b, field) == FirstError(a, field)
    decreases |a|
  {
    assert (a + b)[0] == a[0];
    if a[0].field != field {
      assert (a + b)[1..] == a[1..] + b;
      FirstErrorKeeps(a[1..], b, field);
    }
  }

  // ---------------------------------------------------------------------------
  // Sign-up

  datatype RegisterForm = RegisterForm(username: string, email: string, password: string,
                                       confirmPassword: string, agreeToTerms: bool)

  /** The checks below run on trimmed values, as the form's schema trims
      every text field before checking it. */
  function EmailIssues(email: string, isEmail: string -> bool): (r: seq<Issue>)
    ensures r == [] <==> email != "" && isEmail(email)
    ensures forall i :: 0 <= i < |r| ==> r[i].field == Email
  {
    Required(Email, email, "Please enter your email", if isEmail(email) then None else Some("Invalid email address"))
  }

  /** The password's problems: missing, or shorter than `min`. */
  function PasswordIssues(password: string, min: nat): (r: seq<Issue>)
    ensures r == [] <==> |password| >= min && password != ""
    ensures forall i :: 0 <= i < |r| ==> r[i].field == Password
    ensures password == "" ==> r[0].message == "Please enter your password"
  {
    Required(Password, password, "Please enter your password",
             if |password| < min then Some("Password must be at least " + NatToString(min) + " characters long") else None)
  }

  /** The refinement over the whole form: the entries must agree, else the
      problem is reported under `confirmPassword`. */
  function MatchIssues(password: string, confirmPassword: string): (r: seq<Issue>)
    ensures r == [] <==> password == confirmPassword
    ensures r != [] ==> r == [Issue(ConfirmPassword, "Passwords do not match")]
  {
    if password == confirmPassword then [] else [Issue(ConfirmPassword, "Passwords do not match")]
  }

  function TermsIssues(agreeToTerms: bool): (r: seq<Issue>)
    ensures r == [] <==> agreeToTerms
    ensures forall i :: 0 <= i < |r| ==> r[i].field == AgreeToTerms
  {
    if agreeToTerms then [] else [Issue(AgreeToTerms, "You must agree to the terms and conditions")]
  }

  function Trimmed(f: RegisterForm): RegisterForm {
    RegisterForm(Trim(f.username), Trim(f.email), Trim(f.password), Trim(f.confirmPassword), f.agreeToTerms)
  }

  /** The problems ahead of the password's: the username's and the
      e-mail's. */
  function BeforePassword(t: RegisterForm, isEmail: string -> bool): (r: seq<Issue>)
    ensures NoneFor(r, Password)
  {
    var a, b := Required(Username, t.username, "Please enter your username", None), EmailIssues(t.email, isEmail);
    assert forall i :: 0 <= i < |a + b| ==> (a + b)[i].field != Password by {
      forall i | 0 <= i < |a + b|
        ensures (a + b)[i].field != Password
      {
        if i < |a| {
          assert (a + b)[i] == a[i];
        } else {
          assert (a + b)[i] == b[i - |a|];
        }
      }
    }
    a + b
  }

  /** The problems after the password's, the mismatch last. */
  function AfterPassword(t: RegisterForm): (r: seq<Issue>)
    ensures NoneFor(r, Password)
    ensures t.password != t.confirmPassword ==> |r| > 0 && r[|r| - 1] == Issue(ConfirmPassword, "Passwords do not match")
  {
    var d, e := Required(ConfirmPassword, t.confirmPassword, "Please confirm your password", None), TermsIssues(t.agreeToTerms);
    var g := MatchIssues(t.password, t.confirmPassword);
    assert forall i :: 0 <= i < |d + e| ==> (d + e)[i].field != Password by {
      forall i | 0 <= i < |d + e|
        ensures (d + e)[i].field != Password
      {
        if i < |d| {
          assert (d + e)[i] == d[i];
        } else {
          assert (d + e)[i] == e[i - |d|];
        }
      }
    }
    d + e + g
  }

  /** Every problem of a trimmed sign-up form: the five fields in order,
      then the mismatch of the two passwords. */
  function SignupIssues(t: RegisterForm, isEmail: string -> bool): (r: seq<Issue>)
    ensures |r| == 0 <==> && t.username != "" && t.email != "" && isEmail(t.email)
                          && |t.password| >= 8 && t.agreeToTerms && t.password == t.confirmPassword
  {
    var ab, c, rest := BeforePassword(t, isEmail), PasswordIssues(t.password, 8), AfterPassword(t);
    assert |ab + (c + rest)| == |ab| + |c| + |rest|;
    ab + (c + rest)
  }

  /** The sign-up form's problems, checked on its trimmed values. */
  function RegisterIssues(f: RegisterForm, isEmail: string -> bool): (r: seq<Issue>)
    ensures |r| == 0 <==> && Trim(f.username) != "" && Trim(f.email) != "" && isEmail(Trim(f.email))
                          && |Trim(f.password)| >= 8 && f.agreeToTerms
                          && Trim(f.password) == Trim(f.confirmPassword)
  {
    SignupIssues(Trimmed(f), isEmail)
  }

  lemma SignupMismatch(t: RegisterForm, isEmail: string -> bool)
    requires |t.password| >= 8 && t.password != t.confirmPassword
    ensures FirstError(SignupIssues(t, isEmail), Password).None?
    ensures var r := SignupIssues(t, isEmail); |r| > 0 && r[|r| - 1] == Issue(ConfirmPassword, "Passwords do not match")
  {
    var ab, rest := BeforePassword(t, isEmail), AfterPassword(t);
    LongPasswordShape(t, isEmail);
    FirstErrorSkips(ab, rest, Password);
    LastOfConcat(ab, rest);
  }

  /** With a long enough password the password rule adds nothing between
      the earlier and the later fields' problems. */
  lemma LongPasswordShape(t: RegisterForm, isEmail: string -> bool)
    requires |t.password| >= 8
    ensures SignupIssues(t, isEmail) == BeforePassword(t, isEmail) + AfterPassword(t)
  {
    assert PasswordIssues(t.password, 8) == [];
  }

  lemma LastOfConcat(a: seq<Issue>, b: seq<Issue>)
    requires |b| > 0
    ensures (a + b)[|a + b| - 1] == b[|b| - 1]
  {
  }

  /** A long enough password that the confirmation does not repeat leaves
      the password field clean and marks the confirmation field, as the
      form's last problem. */
  lemma MismatchMarksConfirmation(f: RegisterForm, isEmail: string -> bool)
    requires |Trim(f.password)| >= 8 && Trim(f.password) != Trim(f.confirmPassword)
    ensures FirstError(RegisterIssues(f, isEmail), Password).None?
    ensures var r := RegisterIssues(f, isEmail); |r| > 0 && r[|r| - 1] == Issue(ConfirmPassword, "Passwords do not match")
  {
    SignupMismatch(Trimmed(f), isEmail);
  }

  /** A password of spaces only is reported as missing. */
  lemma BlankPasswordMissing(f: RegisterForm, isEmail: string -> bool)
    requires Trim(f.password) == ""
    ensures FirstError(RegisterIssues(f, isEmail), Password) == Some("Please enter your password")
  {
    var t := Trimmed(f);
    var ab, c, rest := BeforePassword(t, isEmail), PasswordIssues(t.password, 8), AfterPassword(t);
    FirstErrorSkips(ab, c + rest, Password);
    assert (c + rest)[0] == c[0];
  }

  datatype Role = Candidate | Instructor

  datatype RegisterRequest = RegisterRequest(endpoint: string, username: string, password: string, email: string)

  /** An accepted sign-up posts the trimmed values to the student or staff
      endpoint of the chosen tab; any problem keeps the form unsent. */
  function Register(f: RegisterForm, tab: Role, isEmail: string -> bool): (r: Option<RegisterRequest>)
    ensures r.Some? <==> RegisterIssues(f, isEmail) == []
    ensures r.Some? ==> r.value.endpoint == (if tab == Candidate then "/auth/register/student/" else "/auth/register/staff/")
    ensures r.Some? ==> r.value.username == Trim(f.username) && r.value.password == Trim(f.password) && r.value.email == Trim(f.email)
  {
    if RegisterIssues(f, isEmail) == [] then
      Some(RegisterRequest(if tab == Candidate then "/auth/register/student/" else "/auth/register/staff/",
                           Trim(f.username), Trim(f.password), Trim(f.email)))
    else None
  }

  // ---------------------------------------------------------------------------
  // Sign-in

  datatype LoginForm = LoginForm(email: string, password: string)

  function LoginIssues(f: LoginForm, isEmail: string -> bool): (r: seq<Issue>)
    ensures r == [] <==> Trim(f.email) != "" && isEmail(Trim(f.email)) && |Trim(f.password)| >= 7
  {
    EmailIssues(Trim(f.email), isEmail) + PasswordIssues(Trim(f.password), 7)
  }

  /** A seven-character password signs in but cannot sign up. */
  lemma SignInAcceptsShorterPassword(email: string, password: string, isEmail: string -> bool)
    requires Trim(email) != "" && isEmail(Trim(email)) && |Trim(password)| == 7
    ensures LoginIssues(LoginForm(email, password), isEmail) == []
    ensures forall username, agree :: RegisterIssues(RegisterForm(username, email, password, password, agree), isEmail) != []
  {
  }

  datatype LoginRequest = LoginRequest(email: string, password: string, userType: string)

  function Login(f: LoginForm, tab: Role, isEmail: string -> bool): (r: Option<LoginRequest>)
    ensures r.Some? <==> LoginIssues(f, isEmail) == []
    ensures r.Some? ==> r.value.userType == (if tab == Candidate then "student" else "staff")
    ensures r.Some? ==> r.value.email == Trim(f.email) && r.value.password == Trim(f.password)
  {
    if LoginIssues(f, isEmail) == [] then
      Some(LoginRequest(Trim(f.email), Trim(f.password), if tab == Candidate then "student" else "staff"))
    else None
  }

  /** The reply's user record; `None` is a missing or null field. */
  datatype ReplyUser = ReplyUser(email: Option<string>, username: Option<string>, userType: Option<string>,
                                 staffId: Option<string>)

  datatype LoginReply = LoginReply(user: ReplyUser, accessToken: Option<string>)

  datatype StoredUser = StoredUser(email: Option<string>, username: Option<string>, role: Option<string>,
                                   staffId: Option<string>, token: Option<string>)

  /** What the session store keeps: the role the server reports, whatever
      tab was used, and the access token. */
  function StoredAfterLogin(reply: LoginReply): (u: StoredUser)
    ensures u.role == reply.user.userType && u.token == reply.accessToken
    ensures u.email == reply.user.email && u.username == reply.user.username && u.staffId == reply.user.staffId
  {
    StoredUser(reply.user.email, reply.user.username, reply.user.userType, reply.user.staffId, reply.accessToken)
  }

  /** Where a successful sign-in goes: staff to the instructor dashboard,
      students to the candidate dashboard, anyone else nowhere. */
  function LandingPage(reply: LoginReply): (r: Option<string>)
    ensures r.Some? <==> reply.user.userType == Some("staff") || reply.user.userType == Some("student")
  {
    match reply.user.userType
    case Some(t) => if t == "staff" then Some("/dashboard/instructor") else if t == "student" then Some("/dashboard/candidate") else None
    case None => None
  }

  /** The landing page is the dashboard the role guard sends the same user
      to from a page of the other role, so the two never disagree. */
  lemma LandingAgreesWithGuard(reply: LoginReply, redirectTo: string)
    requires LandingPage(reply).Some?
    requires reply.accessToken.Some? && reply.accessToken.value != ""
    ensures var u := StoredAfterLogin(reply);
      LandingPage(reply).value == RoleGuard.Elsewhere(Some(RoleGuard.GuardUser(u.role.value, u.token.value)), redirectTo)
  {
  }

  // ---------------------------------------------------------------------------
  // Password reset

  datatype ResetRun = ResetRun(error: string, proceeds: bool)

  /** `handleSubmit`: the previous error is cleared, then the untrimmed
      length is checked before the two entries are compared; only input
      passing both goes on to the success path. */
  function ResetSubmit(previousError: string, password: string, confirmPassword: string): (r: ResetRun)
    ensures r.proceeds <==> |password| >= 8 && password == confirmPassword
    ensures |password| < 8 ==> r.error == "Password must be at least 8 characters long"
    ensures |password| >= 8 && password != confirmPassword ==> r.error == "Passwords do not match"
    ensures r.proceeds ==> r.error == ""
  {
    var cleared := "";
    if |password| < 8 then ResetRun("Password must be at least 8 characters long", false)
    else if password != confirmPassword then ResetRun("Passwords do not match", false)
    else ResetRun(cleared, true)
  }

  /** The outcome of a submit does not depend on the error shown before. */
  lemma ResetForgetsPreviousError(e1: string, e2: string, password: string, confirmPassword: string)
    ensures ResetSubmit(e1, password, confirmPassword) == ResetSubmit(e2, password, confirmPassword)
  {
  }

  /** Unlike sign-up, the reset form does not trim: eight spaces pass it,
      while sign-up reports a missing password. */
  lemma ResetDoesNotTrim(username: string, email: string, isEmail: string -> bool)
    ensures ResetSubmit("", "        ", "        ").proceeds
    ensures FirstError(RegisterIssues(RegisterForm(username, email, "        ", "        ", true), isEmail), Password)
            == Some("Please enter your password")
  {
    var blank := "        ";
    assert AllSpace(blank);
    TrimEmptyIff(blank);
    BlankPasswordMissing(RegisterForm(username, email, "        ", "        ", true), isEmail);
  }
}

=== FILE: candidate_courses.dfy ===
/** The candidate's "My courses" page: the enrolled list (courses minus the
    completed ones), its search, category and status filters, and the
    category choices. The dashboard answer is a parameter. */
module CandidateCourses {
  import opened Text
  import opened Lists

  datatype MyCourse = MyCourse(id: int, title: string, description: string, category: string, completed: bool)

  /** What the dashboard answer holds; a missing list reads as empty. */
  datatype Dashboard = Dashboard(courses: seq<MyCourse>, favorites: seq<MyCourse>, completedCourses: seq<MyCourse>)

  predicate CompletedId(d: Dashboard, id: int) {
    exists i :: 0 <= i < |d.completedCourses| && d.completedCourses[i].id == id
  }

  function NotCompleted(d: Dashboard): MyCourse -> bool {
    (c: MyCourse) => !CompletedId(d, c.id)
  }

  /** `enrolledCourses`: my courses whose id is not among the completed
      courses', in order. */
  function Enrolled(d: Dashboard): (r: seq<MyCourse>)
    ensures forall c :: c in r <==> c in d.courses && !CompletedId(d, c.id)
  {
    Where(d.courses, NotCompleted(d))
  }

  datatype CourseFilters = CourseFilters(query: string, category: string, status: string)

  /** The three filters: the lower-cased query in the lower-cased title or
      description (an empty query keeps everything), the category unless
      "all", and the status unless "all", where only "completed" asks for
      completed courses. */
  predicate Keeps(f: CourseFilters, c: MyCourse) {
    && (f.query == "" || Contains(Lower(c.title), Lower(f.query)) || Contains(Lower(c.description), Lower(f.query)))
    && (f.category == "all" || c.category == f.category)
    && (f.status == "all" || c.completed == (f.status == "completed"))
  }

  function KeptBy(f: CourseFilters): MyCourse -> bool {
    (c: MyCourse) => Keeps(f, c)
  }

  /** `filteredCourses`. */
  function Shown(d: Dashboard, f: CourseFilters): (r: seq<MyCourse>)
    ensures forall c :: c in r <==> c in Enrolled(d) && Keeps(f, c)
  {
    Where(Enrolled(d), KeptBy(f))
  }

  /** Every status other than "all" and "completed" means "not completed":
      "in-progress" and "not-started" show the same list. */
  lemma InProgressSameAsNotStarted(d: Dashboard, query: string, category: string)
    ensures Shown(d, CourseFilters(query, category, "in-progress")) == Shown(d, CourseFilters(query, category, "not-started"))
  {
    WhereSame(Enrolled(d), KeptBy(CourseFilters(query, category, "in-progress")),
              KeptBy(CourseFilters(query, category, "not-started")));
  }

  /** A course listed as completed never shows as enrolled, whatever the
      filters. */
  lemma CompletedNeverEnrolled(d: Dashboard, f: CourseFilters, c: MyCourse)
    requires c in d.completedCourses
    ensures forall e :: e in Shown(d, f) ==> e.id != c.id
  {
    var k :| 0 <= k < |d.completedCourses| && d.completedCourses[k] == c;
    assert CompletedId(d, c.id);
  }

  /** The category choices: "all" and then each category of all my courses
      (completed ones included) once, in first-occurrence order. */
  function CategoryChoices(d: Dashboard): (r: seq<string>)
    ensures |r| >= 1 && r[0] == "all"
    ensures forall x :: x in r[1..] <==> exists i :: 0 <= i < |d.courses| && d.courses[i].category == x
    ensures NoDuplicates(r[1..])
  {
    var r := ["all"] + Dedup(Map(d.courses, (c: MyCourse) => c.category));
    assert r[1..] == Dedup(Map(d.courses, (c: MyCourse) => c.category));
    r
  }

  /** The tab captions: enrolled, saved and completed counts, taken before
      any filter. */
  datatype Captions = Captions(enrolled: nat, saved: nat, completed: nat)

  function TabCaptions(d: Dashboard): (r: Captions)
    ensures r.enrolled <= |d.courses|
    ensures r.enrolled == |Enrolled(d)|
  {
    Captions(|Enrolled(d)|, |d.favorites|, |d.completedCourses|)
  }

  /** The enrolled caption ignores the filters: it never falls below the
      number of courses shown. */
  lemma CaptionCountsUnfiltered(d: Dashboard, f: CourseFilters)
    ensures |Shown(d, f)| <= TabCaptions(d).enrolled
  {
  }
}

=== FILE: catalog.dfy ===
/** The course catalogue records (`Course`, `Section`, `Lesson`,
    `Requirement`, `LearningObjective`, `Enrollment`, `LessonProgress`): their
    defaults, the flattened lesson list, the rating shown, and the two
    uniqueness constraints, which the model builds into the types (a set of
    pairs, a map keyed by pairs). Sections and lessons are read back with
    `order_by('order')`: `InOrder` arranges a curriculum that way, and the
    operations that write one return it so arranged. */
module Catalog {
  import opened Wrappers
  import opened Durations

  datatype Lesson = Lesson(
    id: nat, title: string, kind: string, duration: Option<string>,
    content: Option<string>, video: Option<string>, isPublished: bool, order: nat)

  datatype Section = Section(id: nat, title: string, order: nat, lessons: seq<Lesson>)

  /** A requirement or a learning objective. */
  datatype Item = Item(id: nat, text: string, order: nat)

  datatype Course = Course(
    id: nat, title: string, description: string, instructor: nat,
    level: string, category: Option<string>,
    isPublished: bool, isFeatured: bool, isActive: bool,
    rating: real, ratingCount: nat, language: string,
    shortDescription: Option<string>, createdAt: int,
    sections: seq<Section>, requirements: seq<Item>, objectives: seq<Item>)

  /** A course as first saved: unpublished, not featured, active, unrated,
      for all levels, in English, with no curriculum yet. */
  function NewCourse(id: nat, title: string, description: string, instructor: nat, createdAt: int): (c: Course)
    ensures c.id == id && c.title == title && c.description == description && c.instructor == instructor
    ensures c.level == "all_levels" && c.language == "English"
    ensures !c.isPublished && !c.isFeatured && c.isActive
    ensures c.rating == 0.0 && c.ratingCount == 0
    ensures c.sections == [] && c.requirements == [] && c.objectives == []
  {
    Course(id, title, description, instructor, "all_levels", None, false, false, true,
           0.0, 0, "English", None, createdAt, [], [], [])
  }

  /** A lesson as first saved: a video lesson, unpublished, at order 0. */
  function NewLesson(id: nat, title: string): (l: Lesson)
    ensures l.id == id && l.title == title
    ensures l.kind == "video" && !l.isPublished && l.order == 0
    ensures l.duration == None && l.content == None && l.video == None
  {
    Lesson(id, title, "video", None, None, None, false, 0)
  }

  /** The lessons of all sections, section by section, each section's in
      its own order. */
  function Flatten(sections: seq<Section>): (r: seq<Lesson>)
    ensures forall l :: l in r <==> exists i :: 0 <= i < |sections| && l in sections[i].lessons
  {
    if |sections| == 0 then []
    else
      var init := sections[..|sections| - 1];
      assert forall i :: 0 <= i < |init| ==> init[i] == sections[i];
      Flatten(init) + sections[|sections| - 1].lessons
  }

  /** Flattening distributes over concatenated section lists. */
  lemma {:induction false} FlattenAppend(a: seq<Section>, b: seq<Section>)
    ensures Flatten(a + b) == Flatten(a) + Flatten(b)
    decreases |b|
  {
    if |b| == 0 {
      assert a + b == a;
    } else {
      assert (a + b)[..|a + b| - 1] == a + b[..|b| - 1];
      FlattenAppend(a, b[..|b| - 1]);
    }
  }

  function AllLessons(c: Course): seq<Lesson> {
    Flatten(c.sections)
  }

  /** `Course.total_lessons`: every lesson of every section, unpublished included. */
  function TotalLessons(c: Course): nat {
    |AllLessons(c)|
  }

  /** `Course.total_duration` over the course's lessons. */
  function CourseDuration(c: Course): string {
    TotalDuration(LessonDurations(AllLessons(c)))
  }

  function LessonDurations(ls: seq<Lesson>): (r: seq<Option<string>>)
    ensures |r| == |ls| && forall i :: 0 <= i < |ls| ==> r[i] == ls[i].duration
  {
    seq(|ls|, i requires 0 <= i < |ls| => ls[i].duration)
  }

  /** Lesson ids are unique across the course (they are primary keys). */
  predicate UniqueLessonIds(c: Course) {
    var ls := AllLessons(c);
    forall i, j :: 0 <= i < j < |ls| ==> ls[i].id != ls[j].id
  }

  /** `Course.average_rating`: the stored rating once someone has rated the
      course, otherwise 0. */
  function AverageRating(c: Course): (r: real)
    ensures c.ratingCount == 0 ==> r == 0.0
    ensures c.ratingCount > 0 ==> r == c.rating
  {
    if c.ratingCount > 0 then c.rating else 0.0
  }

  /** Until someone rates the course, the stored rating is not shown at all. */
  lemma UnratedIgnoresStoredRating(c: Course, other: real)
    requires c.ratingCount == 0
    ensures AverageRating(c) == AverageRating(c.(rating := other)) == 0.0
  {
  }

  // ---------------------------------------------------------------------------
  // Read-back order (`Meta.ordering = ['order']`)

  /** Non-decreasing in `key`: each element's key is at most the next one's. */
  predicate Ascending<T>(xs: seq<T>, key: T -> nat) {
    |xs| <= 1 || (key(xs[0]) <= key(xs[1]) && Ascending(xs[1..], key))
  }

  /** Ascending means every earlier key is at most every later one. */
  lemma {:induction false} AscendingPairs<T>(xs: seq<T>, key: T -> nat, i: nat, j: nat)
    requires Ascending(xs, key) && i < j < |xs|
    ensures key(xs[i]) <= key(xs[j])
    decreases j
  {
    if i + 1 < j {
      AscendingPairs(xs, key, i, j - 1);
      AscendingStep(xs, key, j - 1);
    } else {
      AscendingStep(xs, key, i);
    }
  }

  /** Each key of an ascending list is at most the next one. */
  lemma {:induction false} AscendingStep<T>(xs: seq<T>, key: T -> nat, i: nat)
    requires Ascending(xs, key) && i + 1 < |xs|
    ensures key(xs[i]) <= key(xs[i + 1])
  {
    if i > 0 {
      AscendingStep(xs[1..], key, i - 1);
    }
  }

  /** `x` put into an ascending list after the elements with smaller keys
      and ahead of the rest. */
  function InsertByKey<T>(x: T, xs: seq<T>, key: T -> nat): (r: seq<T>)
    requires Ascending(xs, key)
    ensures Ascending(r, key)
    ensures |r| == |xs| + 1 && (r[0] == x || (|xs| > 0 && r[0] == xs[0]))
  {
    if |xs| == 0 then [x]
    else if key(x) <= key(xs[0]) then
      assert ([x] + xs)[1..] == xs;
      [x] + xs
    else
      var rest := InsertByKey(x, xs[1..], key);
      assert xs == [xs[0]] + xs[1..];
      assert ([xs[0]] + rest)[1..] == rest;
      [xs[0]] + rest
  }

  /** A stable sort by `key`: the same elements, ascending. */
  function SortByKey<T>(xs: seq<T>, key: T -> nat): (r: seq<T>)
    ensures Ascending(r, key) && |r| == |xs|
  {
    if |xs| == 0 then []
    else
      assert xs == [xs[0]] + xs[1..];
      InsertByKey(xs[0], SortByKey(xs[1..], key), key)
  }

  /** Inserting adds exactly `x`. */
  lemma {:induction false} InsertCounts<T>(x: T, xs: seq<T>, key: T -> nat)
    requires Ascending(xs, key)
    ensures multiset(InsertByKey(x, xs, key)) == multiset(xs) + multiset{x}
  {
    if |xs| > 0 && key(xs[0]) < key(x) {
      var head, tail := xs[0], xs[1..];
      var rest := InsertByKey(x, tail, key);
      InsertCounts(x, tail, key);
      assert InsertByKey(x, xs, key) == [head] + rest;
      assert multiset([head] + rest) == multiset{head} + multiset(rest);
      assert xs == [head] + tail;
      assert multiset(xs) == multiset{head} + multiset(tail);
    } else if |xs| > 0 {
      assert InsertByKey(x, xs, key) == [x] + xs;
    }
  }

  /** The sort is a permutation: the same elements, as often as before. */
  lemma {:induction false} SortPermutes<T>(xs: seq<T>, key: T -> nat)
    ensures multiset(SortByKey(xs, key)) == multiset(xs)
  {
    if |xs| > 0 {
      SortPermutes(xs[1..], key);
      InsertCounts(xs[0], SortByKey(xs[1..], key), key);
      assert xs == [xs[0]] + xs[1..];
    }
  }

  /** The sort keeps exactly the elements it was given. */
  lemma SortKeepsMembers<T>(xs: seq<T>, key: T -> nat)
    ensures forall y :: y in SortByKey(xs, key) <==> y in xs
  {
    SortPermutes(xs, key);
    forall y ensures y in SortByKey(xs, key) <==> y in xs {
      assert y in SortByKey(xs, key) <==> y in multiset(SortByKey(xs, key));
      assert y in xs <==> y in multiset(xs);
    }
  }

  /** A list already in order is read back as it is. */
  lemma {:induction false} SortKeepsAscending<T>(xs: seq<T>, key: T -> nat)
    requires Ascending(xs, key)
    ensures SortByKey(xs, key) == xs
  {
    if |xs| > 0 {
      var rest := xs[1..];
      assert Ascending(rest, key);
      SortKeepsAscending(rest, key);
      assert xs == [xs[0]] + rest;
    }
  }

  /** The elements whose key is `k`, in order. */
  function WithKey<T>(xs: seq<T>, key: T -> nat, k: nat): seq<T> {
    if |xs| == 0 then []
    else (if key(xs[0]) == k then [xs[0]] else []) + WithKey(xs[1..], key, k)
  }

  /** Picking from a list with a given head: the head if it has the key,
      then the picks from the rest. */
  lemma WithKeyCons<T>(y: T, ys: seq<T>, key: T -> nat, k: nat)
    ensures WithKey([y], key, k) == (if key(y) == k then [y] else [])
    ensures WithKey([y] + ys, key, k) == WithKey([y], key, k) + WithKey(ys, key, k)
  {
    assert [y][1..] == [];
    assert ([y] + ys)[1..] == ys;
  }

  /** Inserting keeps the elements of one key in the order they arrive:
      `x` first, then those already there. */
  lemma {:induction false} InsertWithKey<T>(x: T, xs: seq<T>, key: T -> nat, k: nat)
    requires Ascending(xs, key)
    ensures WithKey(InsertByKey(x, xs, key), key, k) == WithKey([x], key, k) + WithKey(xs, key, k)
  {
    WithKeyCons(x, xs, key, k);
    if |xs| > 0 && key(xs[0]) < key(x) {
      var head, tail := xs[0], xs[1..];
      var rest := InsertByKey(x, tail, key);
      assert InsertByKey(x, xs, key) == [head] + rest;
      assert xs == [head] + tail;
      InsertWithKey(x, tail, key, k);
      WithKeyCons(head, rest, key, k);
      WithKeyCons(head, tail, key, k);
    }
  }

  /** The sort is stable: the elements of any one key come out in the
      order they went in. */
  lemma {:induction false} SortStable<T>(xs: seq<T>, key: T -> nat, k: nat)
    ensures WithKey(SortByKey(xs, key), key, k) == WithKey(xs, key, k)
  {
    if |xs| > 0 {
      SortStable(xs[1..], key, k);
      InsertWithKey(xs[0], SortByKey(xs[1..], key), key, k);
      assert xs == [xs[0]] + xs[1..];
      WithKeyCons(xs[0], xs[1..], key, k);
    }
  }

  function SectionKey(s: Section): nat {
    s.order
  }

  function LessonKey(l: Lesson): nat {
    l.order
  }

  /** Sections ascending by `order`, and each section's lessons too. */
  predicate Ordered(ss: seq<Section>) {
    && Ascending(ss, SectionKey)
    && forall i :: 0 <= i < |ss| ==> Ascending(ss[i].lessons, LessonKey)
  }

  /** A section with its lessons in read-back order. */
  function LessonsInOrder(s: Section): (r: Section)
    ensures r.id == s.id && r.title == s.title && r.order == s.order
    ensures Ascending(r.lessons, LessonKey) && multiset(r.lessons) == multiset(s.lessons)
    ensures |r.lessons| == |s.lessons|
  {
    SortPermutes(s.lessons, LessonKey);
    s.(lessons := SortByKey(s.lessons, LessonKey))
  }

  function EachInOrder(ss: seq<Section>): (r: seq<Section>)
    ensures |r| == |ss| && forall i :: 0 <= i < |ss| ==> r[i] == LessonsInOrder(ss[i])
  {
    seq(|ss|, i requires 0 <= i < |ss| => LessonsInOrder(ss[i]))
  }

  lemma EachInOrderMembers(ss: seq<Section>)
    ensures forall s :: s in EachInOrder(ss) <==> exists i :: 0 <= i < |ss| && s == LessonsInOrder(ss[i])
  {
    var each := EachInOrder(ss);
    forall s | s in each ensures exists i :: 0 <= i < |ss| && s == LessonsInOrder(ss[i]) {
      var i :| 0 <= i < |each| && each[i] == s;
    }
  }

  /** A curriculum as `order_by('order')` reads it back: the sections by
      `order`, each with its lessons by `order`. Rows of equal `order` keep
      the order they had. */
  function InOrder(ss: seq<Section>): (r: seq<Section>)
    ensures Ordered(r) && |r| == |ss|
    ensures forall s :: s in r <==> exists i :: 0 <= i < |ss| && s == LessonsInOrder(ss[i])
  {
    var each := EachInOrder(ss);
    var r := SortByKey(each, SectionKey);
    SortKeepsMembers(each, SectionKey);
    EachInOrderMembers(ss);
    forall i | 0 <= i < |r| ensures Ascending(r[i].lessons, LessonKey) {
      assert r[i] in r;
    }
    r
  }

  /** Every section of the curriculum is read back, with its lessons in order. */
  lemma InOrderHas(ss: seq<Section>, i: nat)
    requires i < |ss|
    ensures LessonsInOrder(ss[i]) in InOrder(ss)
  {
    var r, s := InOrder(ss), LessonsInOrder(ss[i]);
    assert exists j :: 0 <= j < |ss| && s == LessonsInOrder(ss[j]);
  }

  /** A curriculum already in read-back order is unchanged by it. */
  lemma InOrderKeepsOrdered(ss: seq<Section>)
    requires Ordered(ss)
    ensures InOrder(ss) == ss
  {
    var each := EachInOrder(ss);
    forall i | 0 <= i < |ss| ensures each[i] == ss[i] {
      SortKeepsAscending(ss[i].lessons, LessonKey);
    }
    assert each == ss;
    SortKeepsAscending(ss, SectionKey);
  }

  // ---------------------------------------------------------------------------
  // Enrollment: unique per (course, student)

  /** Enrollment rows as (course, student) pairs; being a set makes the pair
      unique, as `unique_together` demands. */
  type Enrollments = set<(nat, nat)>

  predicate Enrolled(e: Enrollments, course: nat, student: nat) {
    (course, student) in e
  }

  /** `Enrollment.objects.get_or_create(course, student)`: the pair is present
      afterwards, `created` is true iff it was absent, nothing else changes. */
  function GetOrCreateEnrollment(e: Enrollments, course: nat, student: nat): (r: (Enrollments, bool))
    ensures Enrolled(r.0, course, student)
    ensures r.1 <==> !Enrolled(e, course, student)
    ensures forall p :: p != (course, student) ==> (p in r.0 <==> p in e)
    ensures e <= r.0 && |r.0| <= |e| + 1
  {
    if (course, student) in e then (e, false) else (e + {(course, student)}, true)
  }

  /** Creating the same enrollment again changes nothing and reports no creation. */
  lemma GetOrCreateIdempotent(e: Enrollments, course: nat, student: nat)
    ensures var once := GetOrCreateEnrollment(e, course, student).0;
      GetOrCreateEnrollment(once, course, student) == (once, false)
  {
  }

  // ---------------------------------------------------------------------------
  // Lesson progress: unique per (student, lesson)

  /** `LessonProgress` rows keyed by (student, lesson), holding `is_completed`. */
  type Progress = map<(nat, nat), bool>

  /** `LessonProgress.objects.update_or_create(student, lesson,
      defaults={'is_completed': v})`: exactly that row holds `v` afterwards,
      `created` is true iff it did not exist, other rows are unchanged. */
  function UpsertProgress(p: Progress, student: nat, lesson: nat, completed: bool): (r: (Progress, bool))
    ensures (student, lesson) in r.0 && r.0[(student, lesson)] == completed
    ensures r.1 <==> (student, lesson) !in p
    ensures r.0.Keys == p.Keys + {(student, lesson)}
    ensures forall k :: k in p && k != (student, lesson) ==> r.0[k] == p[k]
  {
    (p[(student, lesson) := completed], (student, lesson) !in p)
  }

  /** How many of the given lessons the student has completed. */
  function CountCompleted(ls: seq<Lesson>, p: Progress, student: nat): (n: nat)
    ensures n <= |ls|
  {
    if |ls| == 0 then 0
    else CountCompleted(ls[..|ls| - 1], p, student)
         + (if (student, ls[|ls| - 1].id) in p && p[(student, ls[|ls| - 1].id)] then 1 else 0)
  }

  /** The lessons that count towards a published total. */
  function PublishedLessons(ls: seq<Lesson>): (r: seq<Lesson>)
    ensures |r| <= |ls|
    ensures forall l :: l in r <==> l in ls && l.isPublished
  {
    if |ls| == 0 then []
    else PublishedLessons(ls[..|ls| - 1]) + (if ls[|ls| - 1].isPublished then [ls[|ls| - 1]] else [])
  }
}

=== FILE: certificates.dfy ===
/** The certificates page: the search over title, category and instructor,
    the completed and in-progress tabs, and their empty-state hints. */
module Certificates {
  import opened Text
  import opened Lists

  datatype Certificate = Certificate(title: string, category: string, instructor: string, status: string)

  /** The lower-cased query occurs in the lower-cased title, category or
      instructor. */
  predicate Matches(query: string, c: Certificate) {
    var q := Lower(query);
    Contains(Lower(c.title), q) || Contains(Lower(c.category), q) || Contains(Lower(c.instructor), q)
  }

  function MatchedBy(query: string): Certificate -> bool {
    (c: Certificate) => Matches(query, c)
  }

  function StatusIs(status: string): Certificate -> bool {
    (c: Certificate) => c.status == status
  }

  /** `filteredCertificates`. */
  function Found(cs: seq<Certificate>, query: string): (r: seq<Certificate>)
    ensures forall c :: c in r <==> c in cs && Matches(query, c)
  {
    Where(cs, MatchedBy(query))
  }

  /** A status tab: the matches with that status, in list order. */
  function Tab(cs: seq<Certificate>, query: string, status: string): (r: seq<Certificate>)
    ensures forall c :: c in r <==> c in cs && Matches(query, c) && c.status == status
  {
    Where(Found(cs, query), StatusIs(status))
  }

  /** The two tabs. */
  function CompletedTab(cs: seq<Certificate>, query: string): seq<Certificate> {
    Tab(cs, query, "completed")
  }

  function InProgressTab(cs: seq<Certificate>, query: string): seq<Certificate> {
    Tab(cs, query, "in-progress")
  }

  /** The tabs never share a certificate, and together they hold exactly the
      matches whose status is one of the two; any other status is shown
      nowhere. */
  lemma TabsPartitionMatches(cs: seq<Certificate>, query: string)
    ensures forall c :: !(c in CompletedTab(cs, query) && c in InProgressTab(cs, query))
    ensures forall c :: c in CompletedTab(cs, query) || c in InProgressTab(cs, query) <==>
      c in Found(cs, query) && (c.status == "completed" || c.status == "in-progress")
  {
  }

  /** The tabs keep the list's order: filtering a longer list extends each
      tab at the end. */
  lemma TabsKeepOrder(a: seq<Certificate>, b: seq<Certificate>, query: string)
    ensures CompletedTab(a + b, query) == CompletedTab(a, query) + CompletedTab(b, query)
    ensures InProgressTab(a + b, query) == InProgressTab(a, query) + InProgressTab(b, query)
  {
    WhereConcat(a, b, MatchedBy(query));
    WhereConcat(Found(a, query), Found(b, query), StatusIs("completed"));
    WhereConcat(Found(a, query), Found(b, query), StatusIs("in-progress"));
  }

  /** An empty query matches every certificate. */
  lemma EmptyQueryFindsAll(cs: seq<Certificate>)
    ensures Found(cs, "") == cs
  {
    forall i | 0 <= i < |cs|
      ensures Matches("", cs[i])
    {
      ContainsEmpty(Lower(cs[i].title));
    }
    WhereAll(cs, MatchedBy(""));
  }

  /** The hint under an empty tab: a search hint whenever a query is typed,
      else an invitation that differs per tab. */
  function EmptyHint(query: string, completedTab: bool): (r: string)
    ensures query != "" ==> r == "Try a different search term"
    ensures query == "" ==> r != "Try a different search term"
  {
    if query != "" then "Try a different search term"
    else if completedTab then "Complete courses to earn certificates"
    else "Enroll in courses to start earning certificates"
  }
}

=== FILE: challenge_board.dfy ===
/** The candidate's challenge board: the search, category and difficulty
    filters, the category choices, the totals at the top and the status
    tabs. The challenge list itself is a parameter. */
module ChallengeBoard {
  import opened Text
  import opened Lists

  datatype ChallengeCard = ChallengeCard(title: string, description: string, category: string,
                                         difficulty: string, status: string, points: int, tags: seq<string>)

  datatype BoardFilters = BoardFilters(query: string, category: string, difficulty: string)

  const NoFilters := BoardFilters("", "all", "all")

  /** The search keeps a challenge when the query is empty or occurs in the
      lower-cased title or description, or in a tag; tags are compared as
      written, against the lower-cased query. */
  predicate MatchesSearch(query: string, c: ChallengeCard) {
    var q := Lower(query);
    || query == ""
    || Contains(Lower(c.title), q)
    || Contains(Lower(c.description), q)
    || exists i :: 0 <= i < |c.tags| && Contains(c.tags[i], q)
  }

  /** All three filters must accept; "all" accepts every category or
      difficulty. */
  predicate Keeps(f: BoardFilters, c: ChallengeCard) {
    && MatchesSearch(f.query, c)
    && (f.category == "all" || c.category == f.category)
    && (f.difficulty == "all" || c.difficulty == f.difficulty)
  }

  /** The filters as a test on one challenge. */
  function KeptBy(f: BoardFilters): ChallengeCard -> bool {
    c => Keeps(f, c)
  }

  function StatusIs(status: string): ChallengeCard -> bool {
    (c: ChallengeCard) => c.status == status
  }

  /** `filteredChallenges`: the challenges every filter accepts, in list
      order. */
  function Shown(cs: seq<ChallengeCard>, f: BoardFilters): (r: seq<ChallengeCard>)
    ensures forall c :: c in r <==> c in cs && Keeps(f, c)
  {
    Where(cs, KeptBy(f))
  }

  /** A status tab: the filtered list narrowed to one status. */
  function Tab(cs: seq<ChallengeCard>, f: BoardFilters, status: string): seq<ChallengeCard> {
    Where(Shown(cs, f), StatusIs(status))
  }

  /** Passing the filters and having the status. */
  function InTab(f: BoardFilters, status: string): ChallengeCard -> bool {
    (c: ChallengeCard) => Keeps(f, c) && c.status == status
  }

  /** Each tab shows exactly the challenges that pass the filters and have
      its status, in list order. */
  lemma TabIsIntersection(cs: seq<ChallengeCard>, f: BoardFilters, status: string)
    ensures Tab(cs, f, status) == Where(cs, InTab(f, status))
  {
    WhereWhere(cs, KeptBy(f), StatusIs(status));
    WhereSame(cs, x => KeptBy(f)(x) && StatusIs(status)(x), InTab(f, status));
  }

  /** With no query and both selectors on "all", nothing is hidden. */
  lemma NoFiltersShowAll(cs: seq<ChallengeCard>)
    ensures Shown(cs, NoFilters) == cs
  {
    WhereAll(cs, KeptBy(NoFilters));
  }

  /** A challenge hidden by one of the selectors stays hidden whatever the
      search. */
  lemma SelectorsCombineConjunctively(cs: seq<ChallengeCard>, f: BoardFilters, c: ChallengeCard)
    requires f.category != "all" && c.category != f.category
    ensures c !in Shown(cs, f)
  {
  }

  /** Tags are searched without lower-casing: an upper-case tag never
      matches. */
  lemma TagsAreCaseSensitive()
    ensures !MatchesSearch("API", ChallengeCard("", "", "", "", "", 0, ["API"]))
  {
    var q := Lower("API");
    assert q == "api" by {
      assert q[0] == LowerChar('A') == 'a';
      assert q[1] == LowerChar('P') == 'p';
      assert q[2] == LowerChar('I') == 'i';
    }
    AbsentPair("API", "api", 0);
    AbsentPair(Lower(""), "api", 0);
  }

  /** The category selector's choices: "all" and then each category once,
      in the order it first appears. */
  function CategoryChoices(cs: seq<ChallengeCard>): (r: seq<string>)
    ensures |r| >= 1 && r[0] == "all"
    ensures forall x :: x in r[1..] <==> exists i :: 0 <= i < |cs| && cs[i].category == x
    ensures NoDuplicates(r[1..])
  {
    var r := ["all"] + Dedup(Map(cs, (c: ChallengeCard) => c.category));
    assert r[1..] == Dedup(Map(cs, (c: ChallengeCard) => c.category));
    r
  }

  predicate IsCompleted(c: ChallengeCard) {
    c.status == "completed"
  }

  predicate IsInProgress(c: ChallengeCard) {
    c.status == "in-progress"
  }

  function Points(c: ChallengeCard): int {
    c.points
  }

  /** A challenge's points when it is completed, else 0. */
  function CompletedPoints(c: ChallengeCard): int {
    if c.status == "completed" then c.points else 0
  }

  /** The totals at the top: completed and in-progress counts, and the
      points of completed challenges only. */
  datatype Totals = Totals(completed: nat, inProgress: nat, points: int)

  function BoardTotals(cs: seq<ChallengeCard>): (r: Totals)
    ensures r.completed + r.inProgress <= |cs|
  {
    var done := CountWhere(cs, IsCompleted);
    var going := CountWhere(cs, IsInProgress);
    assert done + going <= |cs| by {
      DisjointCounts(cs);
    }
    Totals(done, going,
           Sum(cs, CompletedPoints))
  }

  /** Completed and in-progress challenges never overlap, so their counts
      add up to at most the list. */
  lemma {:induction false} DisjointCounts(cs: seq<ChallengeCard>)
    ensures CountWhere(cs, IsCompleted) + CountWhere(cs, IsInProgress) <= |cs|
    decreases |cs|
  {
    if cs != [] {
      var init := cs[..|cs| - 1];
      DisjointCounts(init);
      assert cs == init + [cs[|cs| - 1]];
      CountConcat(init, [cs[|cs| - 1]], IsCompleted);
      CountConcat(init, [cs[|cs| - 1]], IsInProgress);
    }
  }

  /** The points total is the sum over the unfiltered "completed" tab, and
      the counts are the sizes of the unfiltered tabs. */
  lemma TotalsMatchTabs(cs: seq<ChallengeCard>)
    ensures BoardTotals(cs).points == Sum(Tab(cs, NoFilters, "completed"), Points)
    ensures BoardTotals(cs).completed == |Tab(cs, NoFilters, "completed")|
    ensures BoardTotals(cs).inProgress == |Tab(cs, NoFilters, "in-progress")|
  {
    NoFiltersShowAll(cs);
    WhereSame(cs, StatusIs("completed"), IsCompleted);
    WhereSame(cs, StatusIs("in-progress"), IsInProgress);
    assert Tab(cs, NoFilters, "completed") == Where(cs, IsCompleted);
    SumWhere(cs, IsCompleted, Points, CompletedPoints);
    assert BoardTotals(cs).points == Sum(cs, CompletedPoints);
  }
}

=== FILE: challenges.dfy ===
/** The coding-challenge runner, in its two copies (`challenges.tsx`, called
    `Primary` here, and `challanges.tsx`, called `Alternate`): the countdown
    and its "MM:SS" display, the JavaScript test rules that look at the code
    text, the HTML rules' fall-backs, the per-category dispatch and the
    completion button. What the browser computes — the parsed document, the
    user's `solution` function — is given as parameters. */
module Challenges {
  import opened Wrappers
  import opened Text
  import opened JsNumber
  import Durations

  datatype Runner = Primary | Alternate

  // ---------------------------------------------------------------------------
  // Clock

  /** Thirty minutes, in seconds. */
  const TimeLimit: int := 1800

  /** `formatTime`: whole minutes and the remaining seconds, each padded to
      two digits; identical in both copies. */
  function FormatTime(seconds: int): (r: string)
    ensures seconds >= 0 ==> r == Durations.FormatMmSs(seconds)
  {
    var minutes := FloorDiv(Int(seconds), 60);
    var secs := Rem(Int(seconds), 60);
    if seconds >= 0 then
      FloorRemRecombine(seconds, 60);
      PadStartOfNumeral(minutes.v);
      PadStartOfNumeral(secs.v);
      PadStart2(Show(minutes)) + ":" + PadStart2(Show(secs))
    else
      PadStart2(Show(minutes)) + ":" + PadStart2(Show(secs))
  }

  /** A time under 100 minutes reads as five characters with the colon in
      the middle. */
  lemma ClockShape(seconds: int)
    requires 0 <= seconds < 6000
    ensures |FormatTime(seconds)| == 5 && FormatTime(seconds)[2] == ':'
  {
  }

  /** One tick of the interval: down by one second, and 0 once it is reached
      (a value at or below 0 is reset to 0). */
  function Tick(prev: int): (r: int)
    ensures r >= 0
    ensures prev > 0 ==> r == prev - 1
  {
    if prev <= 0 then 0 else prev - 1
  }

  /** The remaining time after `n` ticks. */
  function Ticks(start: int, n: nat): int {
    if n == 0 then start else Tick(Ticks(start, n - 1))
  }

  /** After `n` ticks the countdown shows the time left, never below 0, and
      stays at 0 once the limit has run out. */
  lemma {:induction false} Countdown(start: nat, n: nat)
    ensures Ticks(start, n) == if n >= start then 0 else start - n
  {
    if n > 0 {
      Countdown(start, n - 1);
    }
  }

  // ---------------------------------------------------------------------------
  // Test rules

  /** One test result. */
  datatype Verdict = Verdict(passed: bool, message: string)

  const TestPassed := Verdict(true, "Test passed")

  /** The calls the functional tests make to the user's `solution`. */
  datatype Call = SumOf123 | ReverseHello | CheckFour | CheckFive | MaxOf193 | CountHello

  /** What a call gave back: the value the test expects, any other value, or
      an exception with its message. */
  datatype Reply = Expected | Unexpected | Throws(message: string)

  /** `getUserSolution`: no function (or code that throws when evaluated), or
      a function whose replies to the calls above are known. */
  datatype Solution = Missing | Found(reply: Call -> Reply)

  /** "Input exists" / "Inputs exist": the code mentions `<input`. */
  function InputCheck(code: string): (r: Verdict)
    ensures r.passed <==> Contains(code, "<input")
    ensures !r.passed ==> r.message == "No input element found"
  {
    if Contains(code, "<input") then TestPassed else Verdict(false, "No input element found")
  }

  const NoProperButton := "No proper button element found. Create a <button>Click me</button> element."
  const NoButton := "No button element found"

  /** "Button exists": the first copy wants a whole `<button>…</button>` or
      an input of type button or submit; the second any `<button` or
      `type="button"`. */
  function ButtonCheck(runner: Runner, code: string): (r: Verdict)
    ensures runner.Primary? ==>
      (r.passed <==> (Contains(code, "<button") && Contains(code, "</button>"))
                     || Contains(code, "<input type=\"button\"") || Contains(code, "<input type=\"submit\""))
    ensures runner.Alternate? ==> (r.passed <==> Contains(code, "<button") || Contains(code, "type=\"button\""))
    ensures r.passed ==> r == TestPassed
  {
    match runner
    case Primary =>
      var hasButtonTag := Contains(code, "<button") && Contains(code, "</button>");
      var hasInputButton := Contains(code, "<input type=\"button\"") || Contains(code, "<input type=\"submit\"");
      if hasButtonTag || hasInputButton then TestPassed
      else Verdict(false, NoProperButton)
    case Alternate =>
      if Contains(code, "<button") || Contains(code, "type=\"button\"") then TestPassed
      else Verdict(false, NoButton)
  }

  predicate HasAlert(code: string) {
    Contains(code, "alert(")
  }

  predicate HasListener(code: string) {
    Contains(code, "addEventListener") || Contains(code, "onclick") || Contains(code, "onClick")
  }

  const MissingBoth := "Missing both alert() function and event listener. Add a button click handler that shows an alert."
  const MissingAlert := "No alert() function found. Make sure to call alert() to show a message."
  const MissingListener := "No event listener found. Use addEventListener or onclick to handle button clicks."

  /** "Alert on click" (first copy only): both an `alert(` call and a click
      handler, with a message naming what is missing. */
  function AlertCheck(code: string): (r: Verdict)
    ensures r.passed <==> HasAlert(code) && HasListener(code)
    ensures !HasAlert(code) && !HasListener(code) ==> r.message == MissingBoth
    ensures !HasAlert(code) && HasListener(code) ==> r.message == MissingAlert
    ensures HasAlert(code) && !HasListener(code) ==> r.message == MissingListener
  {
    if !HasAlert(code) && !HasListener(code) then Verdict(false, MissingBoth)
    else if !HasAlert(code) then Verdict(false, MissingAlert)
    else if !HasListener(code) then Verdict(false, MissingListener)
    else TestPassed
  }

  const NoSolution := Verdict(false, "No function named 'solution' found")
  const ManualCheck := Verdict(true, "Manual check required")

  /** One call inside the `try`: the expected value passes, another value
      fails with `expectation`, and an exception fails with its own message.
      Calling a missing function raises a `TypeError`. */
  function Probe(sol: Solution, call: Call, expectation: string): (r: Verdict)
    ensures r.passed <==> sol.Found? && sol.reply(call).Expected?
    ensures sol.Found? && sol.reply(call).Unexpected? ==> r.message == expectation
  {
    match sol
    case Missing => Verdict(false, "solution is not a function")
    case Found(reply) =>
      match reply(call)
      case Expected => TestPassed
      case Unexpected => Verdict(false, expectation)
      case Throws(m) => Verdict(false, m)
  }

  /** The functional tests: a name mentioning "correct" fails without a
      `solution`; five named tests call it; every other name passes for
      manual review. */
  function Functional(name: string, sol: Solution): (r: Verdict)
    ensures sol.Missing? && Contains(name, "correct") ==> r == NoSolution
  {
    if sol.Missing? && Contains(name, "correct") then NoSolution
    else if name == "Sum correct" then Probe(sol, SumOf123, "Expected solution([1,2,3]) to be 6")
    else if name == "Reverse correct" then Probe(sol, ReverseHello, "Expected solution('hello') to be 'olleh'")
    else if name == "Check correct" then
      var even := Probe(sol, CheckFour, "Expected solution(4) to be 'even'");
      if !even.passed then even else Probe(sol, CheckFive, "Expected solution(5) to be 'odd'")
    else if name == "Max correct" then Probe(sol, MaxOf193, "Expected solution([1,9,3]) to be 9")
    else if name == "Count correct" then Probe(sol, CountHello, "Expected solution('hello') to be 2")
    else ManualCheck
  }

  /** The five functional tests. */
  predicate Probed(name: string) {
    name in {"Sum correct", "Reverse correct", "Check correct", "Max correct", "Count correct"}
  }

  /** Every probed test mentions "correct", so a missing `solution` is never
      called: such a test fails with the missing-function message, and any
      other test passes for manual review. */
  lemma MissingSolutionNeverCalled(name: string)
    ensures Functional(name, Missing) == if Contains(name, "correct") then NoSolution else ManualCheck
  {
    if Probed(name) {
      ProbedMentionsCorrect(name);
    }
  }

  /** Each probed test's name ends in "correct". */
  lemma ProbedMentionsCorrect(name: string)
    requires Probed(name)
    ensures Contains(name, "correct")
  {
    var w := name[..|name| - 8];
    assert name == w + " correct";
    EndsWithCorrect(w);
  }

  lemma EndsWithCorrect(w: string)
    ensures Contains(w + " correct", "correct")
  {
    assert (w + " correct")[|w| + 1..] == "correct";
    ContainsAt(w + " correct", "correct", |w| + 1);
  }

  /** A probed test passes exactly when `solution` gives the expected value
      on each call it makes ("Check correct" makes two). */
  lemma ProbedPassesIffExpected(name: string, reply: Call -> Reply)
    requires Probed(name)
    ensures Functional(name, Found(reply)).passed <==>
      match name
      case "Sum correct" => reply(SumOf123).Expected?
      case "Reverse correct" => reply(ReverseHello).Expected?
      case "Check correct" => reply(CheckFour).Expected? && reply(CheckFive).Expected?
      case "Max correct" => reply(MaxOf193).Expected?
      case _ => reply(CountHello).Expected?
  {
  }

  predicate NamesInput(name: string) {
    Contains(name, "Input exists") || Contains(name, "Inputs exist")
  }

  /** `validateJSChallenge`: the rules are tried in order — inputs, button,
      alert (first copy only) — before the functional tests. */
  function JsCheck(runner: Runner, code: string, name: string, sol: Solution): (r: Verdict)
    ensures NamesInput(name) ==> r == InputCheck(code)
    ensures !NamesInput(name) && Contains(name, "Button exists") ==> r == ButtonCheck(runner, code)
    ensures !NamesInput(name) && !Contains(name, "Button exists") ==>
      r == if runner.Primary? && Contains(name, "Alert on click") then AlertCheck(code) else Functional(name, sol)
  {
    if NamesInput(name) then InputCheck(code)
    else if Contains(name, "Button exists") then ButtonCheck(runner, code)
    else if runner.Primary? && Contains(name, "Alert on click") then AlertCheck(code)
    else Functional(name, sol)
  }

  /** The second copy has no alert rule: "Alert on click" passes for manual
      review whatever the code, where the first copy insists on an alert and
      a handler. */
  lemma AlertOnClickOnlyCheckedByPrimary(code: string, sol: Solution)
    ensures JsCheck(Alternate, code, "Alert on click", sol) == ManualCheck
    ensures JsCheck(Primary, code, "Alert on click", sol).passed <==> HasAlert(code) && HasListener(code)
  {
    AlertOnClickNamesOnlyAlert();
    assert !Probed("Alert on click");
  }

  /** "Alert on click" names no input, button or functional test. */
  lemma AlertOnClickNamesOnlyAlert()
    ensures !NamesInput("Alert on click") && !Contains("Alert on click", "Button exists")
    ensures !Contains("Alert on click", "correct") && Contains("Alert on click", "Alert on click")
  {
    var name := "Alert on click";
    AbsentPair(name, "Input exists", 0);
    AbsentPair(name, "Inputs exist", 0);
    AbsentPair(name, "Button exists", 0);
    AbsentPair(name, "correct", 0);
    ContainsAt(name, name, 0);
  }

  /** The copies' button rules disagree both ways: an unclosed `<button`
      passes only the second, a submit input only the first. */
  lemma ButtonRulesDisagree()
    ensures !ButtonCheck(Primary, "<button>").passed && ButtonCheck(Alternate, "<button>").passed
    ensures ButtonCheck(Primary, "<input type=\"submit\">").passed && !ButtonCheck(Alternate, "<input type=\"submit\">").passed
  {
    UnclosedButtonDisagrees();
    SubmitInputDisagrees();
  }

  /** An unclosed `<button` tag passes only the second copy. */
  lemma UnclosedButtonDisagrees()
    ensures !ButtonCheck(Primary, "<button>").passed && ButtonCheck(Alternate, "<button>").passed
  {
    var open := "<button>";
    AbsentPair(open, "</button>", 0);
    AbsentPair(open, "<input type=\"button\"", 0);
    AbsentPair(open, "<input type=\"submit\"", 0);
    ContainsAt(open, "<button", 0);
  }

  /** A submit input passes only the first copy. */
  lemma SubmitInputDisagrees()
    ensures ButtonCheck(Primary, "<input type=\"submit\">").passed && !ButtonCheck(Alternate, "<input type=\"submit\">").passed
  {
    var submit := "<input type=\"submit\">";
    AbsentPair(submit, "<button", 0);
    AbsentPair(submit, "type=\"button\"", 5);
    ContainsAt(submit, "<input type=\"submit\"", 0);
  }

  /** The parsed document as far as the HTML rules need it: whether the
      parser reported an error, and the verdict of each named check. */
  datatype Document = Document(parseError: bool, check: string -> Verdict)

  /** The eight checks that read the document. */
  const DomChecks: set<string> := {"Header exists", "Main exists", "Footer exists", "Semantic HTML",
                                   "Navigation menu", "Main content", "CSS styling", "Responsive design"}

  /** `validateHTMLChallenge`: the first copy fails a document with a parser
      error and passes unknown names with a note; the second ignores parser
      errors and fails unknown names. */
  function HtmlCheck(runner: Runner, doc: Document, name: string): (r: Verdict)
    ensures runner.Primary? && doc.parseError ==> r == Verdict(false, "HTML parsing error. Please check your code syntax.")
    ensures (runner.Alternate? || !doc.parseError) && name in DomChecks ==> r == doc.check(name)
    ensures runner.Primary? && !doc.parseError && name !in DomChecks ==> r == Verdict(true, "Test passed (basic validation only)")
    ensures runner.Alternate? && name !in DomChecks ==> r == Verdict(false, "Validation not implemented for this test")
  {
    match runner
    case Primary =>
      if doc.parseError then Verdict(false, "HTML parsing error. Please check your code syntax.")
      else if name in DomChecks then doc.check(name)
      else Verdict(true, "Test passed (basic validation only)")
    case Alternate =>
      if name in DomChecks then doc.check(name)
      else Verdict(false, "Validation not implemented for this test")
  }

  /** For a test name without a rule the copies reach opposite verdicts. */
  lemma UnknownHtmlTestVerdictsDiffer(doc: Document, name: string)
    requires !doc.parseError && name !in DomChecks
    ensures HtmlCheck(Primary, doc, name).passed && !HtmlCheck(Alternate, doc, name).passed
  {
  }

  // ---------------------------------------------------------------------------
  // Running and completing

  datatype Challenge = Challenge(category: string, testNames: seq<string>)

  const Unsupported := Verdict(false, "Validation not implemented for this challenge type")

  /** The verdict of one test under the challenge's category. */
  function Judge(runner: Runner, ch: Challenge, code: string, sol: Solution, doc: Document, name: string): Verdict {
    if ch.category == "JavaScript" then JsCheck(runner, code, name, sol)
    else if ch.category == "HTML & CSS" then HtmlCheck(runner, doc, name)
    else Unsupported
  }

  /** The outcome of `runCode`: one result per test, and whether the
      rendered code is put in the output tab. */
  datatype Run = Run(results: seq<Verdict>, showsOutput: bool)

  function RunCode(runner: Runner, ch: Challenge, code: string, sol: Solution, doc: Document): (r: Run)
    ensures |r.results| == |ch.testNames|
    ensures forall i :: 0 <= i < |r.results| ==> r.results[i] == Judge(runner, ch, code, sol, doc, ch.testNames[i])
    ensures ch.category != "JavaScript" && ch.category != "HTML & CSS" ==> forall v :: v in r.results ==> v == Unsupported
    ensures r.showsOutput <==> (runner.Primary? &&
      (ch.category == "HTML & CSS" || (ch.category == "JavaScript" && (Contains(code, "<!DOCTYPE html>") || Contains(code, "<html>")))))
  {
    var results := seq(|ch.testNames|, i requires 0 <= i < |ch.testNames| => Judge(runner, ch, code, sol, doc, ch.testNames[i]));
    var shows := match runner
      case Primary =>
        if ch.category == "JavaScript" then Contains(code, "<!DOCTYPE html>") || Contains(code, "<html>")
        else ch.category == "HTML & CSS"
      case Alternate => false;
    Run(results, shows)
  }

  /** `testResults.filter(t => t.passed).length`. */
  function PassedCount(rs: seq<Verdict>): (r: nat)
    ensures r <= |rs|
  {
    if rs == [] then 0 else (if rs[0].passed then 1 else 0) + PassedCount(rs[1..])
  }

  /** Every result passed exactly when the count reaches the length. */
  lemma {:induction false} AllPassedIff(rs: seq<Verdict>)
    ensures PassedCount(rs) == |rs| <==> forall i :: 0 <= i < |rs| ==> rs[i].passed
  {
    if rs != [] {
      var rest := rs[1..];
      AllPassedIff(rest);
      assert forall i :: 1 <= i < |rs| ==> rs[i] == rest[i - 1];
    }
  }

  /** The footer button's label, from the last results and the number of
      tests. */
  function ButtonLabel(results: seq<Verdict>, totalTests: nat): string {
    if PassedCount(results) == totalTests then "Complete Challenge" else "Save Progress"
  }

  /** After a run, the button offers completion exactly when every test
      passed; before any run it does so only for a challenge without tests. */
  lemma CompleteIffAllPassed(runner: Runner, ch: Challenge, code: string, sol: Solution, doc: Document)
    ensures var rs := RunCode(runner, ch, code, sol, doc).results;
      ButtonLabel(rs, |ch.testNames|) == "Complete Challenge" <==> forall i :: 0 <= i < |rs| ==> rs[i].passed
    ensures ButtonLabel([], |ch.testNames|) == "Complete Challenge" <==> ch.testNames == []
  {
    AllPassedIff(RunCode(runner, ch, code, sol, doc).results);
  }

  /** A challenge of another category can never be completed if it has a
      test. */
  lemma UnsupportedNeverCompletes(runner: Runner, ch: Challenge, code: string, sol: Solution, doc: Document)
    requires ch.category != "JavaScript" && ch.category != "HTML & CSS" && ch.testNames != []
    ensures ButtonLabel(RunCode(runner, ch, code, sol, doc).results, |ch.testNames|) == "Save Progress"
  {
    var rs := RunCode(runner, ch, code, sol, doc).results;
    CompleteIffAllPassed(runner, ch, code, sol, doc);
    assert !rs[0].passed;
  }
}

=== FILE: consumer.dfy ===
/** The websocket consumer: the process-wide registry `active_connections`,
    one session record per socket, and the connect / receive / disconnect
    handlers. Each handler is one atomic transition that returns the frames it
    sends; frames are addressed to sockets. */
module Consumer {
  import opened Wrappers
  import opened Json

  /** The identity of one open socket (one consumer instance). */
  type SocketId = nat

  /** `active_connections`: from the logged-in user id to its consumer. */
  type Registry = map<Key, SocketId>

  /** The consumer instance state: its socket and `self.user_id`
      (`JNull` until a login frame names one). */
  datatype Session = Session(sock: SocketId, userId: JVal)

  /** The JSON frames the consumer sends (only the fields that vary). */
  datatype Frame =
    | ConnectionEstablished(timestamp: string)
    | LoginConfirmed(userId: JVal)
    | ErrorFrame(message: string)
    | Pong(timestamp: string)
    | NotificationFrame(data: JVal)
    | NotificationDelivered(recipientId: JVal)
    | NotificationPending(recipientId: JVal)
    | Acknowledgment(receivedType: JVal)

  datatype Outbound = Outbound(to: SocketId, frame: Frame)

  /** The result of one handler: the new registry, the new session and the
      frames sent, in order. */
  datatype Step = Step(registry: Registry, session: Session, out: seq<Outbound>)

  const InvalidJsonMessage := "Invalid JSON format"
  const MissingUserIdMessage := "Missing user_id in login message"

  /** The registry key a session is known under, if it has a truthy, hashable
      identity. */
  function IdentityKey(s: Session): Option<Key> {
    if Truthy(s.userId) then KeyOf(s.userId) else None
  }

  /** `connect`: always accepted, no identity yet, one greeting frame. */
  function Connect(sock: SocketId, now: string): (r: (Session, seq<Outbound>))
    ensures IdentityKey(r.0) == None
    ensures r.0.sock == sock
    ensures |r.1| == 1 && r.1[0].to == sock && r.1[0].frame.ConnectionEstablished?
  {
    (Session(sock, JNull), [Outbound(sock, ConnectionEstablished(now))])
  }

  /** `disconnect`: the entry under the session's current identity is deleted
      whatever socket it now points to; every other entry is kept as is. */
  function Disconnect(reg: Registry, s: Session): (r: Registry)
    ensures forall k :: k in r <==> k in reg && Some(k) != IdentityKey(s)
    ensures forall k :: k in r ==> r[k] == reg[k]
  {
    match IdentityKey(s)
    case Some(k) => if k in reg then reg - {k} else reg
    case None => reg
  }

  /** What every handled frame guarantees: the sender's socket is kept and
      gets the last outbound frame, at most one other frame goes out, and
      registry and session change only by the sender taking on an identity
      whose key then maps to the sender's socket. */
  predicate Answers(reg: Registry, s: Session, r: Step) {
    && r.session.sock == s.sock
    && 1 <= |r.out| <= 2 && r.out[|r.out| - 1].to == s.sock
    && reg.Keys <= r.registry.Keys
    && (forall k :: k in reg && r.registry[k] != reg[k] ==> r.registry[k] == s.sock)
    && (r.registry != reg ==> Truthy(r.session.userId) && KeyOf(r.session.userId).Some?
                              && r.registry == reg[KeyOf(r.session.userId).value := s.sock])
    && (r.session != s ==> Truthy(r.session.userId))
  }

  /** A reply to the sender that leaves registry and session as they were. */
  function Reply(reg: Registry, s: Session, f: Frame): (r: Step)
    ensures r.registry == reg && r.session == s && r.out == [Outbound(s.sock, f)]
  {
    Step(reg, s, [Outbound(s.sock, f)])
  }

  /** The `login` branch. The identity is stored before the id is hashed, so
      an unhashable id still becomes the identity while the registry refuses
      it with a `TypeError`. */
  function Login(reg: Registry, s: Session, fields: map<string, JVal>): (r: Step)
    ensures Answers(reg, s, r)
  {
    var uid := Get(fields, "user_id");
    if Truthy(uid) then
      var s' := s.(userId := uid);
      match KeyOf(uid)
      case None => Reply(reg, s', ErrorFrame(UnhashableMessage(uid)))
      case Some(k) => Reply(reg[k := s.sock], s', LoginConfirmed(uid))
    else
      Reply(reg, s, ErrorFrame(MissingUserIdMessage))
  }

  /** The `notification` branch: forward to the recipient's socket when the
      recipient id is truthy and registered, and tell the sender either way. */
  function Notify(reg: Registry, s: Session, fields: map<string, JVal>): (r: Step)
    ensures Answers(reg, s, r)
  {
    var rid := Get(fields, "recipient_id");
    var payload := Get(fields, "notification_data");
    if !Truthy(rid) then Reply(reg, s, NotificationPending(rid))
    else
      match KeyOf(rid)
      case None => Reply(reg, s, ErrorFrame(UnhashableMessage(rid)))
      case Some(k) =>
        if k in reg then
          Step(reg, s, [Outbound(reg[k], NotificationFrame(payload)),
                        Outbound(s.sock, NotificationDelivered(rid))])
        else Reply(reg, s, NotificationPending(rid))
  }

  /** `receive`: `parsed` is the result of `json.loads` on the text frame
      (`None` when it raised `JSONDecodeError`). Every inbound frame is
      answered on the sender's own socket, the registry only ever gains or
      overwrites the entry of the sender's new identity, and the socket is
      never closed. */
  function Receive(reg: Registry, s: Session, parsed: Option<JVal>, now: string): (r: Step)
    ensures r.session.sock == s.sock
    ensures 1 <= |r.out| <= 2 && r.out[|r.out| - 1].to == s.sock
    ensures reg.Keys <= r.registry.Keys
    ensures forall k :: k in reg && r.registry[k] != reg[k] ==> r.registry[k] == s.sock
    ensures r.registry != reg ==> Truthy(r.session.userId) && KeyOf(r.session.userId).Some?
                                  && r.registry == reg[KeyOf(r.session.userId).value := s.sock]
    ensures r.session != s ==> Truthy(r.session.userId)
    ensures parsed.None? ==> r == Reply(reg, s, ErrorFrame(InvalidJsonMessage))
  {
    match parsed
    case None => Reply(reg, s, ErrorFrame(InvalidJsonMessage))
    case Some(data) =>
      if !data.JObj? then Reply(reg, s, ErrorFrame(NoGetMessage(data)))
      else
        var ty := GetOr(data.fields, "type", JStr(""));
        if ty == JStr("login") then Login(reg, s, data.fields)
        else if ty == JStr("ping") then Reply(reg, s, Pong(now))
        else if ty == JStr("notification") then Notify(reg, s, data.fields)
        else Reply(reg, s, Acknowledgment(ty))
  }

  /** An inbound object frame with the given fields. */
  function ObjectFrame(fields: map<string, JVal>): Option<JVal> {
    Some(JObj(fields))
  }

  // ---------------------------------------------------------------------------
  // Properties of single frames

  /** A login frame with a truthy, hashable `user_id` sets the identity,
      maps that id to this socket (replacing any earlier socket, which is not
      closed or told) and confirms with the same id. */
  lemma LoginRegisters(reg: Registry, s: Session, uid: JVal, now: string)
    requires Truthy(uid) && KeyOf(uid).Some?
    ensures var r := Receive(reg, s, ObjectFrame(map["type" := JStr("login"), "user_id" := uid]), now);
      && r.session == s.(userId := uid)
      && r.registry == reg[KeyOf(uid).value := s.sock]
      && r.out == [Outbound(s.sock, LoginConfirmed(uid))]
  {
  }

  /** A login frame whose `user_id` is missing or falsy changes nothing and
      answers with an error. */
  lemma LoginWithoutIdRejected(reg: Registry, s: Session, fields: map<string, JVal>, now: string)
    requires GetOr(fields, "type", JStr("")) == JStr("login")
    requires !Truthy(Get(fields, "user_id"))
    ensures var r := Receive(reg, s, ObjectFrame(fields), now);
      r.registry == reg && r.session == s && r.out == [Outbound(s.sock, ErrorFrame(MissingUserIdMessage))]
  {
  }

  /** `ping` is answered by exactly one `pong` and changes no state. */
  lemma PingIsPure(reg: Registry, s: Session, fields: map<string, JVal>, now: string)
    requires GetOr(fields, "type", JStr("")) == JStr("ping")
    ensures Receive(reg, s, ObjectFrame(fields), now) == Step(reg, s, [Outbound(s.sock, Pong(now))])
  {
  }

  /** A notification frame is forwarded to another socket exactly when its
      `recipient_id` is truthy and registered; the sender need not be logged
      in, and hears `notification_delivered` or `notification_pending`. */
  lemma NotificationForwardedIff(reg: Registry, s: Session, fields: map<string, JVal>, now: string)
    requires GetOr(fields, "type", JStr("")) == JStr("notification")
    ensures var rid := Get(fields, "recipient_id");
            var r := Receive(reg, s, ObjectFrame(fields), now);
      && r.registry == reg && r.session == s
      && ((|r.out| == 2) <==> Truthy(rid) && KeyOf(rid).Some? && KeyOf(rid).value in reg)
      && (|r.out| == 2 ==>
            && r.out[0] == Outbound(reg[KeyOf(rid).value], NotificationFrame(Get(fields, "notification_data")))
            && r.out[1] == Outbound(s.sock, NotificationDelivered(rid)))
      && (KeyOf(rid).Some? && (!Truthy(rid) || KeyOf(rid).value !in reg) ==>
            r.out == [Outbound(s.sock, NotificationPending(rid))])
  {
  }

  /** Any other `type`, including a missing one (read as ''), is acknowledged
      by echoing it. */
  lemma OtherTypesAcknowledged(reg: Registry, s: Session, fields: map<string, JVal>, now: string)
    requires GetOr(fields, "type", JStr("")) !in {JStr("login"), JStr("ping"), JStr("notification")}
    ensures Receive(reg, s, ObjectFrame(fields), now)
            == Reply(reg, s, Acknowledgment(GetOr(fields, "type", JStr(""))))
  {
  }

  /** Valid JSON that is not an object fails on `.get` and the error frame
      carries Python's exception message. */
  lemma NonObjectJsonReportsException(reg: Registry, s: Session, data: JVal, now: string)
    requires !data.JObj?
    ensures Receive(reg, s, Some(data), now) == Reply(reg, s, ErrorFrame(NoGetMessage(data)))
  {
  }

  // ---------------------------------------------------------------------------
  // Properties of sequences of handlers

  /** Last writer wins: after two sockets log in under the same id, the id
      maps to the second one. */
  lemma {:induction false} LastLoginWins(reg: Registry, a: Session, b: Session, uid: JVal, now: string)
    requires Truthy(uid) && KeyOf(uid).Some?
    ensures var login := ObjectFrame(map["type" := JStr("login"), "user_id" := uid]);
            var r1 := Receive(reg, a, login, now);
            var r2 := Receive(r1.registry, b, login, now);
      r2.registry[KeyOf(uid).value] == b.sock && r2.registry.Keys == reg.Keys + {KeyOf(uid).value}
  {
    var login := ObjectFrame(map["type" := JStr("login"), "user_id" := uid]);
    LoginRegisters(reg, a, uid, now);
    LoginRegisters(Receive(reg, a, login, now).registry, b, uid, now);
  }

  /** Identity-keyed eviction: when an older socket that logged in under the
      same id disconnects after a newer one, the newer socket's entry is
      removed. */
  lemma {:induction false} StaleDisconnectEvictsNewer(reg: Registry, a: Session, b: Session, uid: JVal, now: string)
    requires Truthy(uid) && KeyOf(uid).Some? && a.sock != b.sock
    ensures var login := ObjectFrame(map["type" := JStr("login"), "user_id" := uid]);
            var r1 := Receive(reg, a, login, now);
            var r2 := Receive(r1.registry, b, login, now);
            var after := Disconnect(r2.registry, r1.session);
      r2.registry[KeyOf(uid).value] == b.sock && KeyOf(uid).value !in after
  {
    var login := ObjectFrame(map["type" := JStr("login"), "user_id" := uid]);
    LoginRegisters(reg, a, uid, now);
    var r1 := Receive(reg, a, login, now);
    LoginRegisters(r1.registry, b, uid, now);
  }

  /** A socket that logs in as A and then as B stays registered under A after
      it closes; only B is removed. */
  lemma {:induction false} RenamedSocketLeaksOldEntry(reg: Registry, s: Session, ua: JVal, ub: JVal, now: string)
    requires Truthy(ua) && KeyOf(ua).Some? && Truthy(ub) && KeyOf(ub).Some? && KeyOf(ua) != KeyOf(ub)
    ensures var r1 := Receive(reg, s, ObjectFrame(map["type" := JStr("login"), "user_id" := ua]), now);
            var r2 := Receive(r1.registry, r1.session, ObjectFrame(map["type" := JStr("login"), "user_id" := ub]), now);
            var after := Disconnect(r2.registry, r2.session);
      && KeyOf(ua).value in after && after[KeyOf(ua).value] == s.sock
      && KeyOf(ub).value !in after
  {
    LoginRegisters(reg, s, ua, now);
    var r1 := Receive(reg, s, ObjectFrame(map["type" := JStr("login"), "user_id" := ua]), now);
    LoginRegisters(r1.registry, r1.session, ub, now);
  }

  /** A socket that never logged in leaves the registry untouched when it
      closes. */
  lemma ConnectThenDisconnect(reg: Registry, sock: SocketId, now: string)
    ensures Disconnect(reg, Connect(sock, now).0) == reg
  {
  }
}

=== FILE: course_access.dfy ===
/** Course and lesson access (`get_course_with_details`,
    `_format_course_detail`, `get_lesson_details`, `mark_lesson_progress`):
    who may see a course, which lessons and fields they see, lesson
    navigation, and progress bookkeeping. The caller's application to the
    course (the first matching row's status) is a parameter. A course's
    `sections` are taken in the order the database reads them back, which is
    `Catalog.InOrder` of the stored rows (`Catalog.Ordered` holds of every
    curriculum `CourseEditing` writes). */
module CourseAccess {
  import opened Wrappers
  import opened Text
  import opened Durations
  import opened People
  import opened Catalog

  // ---------------------------------------------------------------------------
  // Course detail

  /** What the detail view works out about the caller's relation to a course. */
  datatype Standing = Standing(isInstructor: bool, isEnrolled: bool, applicationStatus: Option<string>, hasAccess: bool)

  /** Access starts as `is_published`; the owning instructor and enrolled
      students always have it. The application status is read only for a
      student who is not enrolled. */
  function StandingFor(c: Course, caller: Caller, e: Enrollments, application: Option<string>): (r: Standing)
    ensures r.isInstructor <==> caller.Member? && caller.staffPk == Some(c.instructor)
    ensures r.isEnrolled <==> caller.Member? && caller.studentPk.Some? && Enrolled(e, c.id, caller.studentPk.value)
    ensures r.hasAccess <==> c.isPublished || r.isInstructor || r.isEnrolled
    ensures r.applicationStatus.Some? ==> caller.Member? && caller.studentPk.Some? && !r.isEnrolled
  {
    match caller
    case Anonymous => Standing(false, false, None, c.isPublished)
    case Member(_, staffPk, studentPk) =>
      var inst := staffPk == Some(c.instructor);
      var enr := studentPk.Some? && Enrolled(e, c.id, studentPk.value);
      var app := if studentPk.Some? && !enr then application else None;
      Standing(inst, enr, app, c.isPublished || inst || enr)
  }

  /** The 403 rule: no access, not the instructor, not enrolled and no
      (truthy) application status. */
  predicate Denied(s: Standing) {
    !s.hasAccess && !s.isInstructor && !s.isEnrolled && !(s.applicationStatus.Some? && |s.applicationStatus.value| > 0)
  }

  /** A lesson as listed in the course detail: `content` is present (possibly
      null) only for article lessons shown to the instructor or an enrolled
      student; `completed` only for an enrolled student. */
  datatype LessonView = LessonView(lesson: Lesson, content: Option<Option<string>>, completed: Option<bool>)

  datatype SectionView = SectionView(section: Section, lessons: seq<LessonView>)

  /** The lessons a caller may see: published ones, and all of them for the
      instructor. */
  function Visible(ls: seq<Lesson>, instructor: bool): (r: seq<Lesson>)
    ensures |r| <= |ls|
    ensures forall l :: l in r <==> l in ls && (l.isPublished || instructor)
    ensures instructor ==> r == ls
  {
    if |ls| == 0 then []
    else Visible(ls[..|ls| - 1], instructor) + (if ls[|ls| - 1].isPublished || instructor then [ls[|ls| - 1]] else [])
  }

  function ViewLesson(l: Lesson, s: Standing, p: Progress, student: Option<nat>): LessonView {
    LessonView(
      l,
      if l.kind == "article" && (s.isInstructor || s.isEnrolled) then Some(l.content) else None,
      if s.isEnrolled && student.Some? then
        Some((student.value, l.id) in p && p[(student.value, l.id)])
      else None)
  }

  function ViewLessons(ls: seq<Lesson>, s: Standing, p: Progress, student: Option<nat>): (r: seq<LessonView>)
    ensures |r| == |Visible(ls, s.isInstructor)|
    ensures forall i :: 0 <= i < |r| ==> r[i] == ViewLesson(Visible(ls, s.isInstructor)[i], s, p, student)
  {
    var vs := Visible(ls, s.isInstructor);
    seq(|vs|, i requires 0 <= i < |vs| => ViewLesson(vs[i], s, p, student))
  }

  /** Non-instructors never see an unpublished lesson, and see article content
      only when enrolled. */
  lemma ViewedLessonsRespectVisibility(ls: seq<Lesson>, s: Standing, p: Progress, student: Option<nat>)
    ensures forall v :: v in ViewLessons(ls, s, p, student) ==>
      && v.lesson in ls
      && (v.lesson.isPublished || s.isInstructor)
      && (v.content.Some? <==> v.lesson.kind == "article" && (s.isInstructor || s.isEnrolled))
  {
    var r := ViewLessons(ls, s, p, student);
    forall v | v in r
      ensures v.lesson in ls && (v.lesson.isPublished || s.isInstructor)
    {
      var i :| 0 <= i < |r| && r[i] == v;
      assert Visible(ls, s.isInstructor)[i] in Visible(ls, s.isInstructor);
    }
  }

  /** Sections in order, each with its visible lessons; for anyone but the
      instructor, sections left with no visible lesson are dropped. */
  function ViewSections(ss: seq<Section>, s: Standing, p: Progress, student: Option<nat>): (r: seq<SectionView>)
    ensures |r| <= |ss|
    ensures s.isInstructor ==> |r| == |ss|
    ensures forall sv :: sv in r ==> sv.section in ss && sv.lessons == ViewLessons(sv.section.lessons, s, p, student)
    ensures !s.isInstructor ==> forall sv :: sv in r ==> |sv.lessons| > 0
  {
    if |ss| == 0 then []
    else
      var last := ss[|ss| - 1];
      var lv := ViewLessons(last.lessons, s, p, student);
      ViewSections(ss[..|ss| - 1], s, p, student)
        + (if |lv| == 0 && !s.isInstructor then [] else [SectionView(last, lv)])
  }

  /** `int(completed / total * 100)` taken exactly: the floor of the
      percentage, 0 for an empty course. */
  function ProgressPercent(done: nat, total: nat): (r: nat)
    ensures done <= total ==> r <= 100
    ensures total > 0 && done <= total ==> (r == 100 <==> done == total)
    ensures done == 0 ==> r == 0
  {
    if total == 0 then 0
    else
      var r := done * 100 / total;
      PercentBounds(done, total);
      r
  }

  lemma PercentBounds(done: nat, total: nat)
    requires total > 0
    ensures done <= total ==> done * 100 / total <= 100
    ensures done < total ==> done * 100 / total < 100
    ensures done == total ==> done * 100 / total == 100
  {
    if done < total {
      assert done * 100 < total * 100;
      DivBelow(done * 100, total, 100);
    } else if done == total {
      assert done * 100 == 100 * total;
    }
  }

  lemma DivBelow(a: nat, b: nat, k: nat)
    requires b > 0 && a < b * k
    ensures a / b < k
  {
  }

  datatype DetailResult =
    | CourseNotFound
    | NoCourseAccess
    | Detail(standing: Standing, sections: seq<SectionView>, totalLessons: nat,
             totalDuration: string, progressPercentage: nat, instructorName: string)

  /** `f"{first_name} {last_name}".strip()`. */
  function JoinedName(first: string, last: string): string {
    Trim(first + " " + last)
  }

  /** `get_course_with_details`: 404 for an unknown course, 403 by the
      `Denied` rule, otherwise the caller's view of the course. Progress is
      reported only to an enrolled student and counts every lesson,
      unpublished included. */
  function CourseDetail(course: Option<Course>, caller: Caller, e: Enrollments,
                        application: Option<string>, p: Progress, instructor: Account): (r: DetailResult)
    ensures course.None? <==> r.CourseNotFound?
    ensures course.Some? ==> (r.NoCourseAccess? <==> Denied(StandingFor(course.value, caller, e, application)))
    ensures r.Detail? ==> r.progressPercentage <= 100
    ensures r.Detail? && !r.standing.isEnrolled ==> r.progressPercentage == 0
    ensures r.Detail? ==> r.totalLessons == TotalLessons(course.value)
  {
    match course
    case None => CourseNotFound
    case Some(c) =>
      var s := StandingFor(c, caller, e, application);
      if Denied(s) then NoCourseAccess
      else
        var student := if caller.Member? then caller.studentPk else None;
        var pct := if s.isEnrolled && student.Some? then
                     ProgressPercent(CountCompleted(AllLessons(c), p, student.value), TotalLessons(c))
                   else 0;
        Detail(s, ViewSections(c.sections, s, p, student), TotalLessons(c), CourseDuration(c), pct,
               JoinedName(instructor.firstName, instructor.lastName))
  }

  /** 403 happens exactly for an unpublished course, seen by someone who is
      neither its instructor nor enrolled and has no application. */
  lemma DetailDeniedIff(c: Course, caller: Caller, e: Enrollments, application: Option<string>,
                        p: Progress, instructor: Account)
    ensures CourseDetail(Some(c), caller, e, application, p, instructor).NoCourseAccess? <==>
      var s := StandingFor(c, caller, e, application);
      !c.isPublished && !s.isInstructor && !s.isEnrolled
        && !(s.applicationStatus.Some? && |s.applicationStatus.value| > 0)
  {
  }

  /** An applicant of any status, a rejected one included, gets the outline
      of an unpublished course (its published lessons only). */
  lemma RejectedApplicantSeesOutline(c: Course, uid: nat, student: nat, e: Enrollments, p: Progress, instructor: Account)
    requires !c.isPublished && !Enrolled(e, c.id, student) && c.instructor != student
    ensures var r := CourseDetail(Some(c), Member(uid, None, Some(student)), e, Some("rejected"), p, instructor);
      && r.Detail? && !r.standing.hasAccess
      && forall sv :: sv in r.sections ==> forall v :: v in sv.lessons ==> v.lesson.isPublished
  {
    var s := StandingFor(c, Member(uid, None, Some(student)), e, Some("rejected"));
    var r := CourseDetail(Some(c), Member(uid, None, Some(student)), e, Some("rejected"), p, instructor);
    forall sv | sv in r.sections
      ensures forall v :: v in sv.lessons ==> v.lesson.isPublished
    {
      ViewedLessonsRespectVisibility(sv.section.lessons, s, p, Some(student));
    }
  }

  // ---------------------------------------------------------------------------
  // Formatted detail (`_format_course_detail`)

  /** A lesson in the formatted detail: its parsed duration, and its content
      when it is an article. */
  datatype FormattedLesson = FormattedLesson(lesson: Lesson, durationSeconds: int, content: Option<string>)

  function FormatLesson(l: Lesson): FormattedLesson {
    FormattedLesson(l, LessonSeconds(l.duration), if l.kind == "article" then l.content else None)
  }

  datatype Formatted = Formatted(
    sections: seq<(Section, seq<FormattedLesson>)>, totalLessons: nat, totalSeconds: int,
    totalDuration: string, shortDescription: Option<string>, instructorName: string)

  /** Sections with their included lessons (published ones unless
      `includeUnpublished`); a section with none is kept only when
      unpublished lessons were requested. */
  function FormatSections(ss: seq<Section>, includeUnpublished: bool): (r: seq<(Section, seq<FormattedLesson>)>)
    ensures |r| <= |ss|
    ensures includeUnpublished ==> |r| == |ss|
    ensures forall e :: e in r ==> e.0 in ss && |e.1| == |Visible(e.0.lessons, includeUnpublished)|
    ensures !includeUnpublished ==> forall e :: e in r ==> |e.1| > 0
  {
    if |ss| == 0 then []
    else
      var last := ss[|ss| - 1];
      var vs := Visible(last.lessons, includeUnpublished);
      var fl := seq(|vs|, i requires 0 <= i < |vs| => FormatLesson(vs[i]));
      FormatSections(ss[..|ss| - 1], includeUnpublished)
        + (if |fl| > 0 || includeUnpublished then [(last, fl)] else [])
  }

  /** The lessons that `_format_course_detail` includes, in order. */
  function IncludedLessons(ss: seq<Section>, includeUnpublished: bool): seq<Lesson> {
    Visible(Flatten(ss), includeUnpublished)
  }

  /** The formatted instructor name: the first name, then " last" when a last
      name is set, and the username when the result is blank. */
  function InstructorName(first: string, last: string, username: string): (r: string)
    ensures r == username || (|first| > 0 && IsPrefix(first, r) && Trim(r) != [])
    ensures Trim(first) != [] && |last| == 0 ==> r == first
  {
    var n := if |first| > 0 then first + NameTail(last) else "";
    if Trim(n) == [] then username else n
  }

  /** With a first name that is not blank, the formatted name is the model's
      `Staff.name`. */
  lemma InstructorNameAgreesWithStaffName(a: Account)
    requires Trim(a.firstName) != []
    ensures InstructorName(a.firstName, a.lastName, a.username) == StaffName(a)
  {
    var rest := NameTail(a.lastName);
    assert |a.firstName| > 0 by {
      if a.firstName == [] {
        TrimEmptyIff(a.firstName);
      }
    }
    NotBlankExtends(a.firstName, rest);
    InstructorNameIs(a.firstName, a.lastName, a.username);
    StaffNameIs(a);
  }

  /** " last" when a last name is set. */
  function NameTail(last: string): string {
    if |last| > 0 then " " + last else ""
  }

  lemma InstructorNameIs(first: string, last: string, username: string)
    requires |first| > 0 && Trim(first + NameTail(last)) != []
    ensures InstructorName(first, last, username) == first + NameTail(last)
  {
  }

  lemma StaffNameIs(a: Account)
    requires |a.firstName| > 0
    ensures StaffName(a) == a.firstName + NameTail(a.lastName)
  {
    if |a.lastName| > 0 {
      assert a.firstName + " " + a.lastName == a.firstName + (" " + a.lastName);
    } else {
      assert a.firstName + "" == a.firstName;
    }
  }

  /** Appending to a string that is not blank keeps it not blank. */
  lemma NotBlankExtends(x: string, y: string)
    requires Trim(x) != []
    ensures Trim(x + y) != []
  {
    TrimEmptyIff(x);
    TrimEmptyIff(x + y);
    if AllSpace(x + y) {
      BlankPrefix(x, y);
    }
  }

  /** A blank string has only blank prefixes. */
  lemma BlankPrefix(x: string, y: string)
    requires AllSpace(x + y)
    ensures AllSpace(x)
  {
    assert forall i :: 0 <= i < |x| ==> x[i] == (x + y)[i];
  }

  /** The fallback short description: the description, cut to 147 characters
      plus "..." when longer than 150. */
  function FallbackShortDescription(d: string): (r: string)
    ensures |r| <= 150
    ensures |d| <= 150 ==> r == d
    ensures |d| > 150 ==> |r| == 150 && r[..147] == d[..147] && r[147..] == "..."
  {
    if |d| > 150 then d[..147] + "..." else d
  }

  /** As written: `getattr(course, 'short_description', fallback)` always
      finds the model field, so the stored value (possibly null) is returned
      and the fallback is never used. */
  function ShortDescriptionAsWritten(c: Course): Option<string> {
    c.shortDescription
  }

  /** As evidently intended: the stored short description when set, else the
      fallback built from the description. */
  function ShortDescriptionIntended(c: Course): (r: Option<string>)
    ensures r.Some?
    ensures c.shortDescription.Some? && |c.shortDescription.value| > 0 ==> r == c.shortDescription
    ensures !(c.shortDescription.Some? && |c.shortDescription.value| > 0) ==>
              |r.value| <= 150 && (|c.description| <= 150 ==> r.value == c.description)
  {
    if c.shortDescription.Some? && |c.shortDescription.value| > 0 then c.shortDescription
    else Some(FallbackShortDescription(c.description))
  }

  /** A course without a stored short description is served a null one as
      written, while the intended rule serves its (short) description. */
  lemma ShortDescriptionFallbackUnused(c: Course)
    requires c.shortDescription.None? && 0 < |c.description| <= 150
    ensures ShortDescriptionAsWritten(c) == None
    ensures ShortDescriptionIntended(c) == Some(c.description)
  {
  }

  /** `_format_course_detail`, as written: the short description served is
      the stored one, null when none is stored, whatever the description. */
  function FormatDetail(c: Course, includeUnpublished: bool, instructor: Account): (r: Formatted)
    ensures r.totalLessons == |IncludedLessons(c.sections, includeUnpublished)|
    ensures includeUnpublished ==> r.totalLessons == TotalLessons(c)
    ensures r.totalSeconds == TotalSeconds(LessonDurations(IncludedLessons(c.sections, includeUnpublished)))
    ensures r.totalDuration == HmsDisplay(r.totalSeconds)
    ensures r.shortDescription == c.shortDescription
    ensures r.instructorName == InstructorName(instructor.firstName, instructor.lastName, instructor.username)
  {
    var inc := IncludedLessons(c.sections, includeUnpublished);
    var t := TotalSeconds(LessonDurations(inc));
    Formatted(FormatSections(c.sections, includeUnpublished), |inc|, t, HmsDisplay(t),
              ShortDescriptionAsWritten(c),
              InstructorName(instructor.firstName, instructor.lastName, instructor.username))
  }

  // ---------------------------------------------------------------------------
  // Lesson detail (`get_lesson_details`)

  /** The course holding a lesson with the given id (`Lesson.objects.get`
      followed by `lesson.section.course`). */
  function LessonCourse(courses: seq<Course>, lessonId: nat): (r: Option<Course>)
    ensures r.Some? ==> r.value in courses && exists l :: l in AllLessons(r.value) && l.id == lessonId
    ensures r.None? ==> forall i, l :: 0 <= i < |courses| && l in AllLessons(courses[i]) ==> l.id != lessonId
  {
    if |courses| == 0 then None
    else if exists l :: l in AllLessons(courses[0]) && l.id == lessonId then Some(courses[0])
    else
      var r := LessonCourse(courses[1..], lessonId);
      assert forall i :: 0 < i < |courses| ==> courses[i] == courses[1..][i - 1];
      r
  }

  /** The index of the first lesson with the given id, or -1. */
  function IndexOfId(ls: seq<Lesson>, id: nat): (i: int)
    ensures -1 <= i < |ls|
    ensures i == -1 <==> forall j :: 0 <= j < |ls| ==> ls[j].id != id
    ensures i >= 0 ==> ls[i].id == id && forall j :: 0 <= j < i ==> ls[j].id != id
  {
    if |ls| == 0 then -1
    else if ls[0].id == id then 0
    else
      var k := IndexOfId(ls[1..], id);
      if k == -1 then -1 else k + 1
  }

  /** Previous and next lesson around index `i` of the flattened list
      (`i` may be the "not found" value -1, as in the source). */
  function Neighbours(ls: seq<Lesson>, i: int): (r: (Option<Lesson>, Option<Lesson>))
    requires -1 <= i < |ls|
    ensures r.0.Some? <==> i > 0
    ensures r.0.Some? ==> r.0.value == ls[i - 1]
    ensures r.1.Some? <==> i < |ls| - 1
    ensures r.1.Some? ==> r.1.value == ls[i + 1]
  {
    (if i > 0 then Some(ls[i - 1]) else None, if i < |ls| - 1 then Some(ls[i + 1]) else None)
  }

  /** A first lesson has no previous one and a last lesson no next one. */
  lemma NeighboursAtEnds(ls: seq<Lesson>)
    requires |ls| > 0
    ensures Neighbours(ls, 0).0.None?
    ensures Neighbours(ls, |ls| - 1).1.None?
    ensures |ls| > 1 ==> Neighbours(ls, 0).1 == Some(ls[1]) && Neighbours(ls, |ls| - 1).0 == Some(ls[|ls| - 2])
  {
  }

  datatype LessonResult =
    | LessonNotFound
    | LessonForbidden
      /** A pending applicant: no content, video, or navigation. */
    | LessonRestricted(lesson: Lesson, course: Course, durationSeconds: int)
    | LessonFull(lesson: Lesson, course: Course, durationSeconds: int, content: Option<string>,
                 video: Option<string>, prev: Option<Lesson>, next: Option<Lesson>)

  /** `get_lesson_details`. The `Lesson` model has no `preview` field, so the
      preview exception never applies and `preview` is always false. */
  function LessonDetails(courses: seq<Course>, lessonId: nat, caller: Caller, e: Enrollments,
                         application: Option<string>, checkPermissions: bool): (r: LessonResult)
    ensures LessonCourse(courses, lessonId).None? <==> r.LessonNotFound?
    ensures r.LessonFull? ==>
      var ls := AllLessons(r.course);
      var i := IndexOfId(ls, lessonId);
      0 <= i && ls[i] == r.lesson && (r.prev, r.next) == Neighbours(ls, i)
      && r.content == (if r.lesson.kind == "article" then r.lesson.content else None)
    ensures r.LessonRestricted? || r.LessonFull? ==> r.lesson.id == lessonId && r.course in courses
  {
    match LessonCourse(courses, lessonId)
    case None => LessonNotFound
    case Some(c) =>
      var ls := AllLessons(c);
      var i := IndexOfId(ls, lessonId);
      assert i >= 0;
      var l := ls[i];
      var secs := LessonSeconds(l.duration);
      var inst := caller.Member? && caller.staffPk == Some(c.instructor);
      var enr := caller.Member? && caller.studentPk.Some? && Enrolled(e, c.id, caller.studentPk.value);
      var pending := caller.Member? && caller.studentPk.Some? && !enr && application == Some("pending");
      if checkPermissions && (!l.isPublished || !c.isPublished) && !inst && !enr then LessonForbidden
      else if checkPermissions && pending && !enr && !inst then LessonRestricted(l, c, secs)
      else
        var nb := Neighbours(ls, i);
        LessonFull(l, c, secs, if l.kind == "article" then l.content else None, l.video, nb.0, nb.1)
  }

  /** Outsiders never get an unpublished lesson or a lesson of an unpublished
      course; the instructor and enrolled students always get the full lesson. */
  lemma LessonAccessRule(courses: seq<Course>, lessonId: nat, caller: Caller, e: Enrollments, application: Option<string>)
    requires LessonCourse(courses, lessonId).Some?
    ensures var c := LessonCourse(courses, lessonId).value;
            var l := AllLessons(c)[IndexOfId(AllLessons(c), lessonId)];
            var inst := caller.Member? && caller.staffPk == Some(c.instructor);
            var enr := caller.Member? && caller.studentPk.Some? && Enrolled(e, c.id, caller.studentPk.value);
            var r := LessonDetails(courses, lessonId, caller, e, application, true);
      && (r.LessonForbidden? <==> (!l.isPublished || !c.isPublished) && !inst && !enr)
      && (inst || enr ==> r.LessonFull?)
  {
  }

  /** A pending applicant gets less than an anonymous visitor: on a published
      lesson of a published course the visitor gets the full lesson, the
      applicant the restricted one. */
  lemma PendingApplicantSeesLessThanAnonymous(courses: seq<Course>, lessonId: nat, uid: nat, student: nat, e: Enrollments)
    requires LessonCourse(courses, lessonId).Some?
    requires var c := LessonCourse(courses, lessonId).value;
             c.isPublished && AllLessons(c)[IndexOfId(AllLessons(c), lessonId)].isPublished
             && !Enrolled(e, c.id, student)
    ensures LessonDetails(courses, lessonId, Anonymous, e, None, true).LessonFull?
    ensures LessonDetails(courses, lessonId, Member(uid, None, Some(student)), e, Some("pending"), true).LessonRestricted?
  {
  }

  // ---------------------------------------------------------------------------
  // Marking progress (`mark_lesson_progress`)

  datatype MarkResult =
    | MarkUnauthenticated
    | MarkLessonNotFound
    | MarkNotStudent
    | MarkNotEnrolled
    | Marked(lessonId: nat, isCompleted: bool, totalLessons: nat, completedLessons: nat, watchNotified: bool)
      /** An unexpected failure inside the update: success with made-up counts. */
    | MarkedFallback(lessonId: nat, isCompleted: bool)

  /** The percentage the response reports (before rounding to one decimal). */
  function MarkPercent(completed: nat, total: nat): (r: real)
    ensures total == 0 ==> r == 0.0
    ensures total > 0 ==> r * (total as real) == (completed as real) * 100.0
  {
    if total > 0 then (completed as real) * 100.0 / (total as real) else 0.0
  }

  /** The counts the fallback response reports: one lesson, completed or not. */
  function FallbackCounts(isCompleted: bool): (r: (nat, nat, nat))
    ensures r.0 == 1 && r.1 <= r.0 && (r.1 == 1 <==> isCompleted) && r.2 == 100 * r.1
  {
    if isCompleted then (1, 1, 100) else (1, 0, 0)
  }

  /** `mark_lesson_progress`: 401, then 404, then 403 for a caller who is not
      a student, then 403 for one not enrolled; otherwise exactly one progress
      row is upserted and the instructor is notified only when the row is new.
      The total counts published lessons, the completed count any lesson of
      the course. `innerRaises` stands for an unexpected failure of the update,
      which still answers success. */
  function MarkLessonProgress(courses: seq<Course>, caller: Caller, e: Enrollments, p: Progress,
                              lessonId: nat, isCompleted: bool, innerRaises: bool): (r: (Progress, MarkResult))
    ensures caller.Anonymous? ==> r.1 == MarkUnauthenticated
    ensures caller.Member? && LessonCourse(courses, lessonId).None? ==> r.1 == MarkLessonNotFound
    ensures caller.Member? && LessonCourse(courses, lessonId).Some? && caller.studentPk.None? ==> r.1 == MarkNotStudent
    ensures (caller.Member? && LessonCourse(courses, lessonId).Some? && caller.studentPk.Some?
             && !Enrolled(e, LessonCourse(courses, lessonId).value.id, caller.studentPk.value)) ==> r.1 == MarkNotEnrolled
    ensures !r.1.Marked? ==> r.0 == p
    ensures r.1.Marked? ==>
      && caller.Member? && caller.studentPk.Some?
      && var key := (caller.studentPk.value, lessonId);
      && r.0 == p[key := isCompleted]
      && (r.1.watchNotified <==> key !in p)
      && var c := LessonCourse(courses, lessonId).value;
      && r.1.totalLessons == |PublishedLessons(AllLessons(c))|
      && r.1.completedLessons == CountCompleted(AllLessons(c), r.0, caller.studentPk.value)
  {
    if caller.Anonymous? then (p, MarkUnauthenticated)
    else match LessonCourse(courses, lessonId)
      case None => (p, MarkLessonNotFound)
      case Some(c) =>
        if caller.studentPk.None? then (p, MarkNotStudent)
        else
          var student := caller.studentPk.value;
          if !Enrolled(e, c.id, student) then (p, MarkNotEnrolled)
          else if innerRaises then (p, MarkedFallback(lessonId, isCompleted))
          else
            var (p2, created) := UpsertProgress(p, student, lessonId, isCompleted);
            var ls := AllLessons(c);
            (p2, Marked(lessonId, isCompleted, |PublishedLessons(ls)|, CountCompleted(ls, p2, student), created))
  }

  /** Marking the same lesson twice stores one row and notifies only once. */
  lemma MarkTwiceNotifiesOnce(courses: seq<Course>, caller: Caller, e: Enrollments, p: Progress,
                              lessonId: nat, v1: bool, v2: bool)
    requires MarkLessonProgress(courses, caller, e, p, lessonId, v1, false).1.Marked?
    ensures var first := MarkLessonProgress(courses, caller, e, p, lessonId, v1, false);
            var second := MarkLessonProgress(courses, caller, e, first.0, lessonId, v2, false);
      && second.1.Marked? && !second.1.watchNotified
      && second.0.Keys == first.0.Keys
  {
  }

  /** The completed count can exceed the published total: a course with one
      published and one unpublished lesson, both completed, reports 2 of 1
      (200 percent). */
  lemma CompletedCanExceedTotal(c: Course, uid: nat, student: nat, e: Enrollments, secId: nat)
    requires Enrolled(e, c.id, student)
    requires c.sections == [Section(secId, "S", 0, [
               Lesson(1, "a", "video", None, None, None, true, 0),
               Lesson(2, "b", "video", None, None, None, false, 1)])]
    ensures var r := MarkLessonProgress([c], Member(uid, None, Some(student)), e,
                                        map[(student, 2) := true], 1, true, false);
      && r.1.Marked? && r.1.totalLessons == 1 && r.1.completedLessons == 2
      && MarkPercent(r.1.completedLessons, r.1.totalLessons) == 200.0
  {
    var l1 := Lesson(1, "a", "video", None, None, None, true, 0);
    var l2 := Lesson(2, "b", "video", None, None, None, false, 1);
    var ls := AllLessons(c);
    assert ls == [l1, l2] by {
      assert c.sections[..0] == [];
      assert Flatten(c.sections) == Flatten(c.sections[..0]) + c.sections[0].lessons;
    }
    assert l1 in ls;
    assert LessonCourse([c], 1) == Some(c);
    var p2 := map[(student, 2) := true][(student, 1) := true];
    TwoLessonCounts(l1, l2, p2, student);
  }

  lemma TwoLessonCounts(l1: Lesson, l2: Lesson, p: Progress, student: nat)
    requires l1.isPublished && !l2.isPublished
    requires (student, l1.id) in p && p[(student, l1.id)] && (student, l2.id) in p && p[(student, l2.id)]
    ensures |PublishedLessons([l1, l2])| == 1
    ensures CountCompleted([l1, l2], p, student) == 2
  {
    assert [l1, l2][..1] == [l1];
    assert [l1][..0] == [];
  }
}

=== FILE: course_editing.dfy ===
/** Writing courses: `CourseListCreateView.post` (create with curriculum,
    requirements, objectives, resources and uploaded videos),
    `CourseDetailView.put` (patch the fields, replace the lists, reconcile
    sections and lessons) and `CourseDetailView.delete` (soft delete).
    Primary keys the database would assign are drawn from counters passed
    in, each above every key already in use. The section and lesson rows are
    produced in the order they are written; the answer reads them back
    through `InOrder`, by `order`. */
module CourseEditing {
  import opened Wrappers
  import opened Text
  import opened Json
  import opened People
  import opened Catalog

  // ---------------------------------------------------------------------------
  // Requirements and learning objectives

  /** `text and text.strip()`: present and not all whitespace. */
  predicate NonBlank(t: Option<string>) {
    t.Some? && !AllSpace(t.value)
  }

  /** `r` holds the rows for `texts`: each row is a non-blank text at its
      list position, numbered from `firstId`, in list order, and no
      non-blank text is missing. */
  predicate KeptRows(texts: seq<Option<string>>, firstId: nat, r: seq<Item>) {
    && |r| <= |texts|
    && (forall i :: 0 <= i < |r| ==>
         r[i].order < |texts| && texts[r[i].order] == Some(r[i].text) && NonBlank(texts[r[i].order]) && r[i].id == firstId + i)
    && (forall i, j :: 0 <= i < j < |r| ==> r[i].order < r[j].order)
    && (forall k :: 0 <= k < |texts| && NonBlank(texts[k]) ==> exists i :: 0 <= i < |r| && r[i].order == k)
  }

  /** The rows created from a list of texts: one per non-blank text, in list
      order, each remembering its position in the list as `order`. */
  function KeepNonBlank(texts: seq<Option<string>>, firstId: nat): (r: seq<Item>)
    ensures KeptRows(texts, firstId, r)
  {
    if |texts| == 0 then []
    else
      var n := |texts| - 1;
      var init := KeepNonBlank(texts[..n], firstId);
      var r := if NonBlank(texts[n]) then init + [Item(firstId + |init|, texts[n].value, n)] else init;
      KeepStep(texts, firstId, init, r);
      r
  }

  /** One more text: its row, if any, goes after the rows of the texts
      before it. */
  lemma KeepStep(texts: seq<Option<string>>, firstId: nat, init: seq<Item>, r: seq<Item>)
    requires |texts| > 0 && KeptRows(texts[..|texts| - 1], firstId, init)
    requires var n := |texts| - 1;
      r == if NonBlank(texts[n]) then init + [Item(firstId + |init|, texts[n].value, n)] else init
    ensures KeptRows(texts, firstId, r)
  {
    var n := |texts| - 1;
    assert forall k :: 0 <= k < n ==> texts[..n][k] == texts[k];
    if NonBlank(texts[n]) {
      assert r[|init|].order == n;
      assert forall i :: 0 <= i < |init| ==> r[i] == init[i];
    }
  }

  // ---------------------------------------------------------------------------
  // Resources

  datatype ResourceData = ResourceData(id: Option<JVal>, title: string, kind: string, description: string, url: string)

  datatype Resource = Resource(id: nat, title: string, kind: string, url: string, description: string,
                               order: nat, file: Option<string>)

  /** `str(v)` of a resource id as used in the `file_{id}` upload key; lists
      and objects have no key a client would send. */
  function FileKeyOf(v: JVal): Option<string> {
    match v
    case JStr(s) => Some(s)
    case JInt(n) => Some(IntToString(n))
    case JBool(b) => Some(if b then "True" else "False")
    case _ => None
  }

  predicate FileKind(kind: string) {
    kind == "file" || kind == "pdf" || kind == "doc" || kind == "video"
  }

  /** The upload a resource picks up: only in a multipart request, only for
      file-like kinds, and only under `file_{id}` for a truthy id. */
  function ResourceFile(d: ResourceData, multipart: bool, files: map<string, string>): (r: Option<string>)
    ensures r.Some? ==> multipart && FileKind(d.kind) && d.id.Some? && Truthy(d.id.value)
  {
    if multipart && FileKind(d.kind) && d.id.Some? && Truthy(d.id.value) && FileKeyOf(d.id.value).Some?
       && "file_" + FileKeyOf(d.id.value).value in files
    then Some(files["file_" + FileKeyOf(d.id.value).value])
    else None
  }

  /** The resource created from an entry at position `order`. */
  function MakeResource(id: nat, d: ResourceData, order: nat, multipart: bool, files: map<string, string>): Resource {
    Resource(id, d.title, d.kind, d.url, d.description, order, ResourceFile(d, multipart, files))
  }

  predicate HasTitle(d: ResourceData) {
    |d.title| > 0
  }

  /** `r` lists, in increasing order, exactly the positions of the entries
      of `ds` with a non-empty title. */
  predicate TitledPositions(ds: seq<ResourceData>, r: seq<nat>) {
    && |r| <= |ds|
    && (forall i :: 0 <= i < |r| ==> r[i] < |ds| && HasTitle(ds[r[i]]))
    && (forall i, j :: 0 <= i < j < |r| ==> r[i] < r[j])
    && (forall k :: 0 <= k < |ds| && HasTitle(ds[k]) ==> exists i :: 0 <= i < |r| && r[i] == k)
  }

  /** The positions of the entries with a non-empty title, in order. */
  function Titled(ds: seq<ResourceData>): (r: seq<nat>)
    ensures TitledPositions(ds, r)
  {
    if |ds| == 0 then []
    else
      var n := |ds| - 1;
      var init := Titled(ds[..n]);
      var r := if HasTitle(ds[n]) then init + [n] else init;
      TitledStep(ds, init, r);
      r
  }

  /** One more entry: its position, if titled, goes after the others. */
  lemma TitledStep(ds: seq<ResourceData>, init: seq<nat>, r: seq<nat>)
    requires |ds| > 0 && TitledPositions(ds[..|ds| - 1], init)
    requires r == if HasTitle(ds[|ds| - 1]) then init + [|ds| - 1] else init
    ensures TitledPositions(ds, r)
  {
    var n := |ds| - 1;
    assert forall k :: 0 <= k < n ==> ds[..n][k] == ds[k];
    if HasTitle(ds[n]) {
      assert r[|init|] == n;
      assert forall i :: 0 <= i < |init| ==> r[i] == init[i];
    }
  }

  /** One resource per entry with a non-empty title (the others are
      skipped), each ordered by its position in the list. */
  function BuildResources(ds: seq<ResourceData>, multipart: bool, files: map<string, string>, firstId: nat): (r: seq<Resource>)
    ensures |r| <= |ds|
    ensures forall i :: 0 <= i < |r| ==>
      r[i].order < |ds| && HasTitle(ds[r[i].order]) && r[i] == MakeResource(firstId + i, ds[r[i].order], r[i].order, multipart, files)
    ensures forall i, j :: 0 <= i < j < |r| ==> r[i].order < r[j].order
    ensures forall k :: 0 <= k < |ds| && HasTitle(ds[k]) ==> exists i :: 0 <= i < |r| && r[i].order == k
  {
    var pos := Titled(ds);
    MakeResources(ds, pos, multipart, files, firstId)
  }

  function MakeResources(ds: seq<ResourceData>, pos: seq<nat>, multipart: bool, files: map<string, string>, firstId: nat): (r: seq<Resource>)
    requires forall i :: 0 <= i < |pos| ==> pos[i] < |ds|
    ensures |r| == |pos|
    ensures forall i :: 0 <= i < |r| ==> r[i] == MakeResource(firstId + i, ds[pos[i]], pos[i], multipart, files) && r[i].order == pos[i]
  {
    seq(|pos|, i requires 0 <= i < |pos| => MakeResource(firstId + i, ds[pos[i]], pos[i], multipart, files))
  }

  // ---------------------------------------------------------------------------
  // Curriculum as sent by the client

  /** A lesson of the request; `None` fields were absent from it. */
  datatype LessonData = LessonData(
    id: Option<JVal>, title: Option<string>, kind: Option<string>, content: Option<string>,
    duration: Option<string>, isPublished: Option<bool>, order: Option<nat>)

  /** A section of the request; `lessons` is `None` when the key is absent. */
  datatype SectionData = SectionData(id: Option<JVal>, title: Option<string>, order: Option<nat>,
                                     lessons: Option<seq<LessonData>>)

  /** `'lessons' in data and data['lessons']`. */
  predicate HasLessons(d: SectionData) {
    d.lessons.Some? && |d.lessons.value| > 0
  }

  function DefaultSectionTitle(idx: nat): string {
    "Section " + NatToString(idx + 1)
  }

  function DefaultLessonTitle(idx: nat): string {
    "Lesson " + NatToString(idx + 1)
  }

  /** A lesson created from the request: absent fields default to a
      numbered title, a video, empty content, `"00:00"`, unpublished, and
      the position in the list as its order. */
  function CreateLesson(id: nat, d: LessonData, idx: nat): (l: Lesson)
    ensures l.id == id && l.order == d.order.GetOr(idx)
    ensures d.title.None? ==> l.title == DefaultLessonTitle(idx)
    ensures d.kind.None? ==> l.kind == "video"
    ensures d.isPublished.None? ==> !l.isPublished
    ensures l.duration == Some(d.duration.GetOr("00:00")) && l.content == Some(d.content.GetOr(""))
    ensures l.video == None
  {
    Lesson(id, d.title.GetOr(DefaultLessonTitle(idx)), d.kind.GetOr("video"), Some(d.duration.GetOr("00:00")),
           Some(d.content.GetOr("")), None, d.isPublished.GetOr(false), d.order.GetOr(idx))
  }

  /** An existing lesson updated from the request: each field sent replaces
      the stored one, absent fields are kept, except the order, which falls
      back to the position in the list. */
  function EditLesson(l: Lesson, d: LessonData, idx: nat): (r: Lesson)
    ensures r.id == l.id && r.video == l.video && r.order == d.order.GetOr(idx)
    ensures r.title == d.title.GetOr(l.title) && r.kind == d.kind.GetOr(l.kind)
    ensures r.isPublished == d.isPublished.GetOr(l.isPublished)
    ensures d.content.None? ==> r.content == l.content
    ensures d.duration.None? ==> r.duration == l.duration
  {
    l.(title := d.title.GetOr(l.title), kind := d.kind.GetOr(l.kind),
       content := if d.content.Some? then d.content else l.content,
       duration := if d.duration.Some? then d.duration else l.duration,
       isPublished := d.isPublished.GetOr(l.isPublished), order := d.order.GetOr(idx))
  }

  // ---------------------------------------------------------------------------
  // Creating a course

  /** The key a created lesson is filed under in `lesson_id_map`: its id as
      sent, or `"lesson-{j}"` when it has none; `None` when the id is a list
      or object, which cannot be a dictionary key. */
  function FrontKey(d: LessonData, idx: nat): Option<Key> {
    if d.id.None? then Some(KStr("lesson-" + NatToString(idx))) else KeyOf(d.id.value)
  }

  /** The lessons of one new section, with consecutive fresh ids from
      `next`, and the (key, id) pair each files into `lesson_id_map`. */
  function CreateLessons(ds: seq<LessonData>, next: nat): (r: (seq<Lesson>, seq<(Key, nat)>))
    requires forall j :: 0 <= j < |ds| ==> FrontKey(ds[j], j).Some?
    ensures |r.0| == |ds| && |r.1| == |ds|
    ensures forall j :: 0 <= j < |ds| ==> r.0[j] == CreateLesson(next + j, ds[j], j)
    ensures forall j :: 0 <= j < |ds| ==> r.1[j] == (FrontKey(ds[j], j).value, next + j)
  {
    (seq(|ds|, j requires 0 <= j < |ds| => CreateLesson(next + j, ds[j], j)),
     seq(|ds|, j requires 0 <= j < |ds| => (FrontKey(ds[j], j).value, next + j)))
  }

  /** Every lesson id of the request can be a dictionary key. */
  predicate KeysHashable(ss: seq<SectionData>) {
    forall i, j :: 0 <= i < |ss| && HasLessons(ss[i]) && 0 <= j < |ss[i].lessons.value|
      ==> FrontKey(ss[i].lessons.value[j], j).Some?
  }

  /** The sections of a new course, with consecutive ids from `nextSection`,
      their lessons with ids from `nextLesson`, and the `lesson_id_map`
      entries in the order they are written. */
  function CreateSections(ss: seq<SectionData>, nextSection: nat, nextLesson: nat): (r: (seq<Section>, seq<(Key, nat)>, nat))
    requires KeysHashable(ss)
    ensures |r.0| == |ss|
    ensures r.2 >= nextLesson
    ensures forall i :: 0 <= i < |ss| ==>
      && r.0[i].id == nextSection + i
      && r.0[i].title == ss[i].title.GetOr(DefaultSectionTitle(i))
      && r.0[i].order == ss[i].order.GetOr(i)
      && |r.0[i].lessons| == (if HasLessons(ss[i]) then |ss[i].lessons.value| else 0)
    decreases |ss|
  {
    if |ss| == 0 then ([], [], nextLesson)
    else
      var n := |ss| - 1;
      assert KeysHashable(ss[..n]) by {
        forall i, j | 0 <= i < n && HasLessons(ss[..n][i]) && 0 <= j < |ss[..n][i].lessons.value|
          ensures FrontKey(ss[..n][i].lessons.value[j], j).Some? {
          assert ss[..n][i] == ss[i];
        }
      }
      var (init, pairs, next) := CreateSections(ss[..n], nextSection, nextLesson);
      var d := ss[n];
      var (ls, ps) := if HasLessons(d) then CreateLessons(d.lessons.value, next) else ([], []);
      var s := Section(nextSection + n, d.title.GetOr(DefaultSectionTitle(n)), d.order.GetOr(n), ls);
      (init + [s], pairs + ps, next + |ls|)
  }

  /** `lesson_id_map` after all assignments: a later lesson filed under the
      same key replaces an earlier one. */
  function IdMap(pairs: seq<(Key, nat)>): (m: map<Key, nat>)
    ensures forall k :: k in m <==> exists i :: 0 <= i < |pairs| && pairs[i].0 == k
    ensures |pairs| > 0 ==> m[pairs[|pairs| - 1].0] == pairs[|pairs| - 1].1
    ensures forall k :: k in m ==> exists i :: 0 <= i < |pairs| && pairs[i] == (k, m[k])
  {
    if |pairs| == 0 then map[]
    else
      var init := IdMap(pairs[..|pairs| - 1]);
      var last := pairs[|pairs| - 1];
      assert forall i :: 0 <= i < |pairs| - 1 ==> pairs[..|pairs| - 1][i] == pairs[i];
      init[last.0 := last.1]
  }

  /** Attach an uploaded video to the lesson with that id when it is a video lesson. */
  function SetVideo(ss: seq<Section>, lessonId: nat, file: string): (r: seq<Section>)
    ensures |r| == |ss|
    ensures forall i :: 0 <= i < |ss| ==>
      && r[i].id == ss[i].id && r[i].title == ss[i].title && r[i].order == ss[i].order
      && |r[i].lessons| == |ss[i].lessons|
      && forall j :: 0 <= j < |ss[i].lessons| ==>
           var l := ss[i].lessons[j];
           r[i].lessons[j] == (if l.id == lessonId && l.kind == "video" then l.(video := Some(file)) else l)
  {
    seq(|ss|, i requires 0 <= i < |ss| =>
      ss[i].(lessons := seq(|ss[i].lessons|, j requires 0 <= j < |ss[i].lessons| =>
        var l := ss[i].lessons[j];
        if l.id == lessonId && l.kind == "video" then l.(video := Some(file)) else l)))
  }

  /** The `video_{id}` uploads: for each key `video_x` whose `x` is still
      in `lesson_id_map`, the lesson it maps to receives the file. Walking
      the created pairs visits each surviving map entry once. */
  function AttachVideos(ss: seq<Section>, pairs: seq<(Key, nat)>, m: map<Key, nat>, files: map<string, string>): (r: seq<Section>)
    ensures |r| == |ss|
    ensures forall i :: 0 <= i < |ss| ==>
      r[i].id == ss[i].id && r[i].title == ss[i].title && r[i].order == ss[i].order
      && |r[i].lessons| == |ss[i].lessons|
    decreases |pairs|
  {
    if |pairs| == 0 then ss
    else
      var (k, lid) := pairs[0];
      var rest := AttachVideos(ss, pairs[1..], m, files);
      if k.KStr? && k in m && m[k] == lid && "video_" + k.s in files then SetVideo(rest, lid, files["video_" + k.s])
      else rest
  }

  datatype CreateRequest = CreateRequest(
    title: Option<string>, description: string, level: string, category: string,
    isPublished: bool, isFeatured: bool,
    requirements: Option<seq<Option<string>>>, objectives: Option<seq<Option<string>>>,
    resources: Option<seq<ResourceData>>, sections: Option<seq<SectionData>>,
    multipart: bool, files: map<string, string>)

  /** Fresh primary keys, one counter per table. */
  datatype Keys = Keys(course: nat, section: nat, lesson: nat, requirement: nat, objective: nat, resource: nat)

  datatype CreateResult =
    | CreateForbidden
    | CreateBadRequest
    | Created(course: Course, resources: seq<Resource>)
    | CreateFailed

  /** A multipart flag: `value.lower() == 'true'`, `'false'` when absent. */
  function FormFlag(raw: Option<string>): (r: bool)
    ensures raw.None? ==> !r
    ensures r ==> |raw.value| == 4 && Lower(raw.value) == "true"
  {
    raw.Some? && Lower(raw.value) == "true"
  }

  function SectionsOf(req: CreateRequest): seq<SectionData> {
    if req.sections.Some? then req.sections.value else []
  }

  /** Entry `i` of the sent sections is among `ss`: with the `i`-th fresh
      id, its title (or the default), its order (or its position) and one
      lesson per lesson sent. */
  predicate CreatedAs(ss: seq<Section>, ds: seq<SectionData>, nextSection: nat, i: nat)
    requires i < |ds|
  {
    exists s :: s in ss
      && s.id == nextSection + i
      && s.title == ds[i].title.GetOr(DefaultSectionTitle(i))
      && s.order == ds[i].order.GetOr(i)
      && |s.lessons| == (if HasLessons(ds[i]) then |ds[i].lessons.value| else 0)
  }

  /** The section and lesson rows a create inserts, in the order it inserts
      them, with the uploaded videos attached. */
  function CreatedRows(req: CreateRequest, keys: Keys): (r: seq<Section>)
    requires KeysHashable(SectionsOf(req))
    ensures |r| == |SectionsOf(req)|
    ensures forall i :: 0 <= i < |r| ==>
      && r[i].id == keys.section + i
      && r[i].title == SectionsOf(req)[i].title.GetOr(DefaultSectionTitle(i))
      && r[i].order == SectionsOf(req)[i].order.GetOr(i)
      && |r[i].lessons| == (if HasLessons(SectionsOf(req)[i]) then |SectionsOf(req)[i].lessons.value| else 0)
  {
    var (sections, pairs, _) := CreateSections(SectionsOf(req), keys.section, keys.lesson);
    if req.multipart then AttachVideos(sections, pairs, IdMap(pairs), req.files) else sections
  }

  /** Reading back the created rows in order loses none of them. */
  lemma CreatedReadBack(ss: seq<Section>, ds: seq<SectionData>, nextSection: nat)
    requires |ss| == |ds|
    requires forall i :: 0 <= i < |ds| ==>
      && ss[i].id == nextSection + i
      && ss[i].title == ds[i].title.GetOr(DefaultSectionTitle(i))
      && ss[i].order == ds[i].order.GetOr(i)
      && |ss[i].lessons| == (if HasLessons(ds[i]) then |ds[i].lessons.value| else 0)
    ensures forall i :: 0 <= i < |ds| ==> CreatedAs(InOrder(ss), ds, nextSection, i)
  {
    forall i | 0 <= i < |ds| ensures CreatedAs(InOrder(ss), ds, nextSection, i) {
      InOrderHas(ss, i);
    }
  }

  /** The course a successful create stores and answers with: owned by the
      caller, active and unrated, with the sent fields, one section per
      entry sent (their default titles numbered from 1), read back by
      `order`, and the non-blank requirements and objectives. */
  function BuildCourse(staffId: nat, title: string, req: CreateRequest, keys: Keys, createdAt: int): (c: Course)
    requires KeysHashable(SectionsOf(req))
    ensures c.id == keys.course && c.instructor == staffId && c.title == title
    ensures c.description == req.description && c.level == req.level && c.category == Some(req.category)
    ensures c.isPublished == req.isPublished && c.isFeatured == req.isFeatured
    ensures c.isActive && c.rating == 0.0 && c.ratingCount == 0
    ensures Ordered(c.sections) && |c.sections| == |SectionsOf(req)|
    ensures forall i :: 0 <= i < |SectionsOf(req)| ==> CreatedAs(c.sections, SectionsOf(req), keys.section, i)
    ensures c.requirements == (if req.requirements.Some? then KeepNonBlank(req.requirements.value, keys.requirement) else [])
    ensures c.objectives == (if req.objectives.Some? then KeepNonBlank(req.objectives.value, keys.objective) else [])
  {
    var rows := CreatedRows(req, keys);
    var sorted := InOrder(rows);
    CreatedReadBack(rows, SectionsOf(req), keys.section);
    NewCourse(keys.course, title, req.description, staffId, createdAt).(
      level := req.level, category := Some(req.category), isPublished := req.isPublished,
      isFeatured := req.isFeatured, sections := sorted,
      requirements := if req.requirements.Some? then KeepNonBlank(req.requirements.value, keys.requirement) else [],
      objectives := if req.objectives.Some? then KeepNonBlank(req.objectives.value, keys.objective) else [])
  }

  /** `CourseListCreateView.post`: 403 for a caller without a staff
      profile, 400 without a title, otherwise the course and its resources.
      An unhashable lesson id fails the request and the transaction leaves
      nothing behind. */
  function CreateCourse(staff: Option<Staff>, req: CreateRequest, keys: Keys, createdAt: int): (r: CreateResult)
    ensures staff.None? <==> r.CreateForbidden?
    ensures staff.Some? ==> (r.CreateBadRequest? <==> req.title.None? || req.title.value == "")
    ensures r.CreateFailed? <==> staff.Some? && req.title.Some? && req.title.value != "" && !KeysHashable(SectionsOf(req))
    ensures r.Created? ==>
      && KeysHashable(SectionsOf(req))
      && r.course == BuildCourse(staff.value.id, req.title.value, req, keys, createdAt)
      && r.resources == (if req.resources.Some? then BuildResources(req.resources.value, req.multipart, req.files, keys.resource) else [])
  {
    if staff.None? then CreateForbidden
    else if req.title.None? || req.title.value == "" then CreateBadRequest
    else if !KeysHashable(SectionsOf(req)) then CreateFailed
    else
      Created(BuildCourse(staff.value.id, req.title.value, req, keys, createdAt),
              if req.resources.Some? then BuildResources(req.resources.value, req.multipart, req.files, keys.resource) else [])
  }

  /** Lessons sent without ids fall back to `"lesson-{j}"` per section, so
      the first lesson of two sections shares the key `"lesson-0"`: the map
      keeps only the second, and an upload for `video_lesson-0` can only
      reach that one. */
  lemma DefaultKeysCollide(a: LessonData, b: LessonData, next: nat)
    requires a.id.None? && b.id.None?
    ensures var pairs := [(FrontKey(a, 0).value, next), (FrontKey(b, 0).value, next + 1)];
      && FrontKey(a, 0) == FrontKey(b, 0)
      && IdMap(pairs) == map[FrontKey(a, 0).value := next + 1]
  {
    var pairs := [(FrontKey(a, 0).value, next), (FrontKey(b, 0).value, next + 1)];
    assert pairs[..1][..0] == [];
    assert IdMap(pairs[..1]) == map[FrontKey(a, 0).value := next];
  }

  /** A lesson whose id is no longer in the map never receives an upload. */
  lemma {:induction false} ShadowedLessonGetsNoVideo(ss: seq<Section>, pairs: seq<(Key, nat)>, m: map<Key, nat>,
                                                     files: map<string, string>, i: nat, j: nat)
    requires i < |ss| && j < |ss[i].lessons|
    requires forall k :: k in m ==> m[k] != ss[i].lessons[j].id
    ensures AttachVideos(ss, pairs, m, files)[i].lessons[j] == ss[i].lessons[j]
    decreases |pairs|
  {
    if |pairs| > 0 {
      ShadowedLessonGetsNoVideo(ss, pairs[1..], m, files, i, j);
    }
  }

  // ---------------------------------------------------------------------------
  // Updating a course: ids as the ORM reads them

  /** The primary key a sent id looks up: `None` when the id is absent or
      falsy, which makes the row a new one. */
  function IdOf(v: Option<JVal>): (r: Option<int>)
    ensures r.Some? ==> v.Some? && Truthy(v.value) && CoerceId(v.value) == LookupId(r.value)
  {
    if v.Some? && Truthy(v.value) && CoerceId(v.value).LookupId? then Some(CoerceId(v.value).id) else None
  }

  /** A truthy id the ORM cannot read as an integer (`"section-3"`) raises. */
  predicate IdRaises(v: Option<JVal>) {
    v.Some? && Truthy(v.value) && CoerceId(v.value).LookupRaises?
  }

  /** The sent id names the row `id`. */
  predicate RefersTo(v: Option<JVal>, id: nat) {
    IdOf(v) == Some(id as int)
  }

  /** A resolved id names one of the rows `ids`. */
  predicate Known(ref: Option<int>, ids: set<nat>) {
    ref.Some? && ref.value >= 0 && ref.value as nat in ids
  }

  function LessonRefs(ds: seq<LessonData>): (r: seq<Option<int>>)
    ensures |r| == |ds| && forall j :: 0 <= j < |ds| ==> r[j] == IdOf(ds[j].id)
  {
    seq(|ds|, j requires 0 <= j < |ds| => IdOf(ds[j].id))
  }

  function SectionRefs(ds: seq<SectionData>): (r: seq<Option<int>>)
    ensures |r| == |ds| && forall j :: 0 <= j < |ds| ==> r[j] == IdOf(ds[j].id)
  {
    seq(|ds|, j requires 0 <= j < |ds| => IdOf(ds[j].id))
  }

  // ---------------------------------------------------------------------------
  // Lessons of one section

  function LessonIds(ls: seq<Lesson>): set<nat> {
    set i | 0 <= i < |ls| :: ls[i].id
  }

  predicate DistinctLessons(ls: seq<Lesson>) {
    forall i, j :: 0 <= i < j < |ls| ==> ls[i].id != ls[j].id
  }

  /** Every id is below the next fresh key. */
  predicate Below(ls: seq<Lesson>, next: nat) {
    forall i :: 0 <= i < |ls| ==> ls[i].id < next
  }

  function LessonAt(ls: seq<Lesson>, id: nat): (i: nat)
    requires id in LessonIds(ls)
    ensures i < |ls| && ls[i].id == id
  {
    if ls[0].id == id then 0
    else
      var k :| 0 <= k < |ls| && ls[k].id == id;
      assert ls[1..][k - 1].id == id;
      1 + LessonAt(ls[1..], id)
  }

  /** Updating a lesson in place keeps the ids, their distinctness and bound. */
  lemma LessonIdsUpdate(ls: seq<Lesson>, i: nat, l: Lesson, next: nat)
    requires i < |ls| && l.id == ls[i].id
    requires DistinctLessons(ls) && Below(ls, next)
    ensures LessonIds(ls[i := l]) == LessonIds(ls)
    ensures DistinctLessons(ls[i := l]) && Below(ls[i := l], next)
  {
    var ls' := ls[i := l];
    forall x | x in LessonIds(ls) ensures x in LessonIds(ls') {
      var k :| 0 <= k < |ls| && ls[k].id == x;
      assert ls'[k].id == x;
    }
  }

  /** Appending a lesson with the next fresh key keeps the ids distinct. */
  lemma LessonIdsAppend(ls: seq<Lesson>, l: Lesson, next: nat)
    requires l.id == next && DistinctLessons(ls) && Below(ls, next)
    ensures LessonIds(ls + [l]) == LessonIds(ls) + {l.id}
    ensures DistinctLessons(ls + [l]) && Below(ls + [l], next + 1)
  {
    var ls' := ls + [l];
    forall x | x in LessonIds(ls) ensures x in LessonIds(ls') {
      var k :| 0 <= k < |ls| && ls[k].id == x;
      assert ls'[k].id == x;
    }
    assert ls'[|ls|].id == l.id;
  }

  /** One entry of a section's lesson list, its id resolved to `ref`: a
      lesson of this section it names is updated in place, otherwise a
      lesson is created with the next fresh key. `r.1` is the id touched. */
  function LessonStep(ls: seq<Lesson>, d: LessonData, ref: Option<int>, idx: nat, next: nat): (r: (seq<Lesson>, nat, nat))
    requires DistinctLessons(ls) && Below(ls, next)
    ensures DistinctLessons(r.0) && Below(r.0, r.2) && next <= r.2
    ensures LessonIds(r.0) == LessonIds(ls) + {r.1}
    ensures Known(ref, LessonIds(ls)) ==> r.1 == ref.value as nat && r.2 == next
    ensures !Known(ref, LessonIds(ls)) ==> r.1 == next && r.2 == next + 1
  {
    if Known(ref, LessonIds(ls)) then
      var i := LessonAt(ls, ref.value as nat);
      LessonIdsUpdate(ls, i, EditLesson(ls[i], d, idx), next);
      (ls[i := EditLesson(ls[i], d, idx)], ls[i].id, next)
    else
      LessonIdsAppend(ls, CreateLesson(next, d, idx), next);
      (ls + [CreateLesson(next, d, idx)], next, next + 1)
  }

  /** The pass over the sent lessons from position `k`, their ids resolved
      in `refs`; `touched` collects the ids updated or created. */
  function LessonPass(ls: seq<Lesson>, ds: seq<LessonData>, refs: seq<Option<int>>, k: nat, touched: set<nat>, next: nat): (r: (seq<Lesson>, set<nat>, nat))
    requires k <= |ds| == |refs|
    requires DistinctLessons(ls) && Below(ls, next) && touched <= LessonIds(ls)
    ensures DistinctLessons(r.0) && Below(r.0, r.2) && next <= r.2
    ensures LessonIds(ls) <= LessonIds(r.0) && touched <= r.1 <= LessonIds(r.0)
    ensures forall id :: id in LessonIds(r.0) ==> id in LessonIds(ls) || next <= id
    decreases |ds| - k
  {
    if k == |ds| then (ls, touched, next)
    else
      var st := LessonStep(ls, ds[k], refs[k], k, next);
      LessonPass(st.0, ds, refs, k + 1, touched + {st.1}, st.2)
  }

  /** Every entry from `k` on that names a lesson of the section marks it touched. */
  lemma {:induction false} LessonPassTouchesNamed(ls: seq<Lesson>, ds: seq<LessonData>, refs: seq<Option<int>>, k: nat,
                                                  touched: set<nat>, next: nat, j: nat)
    requires k <= j < |ds| == |refs|
    requires DistinctLessons(ls) && Below(ls, next) && touched <= LessonIds(ls)
    requires Known(refs[j], LessonIds(ls))
    ensures refs[j].value as nat in LessonPass(ls, ds, refs, k, touched, next).1
    decreases |ds| - k
  {
    var st := LessonStep(ls, ds[k], refs[k], k, next);
    var rest := LessonPass(st.0, ds, refs, k + 1, touched + {st.1}, st.2);
    assert LessonPass(ls, ds, refs, k, touched, next) == rest;
    if j > k {
      assert LessonIds(ls) <= LessonIds(st.0);
      LessonPassTouchesNamed(st.0, ds, refs, k + 1, touched + {st.1}, st.2, j);
    } else {
      assert st.1 in rest.1;
    }
  }

  /** A lesson the pass touches was touched before, is new, or is named by
      an entry from `k` on. */
  lemma {:induction false} LessonPassTouchedNamed(ls: seq<Lesson>, ds: seq<LessonData>, refs: seq<Option<int>>, k: nat,
                                                  touched: set<nat>, next: nat, id: nat)
    requires k <= |ds| == |refs|
    requires DistinctLessons(ls) && Below(ls, next) && touched <= LessonIds(ls)
    requires id in LessonPass(ls, ds, refs, k, touched, next).1
    ensures id in touched || next <= id || exists j :: k <= j < |refs| && refs[j] == Some(id as int)
    decreases |ds| - k
  {
    if k < |ds| {
      var st := LessonStep(ls, ds[k], refs[k], k, next);
      LessonPassTouchedNamed(st.0, ds, refs, k + 1, touched + {st.1}, st.2, id);
    }
  }

  /** The lessons whose ids are in `keep`, in order. */
  function KeepLessons(ls: seq<Lesson>, keep: set<nat>): (r: seq<Lesson>)
    ensures forall l :: l in r <==> l in ls && l.id in keep
    ensures DistinctLessons(ls) ==> DistinctLessons(r)
    ensures forall b :: Below(ls, b) ==> Below(r, b)
  {
    if |ls| == 0 then []
    else
      var n := |ls| - 1;
      var init := KeepLessons(ls[..n], keep);
      assert forall l :: l in ls <==> l in ls[..n] || l == ls[n] by {
        assert ls == ls[..n] + [ls[n]];
      }
      if ls[n].id in keep then
        var r := init + [ls[n]];
        assert DistinctLessons(ls) ==> DistinctLessons(r) by {
          if DistinctLessons(ls) {
            assert DistinctLessons(ls[..n]);
            forall i | 0 <= i < |init| ensures init[i].id != ls[n].id {
              var m :| 0 <= m < n && ls[..n][m] == init[i];
            }
          }
        }
        assert forall b :: Below(ls, b) ==> Below(r, b) by {
          forall b | Below(ls, b) ensures Below(r, b) {
            assert Below(ls[..n], b);
            forall i | 0 <= i < |r| ensures r[i].id < b {
              if i < |init| {
                var m :| 0 <= m < n && ls[..n][m] == init[i];
              }
            }
          }
        }
        r
      else
        assert DistinctLessons(ls) ==> DistinctLessons(ls[..n]);
        assert forall b :: Below(ls, b) ==> Below(ls[..n], b);
        init
  }

  /** The lessons of a section after an update that sent a non-empty list:
      the lessons named in the list, updated, and one new lesson per other
      entry; every lesson of the section the list does not name is deleted. */
  function ReconcileLessons(ls: seq<Lesson>, ds: seq<LessonData>, next: nat): (r: (seq<Lesson>, nat))
    requires DistinctLessons(ls) && Below(ls, next)
    ensures DistinctLessons(r.0) && Below(r.0, r.1) && next <= r.1
    ensures forall i :: 0 <= i < |ls| ==> (ls[i].id in LessonIds(r.0) <==> NamesLesson(ds, ls[i].id))
    ensures forall id :: id in LessonIds(r.0) ==> next <= id || NamesLesson(ds, id)
  {
    var refs := LessonRefs(ds);
    var p := LessonPass(ls, ds, refs, 0, {}, next);
    forall i | 0 <= i < |ls| ensures ls[i].id in LessonIds(KeepLessons(p.0, p.1)) <==> InRefs(refs, ls[i].id) {
      KeptIff(ls, ds, refs, next, i);
    }
    forall id | id in LessonIds(KeepLessons(p.0, p.1)) ensures next <= id || InRefs(refs, id) {
      KeptNamedOrNew(ls, ds, refs, next, id);
    }
    (KeepLessons(p.0, p.1), p.2)
  }

  /** Some resolved id is `id`. */
  predicate InRefs(refs: seq<Option<int>>, id: nat) {
    exists j :: 0 <= j < |refs| && refs[j] == Some(id as int)
  }

  /** Some sent lesson's id names the lesson `id`. */
  predicate NamesLesson(ds: seq<LessonData>, id: nat) {
    InRefs(LessonRefs(ds), id)
  }

  lemma NamesLessonIff(ds: seq<LessonData>, id: nat)
    ensures NamesLesson(ds, id) <==> exists j :: 0 <= j < |ds| && RefersTo(ds[j].id, id)
  {
    var refs := LessonRefs(ds);
    if InRefs(refs, id) {
      var j :| 0 <= j < |refs| && refs[j] == Some(id as int);
      assert RefersTo(ds[j].id, id);
    }
    if exists j :: 0 <= j < |ds| && RefersTo(ds[j].id, id) {
      var j :| 0 <= j < |ds| && RefersTo(ds[j].id, id);
      assert refs[j] == Some(id as int);
    }
  }

  lemma KeptIff(ls: seq<Lesson>, ds: seq<LessonData>, refs: seq<Option<int>>, next: nat, i: nat)
    requires DistinctLessons(ls) && Below(ls, next) && i < |ls| && |ds| == |refs|
    ensures var p := LessonPass(ls, ds, refs, 0, {}, next);
      ls[i].id in LessonIds(KeepLessons(p.0, p.1)) <==> InRefs(refs, ls[i].id)
  {
    var p := LessonPass(ls, ds, refs, 0, {}, next);
    var id := ls[i].id;
    if InRefs(refs, id) {
      NamedLessonKept(ls, ds, refs, next, i);
    }
    if id in LessonIds(KeepLessons(p.0, p.1)) {
      KeptNamedOrNew(ls, ds, refs, next, id);
      assert id < next;
    }
  }

  /** A lesson the request names survives the pass. */
  lemma NamedLessonKept(ls: seq<Lesson>, ds: seq<LessonData>, refs: seq<Option<int>>, next: nat, i: nat)
    requires DistinctLessons(ls) && Below(ls, next) && i < |ls| && |ds| == |refs|
    requires InRefs(refs, ls[i].id)
    ensures var p := LessonPass(ls, ds, refs, 0, {}, next);
      ls[i].id in LessonIds(KeepLessons(p.0, p.1))
  {
    var p := LessonPass(ls, ds, refs, 0, {}, next);
    var kept := KeepLessons(p.0, p.1);
    var id := ls[i].id;
    assert id in LessonIds(ls);
    var j :| 0 <= j < |refs| && refs[j] == Some(id as int);
    LessonPassTouchesNamed(ls, ds, refs, 0, {}, next, j);
    var m := LessonAt(p.0, id);
    assert p.0[m] in kept;
    var q :| 0 <= q < |kept| && kept[q] == p.0[m];
  }

  lemma KeptNamedOrNew(ls: seq<Lesson>, ds: seq<LessonData>, refs: seq<Option<int>>, next: nat, id: nat)
    requires DistinctLessons(ls) && Below(ls, next) && |ds| == |refs|
    requires var p := LessonPass(ls, ds, refs, 0, {}, next);
      id in LessonIds(KeepLessons(p.0, p.1))
    ensures next <= id || InRefs(refs, id)
  {
    var p := LessonPass(ls, ds, refs, 0, {}, next);
    var kept := KeepLessons(p.0, p.1);
    var q :| 0 <= q < |kept| && kept[q].id == id;
    assert kept[q] in p.0;
    LessonPassTouchedNamed(ls, ds, refs, 0, {}, next, id);
  }

  // ---------------------------------------------------------------------------
  // Sections of one course

  function SectionIds(ss: seq<Section>): set<nat> {
    set i | 0 <= i < |ss| :: ss[i].id
  }

  predicate DistinctSections(ss: seq<Section>) {
    forall i, j :: 0 <= i < j < |ss| ==> ss[i].id != ss[j].id
  }

  /** Section ids below `nextSection`; each section's lesson ids distinct and
      below `nextLesson`. */
  predicate Keyed(ss: seq<Section>, nextSection: nat, nextLesson: nat) {
    && DistinctSections(ss)
    && (forall i :: 0 <= i < |ss| ==> ss[i].id < nextSection)
    && (forall i :: 0 <= i < |ss| ==> DistinctLessons(ss[i].lessons) && Below(ss[i].lessons, nextLesson))
  }

  function SectionAt(ss: seq<Section>, id: nat): (i: nat)
    requires id in SectionIds(ss)
    ensures i < |ss| && ss[i].id == id
  {
    if ss[0].id == id then 0
    else
      var k :| 0 <= k < |ss| && ss[k].id == id;
      assert ss[1..][k - 1].id == id;
      1 + SectionAt(ss[1..], id)
  }

  /** With distinct ids, the section with a given id is the one at its index. */
  lemma SectionAtUnique(ss: seq<Section>, i: nat)
    requires DistinctSections(ss) && i < |ss|
    ensures ss[i].id in SectionIds(ss) && SectionAt(ss, ss[i].id) == i
  {
  }

  /** The lessons of the section with id `id`. */
  function LessonsOf(ss: seq<Section>, id: nat): seq<Lesson>
    requires id in SectionIds(ss)
  {
    ss[SectionAt(ss, id)].lessons
  }

  /** A section after the request: title kept when absent, order falling
      back to the position, and lessons reconciled only when a non-empty
      list was sent. */
  function EditSection(s: Section, d: SectionData, idx: nat, nextLesson: nat): (r: (Section, nat))
    requires DistinctLessons(s.lessons) && Below(s.lessons, nextLesson)
    ensures r.0.id == s.id && r.0.title == d.title.GetOr(s.title) && r.0.order == d.order.GetOr(idx)
    ensures !HasLessons(d) ==> r.0.lessons == s.lessons && r.1 == nextLesson
    ensures DistinctLessons(r.0.lessons) && Below(r.0.lessons, r.1) && nextLesson <= r.1
  {
    var (ls, n) := if HasLessons(d) then ReconcileLessons(s.lessons, d.lessons.value, nextLesson) else (s.lessons, nextLesson);
    (s.(title := d.title.GetOr(s.title), order := d.order.GetOr(idx), lessons := ls), n)
  }

  /** A section created by the request: its lessons are all new. */
  function NewSection(id: nat, d: SectionData, idx: nat, nextLesson: nat): (r: (Section, nat))
    ensures r.0.id == id && r.0.title == d.title.GetOr(DefaultSectionTitle(idx)) && r.0.order == d.order.GetOr(idx)
    ensures !HasLessons(d) ==> r.0.lessons == []
    ensures DistinctLessons(r.0.lessons) && Below(r.0.lessons, r.1) && nextLesson <= r.1
  {
    EditSection(Section(id, DefaultSectionTitle(idx), idx, []), d, idx, nextLesson)
  }

  /** Updating a section in place keeps the section ids and the keying. */
  lemma SectionUpdateKeyed(ss: seq<Section>, i: nat, s: Section, nextSection: nat, nextLesson: nat, nextLesson': nat)
    requires Keyed(ss, nextSection, nextLesson) && i < |ss| && s.id == ss[i].id && nextLesson <= nextLesson'
    requires DistinctLessons(s.lessons) && Below(s.lessons, nextLesson')
    ensures SectionIds(ss[i := s]) == SectionIds(ss) && Keyed(ss[i := s], nextSection, nextLesson')
    ensures forall id :: id in SectionIds(ss) && id != s.id ==> LessonsOf(ss[i := s], id) == LessonsOf(ss, id)
    ensures LessonsOf(ss[i := s], s.id) == s.lessons
  {
    var ss' := ss[i := s];
    forall x | x in SectionIds(ss) ensures x in SectionIds(ss') {
      var k :| 0 <= k < |ss| && ss[k].id == x;
      assert ss'[k].id == x;
    }
    forall id | id in SectionIds(ss) && id != s.id ensures LessonsOf(ss', id) == LessonsOf(ss, id) {
      var k := SectionAt(ss, id);
      SectionAtUnique(ss', k);
    }
    SectionAtUnique(ss', i);
  }

  /** Appending a section with the next fresh key keeps the keying. */
  lemma SectionAppendKeyed(ss: seq<Section>, s: Section, nextSection: nat, nextLesson: nat, nextLesson': nat)
    requires Keyed(ss, nextSection, nextLesson) && s.id == nextSection && nextLesson <= nextLesson'
    requires DistinctLessons(s.lessons) && Below(s.lessons, nextLesson')
    ensures SectionIds(ss + [s]) == SectionIds(ss) + {s.id} && Keyed(ss + [s], nextSection + 1, nextLesson')
    ensures forall id :: id in SectionIds(ss) ==> LessonsOf(ss + [s], id) == LessonsOf(ss, id)
  {
    var ss' := ss + [s];
    forall x | x in SectionIds(ss) ensures x in SectionIds(ss') {
      var k :| 0 <= k < |ss| && ss[k].id == x;
      assert ss'[k].id == x;
    }
    assert ss'[|ss|].id == s.id;
    forall id | id in SectionIds(ss) ensures LessonsOf(ss', id) == LessonsOf(ss, id) {
      var k := SectionAt(ss, id);
      SectionAtUnique(ss', k);
    }
  }

  /** One entry of the section list, its id resolved to `ref`: the section
      it names is updated in place, or a section is created with the next
      fresh key. `r.1` is the id of the section touched. */
  function SectionStep(ss: seq<Section>, d: SectionData, ref: Option<int>, idx: nat,
                       nextSection: nat, nextLesson: nat): (r: (seq<Section>, nat, nat, nat))
    requires Keyed(ss, nextSection, nextLesson)
    ensures Keyed(r.0, r.2, r.3) && nextSection <= r.2 && nextLesson <= r.3
    ensures SectionIds(r.0) == SectionIds(ss) + {r.1}
    ensures Known(ref, SectionIds(ss)) ==> r.1 == ref.value as nat && r.2 == nextSection
    ensures !Known(ref, SectionIds(ss)) ==> r.1 == nextSection && r.2 == nextSection + 1
    ensures forall id :: id in SectionIds(ss) && (id != r.1 || !HasLessons(d)) ==> LessonsOf(r.0, id) == LessonsOf(ss, id)
  {
    if Known(ref, SectionIds(ss)) then
      var i := SectionAt(ss, ref.value as nat);
      var sn := EditSection(ss[i], d, idx, nextLesson);
      SectionUpdateKeyed(ss, i, sn.0, nextSection, nextLesson, sn.1);
      (ss[i := sn.0], ss[i].id, nextSection, sn.1)
    else
      var sn := NewSection(nextSection, d, idx, nextLesson);
      SectionAppendKeyed(ss, sn.0, nextSection, nextLesson, sn.1);
      (ss + [sn.0], nextSection, nextSection + 1, sn.1)
  }

  /** The pass over the sent sections from position `k`, their ids resolved
      in `refs`; `touched` collects the ids updated or created. */
  function SectionPass(ss: seq<Section>, ds: seq<SectionData>, refs: seq<Option<int>>, k: nat, touched: set<nat>,
                       nextSection: nat, nextLesson: nat): (r: (seq<Section>, set<nat>, nat, nat))
    requires k <= |ds| == |refs|
    requires Keyed(ss, nextSection, nextLesson) && touched <= SectionIds(ss)
    ensures Keyed(r.0, r.2, r.3) && nextSection <= r.2 && nextLesson <= r.3
    ensures SectionIds(ss) <= SectionIds(r.0) && touched <= r.1 <= SectionIds(r.0)
    ensures forall id :: id in SectionIds(r.0) ==> id in SectionIds(ss) || nextSection <= id
    decreases |ds| - k
  {
    if k == |ds| then (ss, touched, nextSection, nextLesson)
    else
      var st := SectionStep(ss, ds[k], refs[k], k, nextSection, nextLesson);
      SectionPass(st.0, ds, refs, k + 1, touched + {st.1}, st.2, st.3)
  }

  /** Every entry from `k` on that names an existing section marks it touched. */
  lemma {:induction false} PassTouchesNamed(ss: seq<Section>, ds: seq<SectionData>, refs: seq<Option<int>>, k: nat,
                                            touched: set<nat>, nextSection: nat, nextLesson: nat, j: nat)
    requires k <= j < |ds| == |refs|
    requires Keyed(ss, nextSection, nextLesson) && touched <= SectionIds(ss)
    requires Known(refs[j], SectionIds(ss))
    ensures refs[j].value as nat in SectionPass(ss, ds, refs, k, touched, nextSection, nextLesson).1
    decreases |ds| - k
  {
    var st := SectionStep(ss, ds[k], refs[k], k, nextSection, nextLesson);
    var rest := SectionPass(st.0, ds, refs, k + 1, touched + {st.1}, st.2, st.3);
    assert SectionPass(ss, ds, refs, k, touched, nextSection, nextLesson) == rest;
    if j > k {
      assert SectionIds(ss) <= SectionIds(st.0);
      PassTouchesNamed(st.0, ds, refs, k + 1, touched + {st.1}, st.2, st.3, j);
    } else {
      assert st.1 in rest.1;
    }
  }

  /** A section the pass touches was touched before, is new, or is named by
      an entry from `k` on. */
  lemma {:induction false} PassTouchedNamed(ss: seq<Section>, ds: seq<SectionData>, refs: seq<Option<int>>, k: nat,
                                            touched: set<nat>, nextSection: nat, nextLesson: nat, id: nat)
    requires k <= |ds| == |refs|
    requires Keyed(ss, nextSection, nextLesson) && touched <= SectionIds(ss)
    requires id in SectionPass(ss, ds, refs, k, touched, nextSection, nextLesson).1
    ensures id in touched || nextSection <= id || exists j :: k <= j < |refs| && refs[j] == Some(id as int)
    decreases |ds| - k
  {
    if k < |ds| {
      var st := SectionStep(ss, ds[k], refs[k], k, nextSection, nextLesson);
      PassTouchedNamed(st.0, ds, refs, k + 1, touched + {st.1}, st.2, st.3, id);
    }
  }

  /** A section none of whose entries from `k` on sends lessons keeps its
      lessons through the pass. */
  lemma {:induction false} PassKeepsLessons(ss: seq<Section>, ds: seq<SectionData>, refs: seq<Option<int>>, k: nat,
                                            touched: set<nat>, nextSection: nat, nextLesson: nat, id: nat)
    requires k <= |ds| == |refs|
    requires Keyed(ss, nextSection, nextLesson) && touched <= SectionIds(ss)
    requires id in SectionIds(ss)
    requires forall j :: k <= j < |ds| && refs[j] == Some(id as int) ==> !HasLessons(ds[j])
    ensures LessonsOf(SectionPass(ss, ds, refs, k, touched, nextSection, nextLesson).0, id) == LessonsOf(ss, id)
    decreases |ds| - k
  {
    if k < |ds| {
      var st := SectionStep(ss, ds[k], refs[k], k, nextSection, nextLesson);
      PassKeepsLessons(st.0, ds, refs, k + 1, touched + {st.1}, st.2, st.3, id);
    }
  }

  /** The sections whose ids are in `keep`, in order. */
  function KeepSections(ss: seq<Section>, keep: set<nat>): (r: seq<Section>)
    ensures forall s :: s in r <==> s in ss && s.id in keep
  {
    if |ss| == 0 then []
    else
      var n := |ss| - 1;
      assert ss == ss[..n] + [ss[n]];
      KeepSections(ss[..n], keep) + (if ss[n].id in keep then [ss[n]] else [])
  }

  /** Any truthy id of the sections, or of the lessons of a section that
      sends some, that the ORM cannot read as an integer. */
  predicate SectionsRaise(ds: seq<SectionData>) {
    exists i :: 0 <= i < |ds| && (IdRaises(ds[i].id) ||
      (HasLessons(ds[i]) && exists j :: 0 <= j < |ds[i].lessons.value| && IdRaises(ds[i].lessons.value[j].id)))
  }

  /** Some sent section's id names the section `id`. */
  predicate Named(ds: seq<SectionData>, id: nat) {
    InRefs(SectionRefs(ds), id)
  }

  lemma NamedIff(ds: seq<SectionData>, id: nat)
    ensures Named(ds, id) <==> exists j :: 0 <= j < |ds| && RefersTo(ds[j].id, id)
  {
    var refs := SectionRefs(ds);
    if InRefs(refs, id) {
      var j :| 0 <= j < |refs| && refs[j] == Some(id as int);
      assert RefersTo(ds[j].id, id);
    }
    if exists j :: 0 <= j < |ds| && RefersTo(ds[j].id, id) {
      var j :| 0 <= j < |ds| && RefersTo(ds[j].id, id);
      assert refs[j] == Some(id as int);
    }
  }

  /** Every entry naming section `id` sends no lessons. */
  predicate NamedWithoutLessons(ds: seq<SectionData>, id: nat) {
    forall j :: 0 <= j < |ds| && RefersTo(ds[j].id, id) ==> !HasLessons(ds[j])
  }

  /** The curriculum after an update that sent a section list: the sections
      named in it (updated) and the new ones; every section the list does
      not name is deleted with its lessons, and a named section whose
      entries send no lessons keeps its lessons. */
  function ReconcileSections(ss: seq<Section>, ds: seq<SectionData>, nextSection: nat, nextLesson: nat): (r: seq<Section>)
    requires Keyed(ss, nextSection, nextLesson)
    ensures forall i :: 0 <= i < |ss| ==> (ss[i].id in SectionIds(r) <==> Named(ds, ss[i].id))
    ensures forall id :: id in SectionIds(r) ==> nextSection <= id || Named(ds, id)
    ensures forall i :: 0 <= i < |ss| && Named(ds, ss[i].id) && NamedWithoutLessons(ds, ss[i].id)
              ==> exists s :: s in r && s.id == ss[i].id && s.lessons == ss[i].lessons
  {
    var refs := SectionRefs(ds);
    var p := SectionPass(ss, ds, refs, 0, {}, nextSection, nextLesson);
    forall i | 0 <= i < |ss| ensures ss[i].id in SectionIds(KeepSections(p.0, p.1)) <==> InRefs(refs, ss[i].id) {
      SectionKeptIff(ss, ds, refs, nextSection, nextLesson, i);
    }
    forall id | id in SectionIds(KeepSections(p.0, p.1)) ensures nextSection <= id || InRefs(refs, id) {
      SectionKeptNamedOrNew(ss, ds, refs, nextSection, nextLesson, id);
    }
    forall i | 0 <= i < |ss| && Named(ds, ss[i].id) && NamedWithoutLessons(ds, ss[i].id)
      ensures exists s :: s in KeepSections(p.0, p.1) && s.id == ss[i].id && s.lessons == ss[i].lessons {
      WithoutLessonsRefs(ds, refs, ss[i].id);
      SectionKeptLessons(ss, ds, refs, nextSection, nextLesson, i);
    }
    KeepSections(p.0, p.1)
  }

  lemma WithoutLessonsRefs(ds: seq<SectionData>, refs: seq<Option<int>>, id: nat)
    requires refs == SectionRefs(ds) && NamedWithoutLessons(ds, id)
    ensures forall j :: 0 <= j < |ds| && refs[j] == Some(id as int) ==> !HasLessons(ds[j])
  {
    forall j | 0 <= j < |ds| && refs[j] == Some(id as int) ensures !HasLessons(ds[j]) {
      assert RefersTo(ds[j].id, id);
    }
  }

  lemma SectionKeptIff(ss: seq<Section>, ds: seq<SectionData>, refs: seq<Option<int>>, nextSection: nat, nextLesson: nat, i: nat)
    requires Keyed(ss, nextSection, nextLesson) && i < |ss| && |ds| == |refs|
    ensures var p := SectionPass(ss, ds, refs, 0, {}, nextSection, nextLesson);
      ss[i].id in SectionIds(KeepSections(p.0, p.1)) <==> InRefs(refs, ss[i].id)
  {
    var p := SectionPass(ss, ds, refs, 0, {}, nextSection, nextLesson);
    var id := ss[i].id;
    if InRefs(refs, id) {
      NamedSectionKept(ss, ds, refs, nextSection, nextLesson, i);
    }
    if id in SectionIds(KeepSections(p.0, p.1)) {
      SectionKeptNamedOrNew(ss, ds, refs, nextSection, nextLesson, id);
      assert id < nextSection;
    }
  }

  /** A section the request names survives the pass. */
  lemma NamedSectionKept(ss: seq<Section>, ds: seq<SectionData>, refs: seq<Option<int>>, nextSection: nat, nextLesson: nat, i: nat)
    requires Keyed(ss, nextSection, nextLesson) && i < |ss| && |ds| == |refs|
    requires InRefs(refs, ss[i].id)
    ensures var p := SectionPass(ss, ds, refs, 0, {}, nextSection, nextLesson);
      ss[i].id in SectionIds(KeepSections(p.0, p.1))
  {
    var p := SectionPass(ss, ds, refs, 0, {}, nextSection, nextLesson);
    var kept := KeepSections(p.0, p.1);
    var id := ss[i].id;
    assert id in SectionIds(ss);
    var j :| 0 <= j < |refs| && refs[j] == Some(id as int);
    PassTouchesNamed(ss, ds, refs, 0, {}, nextSection, nextLesson, j);
    var m := SectionAt(p.0, id);
    assert p.0[m] in kept;
    var q :| 0 <= q < |kept| && kept[q] == p.0[m];
  }

  lemma SectionKeptNamedOrNew(ss: seq<Section>, ds: seq<SectionData>, refs: seq<Option<int>>, nextSection: nat, nextLesson: nat, id: nat)
    requires Keyed(ss, nextSection, nextLesson) && |ds| == |refs|
    requires var p := SectionPass(ss, ds, refs, 0, {}, nextSection, nextLesson);
      id in SectionIds(KeepSections(p.0, p.1))
    ensures nextSection <= id || InRefs(refs, id)
  {
    var p := SectionPass(ss, ds, refs, 0, {}, nextSection, nextLesson);
    var kept := KeepSections(p.0, p.1);
    var q :| 0 <= q < |kept| && kept[q].id == id;
    assert kept[q] in p.0;
    PassTouchedNamed(ss, ds, refs, 0, {}, nextSection, nextLesson, id);
  }

  lemma SectionKeptLessons(ss: seq<Section>, ds: seq<SectionData>, refs: seq<Option<int>>, nextSection: nat, nextLesson: nat, i: nat)
    requires Keyed(ss, nextSection, nextLesson) && i < |ss| && |ds| == |refs|
    requires InRefs(refs, ss[i].id)
    requires forall j :: 0 <= j < |ds| && refs[j] == Some(ss[i].id as int) ==> !HasLessons(ds[j])
    ensures var p := SectionPass(ss, ds, refs, 0, {}, nextSection, nextLesson);
      exists s :: s in KeepSections(p.0, p.1) && s.id == ss[i].id && s.lessons == ss[i].lessons
  {
    var p := SectionPass(ss, ds, refs, 0, {}, nextSection, nextLesson);
    var id := ss[i].id;
    SectionAtUnique(ss, i);
    PassKeepsLessons(ss, ds, refs, 0, {}, nextSection, nextLesson, id);
    var j :| 0 <= j < |refs| && refs[j] == Some(id as int);
    PassTouchesNamed(ss, ds, refs, 0, {}, nextSection, nextLesson, j);
    var m := SectionAt(p.0, id);
    assert p.0[m] in KeepSections(p.0, p.1);
  }

  // ---------------------------------------------------------------------------
  // Updating and deleting a course

  /** The body of an update; `None` fields were absent from it. A present
      `category` may be `null`. */
  datatype UpdateRequest = UpdateRequest(
    title: Option<string>, description: Option<string>, level: Option<string>,
    category: Option<Option<string>>,
    isPublished: Option<bool>, isFeatured: Option<bool>, isActive: Option<bool>,
    requirements: Option<seq<Option<string>>>, objectives: Option<seq<Option<string>>>,
    sections: Option<seq<SectionData>>)

  /** `UpdateFailed` is the 500 from an id the ORM cannot read: the
      curriculum transaction rolls back, but the fields and the replaced
      lists were saved before it and stay. */
  datatype UpdateResult =
    | UpdateNotFound
    | UpdateForbidden
    | Updated(course: Course)
    | UpdateFailed(persisted: Course)

  /** `c'` is `c` with exactly the fields present in the request replaced,
      and the requirement and objective lists replaced wholesale when sent. */
  predicate FollowsRequest(c: Course, req: UpdateRequest, keys: Keys, c': Course) {
    && c'.id == c.id && c'.instructor == c.instructor && c'.createdAt == c.createdAt
    && c'.rating == c.rating && c'.ratingCount == c.ratingCount
    && c'.language == c.language && c'.shortDescription == c.shortDescription
    && c'.title == req.title.GetOr(c.title)
    && c'.description == req.description.GetOr(c.description)
    && c'.level == req.level.GetOr(c.level)
    && c'.category == req.category.GetOr(c.category)
    && c'.isPublished == req.isPublished.GetOr(c.isPublished)
    && c'.isFeatured == req.isFeatured.GetOr(c.isFeatured)
    && c'.isActive == req.isActive.GetOr(c.isActive)
    && c'.requirements == (if req.requirements.Some? then KeepNonBlank(req.requirements.value, keys.requirement) else c.requirements)
    && c'.objectives == (if req.objectives.Some? then KeepNonBlank(req.objectives.value, keys.objective) else c.objectives)
  }

  /** The fields and lists an update saves before touching the curriculum. */
  function PatchFields(c: Course, req: UpdateRequest, keys: Keys): (r: Course)
    ensures FollowsRequest(c, req, keys, r) && r.sections == c.sections
  {
    c.(title := req.title.GetOr(c.title), description := req.description.GetOr(c.description),
       level := req.level.GetOr(c.level), category := req.category.GetOr(c.category),
       isPublished := req.isPublished.GetOr(c.isPublished), isFeatured := req.isFeatured.GetOr(c.isFeatured),
       isActive := req.isActive.GetOr(c.isActive),
       requirements := if req.requirements.Some? then KeepNonBlank(req.requirements.value, keys.requirement) else c.requirements,
       objectives := if req.objectives.Some? then KeepNonBlank(req.objectives.value, keys.objective) else c.objectives)
  }

  /** The caller may change the course: a staff member who teaches it. */
  predicate Owns(staff: Option<Staff>, c: Course) {
    staff.Some? && c.instructor == staff.value.id
  }

  /** `CourseDetailView.put`: 404 for an unknown course, 403 unless the
      caller is its instructor; then the fields and lists follow the
      request, and a sent section list reconciles the curriculum — or, when
      one of its ids cannot be read as an integer, the request fails with
      only the fields and lists saved. */
  function UpdateCourse(course: Option<Course>, staff: Option<Staff>, req: UpdateRequest, keys: Keys): (r: UpdateResult)
    requires course.Some? ==> Keyed(course.value.sections, keys.section, keys.lesson)
    ensures r.UpdateNotFound? <==> course.None?
    ensures r.UpdateForbidden? <==> course.Some? && !Owns(staff, course.value)
    ensures r.UpdateFailed? <==> course.Some? && Owns(staff, course.value) && req.sections.Some? && SectionsRaise(req.sections.value)
    ensures r.UpdateFailed? ==> FollowsRequest(course.value, req, keys, r.persisted) && r.persisted.sections == course.value.sections
    ensures r.Updated? ==> FollowsRequest(course.value, req, keys, r.course)
    ensures r.Updated? && req.sections.None? ==> r.course.sections == course.value.sections
    ensures r.Updated? && req.sections.Some? ==>
      var ss, ds := course.value.sections, req.sections.value;
      && Ordered(r.course.sections)
      && (forall i :: 0 <= i < |ss| ==> (ss[i].id in SectionIds(r.course.sections) <==> Named(ds, ss[i].id)))
      && (forall id :: id in SectionIds(r.course.sections) ==> keys.section <= id || Named(ds, id))
  {
    if course.None? then UpdateNotFound
    else if !Owns(staff, course.value) then UpdateForbidden
    else
      var c := PatchFields(course.value, req, keys);
      if req.sections.None? then Updated(c)
      else if SectionsRaise(req.sections.value) then UpdateFailed(c)
      else
        var rows := ReconcileSections(c.sections, req.sections.value, keys.section, keys.lesson);
        ReadBackIds(rows);
        Updated(c.(sections := InOrder(rows)))
  }

  /** Reading the sections back by `order` keeps their ids. */
  lemma ReadBackIds(ss: seq<Section>)
    ensures SectionIds(InOrder(ss)) == SectionIds(ss)
  {
    var r := InOrder(ss);
    forall id | id in SectionIds(r) ensures id in SectionIds(ss) {
      var k :| 0 <= k < |r| && r[k].id == id;
      assert r[k] in r;
      var i :| 0 <= i < |ss| && r[k] == LessonsInOrder(ss[i]);
    }
    forall id | id in SectionIds(ss) ensures id in SectionIds(r) {
      var i :| 0 <= i < |ss| && ss[i].id == id;
      InOrderHas(ss, i);
      var k :| 0 <= k < |r| && r[k] == LessonsInOrder(ss[i]);
    }
  }

  /** An update whose body sends nothing returns the course unchanged. */
  lemma EmptyUpdateChangesNothing(c: Course, staff: Staff, keys: Keys)
    requires Keyed(c.sections, keys.section, keys.lesson) && c.instructor == staff.id
    ensures UpdateCourse(Some(c), Some(staff), UpdateRequest(None, None, None, None, None, None, None, None, None, None), keys)
            == Updated(c)
  {
  }

  /** A section the update keeps with no lessons sent keeps all of its
      lessons, read back by `order`: the very same list when it was
      already in that order. */
  lemma UpdateKeepsUnsentLessons(c: Course, staff: Staff, req: UpdateRequest, keys: Keys, i: nat)
    requires Keyed(c.sections, keys.section, keys.lesson) && c.instructor == staff.id
    requires req.sections.Some? && !SectionsRaise(req.sections.value) && i < |c.sections|
    requires Named(req.sections.value, c.sections[i].id) && NamedWithoutLessons(req.sections.value, c.sections[i].id)
    ensures var r := UpdateCourse(Some(c), Some(staff), req, keys);
      && r.Updated?
      && exists s :: s in r.course.sections && s.id == c.sections[i].id
           && multiset(s.lessons) == multiset(c.sections[i].lessons)
           && (Ascending(c.sections[i].lessons, LessonKey) ==> s.lessons == c.sections[i].lessons)
  {
    var rows := ReconcileSections(c.sections, req.sections.value, keys.section, keys.lesson);
    UpdateReadsBack(c, staff, req, keys);
    var s :| s in rows && s.id == c.sections[i].id && s.lessons == c.sections[i].lessons;
    KeptSectionReadBack(rows, s);
  }

  /** Two stored sections sent back in the opposite order, without `order`
      fields, trade places: each takes its position in the list as its
      order, and the answer lists them by it. */
  lemma SwappedSectionsReadBackSwapped(c: Course, staff: Staff, keys: Keys)
    requires c.instructor == staff.id && keys.section > 2
    requires c.sections == [Section(1, "A", 0, []), Section(2, "B", 1, [])]
    ensures var r := UpdateCourse(Some(c), Some(staff), UpdateRequest(None, None, None, None, None, None, None, None, None, Some(Swapped())), keys);
      r.Updated? && r.course.sections == [Section(2, "B", 0, []), Section(1, "A", 1, [])]
  {
    var req := UpdateRequest(None, None, None, None, None, None, None, None, None, Some(Swapped()));
    SwappedRefs();
    UpdateReadsBack(c, staff, req, keys);
    SwappedPass(keys.section, keys.lesson);
    SwappedReadBack();
  }

  /** The section list `[{"id": 2}, {"id": 1}]`. */
  function Swapped(): seq<SectionData> {
    [SectionData(Some(JInt(2)), None, None, None), SectionData(Some(JInt(1)), None, None, None)]
  }

  lemma SwappedRefs()
    ensures !SectionsRaise(Swapped()) && SectionRefs(Swapped()) == [Some(2), Some(1)]
  {
    var ds := Swapped();
    assert !IdRaises(ds[0].id) && !IdRaises(ds[1].id);
  }

  lemma SwappedPass(nextSection: nat, nextLesson: nat)
    requires nextSection > 2
    ensures var ss := [Section(1, "A", 0, []), Section(2, "B", 1, [])];
      ReconcileSections(ss, Swapped(), nextSection, nextLesson) == [Section(1, "A", 1, []), Section(2, "B", 0, [])]
  {
    var ss := [Section(1, "A", 0, []), Section(2, "B", 1, [])];
    SwappedRefs();
    var st0 := SwappedFirst(nextSection, nextLesson);
    var st1 := SwappedSecond(nextSection, st0.3);
    PassTwo(ss, Swapped(), [Some(2), Some(1)], nextSection, nextLesson);
    KeepBoth(st1.0[0], st1.0[1], {2, 1});
  }

  /** A pass over two entries is their two steps, touching both sections. */
  lemma PassTwo(ss: seq<Section>, ds: seq<SectionData>, refs: seq<Option<int>>, nextSection: nat, nextLesson: nat)
    requires |ds| == |refs| == 2 && Keyed(ss, nextSection, nextLesson)
    ensures var st0 := SectionStep(ss, ds[0], refs[0], 0, nextSection, nextLesson);
      var st1 := SectionStep(st0.0, ds[1], refs[1], 1, st0.2, st0.3);
      SectionPass(ss, ds, refs, 0, {}, nextSection, nextLesson) == (st1.0, {st0.1, st1.1}, st1.2, st1.3)
  {
    var st0 := SectionStep(ss, ds[0], refs[0], 0, nextSection, nextLesson);
    PassUnfolds(ss, ds, refs, 0, {}, nextSection, nextLesson);
    var st1 := SectionStep(st0.0, ds[1], refs[1], 1, st0.2, st0.3);
    PassUnfolds(st0.0, ds, refs, 1, {st0.1}, st0.2, st0.3);
    PassEnds(st1.0, ds, refs, {st0.1} + {st1.1}, st1.2, st1.3);
    assert {} + {st0.1} == {st0.1} && {st0.1} + {st1.1} == {st0.1, st1.1};
  }

  /** The pass stops once every entry is applied. */
  lemma PassEnds(ss: seq<Section>, ds: seq<SectionData>, refs: seq<Option<int>>, touched: set<nat>,
                 nextSection: nat, nextLesson: nat)
    requires |ds| == |refs|
    requires Keyed(ss, nextSection, nextLesson) && touched <= SectionIds(ss)
    ensures SectionPass(ss, ds, refs, |ds|, touched, nextSection, nextLesson) == (ss, touched, nextSection, nextLesson)
  {
  }

  /** One step of the section pass. */
  lemma PassUnfolds(ss: seq<Section>, ds: seq<SectionData>, refs: seq<Option<int>>, k: nat, touched: set<nat>,
                    nextSection: nat, nextLesson: nat)
    requires k < |ds| == |refs|
    requires Keyed(ss, nextSection, nextLesson) && touched <= SectionIds(ss)
    ensures var st := SectionStep(ss, ds[k], refs[k], k, nextSection, nextLesson);
      SectionPass(ss, ds, refs, k, touched, nextSection, nextLesson)
      == SectionPass(st.0, ds, refs, k + 1, touched + {st.1}, st.2, st.3)
  {
  }

  /** Keeping both ids of a two-section list keeps it whole. */
  lemma KeepBoth(x: Section, y: Section, keep: set<nat>)
    requires x.id in keep && y.id in keep
    ensures KeepSections([x, y], keep) == [x, y]
  {
    assert [x, y][..1] == [x] && [x][..0] == [];
    assert KeepSections([x], keep) == [x];
  }

  lemma SwappedFirst(nextSection: nat, nextLesson: nat) returns (st: (seq<Section>, nat, nat, nat))
    requires nextSection > 2
    ensures var ss := [Section(1, "A", 0, []), Section(2, "B", 1, [])];
      && st == SectionStep(ss, Swapped()[0], Some(2), 0, nextSection, nextLesson)
      && st.0 == [Section(1, "A", 0, []), Section(2, "B", 0, [])] && st.1 == 2 && st.2 == nextSection
  {
    var ss := [Section(1, "A", 0, []), Section(2, "B", 1, [])];
    assert ss[1].id == 2;
    assert SectionAt(ss, 2) == 1;
    st := SectionStep(ss, Swapped()[0], Some(2), 0, nextSection, nextLesson);
  }

  lemma SwappedSecond(nextSection: nat, nextLesson: nat) returns (st: (seq<Section>, nat, nat, nat))
    requires nextSection > 2
    ensures var ss := [Section(1, "A", 0, []), Section(2, "B", 0, [])];
      && Keyed(ss, nextSection, nextLesson)
      && st == SectionStep(ss, Swapped()[1], Some(1), 1, nextSection, nextLesson)
      && st.0 == [Section(1, "A", 1, []), Section(2, "B", 0, [])] && st.1 == 1 && st.2 == nextSection
  {
    var ss := [Section(1, "A", 0, []), Section(2, "B", 0, [])];
    assert ss[0].id == 1;
    assert SectionAt(ss, 1) == 0;
    st := SectionStep(ss, Swapped()[1], Some(1), 1, nextSection, nextLesson);
  }

  lemma SwappedReadBack()
    ensures InOrder([Section(1, "A", 1, []), Section(2, "B", 0, [])]) == [Section(2, "B", 0, []), Section(1, "A", 1, [])]
  {
    var rows := [Section(1, "A", 1, []), Section(2, "B", 0, [])];
    assert EachInOrder(rows) == rows;
    assert SortByKey(rows, SectionKey) == [rows[1], rows[0]];
  }

  /** An update by the instructor that sends a readable section list
      answers with the reconciled sections read back by `order`. */
  lemma UpdateReadsBack(c: Course, staff: Staff, req: UpdateRequest, keys: Keys)
    requires Keyed(c.sections, keys.section, keys.lesson) && c.instructor == staff.id
    requires req.sections.Some? && !SectionsRaise(req.sections.value)
    ensures UpdateCourse(Some(c), Some(staff), req, keys).Updated?
    ensures UpdateCourse(Some(c), Some(staff), req, keys).course.sections
            == InOrder(ReconcileSections(c.sections, req.sections.value, keys.section, keys.lesson))
  {
    assert PatchFields(c, req, keys).sections == c.sections;
  }

  /** A section among the rows is read back with the same lessons in
      read-back order, unchanged when they were already in it. */
  lemma KeptSectionReadBack(rows: seq<Section>, s: Section)
    requires s in rows
    ensures exists t :: t in InOrder(rows) && t.id == s.id
                        && multiset(t.lessons) == multiset(s.lessons)
                        && (Ascending(s.lessons, LessonKey) ==> t.lessons == s.lessons)
  {
    var k :| 0 <= k < |rows| && rows[k] == s;
    InOrderHas(rows, k);
    if Ascending(s.lessons, LessonKey) {
      SortKeepsAscending(s.lessons, LessonKey);
    }
    assert LessonsInOrder(s) in InOrder(rows);
  }

  datatype DeleteResult = DeleteNotFound | DeleteForbidden | Deleted(course: Course)

  /** `CourseDetailView.delete`: 404 for an unknown course, 403 unless the
      caller is its instructor; otherwise a soft delete that clears
      `is_active` and changes nothing else. */
  function SoftDelete(course: Option<Course>, staff: Option<Staff>): (r: DeleteResult)
    ensures r.DeleteNotFound? <==> course.None?
    ensures r.DeleteForbidden? <==> course.Some? && !Owns(staff, course.value)
    ensures r.Deleted? ==> !r.course.isActive && r.course.(isActive := course.value.isActive) == course.value
  {
    if course.None? then DeleteNotFound
    else if !Owns(staff, course.value) then DeleteForbidden
    else Deleted(course.value.(isActive := false))
  }
}

=== FILE: course_listing.dfy ===
/** The course listings of the course views: the public catalogue with its
    filters, newest-first order and `Paginator` page resolution, the
    instructor/public list, the description shown in listings, and the
    per-student completion list. */
module CourseListing {
  import opened Wrappers
  import opened Text
  import opened Catalog
  import opened Paging
  import opened People
  import opened CourseAccess
  import CourseEditing

  // ---------------------------------------------------------------------------
  // Newest first (`order_by('-created_at')`)

  predicate NewestFirst(cs: seq<Course>) {
    forall i, j :: 0 <= i < j < |cs| ==> cs[i].createdAt >= cs[j].createdAt
  }

  /** Insert a course into a newest-first list after every course newer than it. */
  function InsertNewest(c: Course, cs: seq<Course>): (r: seq<Course>)
    requires NewestFirst(cs)
    ensures NewestFirst(r)
    ensures multiset(r) == multiset(cs) + multiset{c}
    ensures |r| == |cs| + 1 && (r[0] == c || (|cs| > 0 && r[0] == cs[0]))
  {
    if |cs| == 0 then [c]
    else if cs[0].createdAt <= c.createdAt then
      PrependNewest(c, cs);
      [c] + cs
    else
      var rest := InsertNewest(c, cs[1..]);
      assert cs == [cs[0]] + cs[1..];
      PrependNewest(cs[0], rest);
      [cs[0]] + rest
  }

  /** A course at least as new as the head of a newest-first list may go first. */
  lemma PrependNewest(c: Course, cs: seq<Course>)
    requires NewestFirst(cs) && (|cs| == 0 || cs[0].createdAt <= c.createdAt)
    ensures NewestFirst([c] + cs)
  {
    forall i, j | 0 <= i < j < |cs| + 1 ensures ([c] + cs)[i].createdAt >= ([c] + cs)[j].createdAt {
      assert ([c] + cs)[j] == cs[j - 1];
      if i > 0 {
        assert ([c] + cs)[i] == cs[i - 1];
      }
    }
  }

  /** The courses newest first (ties in any order): same courses, sorted. */
  function SortNewest(cs: seq<Course>): (r: seq<Course>)
    ensures NewestFirst(r)
    ensures multiset(r) == multiset(cs)
  {
    if |cs| == 0 then []
    else
      assert cs == [cs[0]] + cs[1..];
      InsertNewest(cs[0], SortNewest(cs[1..]))
  }

  /** Keep the courses satisfying `keep`, in order. */
  function Filter(cs: seq<Course>, keep: Course -> bool): (r: seq<Course>)
    ensures |r| <= |cs|
    ensures forall c :: c in r <==> c in cs && keep(c)
    ensures multiset(r) <= multiset(cs)
  {
    if |cs| == 0 then []
    else
      var init := Filter(cs[..|cs| - 1], keep);
      assert cs == cs[..|cs| - 1] + [cs[|cs| - 1]];
      init + (if keep(cs[|cs| - 1]) then [cs[|cs| - 1]] else [])
  }

  /** Filtering keeps a newest-first list newest first. */
  lemma {:induction false} FilterKeepsOrder(cs: seq<Course>, keep: Course -> bool)
    requires NewestFirst(cs)
    ensures NewestFirst(Filter(cs, keep))
  {
    if |cs| > 0 {
      var init := cs[..|cs| - 1];
      FilterKeepsOrder(init, keep);
      var f := Filter(init, keep);
      var last := cs[|cs| - 1];
      forall x | x in f ensures x.createdAt >= last.createdAt {
        var k :| 0 <= k < |init| && init[k] == x;
      }
      assert Filter(cs, keep) == f + (if keep(last) then [last] else []);
      if keep(last) {
        AppendOldest(f, last);
      }
    }
  }

  /** A course no newer than any in a newest-first list may go last. */
  lemma AppendOldest(f: seq<Course>, c: Course)
    requires NewestFirst(f)
    requires forall x :: x in f ==> x.createdAt >= c.createdAt
    ensures NewestFirst(f + [c])
  {
    assert forall i :: 0 <= i < |f| ==> (f + [c])[i] == f[i] && f[i] in f;
  }

  /** The courses satisfying `keep`, newest first. */
  function NewestKept(all: seq<Course>, keep: Course -> bool): (r: seq<Course>)
    ensures NewestFirst(r)
    ensures forall c :: c in r <==> c in all && keep(c)
  {
    var sorted := SortNewest(all);
    assert forall c :: c in sorted <==> c in multiset(all);
    FilterKeepsOrder(sorted, keep);
    Filter(sorted, keep)
  }

  // ---------------------------------------------------------------------------
  // Public catalogue (`PublicCoursesView.get`)

  /** The query parameters, each absent or present as a string. */
  datatype PublicQuery = PublicQuery(
    category: Option<string>, level: Option<string>, search: Option<string>,
    featured: Option<string>, page: Option<string>, pageSize: Option<string>)

  /** A Python string parameter that is present and non-empty. */
  predicate Given(o: Option<string>) {
    o.Some? && |o.value| > 0
  }

  /** The listing filter: published, and each given filter satisfied
      (category and level exactly, title containing the search ignoring
      case, featured when the parameter reads "true" in any case). */
  predicate Listed(q: PublicQuery, c: Course) {
    && c.isPublished
    && (Given(q.category) ==> c.category == q.category)
    && (Given(q.level) ==> c.level == q.level.value)
    && (Given(q.search) ==> Contains(Lower(c.title), Lower(q.search.value)))
    && (q.featured.Some? && Lower(q.featured.value) == "true" ==> c.isFeatured)
  }

  datatype PublicPage =
    | PublicPage(items: seq<Course>, totalPages: nat, totalCourses: nat, currentPage: int,
                 hasNext: bool, hasPrevious: bool, categories: set<string>)
    | PublicServerError

  /** `page_size` as `Paginator` reads it: `int()` of the parameter, 12 when absent. */
  function PageSizeOf(q: PublicQuery): Option<int> {
    if q.pageSize.Some? then ParseInt(q.pageSize.value) else Some(12)
  }

  /** The filtered catalogue, newest first. */
  function Matching(all: seq<Course>, q: PublicQuery): (r: seq<Course>)
    ensures NewestFirst(r)
    ensures forall c :: c in r <==> c in all && Listed(q, c)
  {
    NewestKept(all, c => Listed(q, c))
  }

  /** `Paginator.page` after the view's two fallbacks: a page that is not an
      integer becomes page 1, one below 1 or past the end becomes the last. */
  function ResolvePage(raw: Option<string>, numPages: nat): (r: nat)
    requires numPages >= 1
    ensures 1 <= r <= numPages
    ensures (raw.Some? && ParseInt(raw.value).Some? && 1 <= ParseInt(raw.value).value <= numPages)
            ==> r == ParseInt(raw.value).value
    ensures raw.None? || ParseInt(raw.value).None? ==> r == 1
    ensures (raw.Some? && ParseInt(raw.value).Some? && !(1 <= ParseInt(raw.value).value <= numPages))
            ==> r == numPages
  {
    match raw
    case None => 1
    case Some(s) =>
      match ParseInt(s)
      case None => 1
      case Some(n) => if 1 <= n <= numPages then n else numPages
  }

  /** `PublicCoursesView.get`: published courses passing the filters, newest
      first, cut into pages of `page_size` (12 by default). The echoed
      `current_page` is `int(page)` of the raw parameter, so a page that is
      not an integer ends in the server error even though the paginator fell
      back to page 1. A page size that is not a positive integer is a server
      error as well. The categories offered are the distinct non-empty
      categories of all published courses. */
  function PublicCourses(all: seq<Course>, q: PublicQuery): (r: PublicPage)
    ensures r.PublicPage? <==>
      && PageSizeOf(q).Some? && PageSizeOf(q).value >= 1
      && (q.page.None? || ParseInt(q.page.value).Some?)
    ensures r.PublicPage? ==>
      var listed := Matching(all, q);
      var size := PageSizeOf(q).value;
      var p := ResolvePage(q.page, PageCount(|listed|, size));
      && r.totalCourses == |listed|
      && r.totalPages == PageCount(|listed|, size)
      && r.items == PageOf(listed, p, size)
      && r.currentPage == (if q.page.Some? then ParseInt(q.page.value).value else 1)
      && (r.hasNext <==> p < r.totalPages)
      && (r.hasPrevious <==> p > 1)
    ensures r.PublicPage? ==>
      && NewestFirst(r.items)
      && (forall c :: c in r.items ==> c in all && Listed(q, c))
      && (|Matching(all, q)| > 0 ==> |r.items| > 0)
      && r.categories == Categories(all)
  {
    var size := PageSizeOf(q);
    if size.None? || size.value < 1 then PublicServerError
    else
      var listed := Matching(all, q);
      var n := PageCount(|listed|, size.value);
      var p := ResolvePage(q.page, n);
      var echoed := if q.page.Some? then ParseInt(q.page.value) else Some(1);
      if echoed.None? then PublicServerError
      else
        PageOfSorted(listed, p, size.value);
        ShownPageFilled(listed, size.value, p);
        PublicPage(PageOf(listed, p, size.value), n, |listed|, echoed.value, p < n, p > 1, Categories(all))
  }

  /** The category filter offered: the distinct non-empty categories of the
      published courses. */
  function Categories(all: seq<Course>): (r: set<string>)
    ensures forall k :: k in r <==> k != "" && exists c :: c in all && c.isPublished && c.category == Some(k)
  {
    set c | c in all && c.isPublished && Given(c.category) :: c.category.value
  }

  /** A page of a newest-first list is newest first, and its items come from the list. */
  lemma PageOfSorted(cs: seq<Course>, p: nat, size: nat)
    requires p >= 1 && NewestFirst(cs)
    ensures NewestFirst(PageOf(cs, p, size))
    ensures forall c :: c in PageOf(cs, p, size) ==> c in cs
  {
    var r := PageOf(cs, p, size);
    forall c | c in r ensures c in cs {
      var i :| 0 <= i < |r| && r[i] == c;
      assert cs[PageStart(p, size) + i] == c;
    }
  }

  lemma ShownPageFilled(cs: seq<Course>, size: nat, p: nat)
    requires size > 0 && 1 <= p <= PageCount(|cs|, size)
    ensures |cs| > 0 ==> |PageOf(cs, p, size)| > 0
  {
    if |cs| > 0 {
      PagesUpToCountAreFilled(cs, size, p);
    }
  }

  /** Every matching course is listed on exactly one page: the one its
      position divides into. */
  lemma EveryMatchOnItsPage(all: seq<Course>, q: PublicQuery, size: int, i: nat)
    requires PageSizeOf(q) == Some(size) && size >= 1 && i < |Matching(all, q)|
    ensures var p := i / size + 1;
      && 1 <= p <= PageCount(|Matching(all, q)|, size)
      && Matching(all, q)[i] in PageOf(Matching(all, q), p, size)
  {
    var listed := Matching(all, q);
    ItemOnItsPage(listed, size, i);
    ItemPageCounted(|listed|, size, i);
  }

  /** A requested page outside `1..total_pages` shows the last page, yet the
      response echoes the requested number as `current_page`. */
  lemma EchoedPageDiffersFromShown(all: seq<Course>, q: PublicQuery, n: int)
    requires PublicCourses(all, q).PublicPage?
    requires q.page.Some? && ParseInt(q.page.value) == Some(n) && n < 1
    ensures var r := PublicCourses(all, q);
      && r.currentPage == n
      && r.items == PageOf(Matching(all, q), r.totalPages, PageSizeOf(q).value)
      && !r.hasNext
  {
  }

  // ---------------------------------------------------------------------------
  // The description shown in listings

  /** A short description that is set and non-empty. */
  predicate HasShort(c: Course) {
    Given(c.shortDescription)
  }

  /** As written in the public catalogue: `short_description or
      description[:150] + '...'`, which appends the ellipsis even to a
      description that was not cut. */
  function ListingShortAsWritten(c: Course): (r: string)
    ensures HasShort(c) ==> r == c.shortDescription.value
    ensures !HasShort(c) ==>
      && |r| == Min(|c.description|, 150) + 3
      && IsPrefix(r[..|r| - 3], c.description)
      && r[|r| - 3..] == "..."
  {
    if HasShort(c) then c.shortDescription.value
    else c.description[..Min(|c.description|, 150)] + "..."
  }

  /** Evidently intended, and what the enrolled-course lists do: the short
      description when set, otherwise the description, cut to 150 characters
      with an ellipsis only when it is longer. */
  function ListingShortIntended(c: Course): (r: string)
    ensures HasShort(c) ==> r == c.shortDescription.value
    ensures !HasShort(c) && |c.description| <= 150 ==> r == c.description
    ensures !HasShort(c) && |c.description| > 150 ==>
      |r| == 153 && IsPrefix(r[..150], c.description) && r[150..] == "..."
  {
    if HasShort(c) then c.shortDescription.value
    else if |c.description| > 150 then c.description[..150] + "..."
    else c.description
  }

  /** The two rules agree on long descriptions and on set short descriptions;
      on a short description-less course with a description of at most 150
      characters the catalogue shows the whole description followed by "...". */
  lemma ShortListingAlwaysEllipsised(c: Course)
    ensures HasShort(c) || |c.description| > 150 ==> ListingShortAsWritten(c) == ListingShortIntended(c)
    ensures !HasShort(c) && |c.description| <= 150 ==>
      && ListingShortAsWritten(c) == c.description + "..."
      && ListingShortAsWritten(c) != ListingShortIntended(c)
  {
    if !HasShort(c) && |c.description| <= 150 {
      assert c.description[..|c.description|] == c.description;
      assert |ListingShortAsWritten(c)| == |c.description| + 3;
    }
  }

  /** The enrolled-course lists: `(short_description or description[:150] +
      '...') if len(description) > 150 else description`, so a short
      description is shown only for long descriptions. */
  function EnrolledDescription(c: Course): (r: string)
    ensures |c.description| <= 150 ==> r == c.description
    ensures |c.description| > 150 ==> r == ListingShortIntended(c)
  {
    if |c.description| > 150 then
      (if HasShort(c) then c.shortDescription.value else c.description[..150] + "...")
    else c.description
  }

  /** A listing card: the course's public face with the instructor's trimmed
      full name. */
  datatype Card = Card(id: nat, title: string, shortDescription: string, instructorName: string, level: string)

  function ListingCard(c: Course, instructor: Account): (r: Card)
    ensures r.id == c.id && r.title == c.title && r.level == c.level
    ensures r.shortDescription == ListingShortAsWritten(c)
    ensures HasShort(c) ==> r.shortDescription == c.shortDescription.value
    ensures !HasShort(c) ==> r.shortDescription[|r.shortDescription| - 3..] == "..."
    ensures r.instructorName == Trim(instructor.firstName + " " + instructor.lastName)
  {
    Card(c.id, c.title, ListingShortAsWritten(c), JoinedName(instructor.firstName, instructor.lastName), c.level)
  }

  // ---------------------------------------------------------------------------
  // `CourseListCreateView.get`

  /** With an `instructor` parameter, that instructor's courses that are not
      deleted, drafts included; otherwise the published courses that are not
      deleted. Newest first either way. */
  function CourseList(all: seq<Course>, staff: seq<Staff>, instructor: Option<string>): (r: seq<Course>)
    ensures NewestFirst(r)
    ensures Given(instructor) ==> forall c :: c in r <==>
      c in all && c.isActive && exists s :: s in staff && s.staffId == instructor.value && s.id == c.instructor
    ensures !Given(instructor) ==> forall c :: c in r <==> c in all && c.isPublished && c.isActive
  {
    if Given(instructor) then
      NewestKept(all, (c: Course) => c.isActive && exists s :: s in staff && s.staffId == instructor.value && s.id == c.instructor)
    else
      NewestKept(all, (c: Course) => c.isPublished && c.isActive)
  }

  /** The instructor's own list shows drafts the public list hides. */
  lemma DraftsOnlyInInstructorList(all: seq<Course>, staff: seq<Staff>, s: Staff, c: Course)
    requires s in staff && |s.staffId| > 0 && c in all && c.instructor == s.id && c.isActive && !c.isPublished
    ensures c in CourseList(all, staff, Some(s.staffId))
    ensures c !in CourseList(all, staff, None)
  {
  }

  /** A soft-deleted course leaves both forms of the course list, but the
      public catalogue filters on publication alone, so a deleted course
      that stays published and matches the query is still offered there. */
  lemma SoftDeletedListing(all: seq<Course>, staff: seq<Staff>, instructor: Option<string>,
                           c: Course, owner: Staff, q: PublicQuery)
    requires c.instructor == owner.id
    ensures var d := CourseEditing.SoftDelete(Some(c), Some(owner)).course;
      && d !in CourseList(all, staff, instructor)
      && (d in all && Listed(q, c) ==> d in Matching(all, q))
  {
    var d := CourseEditing.SoftDelete(Some(c), Some(owner)).course;
    assert d.isPublished == c.isPublished && d.title == c.title && d.isFeatured == c.isFeatured;
  }

  // ---------------------------------------------------------------------------
  // Completed courses of `MyCourseDetailsView.get`

  /** One row of the `completed_courses` list. */
  datatype Completion = Completion(courseId: nat, totalLessons: nat, completedLessons: nat,
                                   percent: real, completed: bool)

  /** The student has some progress record, completed or not, on a lesson
      of the course. */
  predicate HasProgress(c: Course, p: Progress, student: nat) {
    exists l :: l in AllLessons(c) && (student, l.id) in p
  }

  function Percent(done: nat, total: nat): (r: real)
    ensures total == 0 ==> r == 0.0
    ensures total > 0 ==> r * (total as real) == (done as real) * 100.0
  {
    if total > 0 then (done as real) * 100.0 / (total as real) else 0.0
  }

  /** As written: the total counts published lessons but the completed count
      takes every completed record of the course, unpublished lessons
      included; the course is complete when the two counts are equal. */
  function CompletionAsWritten(c: Course, p: Progress, student: nat): (r: Completion)
    ensures r.courseId == c.id
    ensures r.totalLessons == |PublishedLessons(AllLessons(c))|
    ensures r.completedLessons == CountCompleted(AllLessons(c), p, student)
    ensures r.percent == Percent(r.completedLessons, r.totalLessons)
    ensures r.completed <==> r.totalLessons > 0 && r.completedLessons == r.totalLessons
  {
    var total := |PublishedLessons(AllLessons(c))|;
    var done := CountCompleted(AllLessons(c), p, student);
    Completion(c.id, total, done, Percent(done, total), done == total && total > 0)
  }

  /** Corrected: both counts over the published lessons, so the percentage
      stays within 100 and "completed" means every published lesson is done. */
  function CompletionIntended(c: Course, p: Progress, student: nat): (r: Completion)
    ensures r.completedLessons <= r.totalLessons
    ensures r.percent <= 100.0
    ensures r.completed <==> r.totalLessons > 0 && AllCompleted(PublishedLessons(AllLessons(c)), p, student)
  {
    var ls := PublishedLessons(AllLessons(c));
    var done := CountCompleted(ls, p, student);
    CountAllIff(ls, p, student);
    PercentAtMost100(done, |ls|);
    Completion(c.id, |ls|, done, Percent(done, |ls|), done == |ls| && |ls| > 0)
  }

  lemma PercentAtMost100(done: nat, total: nat)
    requires done <= total
    ensures Percent(done, total) <= 100.0
  {
    if total > 0 {
      assert (done as real) * 100.0 <= (total as real) * 100.0;
    }
  }

  /** The student has completed every lesson of the list. */
  predicate AllCompleted(ls: seq<Lesson>, p: Progress, student: nat) {
    forall i :: 0 <= i < |ls| ==> (student, ls[i].id) in p && p[(student, ls[i].id)]
  }

  /** The completed count reaches the length of the list exactly when every
      lesson of it is completed. */
  lemma {:induction false} CountAllIff(ls: seq<Lesson>, p: Progress, student: nat)
    ensures CountCompleted(ls, p, student) == |ls| <==> AllCompleted(ls, p, student)
  {
    if |ls| > 0 {
      var init := ls[..|ls| - 1];
      CountAllIff(init, p, student);
      assert forall i :: 0 <= i < |init| ==> init[i] == ls[i];
    }
  }

  /** The `completed_courses` list: courses with any progress record of the
      student, kept only when some lesson of the course, published or not,
      is completed; each row carries the counts as written. */
  function CompletedCourses(courses: seq<Course>, p: Progress, student: nat): (r: seq<Completion>)
    ensures |r| <= |courses|
    ensures forall e :: e in r ==> e.completedLessons > 0
    ensures forall e :: e in r ==> exists c :: c in courses && HasProgress(c, p, student) && e == CompletionAsWritten(c, p, student)
    ensures forall c :: c in courses && HasProgress(c, p, student) && CompletionAsWritten(c, p, student).completedLessons > 0
              ==> CompletionAsWritten(c, p, student) in r
  {
    if |courses| == 0 then []
    else
      var c := courses[|courses| - 1];
      var init := CompletedCourses(courses[..|courses| - 1], p, student);
      var e := CompletionAsWritten(c, p, student);
      var r := init + (if HasProgress(c, p, student) && e.completedLessons > 0 then [e] else []);
      CompletedStep(courses, p, student, init, r);
      r
  }

  /** The completions listed for `courses` once the last course is added to
      those of the courses before it. */
  predicate ListsCompletions(courses: seq<Course>, p: Progress, student: nat, r: seq<Completion>) {
    && |r| <= |courses|
    && (forall e :: e in r ==> e.completedLessons > 0)
    && (forall e :: e in r ==> exists c :: c in courses && HasProgress(c, p, student) && e == CompletionAsWritten(c, p, student))
    && (forall c :: c in courses && HasProgress(c, p, student) && CompletionAsWritten(c, p, student).completedLessons > 0
          ==> CompletionAsWritten(c, p, student) in r)
  }

  lemma CompletedStep(courses: seq<Course>, p: Progress, student: nat, init: seq<Completion>, r: seq<Completion>)
    requires |courses| > 0 && ListsCompletions(courses[..|courses| - 1], p, student, init)
    requires var c := courses[|courses| - 1]; var e := CompletionAsWritten(c, p, student);
      r == init + (if HasProgress(c, p, student) && e.completedLessons > 0 then [e] else [])
    ensures ListsCompletions(courses, p, student, r)
  {
    StepListsOnlyCourses(courses, p, student, init, r);
    StepListsEveryCourse(courses, p, student, init, r);
  }

  /** After the step every listed completion still belongs to a course with progress. */
  lemma StepListsOnlyCourses(courses: seq<Course>, p: Progress, student: nat, init: seq<Completion>, r: seq<Completion>)
    requires |courses| > 0 && ListsCompletions(courses[..|courses| - 1], p, student, init)
    requires var c := courses[|courses| - 1]; var e := CompletionAsWritten(c, p, student);
      r == init + (if HasProgress(c, p, student) && e.completedLessons > 0 then [e] else [])
    ensures forall e :: e in r ==> exists c :: c in courses && HasProgress(c, p, student) && e == CompletionAsWritten(c, p, student)
  {
    var n := |courses| - 1;
    assert forall c :: c in courses[..n] ==> c in courses;
  }

  /** After the step every course with a completed lesson is listed. */
  lemma StepListsEveryCourse(courses: seq<Course>, p: Progress, student: nat, init: seq<Completion>, r: seq<Completion>)
    requires |courses| > 0 && ListsCompletions(courses[..|courses| - 1], p, student, init)
    requires var c := courses[|courses| - 1]; var e := CompletionAsWritten(c, p, student);
      r == init + (if HasProgress(c, p, student) && e.completedLessons > 0 then [e] else [])
    ensures forall c :: c in courses && HasProgress(c, p, student) && CompletionAsWritten(c, p, student).completedLessons > 0
              ==> CompletionAsWritten(c, p, student) in r
  {
    var n := |courses| - 1;
    assert forall c :: c in courses ==> c in courses[..n] || c == courses[n];
  }

  /** As written, a completed unpublished lesson stands in for an unfinished
      published one: a course with two published lessons, one of them done,
      and a done unpublished lesson is reported complete. */
  lemma CompletionCountsUnpublished(c: Course, s: Section, l1: Lesson, l2: Lesson, l3: Lesson,
                                    p: Progress, student: nat)
    requires c.sections == [s] && s.lessons == [l1, l2, l3]
    requires l1.isPublished && l2.isPublished && !l3.isPublished
    requires l2.id != l1.id && l2.id != l3.id
    requires (student, l1.id) in p && p[(student, l1.id)]
    requires (student, l3.id) in p && p[(student, l3.id)]
    requires (student, l2.id) !in p
    ensures CompletionAsWritten(c, p, student).completed
    ensures !CompletionIntended(c, p, student).completed
  {
    assert c.sections[..0] == [];
    assert Flatten(c.sections) == Flatten(c.sections[..0]) + s.lessons;
    assert AllLessons(c) == [l1, l2, l3];
    ThreeLessonCounts(l1, l2, l3, p, student);
    var ls := PublishedLessons(AllLessons(c));
    assert l2 in ls;
    var k :| 0 <= k < |ls| && ls[k] == l2;
  }

  /** A course whose only completed lesson is unpublished is still listed,
      with one completed lesson out of no published ones. */
  lemma UnpublishedCompletionListed(c: Course, s: Section, l: Lesson, p: Progress, student: nat)
    requires c.sections == [s] && s.lessons == [l] && !l.isPublished
    requires (student, l.id) in p && p[(student, l.id)]
    ensures var e := CompletionAsWritten(c, p, student);
      && e in CompletedCourses([c], p, student)
      && e.completedLessons == 1 && e.totalLessons == 0 && !e.completed
  {
    assert c.sections[..0] == [];
    assert Flatten(c.sections) == Flatten(c.sections[..0]) + s.lessons;
    assert AllLessons(c) == [l];
    assert [l][..0] == [];
    assert l in AllLessons(c);
    assert HasProgress(c, p, student);
  }

  lemma ThreeLessonCounts(l1: Lesson, l2: Lesson, l3: Lesson, p: Progress, student: nat)
    requires l1.isPublished && l2.isPublished && !l3.isPublished
    requires (student, l1.id) in p && p[(student, l1.id)]
    requires (student, l3.id) in p && p[(student, l3.id)]
    requires (student, l2.id) !in p
    ensures |PublishedLessons([l1, l2, l3])| == 2
    ensures CountCompleted([l1, l2, l3], p, student) == 2
  {
    assert [l1, l2, l3][..2] == [l1, l2];
    assert [l1, l2][..1] == [l1];
    assert [l1][..0] == [];
    assert CountCompleted([l1], p, student) == 1;
    assert CountCompleted([l1, l2], p, student) == 1;
  }
}

=== FILE: course_resources.dfy ===
/** The course-resources client (`CourseResourceAPI`): which resources the
    bulk step skips, whether each kept one is added or updated, how the
    request body is encoded, and what a delete reports. The server's answers
    are parameters. */
module CourseResources {
  import opened Wrappers
  import opened Lists

  datatype Kind = FileKind | LinkKind

  /** The `id` of a form entry: no `id` key at all, or a key whose value may
      be `undefined`. */
  datatype IdField = NoIdKey | IdKey(value: Option<string>)

  datatype ResourceForm = ResourceForm(title: string, description: Option<string>, kind: Kind,
                                       url: Option<string>, id: IdField, hasFile: bool)

  predicate TruthyId(id: IdField) {
    id.IdKey? && id.value.Some? && id.value.value != ""
  }

  /** The bulk step keeps an entry with a title, a link with a url, and a
      file entry with a file or an id. */
  predicate Kept(r: ResourceForm) {
    && r.title != ""
    && !(r.kind == LinkKind && (r.url.None? || r.url.value == ""))
    && !(r.kind == FileKind && !r.hasFile && !TruthyId(r.id))
  }

  datatype Encoding = Multipart(fields: seq<string>) | JsonBody

  /** `addResource` / `updateResource` body: multipart exactly for a file
      entry holding a file, with `type` sent only when adding and
      `description` only when non-empty. */
  function BodyFor(r: ResourceForm, adding: bool): (e: Encoding)
    ensures e.Multipart? <==> r.kind == FileKind && r.hasFile
    ensures e.Multipart? ==> ("type" in e.fields <==> adding)
    ensures e.Multipart? ==> ("description" in e.fields <==> r.description.Some? && r.description.value != "")
    ensures e.Multipart? ==> "title" in e.fields && "file" in e.fields
  {
    if r.kind == FileKind && r.hasFile then
      var described := r.description.Some? && r.description.value != "";
      Multipart(["title"] + (if adding then ["type"] else []) + (if described then ["description"] else []) + ["file"])
    else JsonBody
  }

  datatype Request = Add(body: Encoding) | Update(resourceId: string, body: Encoding)

  /** The request for one kept entry: an update whenever the entry has an
      `id` key, even one holding `undefined` (which the path then spells
      "undefined"); otherwise an add. */
  function RequestFor(r: ResourceForm): (q: Request)
    ensures q.Update? <==> r.id.IdKey?
    ensures r.id.IdKey? && r.id.value.Some? ==> q.resourceId == r.id.value.value
    ensures r.id.IdKey? && r.id.value.None? ==> q.resourceId == "undefined"
  {
    match r.id
    case NoIdKey => Add(BodyFor(r, true))
    case IdKey(v) => Update(if v.Some? then v.value else "undefined", BodyFor(r, false))
  }

  /** The requests `processBulkResources` makes, in entry order. */
  function BulkRequests(rs: seq<ResourceForm>): (qs: seq<Request>)
    ensures |qs| == CountWhere(rs, Kept)
  {
    if rs == [] then []
    else
      var init, last := rs[..|rs| - 1], rs[|rs| - 1];
      assert rs == init + [last];
      CountConcat(init, [last], Kept);
      BulkRequests(init) + if Kept(last) then [RequestFor(last)] else []
  }

  /** One request per kept entry, in entry order: the requests for a list
      are those of its first part followed by those of the rest. */
  lemma {:induction false} BulkConcat(a: seq<ResourceForm>, b: seq<ResourceForm>)
    ensures BulkRequests(a + b) == BulkRequests(a) + BulkRequests(b)
    decreases |b|
  {
    if b == [] {
      assert a + b == a;
    } else {
      var b' := b[..|b| - 1];
      assert (a + b)[..|a + b| - 1] == a + b';
      assert (a + b)[|a + b| - 1] == b[|b| - 1];
      BulkConcat(a, b');
    }
  }

  /** A lone entry yields its own request when kept and nothing otherwise. */
  lemma BulkOne(r: ResourceForm)
    ensures BulkRequests([r]) == if Kept(r) then [RequestFor(r)] else []
  {
    assert [r][..0] == [];
  }

  /** A file entry without a file but with an id is kept and updated with a
      JSON body, so its file is left as it was. */
  lemma ExistingFileKeptAsJsonUpdate(title: string, id: string, description: Option<string>)
    requires title != "" && id != ""
    ensures BulkRequests([ResourceForm(title, description, FileKind, None, IdKey(Some(id)), false)]) == [Update(id, JsonBody)]
  {
    BulkOne(ResourceForm(title, description, FileKind, None, IdKey(Some(id)), false));
  }

  /** The bulk step stops at the first request the server refuses: the
      requests before it were applied, and the error propagates without the
      results. */
  datatype BulkOutcome = Completed(sent: seq<Request>) | Failed(sent: seq<Request>)

  /** `o` is what sending `qs` in order yields: everything when the server
      refuses none of them, otherwise the requests up to and including the
      first refused one. */
  predicate SentInOrder(qs: seq<Request>, refused: Request -> bool, o: BulkOutcome)
  {
    && (o.Completed? <==> forall i :: 0 <= i < |qs| ==> !refused(qs[i]))
    && (o.Completed? ==> o.sent == qs)
    && (o.Failed? ==> 0 < |o.sent| <= |qs| && o.sent == qs[..|o.sent|] && refused(o.sent[|o.sent| - 1]))
    && (o.Failed? ==> forall i :: 0 <= i < |o.sent| - 1 ==> !refused(o.sent[i]))
  }

  function Send(qs: seq<Request>, refused: Request -> bool): (o: BulkOutcome)
    ensures SentInOrder(qs, refused, o)
  {
    if qs == [] then Completed([])
    else if refused(qs[0]) then Failed([qs[0]])
    else
      var rest := Send(qs[1..], refused);
      SendStep(qs, refused, rest);
      if rest.Completed? then Completed([qs[0]] + rest.sent) else Failed([qs[0]] + rest.sent)
  }

  /** An accepted first request goes in front of what the rest yields. */
  lemma SendStep(qs: seq<Request>, refused: Request -> bool, rest: BulkOutcome)
    requires qs != [] && !refused(qs[0]) && SentInOrder(qs[1..], refused, rest)
    ensures SentInOrder(qs, refused, if rest.Completed? then Completed([qs[0]] + rest.sent) else Failed([qs[0]] + rest.sent))
  {
    assert forall i :: 1 <= i < |qs| ==> qs[i] == qs[1..][i - 1];
    if rest.Completed? {
      assert qs == [qs[0]] + qs[1..];
    } else {
      var sent := [qs[0]] + rest.sent;
      assert sent == qs[..|sent|];
      assert forall i :: 1 <= i < |sent| ==> sent[i] == rest.sent[i - 1];
    }
  }

  /** `deleteResource` reports success exactly when the answer's `status` is
      "success". */
  function DeleteResult(status: Option<string>): (ok: bool)
    ensures ok <==> status == Some("success")
  {
    status.Some? && status.value == "success"
  }
}

=== FILE: course_viewer.dfy ===
/** The course viewer's client-side fallbacks (`CourseViewer`): lesson
    durations read with `Number`, the lesson lookup over the whole course
    list when the lesson endpoint is unavailable, its previous and next
    lessons, and the progress answer that never fails. Lesson ids are
    integers; the loose `==` between the id in the address and a lesson's
    id is integer equality here. The course list holds the sections and
    lessons in the order the server serves them, ascending by `order`. */
module CourseViewer {
  import opened Wrappers
  import opened Text
  import opened JsNumber
  import Durations

  // ---------------------------------------------------------------------------
  // Durations in seconds

  /** `parseDurationToSeconds`: 0 for a missing or empty duration, otherwise
      sixty times the `Number` before the first colon plus the one after it.
      Nothing here throws, so the `catch` never supplies its 0: malformed
      text gives `NaN`. */
  function DurationSeconds(duration: Option<string>): (r: Num)
    ensures duration.None? || duration == Some("") ==> r == Int(0)
  {
    if duration.None? || duration.value == "" then Int(0)
    else
      var parts := Split(duration.value, ':');
      Add(Scale(FieldAt(parts, 0), 60), FieldAt(parts, 1))
  }

  /** Text of whitespace only is not an integer for the server. */
  lemma BlankNotParsed(s: string)
    requires AllSpace(s)
    ensures ParseInt(s).None?
  {
    TrimEmptyIff(s);
  }

  /** A field the server reads as an integer is the same integer for
      `Number`. */
  lemma NumberAgreesWithParse(s: string, v: int)
    requires ParseInt(s) == Some(v)
    ensures ToNumber(s) == Int(v)
  {
    if AllSpace(s) {
      BlankNotParsed(s);
    }
  }

  /** Whenever the server parses a duration, the client reads the same
      number of seconds. */
  lemma AgreesWithServerParse(d: string, t: int)
    requires Durations.ParseMmSs(d) == Some(t)
    ensures DurationSeconds(Some(d)) == Int(t)
  {
    var parts := Split(d, ':');
    var m, sec := ParsedFields(d, t);
    assert d != "" by {
      assert ':' in d;
    }
    NumberAgreesWithParse(parts[0], m);
    NumberAgreesWithParse(parts[1], sec);
    FieldsSeconds(d, m, sec);
  }

  /** A duration the server parses has two integer fields, minutes and
      seconds. */
  lemma ParsedFields(d: string, t: int) returns (m: int, sec: int)
    requires Durations.ParseMmSs(d) == Some(t)
    ensures |Split(d, ':')| == 2
    ensures ParseInt(Split(d, ':')[0]) == Some(m) && ParseInt(Split(d, ':')[1]) == Some(sec)
    ensures t == m * 60 + sec
  {
    var parts := Split(d, ':');
    m, sec := ParseInt(parts[0]).value, ParseInt(parts[1]).value;
  }

  /** Where the two disagree: a blank minutes field is 0 for `Number` but
      makes the server's parse fail. */
  lemma BlankMinutesDiffer(sec: string)
    requires AllDigits(sec) && |sec| > 0
    ensures DurationSeconds(Some(":" + sec)) == Int(DigitsValue(sec))
    ensures Durations.ParseMmSs(":" + sec).None?
  {
    Durations.DigitsNoColon(sec);
    BlankMinutesAreZero(sec);
    BlankMinutesRejected(sec);
  }

  /** For `Number` an empty minutes field is 0. */
  lemma BlankMinutesAreZero(sec: string)
    requires AllDigits(sec) && |sec| > 0
    ensures DurationSeconds(Some(":" + sec)) == Int(DigitsValue(sec))
  {
    Durations.DigitsNoColon(sec);
    assert ":" + sec == "" + ":" + sec;
    DigitsReadAsNumber(sec);
    assert ToNumber("") == Int(0);
    NumberPairSeconds("", sec, 0, DigitsValue(sec));
  }

  /** The server rejects a duration whose minutes field is empty. */
  lemma BlankMinutesRejected(sec: string)
    requires ':' !in sec
    ensures Durations.ParseMmSs(":" + sec).None?
  {
    Durations.SplitTwo("", sec);
    assert ":" + sec == "" + ":" + sec;
    var parts := Split(":" + sec, ':');
    assert parts[0] == "";
    assert ParseInt("").None?;
  }

  /** A non-empty run of digits is its decimal value for `Number`. */
  lemma DigitsReadAsNumber(s: string)
    requires AllDigits(s) && |s| > 0
    ensures ToNumber(s) == Int(DigitsValue(s))
  {
    ParseIntOfDigits(s);
    NumberAgreesWithParse(s, DigitsValue(s));
  }

  /** Malformed text is `NaN` for the client but no time at all for the
      server. */
  lemma MalformedIsNaN()
    ensures DurationSeconds(Some("5")) == NaN && Durations.LessonSeconds(Some("5")) == 0
  {
    SplitNoSep("5", ':');
  }

  /** The default each lesson falls back to, `lesson.duration || "00:00"`. */
  function OrZeroDuration(d: Option<string>): (r: Option<string>)
    ensures r.Some? && r.value != ""
  {
    if d.None? || d.value == "" then Some("00:00") else d
  }

  /** The default reads as no time at all. */
  lemma ZeroDurationIsZero()
    ensures DurationSeconds(Some("00:00")) == Int(0)
  {
    assert "00:00" == "00" + ":" + "00";
    assert "00"[..1] == "0" && "0"[..0] == "";
    assert DigitsValue("00") == 0;
    DigitsReadAsNumber("00");
    Durations.DigitsNoColon("00");
    NumberPairSeconds("00", "00", 0, 0);
  }

  /** A non-empty duration whose first two fields `Number` reads as `x` and
      `y` is `60 * x + y` seconds. */
  lemma FieldsSeconds(d: string, x: int, y: int)
    requires d != "" && |Split(d, ':')| >= 2
    requires ToNumber(Split(d, ':')[0]) == Int(x) && ToNumber(Split(d, ':')[1]) == Int(y)
    ensures DurationSeconds(Some(d)) == Int(x * 60 + y)
  {
    var parts := Split(d, ':');
    assert FieldAt(parts, 0) == Int(x) && FieldAt(parts, 1) == Int(y);
  }

  /** Two fields around a colon that `Number` reads as `x` and `y` give
      `60 * x + y` seconds. */
  lemma NumberPairSeconds(m: string, sec: string, x: int, y: int)
    requires ':' !in m && ':' !in sec
    requires ToNumber(m) == Int(x) && ToNumber(sec) == Int(y)
    ensures DurationSeconds(Some(m + ":" + sec)) == Int(x * 60 + y)
  {
    var d := m + ":" + sec;
    assert |d| > 0;
    Durations.SplitTwo(m, sec);
    FieldsSeconds(d, x, y);
  }

  /** The summed seconds of a list of lesson durations, each defaulted. */
  function SumSeconds(ds: seq<Option<string>>): (r: Num) {
    if |ds| == 0 then Int(0)
    else Add(SumSeconds(ds[..|ds| - 1]), DurationSeconds(OrZeroDuration(ds[|ds| - 1])))
  }

  /** A duration the server counts: missing, empty, or well formed. */
  predicate ServerReadable(d: Option<string>) {
    d.None? || d.value == "" || Durations.ParseMmSs(d.value).Some?
  }

  /** When the server can read every duration, the client's sum is the
      server's total. */
  lemma {:induction false} SumAgreesWithServer(ds: seq<Option<string>>)
    requires forall d :: d in ds ==> ServerReadable(d)
    ensures SumSeconds(ds) == Int(Durations.TotalSeconds(ds))
    decreases |ds|
  {
    if |ds| > 0 {
      var n := |ds| - 1;
      SumAgreesWithServer(ds[..n]);
      SumStep(ds);
    }
  }

  /** One more readable duration keeps the two sums equal. */
  lemma SumStep(ds: seq<Option<string>>)
    requires |ds| > 0 && ServerReadable(ds[|ds| - 1])
    requires SumSeconds(ds[..|ds| - 1]) == Int(Durations.TotalSeconds(ds[..|ds| - 1]))
    ensures SumSeconds(ds) == Int(Durations.TotalSeconds(ds))
  {
    OneDurationAgrees(ds[|ds| - 1]);
  }

  /** A duration the server can read adds the same seconds on both sides. */
  lemma OneDurationAgrees(d: Option<string>)
    requires ServerReadable(d)
    ensures DurationSeconds(OrZeroDuration(d)) == Int(Durations.LessonSeconds(d))
  {
    if d.None? || d.value == "" {
      ZeroDurationIsZero();
    } else {
      AgreesWithServerParse(d.value, Durations.ParseMmSs(d.value).value);
    }
  }

  /** A malformed duration anywhere makes the sum `NaN`. */
  lemma {:induction false} MalformedSpoilsSum(ds: seq<Option<string>>, i: nat)
    requires i < |ds| && DurationSeconds(OrZeroDuration(ds[i])) == NaN
    ensures SumSeconds(ds) == NaN
    decreases |ds|
  {
    if i < |ds| - 1 {
      MalformedSpoilsSum(ds[..|ds| - 1], i);
    }
  }

  // ---------------------------------------------------------------------------
  // Courses as the course list returns them

  datatype ViewerLesson = ViewerLesson(id: int, title: string, duration: Option<string>)

  datatype ViewerSection = ViewerSection(id: int, title: string, lessons: Option<seq<ViewerLesson>>)

  datatype ViewerCourse = ViewerCourse(id: int, title: string, sections: Option<seq<ViewerSection>>)

  /** The durations of every lesson in sections that have a lesson list. */
  function DurationsOf(ss: seq<ViewerSection>): seq<Option<string>> {
    if |ss| == 0 then []
    else DurationsOf(ss[..|ss| - 1])
         + (var last := ss[|ss| - 1];
            if last.lessons.Some? then seq(|last.lessons.value|, i requires 0 <= i < |last.lessons.value| => last.lessons.value[i].duration)
            else [])
  }

  /** `calculateDurationInSeconds`: 0 without a section list, otherwise the
      defaulted durations of all lessons, sections without a lesson list
      skipped. */
  function CourseSeconds(c: ViewerCourse): (r: Num)
    ensures c.sections.None? ==> r == Int(0)
    ensures c.sections.Some? ==> r == SumSeconds(DurationsOf(c.sections.value))
  {
    if c.sections.None? then Int(0) else SumSeconds(DurationsOf(c.sections.value))
  }

  // ---------------------------------------------------------------------------
  // Finding a lesson in the course list

  /** Where the search stops: at the first lesson with the id (course,
      section and lesson positions), with no such lesson, or at a course or
      section without its list, whose iteration throws. */
  datatype Search = Hit(course: nat, section: nat, lesson: nat) | Miss | Broken

  /** The first lesson with id `id`, as `find` returns it. */
  function FindLesson(ls: seq<ViewerLesson>, id: int): (r: Option<nat>)
    ensures r.Some? ==> r.value < |ls| && ls[r.value].id == id && forall k :: 0 <= k < r.value ==> ls[k].id != id
    ensures r.None? <==> forall k :: 0 <= k < |ls| ==> ls[k].id != id
  {
    if |ls| == 0 then None
    else if ls[0].id == id then Some(0)
    else match FindLesson(ls[1..], id)
      case None => None
      case Some(k) => Some(k + 1)
  }

  /** Predicates that hold of every list the search walks completely. */
  predicate Complete(ss: seq<ViewerSection>) {
    forall j :: 0 <= j < |ss| ==> ss[j].lessons.Some?
  }

  /** How many leading sections have a lesson list: the search and the
      flattening meet `undefined` at the first section without one. */
  function ListedPrefix(ss: seq<ViewerSection>): (r: nat)
    ensures r <= |ss| && Complete(ss[..r])
    ensures r < |ss| ==> ss[r].lessons.None?
    ensures r == |ss| <==> Complete(ss)
  {
    if |ss| == 0 || ss[0].lessons.None? then 0
    else
      var k := ListedPrefix(ss[1..]);
      assert forall j :: 1 <= j < |ss| ==> ss[j] == ss[1..][j - 1];
      k + 1
  }

  predicate Lacks(ss: seq<ViewerSection>, id: int)
    requires Complete(ss)
  {
    forall j, k :: 0 <= j < |ss| && 0 <= k < |ss[j].lessons.value| ==> ss[j].lessons.value[k].id != id
  }

  /** The search over one course's sections, in order. */
  function SearchSections(ss: seq<ViewerSection>, id: int): (r: Search)
    ensures r.Hit? ==> r.course == 0 && r.section < |ss| && ss[r.section].lessons.Some?
                       && r.lesson < |ss[r.section].lessons.value|
                       && ss[r.section].lessons.value[r.lesson].id == id
    ensures r.Hit? ==> r.section < ListedPrefix(ss)
    ensures r.Miss? <==> Complete(ss) && Lacks(ss, id)
  {
    if |ss| == 0 then Miss
    else if ss[0].lessons.None? then Broken
    else match FindLesson(ss[0].lessons.value, id)
      case Some(k) => Hit(0, 0, k)
      case None =>
        var rest := SearchSections(ss[1..], id);
        assert forall j :: 1 <= j < |ss| ==> ss[j] == ss[1..][j - 1];
        match rest
        case Hit(_, j, k) => Hit(0, j + 1, k)
        case Miss => Miss
        case Broken => Broken
  }

  /** The search over all courses, in order. */
  function SearchCourses(cs: seq<ViewerCourse>, id: int): (r: Search)
    ensures r.Hit? ==> r.course < |cs| && cs[r.course].sections.Some?
                       && var ss := cs[r.course].sections.value;
                       r.section < |ss| && ss[r.section].lessons.Some?
                       && r.lesson < |ss[r.section].lessons.value|
                       && ss[r.section].lessons.value[r.lesson].id == id
                       && r.section < ListedPrefix(ss)
    ensures r.Miss? <==> forall i :: 0 <= i < |cs| ==>
                           cs[i].sections.Some? && SearchSections(cs[i].sections.value, id).Miss?
  {
    if |cs| == 0 then Miss
    else if cs[0].sections.None? then Broken
    else match SearchSections(cs[0].sections.value, id)
      case Hit(_, j, k) => Hit(0, j, k)
      case Broken => Broken
      case Miss =>
        var rest := SearchCourses(cs[1..], id);
        assert forall i :: 1 <= i < |cs| ==> cs[i] == cs[1..][i - 1];
        match rest
        case Hit(i, j, k) => Hit(i + 1, j, k)
        case Miss => Miss
        case Broken => Broken
  }

  // ---------------------------------------------------------------------------
  // Previous and next lesson

  /** `sections.flatMap(s => s.lessons)`. */
  function Flatten(ss: seq<ViewerSection>): (r: seq<ViewerLesson>)
    requires Complete(ss)
    ensures forall l :: l in r <==> exists j :: 0 <= j < |ss| && l in ss[j].lessons.value
  {
    if |ss| == 0 then []
    else
      assert forall j :: 1 <= j < |ss| ==> ss[j] == ss[1..][j - 1];
      ss[0].lessons.value + Flatten(ss[1..])
  }

  /** Some lesson in the list has id `id`. */
  predicate HasId(ls: seq<ViewerLesson>, id: int) {
    exists k :: 0 <= k < |ls| && ls[k].id == id
  }

  /** The first position of a lesson with id `id`. */
  function IndexOf(ls: seq<ViewerLesson>, id: int): (r: nat)
    requires HasId(ls, id)
    ensures r < |ls| && ls[r].id == id && forall k :: 0 <= k < r ==> ls[k].id != id
  {
    FindLesson(ls, id).value
  }

  /** The first section holding a lesson with id `id`. */
  function SectionHolding(ss: seq<ViewerSection>, id: int): (r: nat)
    requires Complete(ss)
    requires exists l :: l in Flatten(ss) && l.id == id
    ensures r < |ss| && exists k :: 0 <= k < |ss[r].lessons.value| && ss[r].lessons.value[k].id == id
  {
    if FindLesson(ss[0].lessons.value, id).Some? then 0
    else
      assert exists l :: l in Flatten(ss[1..]) && l.id == id by {
        var l :| l in Flatten(ss) && l.id == id;
        var j :| 0 <= j < |ss| && l in ss[j].lessons.value;
        assert j != 0;
        assert ss[j] == ss[1..][j - 1];
      }
      SectionHolding(ss[1..], id) + 1
  }

  datatype LessonRef = LessonRef(id: int, title: string, sectionId: int, sectionTitle: string)

  function RefTo(ss: seq<ViewerSection>, l: ViewerLesson): (r: LessonRef)
    requires Complete(ss) && l in Flatten(ss)
    ensures r.id == l.id && r.title == l.title
  {
    var j := SectionHolding(ss, l.id);
    LessonRef(l.id, l.title, ss[j].id, ss[j].title)
  }

  /** The lessons either side of the one with id `id` in the flattened
      course: none before the first and none after the last. */
  function Neighbours(ss: seq<ViewerSection>, id: int): (r: (Option<LessonRef>, Option<LessonRef>))
    requires Complete(ss) && HasId(Flatten(ss), id)
    ensures var flat, i := Flatten(ss), IndexOf(Flatten(ss), id);
      && (r.0.Some? <==> i > 0)
      && (r.1.Some? <==> i < |flat| - 1)
      && (r.0.Some? ==> r.0.value.id == flat[i - 1].id && r.0.value.title == flat[i - 1].title)
      && (r.1.Some? ==> r.1.value.id == flat[i + 1].id && r.1.value.title == flat[i + 1].title)
  {
    var flat := Flatten(ss);
    var i := IndexOf(flat, id);
    (if i > 0 then Some(RefTo(ss, flat[i - 1])) else None,
     if i < |flat| - 1 then Some(RefTo(ss, flat[i + 1])) else None)
  }

  /** Lesson ids are distinct within the flattened course. */
  predicate DistinctIds(ls: seq<ViewerLesson>) {
    forall a, b :: 0 <= a < b < |ls| ==> ls[a].id != ls[b].id
  }

  /** With distinct ids, stepping to the next lesson and then back returns
      to the lesson itself. */
  lemma NextThenPrevious(ss: seq<ViewerSection>, k: nat)
    requires Complete(ss) && DistinctIds(Flatten(ss)) && k + 1 < |Flatten(ss)|
    ensures var flat := Flatten(ss);
      && Neighbours(ss, flat[k].id).1.Some?
      && Neighbours(ss, flat[k].id).1.value.id == flat[k + 1].id
      && Neighbours(ss, flat[k + 1].id).0.Some?
      && Neighbours(ss, flat[k + 1].id).0.value.id == flat[k].id
  {
    var flat := Flatten(ss);
    assert IndexOf(flat, flat[k].id) == k;
    assert IndexOf(flat, flat[k + 1].id) == k + 1;
  }

  /** What the fallback builds for the lesson. */
  datatype LessonView = LessonView(id: int, title: string, durationSeconds: Num,
                                   sectionId: int, sectionTitle: string, courseId: int, courseTitle: string,
                                   previous: Option<LessonRef>, next: Option<LessonRef>)

  /** The fallback of `getLessonDetails` over the course list: `None` when it
      throws. It throws when no lesson has the id. Otherwise `flatMap` puts
      one `undefined` in the flattened list for each section without a lesson
      list. The lessons up to the one found all come from listed sections
      (the search walked them), so `findIndex` and the previous-lesson lookup
      never reach an `undefined`. The next entry is `undefined`, and reading
      its id throws, exactly when the lesson found is the last one before the
      first unlisted section. Otherwise the neighbours and their sections
      all lie in the listed prefix. */
  function LessonFallback(courses: seq<ViewerCourse>, id: int): (r: Option<LessonView>)
    ensures !SearchCourses(courses, id).Hit? ==> r.None?
    ensures SearchCourses(courses, id).Hit? ==> var h := SearchCourses(courses, id);
      var ss := courses[h.course].sections.value;
      var cs := ss[..ListedPrefix(ss)];
      && Complete(cs) && HasId(Flatten(cs), id)
      && (r.None? <==> |cs| < |ss| && IndexOf(Flatten(cs), id) == |Flatten(cs)| - 1)
    ensures r.Some? ==> var h := SearchCourses(courses, id);
      var ss := courses[h.course].sections.value;
      var cs := ss[..ListedPrefix(ss)];
      var l := ss[h.section].lessons.value[h.lesson];
      && r.value.id == id && r.value.title == l.title
      && r.value.durationSeconds == DurationSeconds(l.duration)
      && r.value.sectionId == ss[h.section].id && r.value.courseId == courses[h.course].id
      && (r.value.previous, r.value.next) == Neighbours(cs, id)
  {
    match SearchCourses(courses, id)
    case Hit(ci, si, li) =>
      var course := courses[ci];
      var ss := course.sections.value;
      var cs := ss[..ListedPrefix(ss)];
      var l := ss[si].lessons.value[li];
      assert cs[si] == ss[si];
      assert l in Flatten(cs);
      assert HasId(Flatten(cs), id);
      var flat := Flatten(cs);
      if |cs| < |ss| && IndexOf(flat, id) == |flat| - 1 then None
      else
        var (prev, next) := Neighbours(cs, id);
        Some(LessonView(l.id, l.title, DurationSeconds(l.duration), ss[si].id, ss[si].title,
                        course.id, course.title, prev, next))
    case _ => None
  }

  /** When every section of the course has a lesson list, a lesson the
      search finds is always shown. */
  lemma ListedCourseShowsLesson(courses: seq<ViewerCourse>, id: int)
    requires SearchCourses(courses, id).Hit?
    requires Complete(courses[SearchCourses(courses, id).course].sections.value)
    ensures LessonFallback(courses, id).Some?
  {
    var h := SearchCourses(courses, id);
    var ss := courses[h.course].sections.value;
    assert ss[..ListedPrefix(ss)] == ss;
  }

  /** A section without a lesson list only matters right after the lesson
      found: with sections A = [1, 2] and B unlisted, lesson 1 is shown with
      lesson 2 as its next, while lesson 2 throws. */
  lemma UnlistedSectionAfterLesson()
    ensures var one, two := ViewerLesson(1, "one", None), ViewerLesson(2, "two", None);
      var courses := [ViewerCourse(7, "course", Some([ViewerSection(10, "A", Some([one, two])),
                                                       ViewerSection(11, "B", None)]))];
      && LessonFallback(courses, 1).Some?
      && LessonFallback(courses, 1).value.next == Some(LessonRef(2, "two", 10, "A"))
      && LessonFallback(courses, 2).None?
  {
    var one, two := ViewerLesson(1, "one", None), ViewerLesson(2, "two", None);
    var a, b := ViewerSection(10, "A", Some([one, two])), ViewerSection(11, "B", None);
    var ss := [a, b];
    var courses := [ViewerCourse(7, "course", Some(ss))];
    assert ListedPrefix([b]) == 0;
    assert ListedPrefix(ss) == 1;
    assert ss[..1] == [a];
    assert Flatten([a][1..]) == [];
    assert Flatten([a]) == [one, two];
    assert FindLesson([one, two], 1) == Some(0);
    assert FindLesson([one, two][1..], 2) == Some(0);
    assert SearchCourses(courses, 1) == Hit(0, 0, 0);
    assert SearchCourses(courses, 2) == Hit(0, 0, 1);
    assert IndexOf([one, two], 1) == 0;
    assert IndexOf([one, two], 2) == 1;
    assert SectionHolding([a], 2) == 0;
  }

  // ---------------------------------------------------------------------------
  // Progress

  /** What the progress endpoint answered: nothing usable (a network error
      or `success` false), or the `data` it sent, whose fields may be
      missing; a missing `data` object makes the field reads throw, which is
      caught like a network error. */
  datatype ProgressReply =
    | Unavailable
    | Answered(data: Option<ProgressData>)

  datatype ProgressData = ProgressData(isCompleted: Option<bool>, totalLessons: Option<int>,
                                       completedLessons: Option<int>, percentComplete: Option<int>)

  datatype Progress = Progress(lessonId: Num, isCompleted: bool, totalLessons: int,
                               completedLessons: int, percentComplete: int)

  /** `markLessonProgress`: always an answer. The id is `Number` of the one
      asked for; each missing field takes the requested state or 0. */
  function MarkProgress(lessonId: string, completed: bool, reply: ProgressReply): (r: Progress)
    ensures r.lessonId == ToNumber(lessonId)
    ensures (reply.Unavailable? || reply.data.None?) ==> r == Progress(ToNumber(lessonId), completed, 0, 0, 0)
    ensures reply.Answered? && reply.data.Some? ==>
      && r.isCompleted == reply.data.value.isCompleted.GetOr(completed)
      && r.totalLessons == reply.data.value.totalLessons.GetOr(0)
      && r.completedLessons == reply.data.value.completedLessons.GetOr(0)
      && r.percentComplete == reply.data.value.percentComplete.GetOr(0)
  {
    match reply
    case Answered(Some(d)) =>
      Progress(ToNumber(lessonId), d.isCompleted.GetOr(completed), d.totalLessons.GetOr(0),
               d.completedLessons.GetOr(0), d.percentComplete.GetOr(0))
    case _ => Progress(ToNumber(lessonId), completed, 0, 0, 0)
  }

  /** An answer without the fields reports exactly what was asked for. */
  lemma EmptyAnswerEchoesRequest(lessonId: string, completed: bool)
    ensures MarkProgress(lessonId, completed, Answered(Some(ProgressData(None, None, None, None))))
         == MarkProgress(lessonId, completed, Unavailable)
  {
  }
}

=== FILE: courses_api.dfy ===
/** The course client (`courses-api.ts`): the query parameters of the public
    listing request and the file parts `createCourse` adds for resources.
    Parameters are kept as an ordered list of key/value pairs; the
    percent-encoding of `URLSearchParams.toString` is not part of this
    model. */
module CoursesApi {
  import opened Wrappers
  import opened Text

  /** `CourseFilters`: every field may be left out. */
  datatype CourseQuery = CourseQuery(category: Option<string>, level: Option<string>, search: Option<string>,
                                     featured: Option<bool>, page: Option<int>, pageSize: Option<int>)

  /** The listing's parameter names, in the order they are appended. */
  datatype Key = Category | Level | Search | Featured | Page | PageSize

  function KeyName(k: Key): string {
    match k
    case Category => "category"
    case Level => "level"
    case Search => "search"
    case Featured => "featured"
    case Page => "page"
    case PageSize => "page_size"
  }

  datatype Param = Param(key: Key, value: string)

  /** The place of each key in the fixed parameter order. */
  function Rank(key: Key): nat {
    match key
    case Category => 0
    case Level => 1
    case Search => 2
    case Featured => 3
    case Page => 4
    case PageSize => 5
  }

  /** A text field is appended when it is set and non-empty. */
  function TextParam(key: Key, v: Option<string>): (r: seq<Param>)
    ensures |r| <= 1
    ensures forall x :: Param(key, x) in r <==> v == Some(x) && x != ""
    ensures forall p :: p in r ==> p.key == key
  {
    if v.Some? && v.value != "" then [Param(key, v.value)] else []
  }

  /** A number is appended when it is set and not 0. */
  function NumberParam(key: Key, v: Option<int>): (r: seq<Param>)
    ensures |r| <= 1
    ensures forall x :: Param(key, x) in r <==> v.Some? && v.value != 0 && x == IntToString(v.value)
    ensures forall p :: p in r ==> p.key == key
  {
    if v.Some? && v.value != 0 then [Param(key, IntToString(v.value))] else []
  }

  function BoolText(b: bool): string {
    if b then "true" else "false"
  }

  /** `featured` is appended whenever it is given, `false` included. */
  function FlagParam(key: Key, v: Option<bool>): (r: seq<Param>)
    ensures |r| <= 1
    ensures forall x :: Param(key, x) in r <==> v.Some? && x == BoolText(v.value)
    ensures forall p :: p in r ==> p.key == key
  {
    if v.Some? then [Param(key, BoolText(v.value))] else []
  }

  predicate Ordered(ps: seq<Param>) {
    forall i, j :: 0 <= i < j < |ps| ==> Rank(ps[i].key) < Rank(ps[j].key)
  }

  /** Every key of `ps` comes before position `k` of the order. */
  predicate Below(ps: seq<Param>, k: nat) {
    forall i :: 0 <= i < |ps| ==> Rank(ps[i].key) < k
  }

  /** Appending at most one parameter of a later key keeps the order. */
  lemma AppendLater(ps: seq<Param>, piece: seq<Param>, key: Key)
    requires Ordered(ps) && Below(ps, Rank(key))
    requires |piece| <= 1 && forall p :: p in piece ==> p.key == key
    ensures Ordered(ps + piece) && Below(ps + piece, Rank(key) + 1)
  {
    if |piece| == 1 {
      assert piece[0] in piece;
    }
  }

  /** `getPublicCourses`: the parameters in the fixed order category, level,
      search, featured, page, page_size, each key at most once. */
  function QueryParams(q: CourseQuery): (r: seq<Param>)
    ensures Ordered(r) && |r| <= 6
  {
    var c, l, s := TextParam(Category, q.category), TextParam(Level, q.level), TextParam(Search, q.search);
    var f, p, z := FlagParam(Featured, q.featured), NumberParam(Page, q.page), NumberParam(PageSize, q.pageSize);
    AppendLater([], c, Category);
    AppendLater(c, l, Level);
    AppendLater(c + l, s, Search);
    AppendLater(c + l + s, f, Featured);
    AppendLater(c + l + s + f, p, Page);
    AppendLater(c + l + s + f + p, z, PageSize);
    assert [] + c == c;
    c + l + s + f + p + z
  }

  /** Each text filter is sent exactly when it is set and non-empty. */
  lemma TextFiltersSent(q: CourseQuery)
    ensures forall x :: Param(Category, x) in QueryParams(q) <==> q.category == Some(x) && x != ""
    ensures forall x :: Param(Level, x) in QueryParams(q) <==> q.level == Some(x) && x != ""
    ensures forall x :: Param(Search, x) in QueryParams(q) <==> q.search == Some(x) && x != ""
  {
  }

  /** `featured` is sent whenever given; page and page size only when not
      0. */
  lemma OtherFiltersSent(q: CourseQuery)
    ensures forall x :: Param(Featured, x) in QueryParams(q) <==> q.featured.Some? && x == BoolText(q.featured.value)
    ensures forall x :: Param(Page, x) in QueryParams(q) <==> q.page.Some? && q.page.value != 0 && x == IntToString(q.page.value)
    ensures forall x :: Param(PageSize, x) in QueryParams(q) <==> q.pageSize.Some? && q.pageSize.value != 0 && x == IntToString(q.pageSize.value)
  {
  }

  /** An empty filter object asks for nothing; page 0 and an empty search
      are dropped while `featured: false` is kept. */
  lemma QueryExamples()
    ensures QueryParams(CourseQuery(None, None, None, None, None, None)) == []
    ensures QueryParams(CourseQuery(None, None, Some(""), Some(false), Some(0), None)) == [Param(Featured, "false")]
  {
  }

  // ---------------------------------------------------------------------------
  // createCourse

  /** A resource's `file` field after `JSON.parse`: never a browser `File`,
      which only exists in memory. */
  datatype FileField = NoFile | Plain | FileObject

  datatype Resource = Resource(id: string, file: FileField)

  /** The `file_<id>` parts appended, one per resource holding a `File`, in
      resource order. */
  function FileParts(rs: seq<Resource>): (r: seq<string>)
    ensures |r| <= |rs|
    ensures (forall i :: 0 <= i < |rs| ==> !rs[i].file.FileObject?) ==> r == []
    ensures forall k :: k in r ==> exists i :: 0 <= i < |rs| && rs[i].file.FileObject? && k == "file_" + rs[i].id
  {
    if |rs| == 0 then []
    else
      var rest := FileParts(rs[1..]);
      assert forall i :: 1 <= i < |rs| ==> rs[i] == rs[1..][i - 1];
      (if rs[0].file.FileObject? then ["file_" + rs[0].id] else []) + rest
  }

  /** Resources read back from JSON text hold no `File`, so `createCourse`
      never adds a file part. */
  predicate FromJson(rs: seq<Resource>) {
    forall i :: 0 <= i < |rs| ==> !rs[i].file.FileObject?
  }

  lemma ParsedResourcesAddNoFiles(rs: seq<Resource>)
    requires FromJson(rs)
    ensures FileParts(rs) == []
  {
  }

  /** Each resource holding a `File` contributes its own part. */
  lemma {:induction false} EveryFileHasPart(rs: seq<Resource>, i: nat)
    requires i < |rs| && rs[i].file.FileObject?
    ensures "file_" + rs[i].id in FileParts(rs)
    decreases |rs|
  {
    if i > 0 {
      assert rs[i] == rs[1..][i - 1];
      EveryFileHasPart(rs[1..], i - 1);
    }
  }
}

=== FILE: courses_page.dfy ===
/** The public course catalogue page (`CoursesPage`): the filters it sends,
    the page it asks for, the window of page links with its ellipses, and
    the star row drawn for a rating. Ratings are exact reals here; the
    page's floating-point arithmetic is not modelled. */
module CoursesPage {
  import opened Wrappers
  import opened CoursesApi

  /** Nine courses a page. */
  const CoursesPerPage: int := 9

  /** The page's own state: the search box, the search last applied (after
      the pause or on submit), the two selectors and the current page. */
  datatype View = View(searchBox: string, search: string, category: string, level: string, page: int)

  const Initial := View("", "", "all", "all", 1)

  /** The filters sent with the request: "all" means no category or level,
      an empty search means none. */
  function Filters(v: View): (r: CourseQuery)
    ensures r.category.None? <==> v.category == "all"
    ensures r.level.None? <==> v.level == "all"
    ensures r.search.None? <==> v.search == ""
    ensures r.featured.None? && r.page == Some(v.page) && r.pageSize == Some(CoursesPerPage)
  {
    CourseQuery(if v.category != "all" then Some(v.category) else None,
                if v.level != "all" then Some(v.level) else None,
                if v.search != "" then Some(v.search) else None,
                None, Some(v.page), Some(CoursesPerPage))
  }

  /** The request never names the "all" choices, always asks for nine
      courses, and sends the search exactly when one was applied. */
  lemma RequestParams(v: View)
    ensures Param(Category, "all") !in QueryParams(Filters(v))
    ensures Param(Level, "all") !in QueryParams(Filters(v))
    ensures Param(PageSize, "9") in QueryParams(Filters(v))
    ensures (exists x :: Param(Search, x) in QueryParams(Filters(v))) <==> v.search != ""
  {
    TextFiltersSent(Filters(v));
    OtherFiltersSent(Filters(v));
    if v.search != "" {
      assert Param(Search, v.search) in QueryParams(Filters(v));
    }
  }

  /** What the user does. `Paused` is the half-second timer after typing
      firing; `Previous` and `Next` carry the flags of the last answer. */
  datatype Action =
    | Type(text: string) | Paused | Submit
    | PickCategory(c: string) | PickLevel(l: string)
    | Previous(hasPrevious: bool) | Next(hasNext: bool) | Goto(p: int)

  function Step(v: View, a: Action): (r: View)
    ensures a.Paused? || a.Submit? ==> r.page == 1 && r.search == v.searchBox
    ensures a.Type? ==> r == v.(searchBox := a.text)
    ensures a.PickCategory? || a.PickLevel? ==> r.page == v.page
    ensures a.Previous? ==> r.page == (if a.hasPrevious then v.page - 1 else v.page)
    ensures a.Next? ==> r.page == (if a.hasNext then v.page + 1 else v.page)
    ensures !(a.Type? || a.Paused? || a.Submit?) ==> r.searchBox == v.searchBox && r.search == v.search
  {
    match a
    case Type(t) => v.(searchBox := t)
    case Paused => v.(search := v.searchBox, page := 1)
    case Submit => v.(search := v.searchBox, page := 1)
    case PickCategory(c) => v.(category := c)
    case PickLevel(l) => v.(level := l)
    case Previous(ok) => if ok then v.(page := v.page - 1) else v
    case Next(ok) => if ok then v.(page := v.page + 1) else v
    case Goto(p) => v.(page := p)
  }

  /** Changing a selector keeps the page, so a narrower filter can ask for a
      page past its own end. */
  lemma SelectorKeepsPage()
    ensures Step(View("", "", "all", "all", 3), PickCategory("Design")).page == 3
  {
  }

  /** Applying a search twice is applying it once. */
  lemma SubmitIdempotent(v: View)
    ensures Step(Step(v, Submit), Submit) == Step(v, Submit)
    ensures Step(Step(v, Paused), Submit) == Step(v, Submit)
  {
  }

  // ---------------------------------------------------------------------------
  // Page links

  /** The links shown are only rendered when there is more than one page. */
  predicate ShowsPagination(totalPages: int) {
    totalPages > 1
  }

  /** A page gets a link when it is the first, the last, or next to the
      current one. */
  predicate Linked(p: int, current: int, total: int) {
    1 <= p <= total && (p == 1 || p == total || -1 <= p - current <= 1)
  }

  /** The linked pages from `from` up to `total`, ascending. */
  function WindowFrom(from: int, current: int, total: int): (r: seq<int>)
    requires from >= 1
    ensures forall p :: p in r <==> from <= p && Linked(p, current, total)
    ensures forall i, j :: 0 <= i < j < |r| ==> r[i] < r[j]
    decreases total - from + 1
  {
    if from > total then []
    else
      var rest := WindowFrom(from + 1, current, total);
      assert forall k :: 0 <= k < |rest| ==> rest[k] > from by {
        forall k | 0 <= k < |rest|
          ensures rest[k] > from
        {
          assert rest[k] in rest;
        }
      }
      if Linked(from, current, total) then [from] + rest else rest
  }

  /** `Array.from({length: total}).filter(…)`: the linked pages in order. */
  function Window(current: int, total: int): (r: seq<int>)
    ensures forall p :: p in r <==> Linked(p, current, total)
    ensures forall i, j :: 0 <= i < j < |r| ==> r[i] < r[j]
  {
    WindowFrom(1, current, total)
  }

  /** The window holds the first and last pages and, when it is a page,
      the current one. */
  lemma WindowHasEnds(current: int, total: int)
    requires total >= 1
    ensures 1 in Window(current, total) && total in Window(current, total)
    ensures 1 <= current <= total ==> current in Window(current, total)
    ensures Window(current, total)[0] == 1
  {
    var w := Window(current, total);
    assert 1 in w;
    var k :| 0 <= k < |w| && w[k] == 1;
    assert w[0] <= w[k];
    assert w[0] in w;
  }

  /** An entry of the rendered list: a page link, active for the current
      page, with a "…" before it when the previous link is not for the page
      just before. */
  datatype Entry = Entry(ellipsisBefore: bool, page: int, active: bool)

  /** An ellipsis precedes an entry that is not first and follows a gap. */
  predicate GapBefore(w: seq<int>, i: int)
    requires 0 <= i < |w|
  {
    i > 0 && w[i] - w[i - 1] > 1
  }

  function Render(w: seq<int>, current: int): (r: seq<Entry>)
    ensures |r| == |w|
    ensures forall i :: 0 <= i < |w| ==> r[i].page == w[i] && (r[i].active <==> w[i] == current)
    ensures forall i :: 0 <= i < |w| ==> (r[i].ellipsisBefore <==> GapBefore(w, i))
  {
    seq(|w|, i requires 0 <= i < |w| => Entry(GapBefore(w, i), w[i], w[i] == current))
  }

  /** In the window, an ellipsis stands before a page exactly when the page
      before it has no link: nothing is skipped silently, and no ellipsis
      hides nothing. */
  lemma EllipsisIffSkipped(current: int, total: int, i: nat)
    requires 0 < i < |Window(current, total)|
    ensures var w := Window(current, total);
      Render(w, current)[i].ellipsisBefore <==> w[i] - 1 !in w
  {
    var w := Window(current, total);
    forall k | 0 <= k < |w|
      ensures w[k] <= w[i - 1] || w[k] >= w[i]
    {
      if k < i - 1 {
        assert w[k] < w[i - 1];
      } else if k > i {
        assert w[i] < w[k];
      }
    }
    assert w[i - 1] < w[i];
    assert w[i - 1] in w;
  }

  /** With the current page well inside a long list, the window is the
      first page, three pages around the current one, and the last page. */
  lemma MiddleOfLongList()
    ensures Window(5, 10) == [1, 4, 5, 6, 10]
  {
    AroundPageFive();
    assert WindowFrom(3, 5, 10) == [4, 5, 6, 10];
    assert WindowFrom(2, 5, 10) == [4, 5, 6, 10];
  }

  /** Pages 4 to 10 of ten, around page 5: the three around it and the last. */
  lemma AroundPageFive()
    ensures WindowFrom(4, 5, 10) == [4, 5, 6, 10]
  {
    UpperPagesOfTen();
    assert WindowFrom(5, 5, 10) == [5, 6, 10];
  }

  /** Pages 6 to 10 of ten, around page 5: only 6 and the last are linked. */
  lemma UpperPagesOfTen()
    ensures WindowFrom(6, 5, 10) == [6, 10]
  {
    assert WindowFrom(11, 5, 10) == [];
    assert WindowFrom(10, 5, 10) == [10];
    assert WindowFrom(9, 5, 10) == [10];
    assert WindowFrom(8, 5, 10) == [10];
    assert WindowFrom(7, 5, 10) == [10];
  }

  /** The window never holds more than five pages. */
  lemma WindowAtMostFive(current: int, total: int)
    ensures |Window(current, total)| <= 5
  {
    var w := Window(current, total);
    var allowed := {1, total, current - 1, current, current + 1};
    forall i | 0 <= i < |w|
      ensures w[i] in allowed
    {
      assert w[i] in w;
    }
    DistinctWithin(w, allowed);
    assert |allowed| <= 5;
  }

  /** An increasing list drawn from a set is no longer than the set. */
  lemma {:induction false} DistinctWithin(w: seq<int>, s: set<int>)
    requires forall i, j :: 0 <= i < j < |w| ==> w[i] < w[j]
    requires forall i :: 0 <= i < |w| ==> w[i] in s
    ensures |w| <= |s|
    decreases |w|
  {
    if |w| > 0 {
      var rest := w[1..];
      DistinctWithin(rest, s - {w[0]});
    }
  }

  // ---------------------------------------------------------------------------
  // Stars

  /** `Math.floor`. */
  function Floor(x: real): int {
    x.Floor
  }

  /** `x % 1`: the fractional part, negative for a negative `x`. */
  function FracJs(x: real): (r: real)
    ensures x >= 0.0 ==> 0.0 <= r < 1.0 && x == Floor(x) as real + r
    ensures x < 0.0 ==> -1.0 < r <= 0.0
  {
    if x >= 0.0 then x - x.Floor as real else -((-x) - (-x).Floor as real)
  }

  /** `renderStars`: full stars for the whole part, a half star when the
      fraction is at least one half, and empty stars up to five; a loop
      bound below 0 draws nothing. */
  datatype Stars = Stars(full: nat, half: bool, empty: nat)

  function StarRow(rating: real): (r: Stars)
    ensures r.half <==> FracJs(rating) >= 0.5
    ensures 0.0 <= rating ==> r.full == Floor(rating)
    ensures 0.0 <= rating <= 5.0 ==> r.full + (if r.half then 1 else 0) + r.empty == 5
  {
    var full := Floor(rating);
    var half := FracJs(rating) >= 0.5;
    var empty := 5 - (full + if half then 1 else 0);
    Stars(if full > 0 then full else 0, half, if empty > 0 then empty else 0)
  }

  /** The filled half-stars of a rating in range are twice its whole part
      plus one for a fraction of at least one half: the rating rounded down
      to a half. */
  lemma StarsRoundDownToHalf(rating: real)
    requires 0.0 <= rating <= 5.0
    ensures var s := StarRow(rating);
      var halves := 2 * s.full + (if s.half then 1 else 0);
      halves as real <= 2.0 * rating < halves as real + 1.0
  {
  }

  /** A higher rating never draws fewer filled halves. */
  lemma StarsMonotone(a: real, b: real)
    requires 0.0 <= a <= b <= 5.0
    ensures var sa, sb := StarRow(a), StarRow(b);
      2 * sa.full + (if sa.half then 1 else 0) <= 2 * sb.full + (if sb.half then 1 else 0)
  {
    StarsRoundDownToHalf(a);
    StarsRoundDownToHalf(b);
  }
}

=== FILE: curriculum_editor.dfy ===
/** The course upload form (`UploadCoursePage`): the section and lesson
    lists an instructor edits before submitting, and the form's validity
    check. Sections and lessons are values; each handler returns the new
    list. Buttons exist only for rendered entries, so the handlers are given
    indices of existing entries. */
module CurriculumEditor {
  import opened Text

  datatype Lesson = Lesson(title: string, kind: string, content: string, duration: string, hasFile: bool)

  datatype Section = Section(title: string, description: string, lessons: seq<Lesson>)

  function NewLesson(k: nat): Lesson {
    Lesson("Lesson " + IntToString(k), "video", "", "", false)
  }

  /** The form opens with "Section 1" holding "Lesson 1". */
  const Initial: seq<Section> := [Section("Section 1", "", [NewLesson(1)])]

  /** No list is ever empty: at least one section, each with a lesson. */
  predicate Editable(sections: seq<Section>) {
    |sections| >= 1 && forall i :: 0 <= i < |sections| ==> |sections[i].lessons| >= 1
  }

  lemma InitialEditable()
    ensures Editable(Initial) && |Initial| == 1 && |Initial[0].lessons| == 1
    ensures Initial[0].title == "Section 1" && Initial[0].lessons[0].title == "Lesson 1"
  {
  }

  // ---------------------------------------------------------------------------
  // List steps shared by sections and lessons

  /** Drop entry `i`. */
  function RemoveAt<T>(s: seq<T>, i: nat): (r: seq<T>)
    requires i < |s|
    ensures |r| == |s| - 1
    ensures forall k :: 0 <= k < i ==> r[k] == s[k]
    ensures forall k :: i <= k < |r| ==> r[k] == s[k + 1]
    ensures multiset(r) + multiset{s[i]} == multiset(s)
  {
    assert s == s[..i] + [s[i]] + s[i + 1..];
    s[..i] + s[i + 1..]
  }

  /** Exchange entries `i` and `j`. */
  function Swap<T>(s: seq<T>, i: nat, j: nat): (r: seq<T>)
    requires i < |s| && j < |s|
    ensures |r| == |s| && r[i] == s[j] && r[j] == s[i]
    ensures forall k :: 0 <= k < |s| && k != i && k != j ==> r[k] == s[k]
    ensures multiset(r) == multiset(s)
  {
    s[i := s[j]][j := s[i]]
  }

  /** The move-up button: swaps with the previous entry, nothing for the first. */
  function MoveUp<T>(s: seq<T>, i: nat): (r: seq<T>)
    requires i < |s|
    ensures i > 0 ==> r == Swap(s, i, i - 1)
    ensures i == 0 ==> r == s
    ensures multiset(r) == multiset(s)
  {
    if i > 0 then Swap(s, i, i - 1) else s
  }

  /** The move-down button: swaps with the next entry, nothing for the last. */
  function MoveDown<T>(s: seq<T>, i: nat): (r: seq<T>)
    requires i < |s|
    ensures i < |s| - 1 ==> r == Swap(s, i, i + 1)
    ensures i == |s| - 1 ==> r == s
    ensures multiset(r) == multiset(s)
  {
    if i < |s| - 1 then Swap(s, i, i + 1) else s
  }

  /** Moving an entry up and then back down restores the list. */
  lemma UpThenDown<T>(s: seq<T>, i: nat)
    requires 0 < i < |s|
    ensures MoveDown(MoveUp(s, i), i - 1) == s
  {
  }

  /** Moving an entry down and then back up restores the list. */
  lemma DownThenUp<T>(s: seq<T>, i: nat)
    requires i < |s| - 1
    ensures MoveUp(MoveDown(s, i), i + 1) == s
  {
  }

  // ---------------------------------------------------------------------------
  // Sections

  /** `addSection`: "Section n+1" with one fresh lesson at the end. */
  function AddSection(sections: seq<Section>): (r: seq<Section>)
    ensures |r| == |sections| + 1 && r[..|sections|] == sections
    ensures r[|sections|] == Section("Section " + IntToString(|sections| + 1), "", [NewLesson(1)])
    ensures Editable(sections) ==> Editable(r)
  {
    sections + [Section("Section " + IntToString(|sections| + 1), "", [NewLesson(1)])]
  }

  /** `removeSection`: the only section cannot be removed. */
  function RemoveSection(sections: seq<Section>, i: nat): (r: seq<Section>)
    requires i < |sections|
    ensures |sections| == 1 ==> r == sections
    ensures |sections| > 1 ==> r == RemoveAt(sections, i)
    ensures |r| >= 1
    ensures Editable(sections) ==> Editable(r)
  {
    if |sections| > 1 then RemoveAt(sections, i) else sections
  }

  /** Replace the lessons of section `i`. */
  function WithLessons(sections: seq<Section>, i: nat, lessons: seq<Lesson>): (r: seq<Section>)
    requires i < |sections|
    ensures |r| == |sections| && r[i] == sections[i].(lessons := lessons)
    ensures forall k :: 0 <= k < |sections| && k != i ==> r[k] == sections[k]
  {
    sections[i := sections[i].(lessons := lessons)]
  }

  /** `addLesson`: "Lesson k+1" at the end of section `i`. */
  function AddLesson(sections: seq<Section>, i: nat): (r: seq<Section>)
    requires i < |sections|
    ensures |r| == |sections| && forall k :: 0 <= k < |sections| && k != i ==> r[k] == sections[k]
    ensures r[i].lessons == sections[i].lessons + [NewLesson(|sections[i].lessons| + 1)]
    ensures r[i].title == sections[i].title
    ensures Editable(sections) ==> Editable(r)
  {
    WithLessons(sections, i, sections[i].lessons + [NewLesson(|sections[i].lessons| + 1)])
  }

  /** `removeLesson`: the only lesson of a section cannot be removed. */
  function RemoveLesson(sections: seq<Section>, i: nat, j: nat): (r: seq<Section>)
    requires i < |sections| && j < |sections[i].lessons|
    ensures |sections[i].lessons| == 1 ==> r == sections
    ensures |sections[i].lessons| > 1 ==> r == WithLessons(sections, i, RemoveAt(sections[i].lessons, j))
    ensures Editable(sections) ==> Editable(r)
  {
    if |sections[i].lessons| > 1 then WithLessons(sections, i, RemoveAt(sections[i].lessons, j)) else sections
  }

  /** `moveSectionUp` / `moveSectionDown`. */
  function MoveSectionUp(sections: seq<Section>, i: nat): (r: seq<Section>)
    requires i < |sections|
    ensures r == MoveUp(sections, i)
    ensures Editable(sections) ==> Editable(r)
  {
    MoveUp(sections, i)
  }

  function MoveSectionDown(sections: seq<Section>, i: nat): (r: seq<Section>)
    requires i < |sections|
    ensures r == MoveDown(sections, i)
    ensures Editable(sections) ==> Editable(r)
  {
    MoveDown(sections, i)
  }

  /** `moveLessonUp` / `moveLessonDown`: within one section, the others stay. */
  function MoveLessonUp(sections: seq<Section>, i: nat, j: nat): (r: seq<Section>)
    requires i < |sections| && j < |sections[i].lessons|
    ensures r == WithLessons(sections, i, MoveUp(sections[i].lessons, j))
    ensures multiset(r[i].lessons) == multiset(sections[i].lessons)
    ensures Editable(sections) ==> Editable(r)
  {
    WithLessons(sections, i, MoveUp(sections[i].lessons, j))
  }

  function MoveLessonDown(sections: seq<Section>, i: nat, j: nat): (r: seq<Section>)
    requires i < |sections| && j < |sections[i].lessons|
    ensures r == WithLessons(sections, i, MoveDown(sections[i].lessons, j))
    ensures multiset(r[i].lessons) == multiset(sections[i].lessons)
    ensures Editable(sections) ==> Editable(r)
  {
    WithLessons(sections, i, MoveDown(sections[i].lessons, j))
  }

  /** Moving a lesson up and back down restores the curriculum. */
  lemma LessonUpThenDown(sections: seq<Section>, i: nat, j: nat)
    requires i < |sections| && 0 < j < |sections[i].lessons|
    ensures MoveLessonDown(MoveLessonUp(sections, i, j), i, j - 1) == sections
  {
    UpThenDown(sections[i].lessons, j);
    assert sections[i].(lessons := sections[i].lessons) == sections[i];
  }

  /** Whatever the instructor clicks, the form never runs out of sections or
      of lessons in a section. */
  datatype Edit =
    | AddS | RemoveS(i: nat) | AddL(i: nat) | RemoveL(i: nat, j: nat)
    | SectionUp(i: nat) | SectionDown(i: nat) | LessonUp(i: nat, j: nat) | LessonDown(i: nat, j: nat)

  /** An edit applies to rendered entries only; others are ignored. */
  function Apply(sections: seq<Section>, e: Edit): (r: seq<Section>)
    requires Editable(sections)
    ensures Editable(r)
  {
    match e
    case AddS => AddSection(sections)
    case RemoveS(i) => if i < |sections| then RemoveSection(sections, i) else sections
    case AddL(i) => if i < |sections| then AddLesson(sections, i) else sections
    case RemoveL(i, j) => if i < |sections| && j < |sections[i].lessons| then RemoveLesson(sections, i, j) else sections
    case SectionUp(i) => if i < |sections| then MoveSectionUp(sections, i) else sections
    case SectionDown(i) => if i < |sections| then MoveSectionDown(sections, i) else sections
    case LessonUp(i, j) => if i < |sections| && j < |sections[i].lessons| then MoveLessonUp(sections, i, j) else sections
    case LessonDown(i, j) => if i < |sections| && j < |sections[i].lessons| then MoveLessonDown(sections, i, j) else sections
  }

  function ApplyAll(sections: seq<Section>, edits: seq<Edit>): seq<Section>
    requires Editable(sections)
    decreases |edits|
  {
    if |edits| == 0 then sections else ApplyAll(Apply(sections, edits[0]), edits[1..])
  }

  lemma {:induction false} EditsKeepForm(sections: seq<Section>, edits: seq<Edit>)
    requires Editable(sections)
    ensures Editable(ApplyAll(sections, edits))
    decreases |edits|
  {
    if |edits| > 0 {
      EditsKeepForm(Apply(sections, edits[0]), edits[1..]);
    }
  }

  /** `isFormValid`: title and description not blank, category and level
      chosen. */
  predicate FormValid(title: string, description: string, category: string, level: string) {
    Trim(title) != "" && Trim(description) != "" && category != "" && level != ""
  }

  /** The form is valid exactly when the title and the description each
      hold a non-space character and a category and a level are chosen. */
  lemma FormValidIff(title: string, description: string, category: string, level: string)
    ensures FormValid(title, description, category, level)
        <==> !AllSpace(title) && !AllSpace(description) && category != "" && level != ""
  {
    TrimEmptyIff(title);
    TrimEmptyIff(description);
  }

  /** A title or description of spaces only does not make the form valid. */
  lemma BlankTitleInvalid(title: string, description: string, category: string, level: string)
    requires AllSpace(title)
    ensures !FormValid(title, description, category, level)
  {
    TrimEmptyIff(title);
  }
}

=== FILE: discussions.dfy ===
/** Course discussion threads (`CourseCommentsView`) and the staff reply to a
    comment (`NotificationReplyView.post`). The comments file is a JSON object
    from a course id string to that course's list of comments; it is modelled
    as a sequence of threads in the file's key order, so that "the first match"
    means what it means in Python. Reading and writing the file, fresh UUIDs
    and the clock are parameters. */
module Discussions {
  import opened Wrappers
  import opened Text
  import opened Json
  import opened People

  /** A staff reply stored inside a comment. */
  datatype Reply = Reply(id: string, staffId: string, staffName: string, content: JVal, timestamp: int)

  /** A stored comment; `replies` is `None` while the key is absent. */
  datatype Comment = Comment(
    id: string, studentId: nat, username: string,
    firstName: Option<string>, lastName: Option<string>,
    content: JVal, timestamp: int, courseKey: string,
    replies: Option<seq<Reply>>)

  /** One entry of the file: a course id string and its comments. */
  datatype Thread = Thread(key: string, comments: seq<Comment>)

  type Store = seq<Thread>

  /** The course id strings the file holds threads for. */
  function Keys(s: Store): set<string> {
    if |s| == 0 then {} else {s[0].key} + Keys(s[1..])
  }

  /** Keys of a JSON object are distinct. */
  predicate DistinctKeys(s: Store) {
    |s| == 0 || (s[0].key !in Keys(s[1..]) && DistinctKeys(s[1..]))
  }

  /** `load_comments()`: the parsed file, or no threads when the file is
      missing (`None`) or does not parse (`Some(None)`). */
  function LoadComments(file: Option<Option<Store>>): (r: Store)
    ensures file.None? || file.value.None? ==> r == []
    ensures file.Some? && file.value.Some? ==> r == file.value.value
  {
    match file
    case None => []
    case Some(parsed) => parsed.GetOr([])
  }

  /** `comments.get(key, [])`. */
  function CommentsOf(s: Store, key: string): (r: seq<Comment>)
    ensures key !in Keys(s) ==> r == []
  {
    if |s| == 0 then []
    else if s[0].key == key then s[0].comments
    else CommentsOf(s[1..], key)
  }

  /** `comments[key] = cs`: the thread is replaced where it stands, or added
      at the end when the key is new; every other thread is untouched. */
  function Put(s: Store, key: string, cs: seq<Comment>): (r: Store)
    ensures CommentsOf(r, key) == cs
    ensures forall k :: k != key ==> CommentsOf(r, k) == CommentsOf(s, k)
    ensures Keys(r) == Keys(s) + {key}
    ensures key in Keys(s) ==> |r| == |s|
    ensures key !in Keys(s) ==> r == s + [Thread(key, cs)]
    ensures DistinctKeys(s) ==> DistinctKeys(r)
  {
    if |s| == 0 then [Thread(key, cs)]
    else if s[0].key == key then [Thread(key, cs)] + s[1..]
    else
      var r := [s[0]] + Put(s[1..], key, cs);
      assert r[1..] == Put(s[1..], key, cs);
      r
  }

  /** The comment a reply or a listing shows: `replies` set to `[]` when absent. */
  function WithReplies(c: Comment): (r: Comment)
    ensures r.replies == Some(c.replies.GetOr([]))
    ensures r.(replies := c.replies) == c
  {
    c.(replies := Some(c.replies.GetOr([])))
  }

  /** The index of the first comment with the given id. */
  function FirstWithId(cs: seq<Comment>, id: string): (r: Option<nat>)
    ensures r.Some? ==> r.value < |cs| && cs[r.value].id == id
    ensures r.Some? ==> forall j :: 0 <= j < r.value ==> cs[j].id != id
    ensures r.None? ==> forall j :: 0 <= j < |cs| ==> cs[j].id != id
  {
    if |cs| == 0 then None
    else if cs[0].id == id then Some(0)
    else match FirstWithId(cs[1..], id)
      case None => None
      case Some(i) => Some(i + 1)
  }

  /** `r` is the first comment with the id, searching the courses in order
      and each course's thread in order, and none exactly when no thread
      holds the id. */
  predicate FoundFirst(s: Store, id: string, r: Option<Comment>) {
    && (r.None? <==> forall i :: 0 <= i < |s| ==> FirstWithId(s[i].comments, id).None?)
    && (r.Some? ==> exists i ::
      && 0 <= i < |s|
      && (forall k :: 0 <= k < i ==> FirstWithId(s[k].comments, id).None?)
      && FirstWithId(s[i].comments, id).Some?
      && r.value == s[i].comments[FirstWithId(s[i].comments, id).value])
  }

  /** Searching every course in file order for a comment id (the detail GET). */
  function FindComment(s: Store, id: string): (r: Option<Comment>)
    ensures r.None? <==> forall i :: 0 <= i < |s| ==> FirstWithId(s[i].comments, id).None?
    ensures r.Some? ==> exists i ::
      && 0 <= i < |s|
      && (forall k :: 0 <= k < i ==> FirstWithId(s[k].comments, id).None?)
      && FirstWithId(s[i].comments, id).Some?
      && r.value == s[i].comments[FirstWithId(s[i].comments, id).value]
  {
    if |s| == 0 then None
    else match FirstWithId(s[0].comments, id)
      case Some(j) =>
        assert FoundFirst(s, id, Some(s[0].comments[j])) by {
          assert FirstWithId(s[0].comments, id).Some?;
        }
        Some(s[0].comments[j])
      case None =>
        var r := FindComment(s[1..], id);
        FindStep(s, id, r);
        r
  }

  /** A first course without the id leaves the answer to the others. */
  lemma FindStep(s: Store, id: string, r: Option<Comment>)
    requires |s| > 0 && FirstWithId(s[0].comments, id).None? && FoundFirst(s[1..], id, r)
    ensures FoundFirst(s, id, r)
  {
    if r.Some? {
      var i :| 0 <= i < |s[1..]|
        && (forall k :: 0 <= k < i ==> FirstWithId(s[1..][k].comments, id).None?)
        && FirstWithId(s[1..][i].comments, id).Some?
        && r.value == s[1..][i].comments[FirstWithId(s[1..][i].comments, id).value];
      forall k | 0 < k < i + 1 ensures FirstWithId(s[k].comments, id).None? {
        assert s[k] == s[1..][k - 1];
      }
      assert s[i + 1] == s[1..][i];
    } else {
      forall i | 0 < i < |s| ensures FirstWithId(s[i].comments, id).None? {
        assert s[i] == s[1..][i - 1];
      }
    }
  }

  /** What a GET answers with. */
  datatype Shown = OneComment(comment: Comment) | CourseComments(comments: seq<Comment>) | CommentNotFound

  /** `CourseCommentsView.get`: with a comment id, the first comment carrying
      it in any course (404 if none); otherwise the course's comments, none
      for an unknown course. Every comment shown has a `replies` list. */
  function View(s: Store, courseId: int, commentId: Option<string>): (r: (Shown, nat))
    ensures r.1 == 404 <==> commentId.Some? && commentId.value != "" && FindComment(s, commentId.value).None?
    ensures r.1 != 404 ==> r.1 == 200
    ensures commentId.Some? && commentId.value != "" ==>
      match FindComment(s, commentId.value)
      case Some(c) => r.0.OneComment? && r.0.comment.replies.Some? && r.0.comment.(replies := c.replies) == c
      case None => r.0 == CommentNotFound
    ensures commentId.None? || commentId.value == "" ==>
      var stored := CommentsOf(s, IntToString(courseId));
      && r.0.CourseComments?
      && |r.0.comments| == |stored|
      && forall i :: 0 <= i < |stored| ==>
           r.0.comments[i].replies.Some? && r.0.comments[i].(replies := stored[i].replies) == stored[i]
  {
    if commentId.Some? && commentId.value != "" then
      match FindComment(s, commentId.value)
      case Some(c) => (OneComment(WithReplies(c)), 200)
      case None => (CommentNotFound, 404)
    else
      var stored := CommentsOf(s, IntToString(courseId));
      (CourseComments(seq(|stored|, i requires 0 <= i < |stored| => WithReplies(stored[i]))), 200)
  }

  /** The comment `post` builds for the signed-in account and its student record. */
  function NewComment(id: string, account: Account, student: Student, content: JVal, now: int, key: string): Comment {
    Comment(id, account.id, account.username, student.firstName, student.lastName, content, now, key, None)
  }

  /** `CourseCommentsView.post` on the loaded store: 400 without content; a
      caller without an account and student record (`author` absent) fails
      with 500 before anything is written; otherwise the new comment is
      appended to the course's list, created when missing, and saved, and
      only then is the course looked up, so an unknown course answers 500
      with the comment already stored. Returns the stored threads and the
      status. */
  function Post(loaded: Store, courseId: int, content: JVal, author: Option<(Account, Student)>,
                newId: string, now: int, courseExists: bool): (r: (Store, nat))
    ensures r.1 == 400 <==> !Truthy(content)
    ensures r.1 == 201 <==> Truthy(content) && author.Some? && courseExists
    ensures r.1 == 500 <==> Truthy(content) && (author.None? || !courseExists)
    ensures !Truthy(content) || author.None? ==> r.0 == loaded
    ensures Truthy(content) && author.Some? ==>
      var key := IntToString(courseId);
      var before := CommentsOf(loaded, key);
      var after := CommentsOf(r.0, key);
      && |after| == |before| + 1
      && after[..|before|] == before
      && after[|before|].id == newId
      && after[|before|].content == content
      && after[|before|].studentId == author.value.0.id
      && after[|before|].courseKey == key
      && after[|before|].replies.None?
      && Keys(r.0) == Keys(loaded) + {key}
    ensures forall k :: k != IntToString(courseId) ==> CommentsOf(r.0, k) == CommentsOf(loaded, k)
    ensures DistinctKeys(loaded) ==> DistinctKeys(r.0)
  {
    if !Truthy(content) then (loaded, 400)
    else match author
      case None => (loaded, 500)
      case Some((account, student)) =>
        var key := IntToString(courseId);
        var before := CommentsOf(loaded, key);
        var c := NewComment(newId, account, student, content, now, key);
        assert (before + [c])[..|before|] == before;
        (Put(loaded, key, before + [c]), if courseExists then 201 else 500)
  }

  /** `CourseCommentsView.post` from the raw body: a body `json.loads`
      rejects (`None`) gives 400 "Invalid JSON data" and changes nothing; a
      parsed value that is not an object fails on `.get` with 500; an object
      goes on to `Post` with its `content`, `null` when absent. */
  function PostBody(loaded: Store, courseId: int, body: Option<JVal>, author: Option<(Account, Student)>,
                    newId: string, now: int, courseExists: bool): (r: (Store, nat))
    ensures body.None? ==> r == (loaded, 400)
    ensures body.Some? && !body.value.JObj? ==> r == (loaded, 500)
    ensures r.1 == 400 <==> body.None? || (body.value.JObj? && !Truthy(GetOr(body.value.fields, "content", JNull)))
    ensures r.1 == 201 <==>
      body.Some? && body.value.JObj? && Truthy(GetOr(body.value.fields, "content", JNull)) && author.Some? && courseExists
    ensures body.Some? && body.value.JObj? ==>
      r == Post(loaded, courseId, GetOr(body.value.fields, "content", JNull), author, newId, now, courseExists)
  {
    match body
    case None => (loaded, 400)
    case Some(JObj(fields)) => Post(loaded, courseId, GetOr(fields, "content", JNull), author, newId, now, courseExists)
    case Some(_) => (loaded, 500)
  }

  /** `CourseCommentsView.delete`: 404 for a course with no thread or a
      comment id not in it; otherwise only the first comment with that id is
      removed, and the course keeps its (possibly empty) thread. */
  function Delete(s: Store, courseId: int, commentId: string): (r: (Store, nat))
    ensures var stored := CommentsOf(s, IntToString(courseId));
      r.1 == 200 <==> IntToString(courseId) in Keys(s) && exists j :: 0 <= j < |stored| && stored[j].id == commentId
    ensures r.1 != 200 ==> r.1 == 404 && r.0 == s
    ensures r.1 == 200 ==>
      var stored := CommentsOf(s, IntToString(courseId));
      exists i :: 0 <= i < |stored| && stored[i].id == commentId
        && (forall j :: 0 <= j < i ==> stored[j].id != commentId)
        && CommentsOf(r.0, IntToString(courseId)) == stored[..i] + stored[i + 1..]
    ensures forall k :: k != IntToString(courseId) ==> CommentsOf(r.0, k) == CommentsOf(s, k)
    ensures Keys(r.0) == Keys(s)
    ensures DistinctKeys(s) ==> DistinctKeys(r.0)
  {
    var key := IntToString(courseId);
    if key !in Keys(s) then (s, 404)
    else
      var stored := CommentsOf(s, key);
      match FirstWithId(stored, commentId)
      case None => (s, 404)
      case Some(i) => (Put(s, key, stored[..i] + stored[i + 1..]), 200)
  }

  /** Django's `get_full_name() or username`: first and last name joined by
      a space and stripped, or the username when that is empty. */
  function ReplierName(account: Account): (r: string)
    ensures Trim(account.firstName + " " + account.lastName) == "" ==> r == account.username
    ensures Trim(account.firstName + " " + account.lastName) != "" ==> r == Trim(account.firstName + " " + account.lastName)
  {
    var full := Trim(account.firstName + " " + account.lastName);
    if full != "" then full else account.username
  }

  /** Python `a or b or c`: the first truthy value, else the last. */
  function FirstTruthy(a: JVal, b: JVal, c: JVal): (r: JVal)
    ensures Truthy(r) <==> Truthy(a) || Truthy(b) || Truthy(c)
    ensures Truthy(a) ==> r == a
  {
    if Truthy(a) then a else if Truthy(b) then b else c
  }

  /** The comment id a reply names: `related_item_id`, then `comment_id`, then `id`. */
  function ReplyTarget(fields: map<string, JVal>): JVal {
    FirstTruthy(Get(fields, "related_item_id"), Get(fields, "comment_id"), Get(fields, "id"))
  }

  /** `NotificationReplyView.post` on the loaded store for a caller whose staff
      record and account are `staff`: 401, 400 unless comment id, course id
      and message are all truthy, 403 for a non-staff caller, 404 when the
      course has no thread or no comment's id string-equals the given one;
      otherwise one reply is appended to the first such comment (creating its
      `replies` list) and the store is saved. A list or dict id matches no
      thread and no comment. */
  function ReplyTo(s: Store, caller: Caller, fields: map<string, JVal>, staff: (Staff, Account),
                   newId: string, now: int): (r: (Store, nat))
    ensures r.1 == 401 <==> caller.Anonymous?
    ensures r.1 == 400 <==> (caller.Member?
      && (!Truthy(ReplyTarget(fields)) || !Truthy(Get(fields, "course_id")) || !Truthy(Get(fields, "message"))))
    ensures r.1 == 403 <==> (caller.Member?
      && Truthy(ReplyTarget(fields)) && Truthy(Get(fields, "course_id")) && Truthy(Get(fields, "message"))
      && caller.staffPk.None?)
    ensures r.1 == 200 <==> (caller.Member? && caller.staffPk.Some?
      && Truthy(ReplyTarget(fields)) && Truthy(Get(fields, "course_id")) && Truthy(Get(fields, "message"))
      && PyStr(Get(fields, "course_id")).Some? && PyStr(Get(fields, "course_id")).value in Keys(s)
      && PyStr(ReplyTarget(fields)).Some?
      && FirstWithId(CommentsOf(s, PyStr(Get(fields, "course_id")).value), PyStr(ReplyTarget(fields)).value).Some?)
    ensures r.1 !in {200, 400, 401, 403} ==> r.1 == 404
    ensures r.1 != 200 ==> r.0 == s
    ensures r.1 == 200 ==>
      var key := PyStr(Get(fields, "course_id")).value;
      var stored := CommentsOf(s, key);
      var i := FirstWithId(stored, PyStr(ReplyTarget(fields)).value).value;
      var after := CommentsOf(r.0, key);
      && |after| == |stored|
      && (forall j :: 0 <= j < |stored| && j != i ==> after[j] == stored[j])
      && after[i].(replies := stored[i].replies) == stored[i]
      && after[i].replies == Some(stored[i].replies.GetOr([]) + [Reply(newId, staff.0.staffId, ReplierName(staff.1), Get(fields, "message"), now)])
      && (forall k :: k != key ==> CommentsOf(r.0, k) == CommentsOf(s, k))
      && Keys(r.0) == Keys(s)
    ensures DistinctKeys(s) ==> DistinctKeys(r.0)
  {
    var target, course, message := ReplyTarget(fields), Get(fields, "course_id"), Get(fields, "message");
    if caller.Anonymous? then (s, 401)
    else if !Truthy(target) || !Truthy(course) || !Truthy(message) then (s, 400)
    else if caller.staffPk.None? then (s, 403)
    else match (PyStr(course), PyStr(target))
      case (Some(key), Some(id)) =>
        if key !in Keys(s) then (s, 404)
        else
          var stored := CommentsOf(s, key);
          (match FirstWithId(stored, id)
           case None => (s, 404)
           case Some(i) =>
             (AddReply(s, key, i, Reply(newId, staff.0.staffId, ReplierName(staff.1), message, now)), 200))
      case _ => (s, 404)
  }

  /** The store with `reply` added to the replies of comment `i` of the
      thread under `key` (a missing `replies` list starts empty). */
  function AddReply(s: Store, key: string, i: nat, reply: Reply): (r: Store)
    requires key in Keys(s) && i < |CommentsOf(s, key)|
    ensures var stored := CommentsOf(s, key);
      var after := CommentsOf(r, key);
      && |after| == |stored|
      && (forall j :: 0 <= j < |stored| && j != i ==> after[j] == stored[j])
      && after[i].(replies := stored[i].replies) == stored[i]
      && after[i].replies == Some(stored[i].replies.GetOr([]) + [reply])
    ensures forall k :: k != key ==> CommentsOf(r, k) == CommentsOf(s, k)
    ensures Keys(r) == Keys(s)
    ensures DistinctKeys(s) ==> DistinctKeys(r)
  {
    var stored := CommentsOf(s, key);
    Put(s, key, stored[i := stored[i].(replies := Some(stored[i].replies.GetOr([]) + [reply]))])
  }

  /** A comment appended after others with other ids is the first with its id. */
  lemma {:induction false} FirstWithIdAppended(before: seq<Comment>, c: Comment)
    requires forall j :: 0 <= j < |before| ==> before[j].id != c.id
    ensures FirstWithId(before + [c], c.id) == Some(|before|)
  {
    if |before| > 0 {
      assert (before + [c])[1..] == before[1..] + [c];
      FirstWithIdAppended(before[1..], c);
    }
  }

  /** A stored comment can be deleted by its id right after it was posted to
      an existing thread whose other comments carry other ids: the thread is
      as it was before the post, whatever the post answered. */
  lemma PostThenDelete(loaded: Store, courseId: int, content: JVal, account: Account, student: Student,
                       newId: string, now: int, courseExists: bool)
    requires IntToString(courseId) in Keys(loaded)
    requires forall j :: 0 <= j < |CommentsOf(loaded, IntToString(courseId))| ==> CommentsOf(loaded, IntToString(courseId))[j].id != newId
    requires Truthy(content)
    ensures var posted := Post(loaded, courseId, content, Some((account, student)), newId, now, courseExists).0;
      var deleted := Delete(posted, courseId, newId);
      && deleted.1 == 200
      && forall k :: CommentsOf(deleted.0, k) == CommentsOf(loaded, k)
  {
    var key := IntToString(courseId);
    var before := CommentsOf(loaded, key);
    var c := NewComment(newId, account, student, content, now, key);
    var posted := Post(loaded, courseId, content, Some((account, student)), newId, now, courseExists).0;
    assert posted == Put(loaded, key, before + [c]);
    assert CommentsOf(posted, key) == before + [c];
    FirstWithIdAppended(before, c);
    assert (before + [c])[..|before|] + (before + [c])[|before| + 1..] == before;
    var deleted := Delete(posted, courseId, newId);
    assert deleted.0 == Put(posted, key, before);
    forall k ensures CommentsOf(deleted.0, k) == CommentsOf(loaded, k) {
      if k != key {
        assert CommentsOf(deleted.0, k) == CommentsOf(posted, k);
      }
    }
  }

  /** A file that is missing or does not parse reads as empty, and the next
      comment then replaces everything the file held with one thread. */
  lemma UnreadableFileIsReplacedOnPost(file: Option<Option<Store>>, courseId: int, content: JVal,
                                       account: Account, student: Student, newId: string, now: int, courseExists: bool)
    requires file.None? || file.value.None?
    requires Truthy(content)
    ensures var posted := Post(LoadComments(file), courseId, content, Some((account, student)), newId, now, courseExists).0;
      && |posted| == 1
      && posted[0].key == IntToString(courseId)
      && |posted[0].comments| == 1 && posted[0].comments[0].id == newId
  {
  }

  /** A listing after a post shows the new comment last, with an empty
      `replies` list. */
  lemma PostedCommentListed(loaded: Store, courseId: int, content: JVal, account: Account, student: Student,
                            newId: string, now: int, courseExists: bool)
    requires Truthy(content)
    ensures var posted := Post(loaded, courseId, content, Some((account, student)), newId, now, courseExists).0;
      var shown := View(posted, courseId, None).0.comments;
      && |shown| == |CommentsOf(loaded, IntToString(courseId))| + 1
      && shown[|shown| - 1].id == newId
      && shown[|shown| - 1].replies == Some([])
  {
  }
}

=== FILE: durations.dfy ===
/** Lesson durations: the `"mm:ss"` strings stored on lessons, their sum in
    seconds, the `"MM:SS"` total of `Course.total_duration`, and the
    `"{h}h {m}m"` / `"{m}m {s}s"` display of the course detail. */
module Durations {
  import opened Wrappers
  import opened Text

  /** `minutes, seconds = d.split(':')` followed by `int(minutes) * 60 +
      int(seconds)`; `None` stands for the `ValueError` raised when the string
      does not split into exactly two fields or a field is not an integer. */
  function ParseMmSs(d: string): (r: Option<int>)
    ensures ':' !in d ==> r.None?
    ensures r.Some? ==> |Split(d, ':')| == 2
  {
    var parts := Split(d, ':');
    if |parts| != 2 then None
    else MinutesSeconds(ParseInt(parts[0]), ParseInt(parts[1]))
  }

  /** Minutes and seconds, when both parsed, as a number of seconds. */
  function MinutesSeconds(m: Option<int>, s: Option<int>): Option<int> {
    if m.Some? && s.Some? then Some(m.value * 60 + s.value) else None
  }

  /** What one lesson adds to the total: its parsed duration, or 0 when the
      duration is empty, missing or malformed. */
  function LessonSeconds(duration: Option<string>): (r: int)
    ensures duration.None? || duration == Some("") ==> r == 0
    ensures duration.Some? && ParseMmSs(duration.value).None? ==> r == 0
  {
    if duration.Some? && |duration.value| > 0 then ParseMmSs(duration.value).GetOr(0) else 0
  }

  /** The summed seconds of a list of lesson durations. */
  function TotalSeconds(durations: seq<Option<string>>): int {
    if |durations| == 0 then 0 else TotalSeconds(durations[..|durations| - 1]) + LessonSeconds(durations[|durations| - 1])
  }

  /** Totals add up over concatenated lesson lists. */
  lemma {:induction false} TotalSecondsAppend(a: seq<Option<string>>, b: seq<Option<string>>)
    ensures TotalSeconds(a + b) == TotalSeconds(a) + TotalSeconds(b)
    decreases |b|
  {
    if |b| == 0 {
      assert a + b == a;
    } else {
      assert (a + b)[..|a + b| - 1] == a + b[..|b| - 1];
      TotalSecondsAppend(a, b[..|b| - 1]);
    }
  }

  /** Malformed or empty durations do not change the total. */
  lemma {:induction false} TotalSecondsIgnoresUnparsable(ds: seq<Option<string>>)
    requires forall i :: 0 <= i < |ds| ==> ds[i].None? || ParseMmSs(ds[i].value).None?
    ensures TotalSeconds(ds) == 0
  {
    if |ds| > 0 {
      TotalSecondsIgnoresUnparsable(ds[..|ds| - 1]);
    }
  }

  /** `f"{t // 60:02d}:{t % 60:02d}"`. */
  function FormatMmSs(t: int): (r: string)
    ensures t >= 0 ==> |r| >= 5 && r[|r| - 3] == ':'
    ensures 0 <= t < 6000 ==> |r| == 5
  {
    Pad2(t / 60) + ":" + Pad2(t % 60)
  }

  /** The seconds field is always a two-digit number below 60. */
  lemma FormatSecondsField(t: int)
    ensures var r := FormatMmSs(t);
      && |r| >= 5 && r[|r| - 3] == ':'
      && var sec := r[|r| - 2..]; AllDigits(sec) && DigitsValue(sec) == t % 60 && DigitsValue(sec) < 60
  {
    var a, b := Pad2(t / 60), Pad2(t % 60);
    assert FormatMmSs(t) == a + ":" + b;
    assert |b| == 2;
    assert FormatMmSs(t)[|FormatMmSs(t)| - 2..] == b;
  }

  /** `Course.total_duration`: the summed seconds as `"MM:SS"`. */
  function TotalDuration(durations: seq<Option<string>>): string {
    FormatMmSs(TotalSeconds(durations))
  }

  /** Two colon-free fields around one colon split back into those fields. */
  lemma SplitTwo(a: string, b: string)
    requires ':' !in a && ':' !in b
    ensures Split(a + ":" + b, ':') == [a, b]
  {
    assert Join([a, b], ':') == a + ":" + b;
    SplitJoin([a, b], ':');
  }

  /** A well-formed duration parses to minutes times 60 plus seconds. */
  lemma ParseMmSsOfFields(a: string, b: string, m: int, s: int, total: int)
    requires ':' !in a && ':' !in b
    requires ParseInt(a) == Some(m) && ParseInt(b) == Some(s) && total == m * 60 + s
    ensures ParseMmSs(a + ":" + b) == Some(total)
  {
    SplitTwo(a, b);
    var parts := Split(a + ":" + b, ':');
    assert parts[0] == a && parts[1] == b;
    ParseMmSsOfSplit(a + ":" + b, m, s, total);
  }

  /** Two fields that parse as integers give minutes times 60 plus seconds. */
  lemma ParseMmSsOfSplit(d: string, m: int, s: int, total: int)
    requires |Split(d, ':')| == 2 && total == m * 60 + s
    requires ParseInt(Split(d, ':')[0]) == Some(m) && ParseInt(Split(d, ':')[1]) == Some(s)
    ensures ParseMmSs(d) == Some(total)
  {
    var parts := Split(d, ':');
    assert ParseMmSs(d) == MinutesSeconds(ParseInt(parts[0]), ParseInt(parts[1]));
    BothParsed(m, s, total);
  }

  lemma BothParsed(m: int, s: int, total: int)
    requires total == m * 60 + s
    ensures MinutesSeconds(Some(m), Some(s)) == Some(total)
  {
  }

  /** Digit strings contain no colon. */
  lemma DigitsNoColon(a: string)
    requires AllDigits(a)
    ensures ':' !in a
  {
    assert forall c :: c in a ==> IsDigit(c);
  }

  /** Round trip: for a nonnegative total, re-parsing the formatted string
      gives the same number of seconds. */
  lemma FormatParseRoundTrip(t: int)
    requires t >= 0
    ensures ParseMmSs(FormatMmSs(t)) == Some(t)
  {
    var a, b := Pad2(t / 60), Pad2(t % 60);
    DigitsNoColon(a);
    DigitsNoColon(b);
    ParseIntOfDigits(a);
    ParseIntOfDigits(b);
    DivMod60(t);
    ParseMmSsOfFields(a, b, t / 60, t % 60, t);
    assert FormatMmSs(t) == a + ":" + b;
  }

  lemma DivMod60(t: int)
    ensures (t / 60) * 60 + t % 60 == t
  {
  }

  /** A course whose only lesson lasts `t` seconds, written in the same
      format, reports exactly that duration. */
  lemma TotalOfOneFormattedLesson(t: int)
    requires t >= 0
    ensures TotalDuration([Some(FormatMmSs(t))]) == FormatMmSs(t)
  {
    FormatParseRoundTrip(t);
    var ds := [Some(FormatMmSs(t))];
    assert ds[..0] == [];
    assert TotalSeconds(ds) == LessonSeconds(ds[0]);
  }

  /** The seconds field is not range-checked: any count of seconds, 60 and
      over included (`"1:90"` is 150 seconds), is accepted and added. */
  lemma SecondsNotRangeChecked(m: nat, sec: nat, total: int)
    requires total == 60 * m + sec
    ensures ParseMmSs(NatToString(m) + ":" + NatToString(sec)) == Some(total)
  {
    var a, b := NatToString(m), NatToString(sec);
    DigitsNoColon(a);
    DigitsNoColon(b);
    ParseIntOfDigits(a);
    ParseIntOfDigits(b);
    ParseMmSsOfFields(a, b, m, sec, total);
  }

  /** Such a lesson contributes its full count to the course total, which
      then carries the excess seconds into the minutes field. */
  lemma OverlongSecondsCarry(m: nat, sec: nat, total: int)
    requires total == 60 * m + sec
    ensures TotalDuration([Some(NatToString(m) + ":" + NatToString(sec))]) == FormatMmSs(total)
  {
    SecondsNotRangeChecked(m, sec, total);
    var ds := [Some(NatToString(m) + ":" + NatToString(sec))];
    assert ds[..0] == [];
    assert TotalSeconds(ds) == LessonSeconds(ds[0]);
  }

  /** A duration with no colon, or with two, is ignored rather than parsed. */
  lemma OtherShapesIgnored()
    ensures ParseMmSs("90") == None
    ensures ParseMmSs("1:02:03") == None
  {
    assert Join(["1", "02", "03"], ':') == "1:02:03";
    SplitJoin(["1", "02", "03"], ':');
  }

  // ---------------------------------------------------------------------------
  // Hours display of the course detail

  /** Hours, minutes and seconds of a total: the unique decomposition with
      minutes and seconds below 60 (Python floor division). */
  function HmsParts(t: int): (r: (int, int, int))
    ensures t == 3600 * r.0 + 60 * r.1 + r.2
    ensures 0 <= r.1 < 60 && 0 <= r.2 < 60
    ensures t >= 0 ==> r.0 >= 0
  {
    (t / 3600, (t % 3600) / 60, t % 60)
  }

  /** `f"{hours}h {minutes}m"` when there is at least an hour, otherwise
      `f"{minutes}m {seconds}s"`. */
  function HmsDisplay(t: int): string {
    var (h, m, s) := HmsParts(t);
    if h > 0 then IntToString(h) + "h " + IntToString(m) + "m"
    else IntToString(m) + "m " + IntToString(s) + "s"
  }

  /** Under an hour the display keeps every second; from an hour on the
      seconds are dropped, so totals within the same minute look alike. */
  lemma HmsDisplayPrecision(t: int, u: int)
    requires 0 <= t
    ensures t < 3600 ==> HmsDisplay(t) == IntToString(t / 60) + "m " + IntToString(t % 60) + "s"
    ensures t >= 3600 && t / 60 == u / 60 ==> HmsDisplay(t) == HmsDisplay(u)
  {
    if t < 3600 {
      assert HmsParts(t).0 == 0;
    }
    if t >= 3600 && t / 60 == u / 60 {
      HoursMinutesOfMinute(t);
      HoursMinutesOfMinute(u);
    }
  }

  /** Hours and minutes depend only on the whole minutes elapsed. */
  lemma HoursMinutesOfMinute(t: int)
    ensures HmsParts(t).0 == (t / 60) / 60 && HmsParts(t).1 == (t / 60) % 60
  {
    var q, a := t / 60, t % 60;
    var h, m := q / 60, q % 60;
    assert t == 3600 * h + (60 * m + a);
    assert 0 <= 60 * m + a < 3600;
    Div3600(t, h, 60 * m + a);
    Div60(60 * m + a, m, a);
  }

  /** Division by 3600 is determined by quotient and remainder. */
  lemma Div3600(n: int, q: int, r: int)
    requires 0 <= r < 3600 && n == 3600 * q + r
    ensures n / 3600 == q && n % 3600 == r
  {
  }

  /** Division by 60 is determined by quotient and remainder. */
  lemma Div60(n: int, q: int, r: int)
    requires 0 <= r < 60 && n == 60 * q + r
    ensures n / 60 == q && n % 60 == r
  {
  }
}

=== FILE: favorites.dfy ===
/** Favourite courses (`FavoriteCourseView`): rows of (user, course) with no
    uniqueness constraint in the table, kept unique by the check before each
    insert; adding is idempotent and removing deletes every matching row. */
module Favorites {
  import opened Wrappers
  import opened Json

  /** The favourite rows as a multiset of (user, course) pairs. */
  type Rows = multiset<(nat, nat)>

  /** No pair is stored twice. */
  predicate NoDuplicates(rows: Rows) {
    forall p :: p in rows ==> rows[p] == 1
  }

  /** How the filter reads `course_id`: a row key, or a lookup that raises. */
  function CourseKey(v: JVal): Option<nat> {
    match CoerceId(v)
    case LookupId(n) => if n >= 0 then Some(n as nat) else None
    case _ => None
  }

  /** `FavoriteCourseView.post` for the signed-in user `user` (`None` when
      anonymous): 401, 400 without a course id, 200 with nothing written when
      the pair exists, 201 after inserting exactly one row, and 500 when the
      id cannot be read or names no course. */
  function Add(rows: Rows, user: Option<nat>, courseId: JVal, courses: set<nat>): (r: (Rows, nat))
    ensures r.1 == 401 <==> user.None?
    ensures user.Some? && !Truthy(courseId) ==> r.1 == 400
    ensures r.1 == 200 <==> user.Some? && Truthy(courseId) && CourseKey(courseId).Some? && (user.value, CourseKey(courseId).value) in rows
    ensures r.1 == 201 <==>
      user.Some? && Truthy(courseId) && CourseKey(courseId).Some? && (user.value, CourseKey(courseId).value) !in rows
      && CourseKey(courseId).value in courses
    ensures r.1 == 201 ==> r.0 == rows + multiset{(user.value, CourseKey(courseId).value)}
    ensures r.1 != 201 ==> r.0 == rows
    ensures NoDuplicates(rows) ==> NoDuplicates(r.0)
  {
    if user.None? then (rows, 401)
    else if !Truthy(courseId) then (rows, 400)
    else
      match CourseKey(courseId)
      case None => (rows, 500)
      case Some(c) =>
        if (user.value, c) in rows then (rows, 200)
        else if c !in courses then (rows, 500)
        else (rows + multiset{(user.value, c)}, 201)
  }

  /** `FavoriteCourseView.delete`: 401, 400 without a course id, 404 when the
      user has no such favourite, otherwise every matching row goes and the
      answer is 200. */
  function Remove(rows: Rows, user: Option<nat>, courseId: JVal): (r: (Rows, nat))
    ensures r.1 == 401 <==> user.None?
    ensures user.Some? && !Truthy(courseId) ==> r.1 == 400
    ensures r.1 == 200 <==> user.Some? && Truthy(courseId) && CourseKey(courseId).Some? && (user.value, CourseKey(courseId).value) in rows
    ensures r.1 == 200 ==> (user.value, CourseKey(courseId).value) !in r.0
    ensures forall p :: r.1 == 200 && p != (user.value, CourseKey(courseId).value) ==> r.0[p] == rows[p]
    ensures r.1 != 200 ==> r.0 == rows
    ensures r.0 <= rows
  {
    if user.None? then (rows, 401)
    else if !Truthy(courseId) then (rows, 400)
    else
      match CourseKey(courseId)
      case None => (rows, if CoerceId(courseId).LookupId? then 404 else 500)
      case Some(c) =>
        if (user.value, c) in rows then (rows[(user.value, c) := 0], 200)
        else (rows, 404)
  }

  /** `FavoriteCourseView.get`: the courses the signed-in user marked. */
  function Favourites(rows: Rows, user: Option<nat>): (r: (set<nat>, nat))
    ensures r.1 == 401 <==> user.None?
    ensures user.Some? ==> r.1 == 200 && forall c :: c in r.0 <==> (user.value, c) in rows
    ensures user.None? ==> r.0 == {}
  {
    if user.None? then ({}, 401)
    else (set p | p in rows && p.0 == user.value :: p.1, 200)
  }

  /** Adding twice writes once: the second call answers 200 and changes nothing. */
  lemma AddIdempotent(rows: Rows, user: nat, courseId: JVal, courses: set<nat>)
    requires Add(rows, Some(user), courseId, courses).1 == 201
    ensures var once := Add(rows, Some(user), courseId, courses).0;
      Add(once, Some(user), courseId, courses) == (once, 200)
  {
  }

  /** Removing twice: the second call finds nothing and answers 404. */
  lemma RemoveTwiceNotFound(rows: Rows, user: nat, courseId: JVal)
    requires Remove(rows, Some(user), courseId).1 == 200
    ensures var once := Remove(rows, Some(user), courseId).0;
      Remove(once, Some(user), courseId) == (once, 404)
  {
  }

  /** Adding then removing a new favourite restores the rows. */
  lemma AddThenRemove(rows: Rows, user: nat, courseId: JVal, courses: set<nat>)
    requires Add(rows, Some(user), courseId, courses).1 == 201
    ensures Remove(Add(rows, Some(user), courseId, courses).0, Some(user), courseId) == (rows, 200)
  {
    var c := CourseKey(courseId).value;
    var added := rows + multiset{(user, c)};
    assert added[(user, c) := 0] == rows;
  }
}

=== FILE: http_gate.dfy ===
/** The HTTP request gate (`JWTAuthMiddleware.process_request`): a path
    exemption list, then a bearer-token check. Token verification is a
    parameter: `verified` maps each token that verifies to its payload. */
module HttpGate {
  import opened Wrappers
  import opened Text
  import opened Json

  /** The exemption list exactly as the source evaluates it: two adjacent
      string literals without a comma between them form one entry. */
  const ExemptAsWritten: seq<string> := [
    "/api/auth/register/student",
    "/api/auth/register/staff",
    "/api/auth/login",
    "/api/auth/refresh",
    "/courses/thumbnails/",
    "/courses/videos/",
    "/profile_pictures/",
    "/static/",
    "/media/",
    "/api/public/courses/",
    "/ws/",
    "/connection/" + "/ws/connection/"
  ]

  /** The exemption list as evidently intended: `/connection/` and
      `/ws/connection/` as separate entries, plus an entry matching the routed
      refresh path `/api/auth/token/refresh/`. */
  const ExemptIntended: seq<string> := ExemptAsWritten[..11] + [
    "/connection/",
    "/ws/connection/",
    "/api/auth/token/refresh"
  ]

  /** The routed refresh endpoint: the `/api` mount plus `auth/token/refresh/`. */
  const RefreshRoute := "/api/auth/token/refresh/"

  /** `any(path.startswith(e) for e in prefixes)`. */
  function AnyPrefix(prefixes: seq<string>, path: string): (r: bool)
    ensures r <==> exists i :: 0 <= i < |prefixes| && IsPrefix(prefixes[i], path)
  {
    if |prefixes| == 0 then false
    else
      assert forall i :: 0 < i < |prefixes| ==> prefixes[i] == prefixes[1..][i - 1];
      IsPrefix(prefixes[0], path) || AnyPrefix(prefixes[1..], path)
  }

  /** The gate's verdict: let the request through (with the authenticated user
      id, or none for an exempt path), answer 401 with a message, or fail with
      an unhandled exception (500). */
  datatype Verdict = PassThrough(user: Option<int>) | Unauthorized(message: string) | ServerError

  const BearerMessage := "Authorization header must start with Bearer"
  const InvalidTokenMessage := "Invalid or expired token"
  const UserNotFoundMessage := "User not found"

  /** `process_request` against a given exemption list. The token is the
      second space-separated field of the header. */
  function ProcessRequest(exempt: seq<string>, path: string, authHeader: string,
                          verified: map<string, map<string, JVal>>, users: set<int>): (r: Verdict)
    ensures AnyPrefix(exempt, path) <==> r == PassThrough(None)
    ensures !AnyPrefix(exempt, path) && !IsPrefix("Bearer ", authHeader) ==> r == Unauthorized(BearerMessage)
    ensures !AnyPrefix(exempt, path) && IsPrefix("Bearer ", authHeader) ==>
      var token := BearerToken(authHeader);
      && (token !in verified || |verified[token]| == 0 ==> r == Unauthorized(InvalidTokenMessage))
      && (r.PassThrough? ==> token in verified && r.user.Some? && r.user.value in users)
      && (token in verified && |verified[token]| > 0 ==> PayloadVerdict(verified[token], users, r))
  {
    if AnyPrefix(exempt, path) then PassThrough(None)
    else if !IsPrefix("Bearer ", authHeader) then Unauthorized(BearerMessage)
    else
      var token := BearerToken(authHeader);
      if token !in verified || |verified[token]| == 0 then Unauthorized(InvalidTokenMessage)
      else if "user_id" !in verified[token] then ServerError
      else match CoerceId(verified[token]["user_id"])
        case LookupRaises => ServerError
        case NoRowMatches => Unauthorized(UserNotFoundMessage)
        case LookupId(n) => if n in users then PassThrough(Some(n)) else Unauthorized(UserNotFoundMessage)
  }

  /** What a verified, non-empty payload leads to: a payload without
      `user_id`, or one whose id the ORM cannot read, fails with an unhandled
      exception (500); an id naming a user lets the request through as that
      user; any other id is "User not found". */
  predicate PayloadVerdict(payload: map<string, JVal>, users: set<int>, r: Verdict) {
    && ("user_id" !in payload ==> r == ServerError)
    && ("user_id" in payload ==>
          var id := CoerceId(payload["user_id"]);
          && (id.LookupRaises? ==> r == ServerError)
          && (id.NoRowMatches? ==> r == Unauthorized(UserNotFoundMessage))
          && (id.LookupId? && id.id in users ==> r == PassThrough(Some(id.id)))
          && (id.LookupId? && id.id !in users ==> r == Unauthorized(UserNotFoundMessage)))
  }

  /** The token of `"Bearer " + rest` is the text of `rest` up to its first
      space. */
  lemma BearerTokenOf(rest: string)
    ensures IsPrefix("Bearer ", "Bearer " + rest)
    ensures BearerToken("Bearer " + rest) == Split(rest, ' ')[0]
  {
    assert "Bearer " + rest == "Bearer" + [' '] + rest;
    assert ' ' !in "Bearer";
    SplitAfter("Bearer", rest, ' ');
  }

  /** Outside the exempt paths, a bearer token whose payload names a user
      with an integer id passes as exactly that user. */
  lemma TokenForUserPasses(exempt: seq<string>, path: string, token: string,
                           verified: map<string, map<string, JVal>>, users: set<int>, id: int)
    requires !AnyPrefix(exempt, path) && ' ' !in token
    requires token in verified && "user_id" in verified[token] && verified[token]["user_id"] == JInt(id)
    requires id in users
    ensures ProcessRequest(exempt, path, "Bearer " + token, verified, users) == PassThrough(Some(id))
  {
    BearerTokenOf(token);
    SplitNoSep(token, ' ');
  }

  /** Outside the exempt paths, a request passes only as a user the token's
      own payload names: the gate never lets an unknown id through. */
  lemma PassedUserNamedByToken(exempt: seq<string>, path: string, token: string,
                               verified: map<string, map<string, JVal>>, users: set<int>)
    requires !AnyPrefix(exempt, path) && ' ' !in token
    requires ProcessRequest(exempt, path, "Bearer " + token, verified, users).PassThrough?
    ensures token in verified && "user_id" in verified[token]
    ensures var u := ProcessRequest(exempt, path, "Bearer " + token, verified, users).user;
      u.Some? && u.value in users && CoerceId(verified[token]["user_id"]) == LookupId(u.value)
  {
    BearerTokenOf(token);
    SplitNoSep(token, ' ');
  }

  /** A header starting with "Bearer " splits into at least two fields. */
  lemma BearerSplits(h: string)
    requires IsPrefix("Bearer ", h)
    ensures |Split(h, ' ')| >= 2
  {
    assert h[6] == ' ';
  }

  /** `auth_header.split(' ')[1]`. */
  function BearerToken(h: string): string
    requires IsPrefix("Bearer ", h)
  {
    BearerSplits(h);
    Split(h, ' ')[1]
  }

  /** The token is taken from the second field: `"Bearer abc"` carries `"abc"`. */
  lemma TokenIsSecondField()
    ensures Split("Bearer abc", ' ') == ["Bearer", "abc"]
  {
    SplitJoin(["Bearer", "abc"], ' ');
    assert Join(["Bearer", "abc"], ' ') == "Bearer abc";
  }

  // ---------------------------------------------------------------------------
  // The two exemption defects

  /** As written, a bare `/connection/` path is not exempt, because its entry
      was fused with the next one. */
  lemma ConnectionNotExemptAsWritten()
    ensures !AnyPrefix(ExemptAsWritten, "/connection/")
  {
    NoPrefixMatches(ExemptAsWritten, "/connection/", [1, 3, 1, 1, 3, 3, 1, 1, 1, 1, 1, 0]);
  }

  /** No entry is a prefix of `path` when each entry is longer than it or
      differs from it at the position `ks` names. */
  lemma NoPrefixMatches(prefixes: seq<string>, path: string, ks: seq<nat>)
    requires |ks| == |prefixes|
    requires forall i :: 0 <= i < |prefixes| ==>
      |prefixes[i]| > |path| || (ks[i] < |prefixes[i]| && ks[i] < |path| && prefixes[i][ks[i]] != path[ks[i]])
    ensures !AnyPrefix(prefixes, path)
  {
    forall i | 0 <= i < |prefixes| ensures !IsPrefix(prefixes[i], path) {
      if |prefixes[i]| <= |path| {
        assert path[..|prefixes[i]|][ks[i]] == path[ks[i]];
      }
    }
  }

  /** As written, the routed refresh endpoint is not exempt, so refreshing
      requires a valid bearer token. */
  lemma RefreshNotExemptAsWritten(verified: map<string, map<string, JVal>>, users: set<int>)
    ensures !AnyPrefix(ExemptAsWritten, RefreshRoute)
    ensures ProcessRequest(ExemptAsWritten, RefreshRoute, "", verified, users) == Unauthorized(BearerMessage)
  {
    NoPrefixMatches(ExemptAsWritten, RefreshRoute, [10, 10, 10, 10, 1, 1, 1, 1, 1, 5, 1, 1]);
  }

  /** With the intended list both paths pass with no credentials. */
  lemma IntendedExemptsConnectionAndRefresh(verified: map<string, map<string, JVal>>, users: set<int>, header: string)
    ensures ProcessRequest(ExemptIntended, "/connection/", header, verified, users) == PassThrough(None)
    ensures ProcessRequest(ExemptIntended, RefreshRoute, header, verified, users) == PassThrough(None)
  {
    assert IsPrefix(ExemptIntended[11], "/connection/");
    assert IsPrefix(ExemptIntended[13], RefreshRoute);
  }

  /** The intended list exempts every path the written list exempts. */
  lemma IntendedCoversAsWritten(path: string)
    requires AnyPrefix(ExemptAsWritten, path)
    ensures AnyPrefix(ExemptIntended, path)
  {
    var i :| 0 <= i < |ExemptAsWritten| && IsPrefix(ExemptAsWritten[i], path);
    if i < 11 {
      assert ExemptIntended[i] == ExemptAsWritten[i];
    } else {
      assert IsPrefix(ExemptIntended[11], ExemptAsWritten[11]);
      assert path[..|ExemptIntended[11]|] == ExemptAsWritten[11][..|ExemptIntended[11]|];
      assert IsPrefix(ExemptIntended[11], path);
    }
  }
}

=== FILE: initials.dfy ===
/** Avatar initials on two screens: `getInitials` in the candidate header
    (the first two words of the username, else its first two characters,
    else the e-mail's) and the applicant initials on the instructor's
    applications page (the first character of every word). Words are split
    on single spaces, so a doubled, leading or trailing space yields an
    empty word, whose first character is `undefined`. */
module Initials {
  import opened Wrappers
  import opened Text

  function FirstChar(s: string): Option<char> {
    if s == [] then None else Some(s[0])
  }

  /** `(parts[0][0] + parts[1][0]).toUpperCase()`: two characters, or
      JavaScript's text for `undefined` in place of one missing character.
      When both are missing the sum is the number `NaN`, which has no
      `toUpperCase`, so the call throws: `None`. */
  function JoinPair(a: Option<char>, b: Option<char>): (r: Option<string>)
    ensures r.None? <==> a.None? && b.None?
    ensures a.Some? && b.Some? ==> r == Some(Upper([a.value, b.value]))
    ensures a.Some? && b.None? ==> r == Some(Upper([a.value] + "undefined"))
    ensures a.None? && b.Some? ==> r == Some(Upper("undefined" + [b.value]))
  {
    match (a, b)
    case (Some(x), Some(y)) => Some(Upper([x, y]))
    case (Some(x), None) => Some(Upper([x] + "undefined"))
    case (None, Some(y)) => Some(Upper("undefined" + [y]))
    case (None, None) => None
  }

  datatype HeaderUser = HeaderUser(username: string, email: Option<string>)

  /** `s.slice(0, 2)`. */
  function Slice2(s: string): (r: string)
    ensures |r| == if |s| < 2 then |s| else 2
    ensures r == s[..|r|]
  {
    if |s| < 2 then s else s[..2]
  }

  /** The usernames on which `getInitials` throws: the first two words,
      split on single spaces, are both empty. */
  predicate TwoBlankWords(username: string) {
    |username| >= 1 && username[0] == ' ' && (|username| == 1 || username[1] == ' ')
  }

  /** `getInitials`; `None` when it throws. */
  function HeaderInitials(user: Option<HeaderUser>): (r: Option<string>)
    ensures user.None? ==> r == Some("")
    ensures user.Some? && user.value.username != "" && ' ' !in user.value.username ==>
      r == Some(Upper(Slice2(user.value.username)))
    ensures user.Some? && user.value.username == "" ==>
      r == Some(if user.value.email.Some? then Upper(Slice2(user.value.email.value)) else "")
  {
    match user
    case None => Some("")
    case Some(u) =>
      if u.username != "" then
        var parts := Split(u.username, ' ');
        if |parts| >= 2 then JoinPair(FirstChar(parts[0]), FirstChar(parts[1]))
        else Some(Upper(Slice2(u.username)))
      else if u.email.Some? then Some(Upper(Slice2(u.email.value)))
      else Some("")
  }

  /** `getInitials` throws exactly for a username that is a single space or
      starts with two spaces. */
  lemma HeaderInitialsThrows(user: Option<HeaderUser>)
    ensures HeaderInitials(user).None? <==> user.Some? && TwoBlankWords(user.value.username)
  {
    if user.Some? && user.value.username != "" {
      var u := user.value.username;
      var parts := Split(u, ' ');
      if u[0] == ' ' {
        var rest := u[1..];
        assert u == "" + [' '] + rest;
        SplitAfter("", rest, ' ');
        assert parts[0] == "" && parts[1] == Split(rest, ' ')[0];
        LeadingWordEmpty(rest);
      } else {
        SplitFirst(u, ' ');
        assert parts[0] != [];
      }
    }
  }

  /** The first word of a text is empty exactly when the text is empty or
      starts with a space. */
  lemma LeadingWordEmpty(s: string)
    ensures Split(s, ' ')[0] == [] <==> s == [] || s[0] == ' '
  {
    var first := Split(s, ' ')[0];
    SplitFirst(s, ' ');
    if s == [] {
      SplitNoSep(s, ' ');
    } else if first != [] {
      assert first[0] == s[0];
      assert first[0] in first;
    }
  }

  /** A two-word name gives the upper-cased first letter of each word. */
  lemma TwoWordName(first: string, last: string, email: Option<string>)
    requires first != "" && last != "" && ' ' !in first && ' ' !in last
    ensures HeaderInitials(Some(HeaderUser(first + " " + last, email))) == Some([UpperChar(first[0]), UpperChar(last[0])])
  {
    TwoWords(first, last);
    var pair := [first[0], last[0]];
    assert Upper(pair) == [UpperChar(first[0]), UpperChar(last[0])];
  }

  /** Two space-free words joined by one space split back into them. */
  lemma TwoWords(first: string, last: string)
    requires ' ' !in first && ' ' !in last
    ensures Split(first + " " + last, ' ') == [first, last]
  {
    assert first + " " + last == first + [' '] + last;
    SplitAfter(first, last, ' ');
    SplitNoSep(last, ' ');
  }

  /** A leading space leaves the first word empty, and the header shows
      "UNDEFINED" before the second word's initial. */
  lemma LeadingSpaceShowsUndefined(word: string, email: Option<string>)
    requires word != "" && ' ' !in word && 'a' <= word[0] <= 'z'
    ensures HeaderInitials(Some(HeaderUser(" " + word, email))) == Some("UNDEFINED" + [UpperChar(word[0])])
  {
    TwoWords("", word);
    assert "" + " " + word == " " + word;
    assert Upper("undefined" + [word[0]]) == "UNDEFINED" + [UpperChar(word[0])];
  }

  // ---------------------------------------------------------------------------
  // Applicant initials

  /** The first character of each word, an empty word contributing nothing
      (`join` writes `undefined` as the empty string). */
  function FirstChars(words: seq<string>): (r: string)
    ensures |r| <= |words|
    ensures (forall i :: 0 <= i < |words| ==> words[i] != "") ==> |r| == |words| && forall i :: 0 <= i < |words| ==> r[i] == words[i][0]
  {
    if words == [] then ""
    else
      var rest := FirstChars(words[1..]);
      assert forall i :: 1 <= i < |words| ==> words[i] == words[1..][i - 1];
      (if words[0] == "" then "" else [words[0][0]]) + rest
  }

  /** `name.split(" ").map(n => n[0]).join("").toUpperCase()`: one
      upper-cased letter per word. */
  function ApplicantInitials(name: string): (r: string)
    ensures |r| == |FirstChars(Split(name, ' '))| <= |Split(name, ' ')|
    ensures forall i :: 0 <= i < |r| ==> r[i] == UpperChar(FirstChars(Split(name, ' '))[i])
  {
    Upper(FirstChars(Split(name, ' ')))
  }

  /** A name whose words are separated by single spaces gets one
      upper-cased initial per word, in order. */
  lemma WellSpacedApplicantInitials(name: string)
    requires forall i :: 0 <= i < |Split(name, ' ')| ==> Split(name, ' ')[i] != ""
    ensures var words := Split(name, ' ');
      |ApplicantInitials(name)| == |words| && forall i :: 0 <= i < |words| ==> ApplicantInitials(name)[i] == UpperChar(words[i][0])
  {
  }

  /** Every character of the applicant initials starts a word of the name;
      doubled spaces add nothing. */
  lemma {:induction false} InitialsStartWords(words: seq<string>, k: nat)
    requires k < |FirstChars(words)|
    ensures exists i :: 0 <= i < |words| && words[i] != "" && FirstChars(words)[k] == words[i][0]
    decreases |words|
  {
    var rest := FirstChars(words[1..]);
    if words[0] == "" {
      InitialsStartWords(words[1..], k);
      var i :| 0 <= i < |words[1..]| && words[1..][i] != "" && rest[k] == words[1..][i][0];
      assert words[i + 1] == words[1..][i];
    } else if k > 0 {
      InitialsStartWords(words[1..], k - 1);
      var i :| 0 <= i < |words[1..]| && words[1..][i] != "" && rest[k - 1] == words[1..][i][0];
      assert words[i + 1] == words[1..][i];
    }
  }
}

=== FILE: instructor_pages.dfy ===
/** The instructor's dashboard pages: the course table with its page-size
    selector (`InstructorCoursesPage`), the five-per-page course list of the
    dashboard home (`InstructorDashboard`), the video count and total
    duration the course table shows, and `getTotalDuration`, the duration
    helper the page defines but never calls. */
module InstructorPages {
  import opened Wrappers
  import opened Text
  import opened Paging
  import opened JsNumber
  import Durations

  // ---------------------------------------------------------------------------
  // What a course card reads

  /** A lesson as the card reads it: its `type` and its `duration` text
      (`None` when absent or `null`). */
  datatype CardLesson = CardLesson(kind: string, duration: Option<string>)

  /** A section whose `lessons` may be absent. */
  datatype CardSection = CardSection(lessons: Option<seq<CardLesson>>)

  /** `is_active` is `None` when the field is absent; `total_duration` is the
      server's text, `None` when absent. */
  datatype CardCourse = CardCourse(isActive: Option<bool>, sections: Option<seq<CardSection>>,
                                   totalDuration: Option<string>)

  // ---------------------------------------------------------------------------
  // The course table

  /** Only a course explicitly marked inactive is hidden. */
  predicate Shown(c: CardCourse) {
    c.isActive != Some(false)
  }

  /** The courses the table pages through, in the order received. */
  function ActiveCourses(cs: seq<CardCourse>): (r: seq<CardCourse>)
    ensures |r| <= |cs|
    ensures forall c :: c in r <==> c in cs && Shown(c)
  {
    if |cs| == 0 then []
    else if Shown(cs[0]) then [cs[0]] + ActiveCourses(cs[1..])
    else
      assert forall c :: c in cs <==> c == cs[0] || c in cs[1..];
      ActiveCourses(cs[1..])
  }

  /** Filtering splits over concatenation, so the kept courses keep their
      relative order. */
  lemma {:induction false} ActiveOfConcat(a: seq<CardCourse>, b: seq<CardCourse>)
    ensures ActiveCourses(a + b) == ActiveCourses(a) + ActiveCourses(b)
    decreases |a|
  {
    if |a| > 0 {
      assert (a + b)[1..] == a[1..] + b;
      ActiveOfConcat(a[1..], b);
    } else {
      assert a + b == b;
    }
  }

  /** Filtering twice hides nothing more. */
  lemma {:induction false} ActiveIdempotent(cs: seq<CardCourse>)
    ensures ActiveCourses(ActiveCourses(cs)) == ActiveCourses(cs)
    decreases |cs|
  {
    if |cs| > 0 {
      ActiveIdempotent(cs[1..]);
      if Shown(cs[0]) {
        assert ([cs[0]] + ActiveCourses(cs[1..]))[1..] == ActiveCourses(cs[1..]);
      }
    }
  }

  /** The page sizes the selector offers; the table opens on the first. */
  const PageSizes: seq<nat> := [5, 10, 20, 50]

  datatype Pager = Pager(page: nat, size: nat)

  const InitialPager := Pager(1, 5)

  /** The first, previous, next and last buttons and the size selector. */
  datatype PagerEvent = First | Previous | Next | Last | Resize(size: nat)

  /** The page lies between 1 and the page count, and the size is offered. */
  predicate InRange(st: Pager, n: nat) {
    st.size in PageSizes && 1 <= st.page <= PageCount(n, st.size)
  }

  /** One click with `n` courses listed. Previous and next are clamped;
      choosing a size goes back to the first page. */
  function Click(st: Pager, ev: PagerEvent, n: nat): (r: Pager)
    requires st.size > 0
    requires ev.Resize? ==> ev.size in PageSizes
    ensures ev.Resize? ==> r == Pager(1, ev.size)
    ensures !ev.Resize? ==> r.size == st.size
    ensures InRange(st, n) ==> InRange(r, n)
    ensures ev.Next? && InRange(st, n) ==>
      r.page == (if st.page < PageCount(n, st.size) then st.page + 1 else st.page)
    ensures ev.Previous? && InRange(st, n) ==> r.page == (if st.page > 1 then st.page - 1 else 1)
  {
    var total := PageCount(n, st.size);
    match ev
    case First => st.(page := 1)
    case Previous => st.(page := PrevPage(st.page))
    case Next => st.(page := NextPage(st.page, total))
    case Last => st.(page := total)
    case Resize(size) => Pager(1, size)
  }

  lemma InitialInRange(n: nat)
    ensures InRange(InitialPager, n)
  {
  }

  /** The "Showing … to …" labels of the table: the first is not clamped,
      the second is. */
  function Showing(st: Pager, n: nat): (r: (nat, nat))
    requires st.page >= 1
    ensures r.1 <= n && r.1 <= st.page * st.size
    ensures r.0 == PageStart(st.page, st.size) + 1
  {
    (PageStart(st.page, st.size) + 1, PageEnd(n, st.page, st.size))
  }

  /** On a page in range of a non-empty list, the labels count exactly the
      courses the page shows, and the first label is the first shown
      course's position. */
  lemma ShowingCountsPage(items: seq<CardCourse>, st: Pager)
    requires InRange(st, |items|) && |items| > 0
    ensures var (from, to) := Showing(st, |items|);
      && 1 <= from <= to <= |items|
      && to - from + 1 == |PageOf(items, st.page, st.size)|
      && PageOf(items, st.page, st.size)[0] == items[from - 1]
  {
    PagesUpToCountAreFilled(items, st.size, st.page);
  }

  /** When the list shrinks under the current page, the first label runs
      past the second. */
  lemma ShowingAfterShrink()
    ensures Showing(Pager(2, 5), 5) == (6, 5)
  {
  }

  // ---------------------------------------------------------------------------
  // The dashboard home: five courses a page

  const PerPage: nat := 5

  /** `Math.ceil(n / 5)`, which is 0 for an empty list. */
  function DashboardPages(n: nat): (r: nat)
    ensures n > 0 ==> r == PageCount(n, PerPage)
    ensures n == 0 ==> r == 0
  {
    if n == 0 then 0 else PageCount(n, PerPage)
  }

  /** The pagination controls appear only beyond one page. */
  predicate DashboardControls(n: nat) {
    n > PerPage
  }

  /** The dashboard's labels, both clamped to the list length. */
  function DashboardShowing(page: nat, n: nat): (r: (nat, nat))
    requires page >= 1
    ensures r.0 == Min(PageStart(page, PerPage) + 1, n) && r.1 == PageEnd(n, page, PerPage)
    ensures r.0 <= n && r.1 <= n
  {
    (Min(PageStart(page, PerPage) + 1, n), PageEnd(n, page, PerPage))
  }

  function DashboardNext(page: nat, n: nat): (r: nat) {
    Min(page + 1, DashboardPages(n))
  }

  function DashboardPrevious(page: nat): (r: nat) {
    Max(page - 1, 1)
  }

  /** With the controls shown, the buttons keep the page among the
      dashboard's pages, and both moves undo each other away from the ends. */
  lemma DashboardMovesInRange(page: nat, n: nat)
    requires DashboardControls(n) && 1 <= page <= DashboardPages(n)
    ensures 1 <= DashboardNext(page, n) <= DashboardPages(n)
    ensures 1 <= DashboardPrevious(page) <= DashboardPages(n)
    ensures page < DashboardPages(n) ==> DashboardPrevious(DashboardNext(page, n)) == page
    ensures page > 1 ==> DashboardNext(DashboardPrevious(page), n) == page
  {
  }

  /** Unlike the table, the dashboard never shows a first label beyond the
      list. */
  lemma DashboardShowingClamped(page: nat, n: nat)
    requires page >= 1 && n > 0
    ensures 1 <= DashboardShowing(page, n).0 <= n
    ensures page <= DashboardPages(n) ==> DashboardShowing(page, n).0 <= DashboardShowing(page, n).1
  {
    if page <= DashboardPages(n) {
      var items := seq(n, i => i);
      PagesUpToCountAreFilled(items, PerPage, page);
    }
  }

  /** The dashboard's figures: each missing (or zero) server field reads 0. */
  datatype DashboardStats = DashboardStats(totalCourses: int, totalStudents: int)

  function ReadStats(totalCourses: Option<int>, totalStudents: Option<int>): (r: DashboardStats)
    ensures totalCourses.None? ==> r.totalCourses == 0
    ensures totalStudents.None? ==> r.totalStudents == 0
    ensures totalCourses.Some? ==> r.totalCourses == totalCourses.value
    ensures totalStudents.Some? ==> r.totalStudents == totalStudents.value
  {
    DashboardStats(totalCourses.GetOr(0), totalStudents.GetOr(0))
  }

  // ---------------------------------------------------------------------------
  // Course card figures

  predicate IsVideo(l: CardLesson) {
    l.kind == "video"
  }

  /** The video lessons of one lesson list. */
  function VideosIn(ls: seq<CardLesson>): (r: nat)
    ensures r <= |ls|
    ensures r == 0 <==> forall i :: 0 <= i < |ls| ==> !IsVideo(ls[i])
    ensures r == |ls| <==> forall i :: 0 <= i < |ls| ==> IsVideo(ls[i])
  {
    if |ls| == 0 then 0
    else
      var rest := VideosIn(ls[1..]);
      assert forall i :: 1 <= i < |ls| ==> ls[i] == ls[1..][i - 1];
      (if IsVideo(ls[0]) then 1 else 0) + rest
  }

  function VideosInSections(ss: seq<CardSection>): (r: nat) {
    if |ss| == 0 then 0
    else (if ss[0].lessons.Some? then VideosIn(ss[0].lessons.value) else 0) + VideosInSections(ss[1..])
  }

  /** All lessons of the sections that have a lesson list. */
  function LessonsOf(ss: seq<CardSection>): seq<CardLesson> {
    if |ss| == 0 then []
    else (if ss[0].lessons.Some? then ss[0].lessons.value else []) + LessonsOf(ss[1..])
  }

  /** `getTotalVideos`: the video lessons across the sections. */
  function TotalVideos(c: CardCourse): (r: nat)
    ensures c.sections.None? ==> r == 0
    ensures c.sections.Some? ==> r == VideosIn(LessonsOf(c.sections.value))
  {
    if c.sections.None? then 0
    else
      VideosOfSections(c.sections.value);
      VideosInSections(c.sections.value)
  }

  lemma {:induction false} VideosInConcat(a: seq<CardLesson>, b: seq<CardLesson>)
    ensures VideosIn(a + b) == VideosIn(a) + VideosIn(b)
    decreases |a|
  {
    if |a| > 0 {
      assert (a + b)[1..] == a[1..] + b;
      VideosInConcat(a[1..], b);
    } else {
      assert a + b == b;
    }
  }

  /** Counting section by section counts the flattened lessons. */
  lemma {:induction false} VideosOfSections(ss: seq<CardSection>)
    ensures VideosInSections(ss) == VideosIn(LessonsOf(ss))
    decreases |ss|
  {
    if |ss| > 0 {
      VideosOfSections(ss[1..]);
      VideosInConcat(if ss[0].lessons.Some? then ss[0].lessons.value else [], LessonsOf(ss[1..]));
    }
  }

  /** The minutes and seconds one lesson adds: a video lesson with a
      non-empty duration contributes the two `Number`s around its first
      colon (a missing field is `undefined`); any other lesson adds
      nothing. */
  function LessonFields(l: CardLesson): (Num, Num) {
    if IsVideo(l) && l.duration.Some? && l.duration.value != "" then
      var parts := Split(l.duration.value, ':');
      (FieldAt(parts, 0), FieldAt(parts, 1))
    else (Int(0), Int(0))
  }

  /** The running minute and second totals over a lesson list. */
  function SumFields(ls: seq<CardLesson>): (r: (Num, Num))
    ensures r.0.Int? <==> forall i :: 0 <= i < |ls| ==> LessonFields(ls[i]).0.Int?
    ensures r.1.Int? <==> forall i :: 0 <= i < |ls| ==> LessonFields(ls[i]).1.Int?
  {
    if |ls| == 0 then (Int(0), Int(0))
    else
      var rest := SumFields(ls[1..]);
      assert forall i :: 1 <= i < |ls| ==> ls[i] == ls[1..][i - 1];
      var f := LessonFields(ls[0]);
      (Add(f.0, rest.0), Add(f.1, rest.1))
  }

  /** `getTotalDuration`: "00:00" without a section list; the server's
      `total_duration` when it is non-empty; otherwise the video minutes and
      seconds summed, whole minutes of the seconds carried over, each
      padded to two characters. The page defines it but never calls it; the
      table prints the server's text instead (`ShownDuration`). */
  function CardDuration(c: CardCourse): (r: string)
    ensures c.sections.None? ==> r == "00:00"
    ensures c.sections.Some? && c.totalDuration.Some? && c.totalDuration.value != "" ==> r == c.totalDuration.value
  {
    if c.sections.None? then "00:00"
    else if c.totalDuration.Some? && c.totalDuration.value != "" then c.totalDuration.value
    else ShowTotals(SumFields(LessonsOf(c.sections.value)))
  }

  lemma CardDurationFallback(c: CardCourse)
    requires c.sections.Some? && (c.totalDuration.None? || c.totalDuration.value == "")
    ensures CardDuration(c) == ShowTotals(SumFields(LessonsOf(c.sections.value)))
  {
  }

  /** The figure drawn from the minute and second totals. */
  function ShowTotals(sums: (Num, Num)): string {
    var minutes := Add(sums.0, FloorDiv(sums.1, 60));
    var seconds := Rem(sums.1, 60);
    PadStart2(Show(minutes)) + ":" + PadStart2(Show(seconds))
  }

  /** The client-side total agrees with the server's "MM:SS" format of the
      total seconds whenever every field is a number and both sums are
      non-negative. */
  lemma CardDurationMatchesServerFormat(c: CardCourse, m: int, s: int)
    requires c.sections.Some? && (c.totalDuration.None? || c.totalDuration.value == "")
    requires SumFields(LessonsOf(c.sections.value)) == (Int(m), Int(s)) && m >= 0 && s >= 0
    ensures CardDuration(c) == Durations.FormatMmSs(60 * m + s)
  {
    CardDurationFallback(c);
    TotalsMatchServerFormat(m, s);
  }

  lemma TotalsMatchServerFormat(m: int, s: int)
    requires m >= 0 && s >= 0
    ensures ShowTotals((Int(m), Int(s))) == Durations.FormatMmSs(60 * m + s)
  {
    var t := 60 * m + s;
    CarryMinutes(m, s);
    assert Add(Int(m), FloorDiv(Int(s), 60)) == Int(t / 60);
    assert Rem(Int(s), 60) == Int(t % 60);
    PadStartOfNumeral(t / 60);
    PadStartOfNumeral(t % 60);
  }

  /** Carrying whole minutes out of the seconds is dividing the total. */
  lemma CarryMinutes(m: int, s: int)
    requires s >= 0
    ensures (60 * m + s) / 60 == m + s / 60 && (60 * m + s) % 60 == s % 60
  {
    var t := 60 * m + s;
    assert t == 60 * (m + s / 60) + s % 60;
  }

  /** Once the seconds total is `NaN`, both fields of the figure are. */
  lemma NaNSecondsShowNaN(minutes: Num)
    ensures ShowTotals((minutes, NaN)) == "NaN:NaN"
  {
    assert PadStart2("NaN") == "NaN";
  }

  /** One video lesson whose seconds are not a number spoils the whole
      figure. */
  lemma BadSecondsSpoilFigure(c: CardCourse, i: nat)
    requires c.sections.Some? && (c.totalDuration.None? || c.totalDuration.value == "")
    requires i < |LessonsOf(c.sections.value)| && LessonFields(LessonsOf(c.sections.value)[i]).1 == NaN
    ensures CardDuration(c) == "NaN:NaN"
  {
    var sums := SumFields(LessonsOf(c.sections.value));
    assert sums.1 == NaN;
    CardDurationFallback(c);
    NaNSecondsShowNaN(sums.0);
  }

  /** A video duration with no seconds field turns the whole figure into
      `NaN`, and so does one whose seconds are not a number. */
  lemma MalformedDurationShowsNaN()
    ensures CardDuration(CardCourse(None, Some([CardSection(Some([CardLesson("video", Some("5"))]))]), None)) == "NaN:NaN"
    ensures CardDuration(CardCourse(None, Some([CardSection(Some([CardLesson("video", Some("a:b"))]))]), None)) == "NaN:NaN"
  {
    NoSecondsShowsNaN();
    LetterSecondsShowNaN();
  }

  /** A duration without a `:` has no seconds field. */
  lemma NoSecondsShowsNaN()
    ensures CardDuration(CardCourse(None, Some([CardSection(Some([CardLesson("video", Some("5"))]))]), None)) == "NaN:NaN"
  {
    var noSeconds := CardLesson("video", Some("5"));
    SplitNoSep("5", ':');
    assert LessonFields(noSeconds).1 == NaN;
    assert LessonsOf([CardSection(Some([noSeconds]))]) == [noSeconds];
    BadSecondsSpoilFigure(CardCourse(None, Some([CardSection(Some([noSeconds]))]), None), 0);
  }

  /** Seconds spelled with a letter are not a number. */
  lemma LetterSecondsShowNaN()
    ensures CardDuration(CardCourse(None, Some([CardSection(Some([CardLesson("video", Some("a:b"))]))]), None)) == "NaN:NaN"
  {
    var notNumbers := CardLesson("video", Some("a:b"));
    Durations.SplitTwo("a", "b");
    NonNumeralIsNaN("b");
    assert LessonFields(notNumbers).1 == NaN;
    assert LessonsOf([CardSection(Some([notNumbers]))]) == [notNumbers];
    BadSecondsSpoilFigure(CardCourse(None, Some([CardSection(Some([notNumbers]))]), None), 0);
  }

  /** With no video lessons the figure is "00:00" whatever the other lessons
      hold. */
  lemma NoVideosNoDuration(c: CardCourse)
    requires c.sections.Some? && (c.totalDuration.None? || c.totalDuration.value == "")
    requires TotalVideos(c) == 0
    ensures CardDuration(c) == "00:00"
  {
    var ls := LessonsOf(c.sections.value);
    NoVideoSumsZero(ls);
    CardDurationFallback(c);
    TotalsMatchServerFormat(0, 0);
    assert Durations.FormatMmSs(0) == "00:00";
  }

  lemma {:induction false} NoVideoSumsZero(ls: seq<CardLesson>)
    requires forall i :: 0 <= i < |ls| ==> !IsVideo(ls[i])
    ensures SumFields(ls) == (Int(0), Int(0))
    decreases |ls|
  {
    if |ls| > 0 {
      NoVideoSumsZero(ls[1..]);
    }
  }

  // ---------------------------------------------------------------------------
  // What the course table prints

  /** `course.total_lessons || getTotalVideos(course)`: the server's lesson
      count when it is a non-zero number, else the video lessons counted on
      the client. */
  function ShownVideoCount(totalLessons: Option<int>, c: CardCourse): (r: int)
    ensures totalLessons.Some? && totalLessons.value != 0 ==> r == totalLessons.value
    ensures totalLessons.None? || totalLessons.value == 0 ==> r == TotalVideos(c)
    ensures r == 0 <==> (totalLessons.None? || totalLessons.value == 0) && TotalVideos(c) == 0
  {
    if totalLessons.Some? && totalLessons.value != 0 then totalLessons.value else TotalVideos(c)
  }

  /** `{course?.total_duration} total`: the server's text as sent, nothing
      when it is absent, followed by " total". */
  function ShownDuration(c: CardCourse): (r: string)
    ensures |r| >= 6 && r[|r| - 6..] == " total"
    ensures c.totalDuration.Some? ==> r[..|r| - 6] == c.totalDuration.value
    ensures c.totalDuration.None? ==> r == " total"
  {
    (if c.totalDuration.Some? then c.totalDuration.value else "") + " total"
  }

  /** The printed duration never looks at the lessons: without a server
      total the table shows a bare " total", even where `getTotalDuration`
      would have summed the video lessons. */
  lemma TableIgnoresLessons(c: CardCourse, d: CardCourse)
    requires c.totalDuration == d.totalDuration
    ensures ShownDuration(c) == ShownDuration(d)
    ensures c.sections.Some? && c.totalDuration.None? ==>
      ShownDuration(c) == " total" && CardDuration(c) == ShowTotals(SumFields(LessonsOf(c.sections.value)))
  {
    if c.sections.Some? && c.totalDuration.None? {
      CardDurationFallback(c);
    }
  }
}

=== FILE: instructor_stats.dfy ===
/** The instructor dashboard numbers (`InstructorStatsView.get`): course
    counts, distinct students, the courses the average rating is taken over,
    and the six-month calendar the chart is drawn on. The random view and
    trend figures and the floating-point revenue and rating are not part of
    this model. */
module InstructorStats {
  import opened People

  /** A month of a year, `month` in 1..12. */
  datatype YearMonth = YearMonth(month: int, year: int)

  /** Months since the start of year 0, so consecutive months differ by one. */
  function Index(ym: YearMonth): int {
    ym.year * 12 + ym.month - 1
  }

  /** The `i`-th month back from the current one: `(current - i) % 12` with 0
      read as 12, in the current year when it is not after the current month
      and in the previous year otherwise. Python's `%` is Dafny's here, the
      divisor being positive. */
  function MonthsBack(current: YearMonth, i: nat): (r: YearMonth)
    requires 1 <= current.month <= 12 && i < 6
    ensures 1 <= r.month <= 12
    ensures Index(r) == Index(current) - i
    ensures i == 0 ==> r == current
  {
    var m := (current.month - i) % 12;
    var month := if m == 0 then 12 else m;
    var year := if month <= current.month then current.year else current.year - 1;
    YearMonth(month, year)
  }

  /** The six months of the chart, built newest first and then reversed. */
  function MonthSeries(current: YearMonth): (r: seq<YearMonth>)
    requires 1 <= current.month <= 12
    ensures |r| == 6 && r[5] == current
    ensures forall k :: 0 <= k < 6 ==> 1 <= r[k].month <= 12 && Index(r[k]) == Index(current) - (5 - k)
  {
    var newestFirst := seq(6, i requires 0 <= i < 6 => MonthsBack(current, i));
    Reverse(newestFirst)
  }

  function Reverse<T>(s: seq<T>): (r: seq<T>)
    ensures |r| == |s| && forall k :: 0 <= k < |s| ==> r[k] == s[|s| - 1 - k]
  {
    if |s| == 0 then [] else Reverse(s[1..]) + [s[0]]
  }

  /** Consecutive entries of the series are consecutive calendar months, the
      year rolling over after December. */
  lemma SeriesIsChronological(current: YearMonth, k: nat)
    requires 1 <= current.month <= 12 && k < 5
    ensures var s := MonthSeries(current);
      if s[k].month == 12 then s[k + 1] == YearMonth(1, s[k].year + 1)
      else s[k + 1] == YearMonth(s[k].month + 1, s[k].year)
  {
    var s := MonthSeries(current);
    assert Index(s[k + 1]) == Index(s[k]) + 1;
  }

  /** What the statistics read of a course row. */
  datatype CourseRow = CourseRow(instructor: nat, isPublished: bool, ratingCount: nat)

  datatype Stats = Stats(totalCourses: nat, totalStudents: nat, publishedCourses: nat,
                         draftCourses: int, rated: set<nat>, months: seq<YearMonth>)

  function CoursesOf(courses: map<nat, CourseRow>, staff: nat): set<nat> {
    set c | c in courses && courses[c].instructor == staff
  }

  function PublishedOf(courses: map<nat, CourseRow>, staff: nat): set<nat> {
    set c | c in courses && courses[c].instructor == staff && courses[c].isPublished
  }

  function DraftsOf(courses: map<nat, CourseRow>, staff: nat): set<nat> {
    set c | c in courses && courses[c].instructor == staff && !courses[c].isPublished
  }

  /** Every course of the instructor is either published or a draft. */
  lemma PublishedPlusDrafts(courses: map<nat, CourseRow>, staff: nat)
    ensures |CoursesOf(courses, staff)| == |PublishedOf(courses, staff)| + |DraftsOf(courses, staff)|
  {
    var mine, published, drafts := CoursesOf(courses, staff), PublishedOf(courses, staff), DraftsOf(courses, staff);
    assert mine == published + drafts;
    assert published !! drafts;
  }

  /** The students enrolled in any of the instructor's courses, each once. */
  function StudentsOf(courses: map<nat, CourseRow>, enrollments: set<(nat, nat)>, staff: nat): set<nat> {
    set e | e in enrollments && e.1 in courses && courses[e.1].instructor == staff :: e.0
  }

  /** `InstructorStatsView.get`: 401 for an anonymous caller, 404 without a
      staff record, otherwise 200 and the figures. Enrollment rows are
      (student, course) pairs. */
  function InstructorStats(courses: map<nat, CourseRow>, enrollments: set<(nat, nat)>,
                           caller: Caller, current: YearMonth): (r: (Stats, nat))
    requires 1 <= current.month <= 12
    ensures r.1 == 401 <==> caller.Anonymous?
    ensures r.1 == 404 <==> caller.Member? && caller.staffPk.None?
    ensures r.1 == 200 <==> caller.Member? && caller.staffPk.Some?
    ensures r.1 == 200 ==>
      var mine := CoursesOf(courses, caller.staffPk.value);
      && r.0.totalCourses == |mine|
      && r.0.totalStudents == |StudentsOf(courses, enrollments, caller.staffPk.value)|
      && r.0.publishedCourses + r.0.draftCourses == r.0.totalCourses
      && r.0.publishedCourses == |PublishedOf(courses, caller.staffPk.value)|
      && r.0.draftCourses == |DraftsOf(courses, caller.staffPk.value)|
      && (forall c :: c in r.0.rated <==> c in mine && courses[c].isPublished && courses[c].ratingCount > 0)
      && (forall s :: s in StudentsOf(courses, enrollments, caller.staffPk.value) <==>
            exists c :: c in mine && (s, c) in enrollments)
      && r.0.months == MonthSeries(current)
  {
    match caller
    case Anonymous => (Stats(0, 0, 0, 0, {}, []), 401)
    case Member(_, staffPk, _) =>
      if staffPk.None? then (Stats(0, 0, 0, 0, {}, []), 404)
      else
        var staff := staffPk.value;
        var mine := CoursesOf(courses, staff);
        var published := PublishedOf(courses, staff);
        var rated := set c | c in published && courses[c].ratingCount > 0;
        var students := StudentsOf(courses, enrollments, staff);
        PublishedPlusDrafts(courses, staff);
        assert forall s :: s in students <==> exists c :: c in mine && (s, c) in enrollments by {
          forall s ensures s in students <==> exists c :: c in mine && (s, c) in enrollments {
            if s in students {
              var e :| e in enrollments && e.1 in courses && courses[e.1].instructor == staff && e.0 == s;
              assert e.1 in mine && (s, e.1) in enrollments;
            }
          }
        }
        (Stats(|mine|, |students|, |published|, |mine| - |published|, rated, MonthSeries(current)), 200)
  }

  /** A student is counted once however many of the instructor's courses they
      take, so the count never exceeds the number of those enrollments. */
  lemma {:induction false} StudentsAtMostEnrollments(rows: set<(nat, nat)>)
    ensures |set e | e in rows :: e.0| <= |rows|
    decreases |rows|
  {
    if rows != {} {
      var e :| e in rows;
      var rest := rows - {e};
      StudentsAtMostEnrollments(rest);
      assert (set x | x in rows :: x.0) == (set x | x in rest :: x.0) + {e.0};
    }
  }

  /** The instructor's student count is at most their number of enrollments. */
  lemma TotalStudentsBound(courses: map<nat, CourseRow>, enrollments: set<(nat, nat)>, staff: nat)
    ensures |StudentsOf(courses, enrollments, staff)| <=
            |set e | e in enrollments && e.1 in courses && courses[e.1].instructor == staff|
  {
    var rows := set e | e in enrollments && e.1 in courses && courses[e.1].instructor == staff;
    StudentsAtMostEnrollments(rows);
    assert StudentsOf(courses, enrollments, staff) == set e | e in rows :: e.0;
  }

  /** A new enrollment in one of the instructor's courses raises the student
      count by one exactly when the student was not counted yet. */
  lemma EnrollingCountsOnce(courses: map<nat, CourseRow>, enrollments: set<(nat, nat)>, staff: nat,
                            student: nat, course: nat)
    requires course in courses && courses[course].instructor == staff
    ensures var before := StudentsOf(courses, enrollments, staff);
      var after := StudentsOf(courses, enrollments + {(student, course)}, staff);
      && after == before + {student}
      && |after| == if student in before then |before| else |before| + 1
  {
    var before := StudentsOf(courses, enrollments, staff);
    var after := StudentsOf(courses, enrollments + {(student, course)}, staff);
    assert student in after;
    assert after == before + {student};
    if student in before {
      assert after == before;
    } else {
      assert |before + {student}| == |before| + |{student}|;
    }
  }
}

=== FILE: js_number.dfy ===
/** The slice of JavaScript number semantics the frontend's duration
    arithmetic relies on: `Number(text)`, `+`, `Math.floor(x / d)`, the
    remainder `%` (which truncates toward zero), `toString` and
    `padStart(2, "0")`. Values are integers or `NaN`; an `undefined` operand
    behaves as `NaN` in this arithmetic. */
module JsNumber {
  import opened Wrappers
  import opened Text

  datatype Num = Int(v: int) | NaN

  /** `Number(s)` on text: blank text is 0, an optionally signed run of
      decimal digits (surrounding whitespace ignored) is its value, and
      everything else is `NaN`. Fractions, exponents, hexadecimal and
      `Infinity` are outside this model. */
  function ToNumber(s: string): (r: Num)
    ensures AllSpace(s) ==> r == Int(0)
    ensures !AllSpace(s) ==> (r.Int? <==> ParseInt(s).Some?)
    ensures !AllSpace(s) && r.Int? ==> ParseInt(s) == Some(r.v)
  {
    TrimEmptyIff(s);
    if Trim(s) == "" then Int(0)
    else match ParseInt(s)
      case Some(v) => Int(v)
      case None => NaN
  }

  /** A string that starts with neither a sign, a digit nor whitespace, and
      does not end in whitespace, is not a number. */
  lemma NonNumeralIsNaN(s: string)
    requires |s| > 0 && !IsSpace(s[0]) && !IsSpace(s[|s| - 1])
    requires !IsDigit(s[0]) && s[0] != '-' && s[0] != '+'
    ensures ToNumber(s) == NaN
  {
    TrimNoEdgeSpace(s);
    assert !AllSpace(s);
    assert !AllDigits(s);
  }

  /** Every integer's numeral reads back as that integer. */
  lemma ToNumberOfNumeral(n: int)
    ensures ToNumber(IntToString(n)) == Int(n)
  {
    ParseIntOfString(n);
    if n < 0 {
      assert !IsSpace(IntToString(n)[0]);
    } else {
      assert !IsSpace(NatToString(n)[0]);
    }
  }

  /** Element `i` of `parts.map(Number)` as array destructuring reads it:
      a missing element is `undefined`. */
  function FieldAt(parts: seq<string>, i: nat): (r: Num)
    ensures i >= |parts| ==> r == NaN
    ensures i < |parts| ==> r == ToNumber(parts[i])
  {
    if i < |parts| then ToNumber(parts[i]) else NaN
  }

  function Add(a: Num, b: Num): (r: Num)
    ensures r.Int? <==> a.Int? && b.Int?
    ensures r.Int? ==> r.v == a.v + b.v
  {
    if a.Int? && b.Int? then Int(a.v + b.v) else NaN
  }

  function Scale(a: Num, k: int): (r: Num)
    ensures r.Int? <==> a.Int?
    ensures r.Int? ==> r.v == a.v * k
  {
    if a.Int? then Int(a.v * k) else NaN
  }

  /** `Math.floor(a / d)` for a positive integer divisor. */
  function FloorDiv(a: Num, d: nat): (r: Num)
    requires d > 0
    ensures r.Int? <==> a.Int?
    ensures r.Int? ==> r.v * d <= a.v < r.v * d + d
  {
    if a.Int? then Int(a.v / d) else NaN
  }

  /** `a % d` for a positive integer divisor: the remainder takes the sign of
      `a`, so a negative value's remainder is minus its magnitude's. */
  function Rem(a: Num, d: nat): (r: Num)
    requires d > 0
    ensures r.Int? <==> a.Int?
    ensures r.Int? && a.v >= 0 ==> 0 <= r.v < d
    ensures r.Int? && a.v < 0 ==> r.v + d > 0 && r.v <= 0
  {
    if a.Int? then
      if a.v >= 0 then Int(a.v % d) else Int(-((-a.v) % d))
    else NaN
  }

  /** The remainder of a negated value is the negated remainder, unlike
      Dafny's and Python's `%`. */
  lemma RemOfNegation(a: int, d: nat)
    requires d > 0
    ensures Rem(Int(-a), d).v == -Rem(Int(a), d).v
  {
  }

  /** For a non-negative value, the floored quotient and the remainder
      recombine into it. */
  lemma FloorRemRecombine(a: int, d: nat)
    requires a >= 0 && d > 0
    ensures FloorDiv(Int(a), d).v * d + Rem(Int(a), d).v == a
  {
    assert Rem(Int(a), d).v == a % d;
    assert FloorDiv(Int(a), d).v == a / d;
  }

  /** `n.toString()`. */
  function Show(n: Num): (r: string)
    ensures n.NaN? ==> r == "NaN"
    ensures n.Int? ==> ToNumber(r) == n
  {
    match n
    case NaN => "NaN"
    case Int(v) => ToNumberOfNumeral(v); IntToString(v)
  }

  /** `s.padStart(2, "0")`. */
  function PadStart2(s: string): (r: string)
    ensures |s| >= 2 ==> r == s
    ensures |s| < 2 ==> |r| == 2 && r[2 - |s|..] == s && forall i :: 0 <= i < 2 - |s| ==> r[i] == '0'
  {
    if |s| >= 2 then s else if |s| == 1 then "0" + s else "00"
  }

  /** For a value in 0..99 the padded text is the two-digit `Pad2` form. */
  lemma PadStart2OfSmall(v: int)
    requires 0 <= v < 100
    ensures PadStart2(Show(Int(v))) == Pad2(v)
  {
  }

  /** Padding a non-negative value's text matches the two-digit format. */
  lemma PadStartOfNumeral(v: int)
    requires v >= 0
    ensures PadStart2(Show(Int(v))) == Pad2(v)
  {
    if v < 100 {
      PadStart2OfSmall(v);
    } else {
      assert |NatToString(v)| >= 2 by {
        assert !(v < 10);
      }
    }
  }
}

=== FILE: json_values.dfy ===
/** JSON values as Python's `json.loads` produces them, with Python's
    truthiness and dictionary-key identity on those values. Numbers are
    integers only. */
module Json {
  import opened Wrappers
  import opened Text

  datatype JVal =
    | JNull
    | JBool(b: bool)
    | JInt(n: int)
    | JStr(s: string)
    | JList(items: seq<JVal>)
    | JObj(fields: map<string, JVal>)

  /** Python `bool(v)`: null, false, 0 and empty containers are falsy. */
  predicate Truthy(v: JVal) {
    match v
    case JNull => false
    case JBool(b) => b
    case JInt(n) => n != 0
    case JStr(s) => |s| > 0
    case JList(xs) => |xs| > 0
    case JObj(m) => |m| > 0
  }

  /** A hashable value as a Python dictionary sees it: `True` and `1` are the
      same key, and so are `False` and `0`. */
  datatype Key = KNone | KInt(n: int) | KStr(s: string)

  /** The dictionary key a value stands for; `None` when the value is a list
      or a dict, which Python refuses to hash. */
  function KeyOf(v: JVal): (r: Option<Key>)
    ensures r.None? <==> v.JList? || v.JObj?
  {
    match v
    case JNull => Some(KNone)
    case JBool(b) => Some(KInt(if b then 1 else 0))
    case JInt(n) => Some(KInt(n))
    case JStr(s) => Some(KStr(s))
    case JList(_) => None
    case JObj(_) => None
  }

  /** Apart from booleans, distinct hashable values are distinct keys. */
  lemma KeyOfInjective(v: JVal, w: JVal)
    requires KeyOf(v).Some? && KeyOf(v) == KeyOf(w) && !v.JBool? && !w.JBool?
    ensures v == w
  {
  }

  /** Python's type name of a value, as it appears in exception messages. */
  function TypeName(v: JVal): string {
    match v
    case JNull => "NoneType"
    case JBool(_) => "bool"
    case JInt(_) => "int"
    case JStr(_) => "str"
    case JList(_) => "list"
    case JObj(_) => "dict"
  }

  /** `str(e)` of the `TypeError` raised when `v` is used as a dictionary key. */
  function UnhashableMessage(v: JVal): string {
    "unhashable type: '" + TypeName(v) + "'"
  }

  /** `str(e)` of the `AttributeError` raised by `v.get(...)` on a non-dict. */
  function NoGetMessage(v: JVal): string {
    "'" + TypeName(v) + "' object has no attribute 'get'"
  }

  /** Python `d.get(k, default)` on a dict. */
  function GetOr(fields: map<string, JVal>, k: string, default: JVal): (r: JVal)
    ensures k !in fields ==> r == default
    ensures k in fields ==> r == fields[k]
  {
    if k in fields then fields[k] else default
  }

  /** Python `d.get(k)`: a missing key reads as `None`. */
  function Get(fields: map<string, JVal>, k: string): JVal {
    GetOr(fields, k, JNull)
  }

  /** True and 1 collide as registry keys although they are different JSON values. */
  lemma TrueCollidesWithOne()
    ensures JBool(true) != JInt(1) && KeyOf(JBool(true)) == KeyOf(JInt(1))
  {
  }

  /** How the ORM reads a JSON value used as an integer primary key in
      `objects.get(id=v)`: integers and booleans directly, strings through
      `int()`, `None` matches no row, and anything else raises. */
  datatype IdLookup = NoRowMatches | LookupId(id: int) | LookupRaises

  function CoerceId(v: JVal): (r: IdLookup)
    ensures v.JInt? ==> r == LookupId(v.n)
    ensures v.JList? || v.JObj? ==> r == LookupRaises
  {
    match v
    case JNull => NoRowMatches
    case JBool(b) => LookupId(if b then 1 else 0)
    case JInt(n) => LookupId(n)
    case JStr(s) => (match ParseInt(s) case Some(n) => LookupId(n) case None => LookupRaises)
    case JList(_) => LookupRaises
    case JObj(_) => LookupRaises
  }

  /** Python `str(v)` of a scalar; `None` for a list or a dict, whose printed
      form the model does not spell out. */
  function PyStr(v: JVal): (r: Option<string>)
    ensures r.None? <==> v.JList? || v.JObj?
    ensures v.JStr? ==> r == Some(v.s)
  {
    match v
    case JNull => Some("None")
    case JBool(b) => Some(if b then "True" else "False")
    case JInt(n) => Some(IntToString(n))
    case JStr(s) => Some(s)
    case JList(_) => None
    case JObj(_) => None
  }
}

=== FILE: learning_paths.dfy ===
/** Saved learning paths (`LearningPathView`, `LearningPathDetailView`):
    a student's own paths, created with the generated plan, read, renamed or
    starred, and deleted. Paths owned by another student look missing. The
    table is a map from primary key to record. `path_data` is a text column:
    the view stores what it is sent as text and parses it back with
    `json.loads` when a path is read; Python's `str()` of a value that is not
    a string, and `json.loads` itself, are parameters. Keys grow with
    creation time, so newest first is descending key order. */
module LearningPaths {
  import opened Wrappers
  import opened Text
  import opened Json
  import opened People

  datatype LearningPath = LearningPath(
    student: nat, title: Option<string>,
    learningGoal: Option<string>, background: Option<string>,
    timeCommitment: Option<string>, preferredStyle: Option<string>,
    pathData: string, isFavorite: bool, createdAt: int)

  type Paths = map<nat, LearningPath>

  /** The title every view shows: the stored title when it is a non-empty
      string, otherwise "Learning Path <id>". */
  function DisplayTitle(id: nat, p: LearningPath): (r: string)
    ensures Filled(p.title) ==> r == p.title.value
    ensures !Filled(p.title) ==> IsPrefix("Learning Path ", r) && ParseInt(r[|"Learning Path "|..]) == Some(id)
    ensures |r| > 0
  {
    if Filled(p.title) then p.title.value
    else
      var r := "Learning Path " + IntToString(id);
      ParseIntOfString(id);
      assert r[|"Learning Path "|..] == IntToString(id);
      r
  }

  /** How the views find the caller's student record: an anonymous caller
      makes the lookup itself raise (500), a caller without one is refused
      (403). */
  datatype StudentLookup = Raises | NotStudent | StudentPk(pk: nat)

  function LookupStudent(caller: Caller): (r: StudentLookup)
    ensures r == Raises <==> caller.Anonymous?
    ensures r == NotStudent <==> caller.Member? && caller.studentPk.None?
    ensures r.StudentPk? ==> caller.Member? && caller.studentPk == Some(r.pk)
  {
    match caller
    case Anonymous => Raises
    case Member(_, _, studentPk) => if studentPk.Some? then StudentPk(studentPk.value) else NotStudent
  }

  /** A finite set of keys has a largest element. */
  lemma {:induction false} HasMax(ids: set<nat>)
    requires ids != {}
    ensures exists m :: m in ids && forall k :: k in ids ==> k <= m
    decreases ids
  {
    var x :| x in ids;
    if ids - {x} != {} {
      HasMax(ids - {x});
      var m :| m in ids - {x} && forall k :: k in ids - {x} ==> k <= m;
      var top := if x > m then x else m;
      forall k | k in ids ensures k <= top {
        if k != x {
          assert k in ids - {x};
        }
      }
      assert top in ids;
    } else {
      forall k | k in ids ensures k <= x {
        assert k !in ids - {x};
      }
    }
  }

  function MaxOf(ids: set<nat>): (m: nat)
    requires ids != {}
    ensures m in ids && forall k :: k in ids ==> k <= m
  {
    HasMax(ids);
    var m :| m in ids && forall k :: k in ids ==> k <= m;
    m
  }

  /** The keys, largest first. */
  function Newest(ids: set<nat>): (r: seq<nat>)
    ensures forall k :: k in r <==> k in ids
    ensures forall i, j :: 0 <= i < j < |r| ==> r[i] > r[j]
    decreases ids
  {
    if ids == {} then []
    else
      var m := MaxOf(ids);
      var rest := Newest(ids - {m});
      assert forall i :: 0 <= i < |rest| ==> rest[i] in ids - {m};
      [m] + rest
  }

  function OwnedBy(paths: Paths, pk: nat): set<nat> {
    set id | id in paths && paths[id].student == pk
  }

  /** `LearningPathView.get`: the keys of the caller's own paths, newest
      first, as `Meta.ordering = ['-created_at']` lists them. */
  function ListPaths(paths: Paths, caller: Caller): (r: (seq<nat>, nat))
    ensures r.1 == 200 <==> LookupStudent(caller).StudentPk?
    ensures r.1 == 200 ==> forall id :: id in r.0 <==> id in paths && paths[id].student == LookupStudent(caller).pk
    ensures forall i, j :: 0 <= i < j < |r.0| ==> r.0[i] > r.0[j]
    ensures r.1 != 200 ==> r.0 == [] && (r.1 == 500 <==> caller.Anonymous?) && (r.1 == 403 <==> !caller.Anonymous?)
  {
    match LookupStudent(caller)
    case Raises => ([], 500)
    case NotStudent => ([], 403)
    case StudentPk(pk) => (Newest(OwnedBy(paths, pk)), 200)
  }

  /** Every path was created no earlier than those with smaller keys: the
      database's key counter and `auto_now_add` move together. */
  predicate Chronological(paths: Paths) {
    forall a, b :: a in paths && b in paths && a < b ==> paths[a].createdAt <= paths[b].createdAt
  }

  /** In a chronological table the list runs newest first by `created_at`. */
  lemma ListedNewestFirst(paths: Paths, caller: Caller, i: nat, j: nat)
    requires Chronological(paths)
    requires var listed := ListPaths(paths, caller).0; i < j < |listed|
    ensures var listed := ListPaths(paths, caller).0;
      listed[i] in paths && listed[j] in paths && paths[listed[i]].createdAt >= paths[listed[j]].createdAt
  {
    var listed := ListPaths(paths, caller).0;
    assert listed[i] in listed && listed[j] in listed;
  }

  /** The text a `TextField` keeps for a sent value: a string as it is, any
      other value as Python's `str()` of it, given as `pyStr`. */
  function StoredText(v: JVal, pyStr: JVal -> string): (r: string)
    ensures v.JStr? ==> r == v.s
    ensures !v.JStr? ==> r == pyStr(v)
  {
    match v
    case JStr(t) => t
    case _ => pyStr(v)
  }

  /** `LearningPathView.post`: 400 when `path_data` is missing or falsy
      (checked before the caller); otherwise the caller's new path under the
      fresh key, not starred, with the other fields as sent and the path data
      stored as text. */
  function CreatePath(paths: Paths, caller: Caller, pathData: JVal, pyStr: JVal -> string, title: Option<string>,
                      learningGoal: Option<string>, background: Option<string>,
                      timeCommitment: Option<string>, preferredStyle: Option<string>,
                      newId: nat, now: int): (r: (Paths, nat))
    requires newId !in paths
    ensures r.1 == 400 <==> !Truthy(pathData)
    ensures r.1 == 201 <==> Truthy(pathData) && LookupStudent(caller).StudentPk?
    ensures Truthy(pathData) && caller.Anonymous? ==> r.1 == 500
    ensures Truthy(pathData) && LookupStudent(caller).NotStudent? ==> r.1 == 403
    ensures r.1 != 201 ==> r.0 == paths
    ensures r.1 == 201 ==>
      && r.0.Keys == paths.Keys + {newId}
      && (forall id :: id in paths ==> r.0[id] == paths[id])
      && r.0[newId].student == LookupStudent(caller).pk && r.0[newId].pathData == StoredText(pathData, pyStr)
      && r.0[newId].createdAt == now
      && r.0[newId].title == title && !r.0[newId].isFavorite
  {
    if !Truthy(pathData) then (paths, 400)
    else match LookupStudent(caller)
      case Raises => (paths, 500)
      case NotStudent => (paths, 403)
      case StudentPk(pk) =>
        (paths[newId := LearningPath(pk, title, learningGoal, background, timeCommitment, preferredStyle, StoredText(pathData, pyStr), false, now)], 201)
  }

  /** The lookup the detail views share, `get(id=path_id, student=student)`:
      a path of another student is not found. */
  function Owned(paths: Paths, caller: Caller, id: nat): (r: nat)
    ensures r == 200 <==> LookupStudent(caller).StudentPk? && id in paths && paths[id].student == LookupStudent(caller).pk
    ensures r == 404 <==> LookupStudent(caller).StudentPk? && !(id in paths && paths[id].student == LookupStudent(caller).pk)
    ensures r == 403 <==> LookupStudent(caller).NotStudent?
    ensures r == 500 <==> caller.Anonymous?
  {
    match LookupStudent(caller)
    case Raises => 500
    case NotStudent => 403
    case StudentPk(pk) => if id in paths && paths[id].student == pk then 200 else 404
  }

  /** What the detail view serves: the record, its display title and the
      parsed path data. */
  datatype PathView = PathView(path: LearningPath, title: string, data: JVal)

  /** `LearningPathDetailView.get`: the path, its display title and
      `json.loads` of its stored text (`parse`); stored text that does not
      parse raises, which the catch-all answers with 500. */
  function PathDetail(paths: Paths, caller: Caller, id: nat, parse: string -> Option<JVal>): (r: (Option<PathView>, nat))
    ensures Owned(paths, caller, id) != 200 ==> r.1 == Owned(paths, caller, id)
    ensures r.1 == 200 <==> Owned(paths, caller, id) == 200 && parse(paths[id].pathData).Some?
    ensures Owned(paths, caller, id) == 200 && parse(paths[id].pathData).None? ==> r.1 == 500
    ensures r.0.Some? <==> r.1 == 200
    ensures r.0.Some? ==>
      && r.0.value.path == paths[id] && r.0.value.title == DisplayTitle(id, paths[id])
      && Some(r.0.value.data) == parse(paths[id].pathData)
  {
    var code := Owned(paths, caller, id);
    if code != 200 then (None, code)
    else match parse(paths[id].pathData)
      case None => (None, 500)
      case Some(data) => (Some(PathView(paths[id], DisplayTitle(id, paths[id]), data)), 200)
  }

  /** `LearningPathDetailView.delete`: removes the caller's own path only. */
  function DeletePath(paths: Paths, caller: Caller, id: nat): (r: (Paths, nat))
    ensures r.1 == Owned(paths, caller, id)
    ensures r.1 == 200 ==> r.0 == paths - {id}
    ensures r.1 != 200 ==> r.0 == paths
  {
    var code := Owned(paths, caller, id);
    if code == 200 then (paths - {id}, 200) else (paths, code)
  }

  /** `LearningPathDetailView.put`: sets `title` and `is_favorite` only when
      they are sent and not `null`; every other field stays. */
  function UpdatePath(paths: Paths, caller: Caller, id: nat, title: Option<string>, isFavorite: Option<bool>): (r: (Paths, nat))
    ensures r.1 == Owned(paths, caller, id)
    ensures r.1 != 200 ==> r.0 == paths
    ensures r.1 == 200 ==>
      && r.0.Keys == paths.Keys
      && (forall k :: k in paths && k != id ==> r.0[k] == paths[k])
      && r.0[id].title == (if title.Some? then title else paths[id].title)
      && r.0[id].isFavorite == isFavorite.GetOr(paths[id].isFavorite)
      && r.0[id].(title := paths[id].title, isFavorite := paths[id].isFavorite) == paths[id]
  {
    var code := Owned(paths, caller, id);
    if code != 200 then (paths, code)
    else
      var p := paths[id];
      var p' := p.(title := if title.Some? then title else p.title, isFavorite := isFavorite.GetOr(p.isFavorite));
      (paths[id := p'], 200)
  }

  /** Another student's path is answered exactly as if it did not exist. */
  lemma ForeignPathLooksMissing(paths: Paths, caller: Caller, id: nat)
    requires LookupStudent(caller).StudentPk? && id in paths && paths[id].student != LookupStudent(caller).pk
    ensures forall parse: string -> Option<JVal> :: PathDetail(paths, caller, id, parse) == PathDetail(paths - {id}, caller, id, parse)
    ensures DeletePath(paths, caller, id).1 == DeletePath(paths - {id}, caller, id).1 == 404
    ensures UpdatePath(paths, caller, id, Some("x"), Some(true)).1 == 404
  {
  }

  /** An update with neither field changes nothing. */
  lemma EmptyUpdateKeepsPath(paths: Paths, caller: Caller, id: nat)
    ensures UpdatePath(paths, caller, id, None, None).0 == paths
  {
    if Owned(paths, caller, id) == 200 {
      assert paths[id := paths[id]] == paths;
    }
  }

  /** Renaming to the empty string brings back the generated title. */
  lemma EmptyTitleFallsBack(paths: Paths, caller: Caller, id: nat)
    requires Owned(paths, caller, id) == 200
    ensures var updated := UpdatePath(paths, caller, id, Some(""), None).0;
      DisplayTitle(id, updated[id]) == "Learning Path " + IntToString(id)
  {
  }

  /** A path the caller created heads their list, ahead of the paths they
      had, when its key is above every key in use. */
  lemma NewPathListedFirst(paths: Paths, caller: Caller, pathData: JVal, pyStr: JVal -> string, title: Option<string>,
                           newId: nat, now: int)
    requires forall k :: k in paths ==> k < newId
    requires CreatePath(paths, caller, pathData, pyStr, title, None, None, None, None, newId, now).1 == 201
    ensures var created := CreatePath(paths, caller, pathData, pyStr, title, None, None, None, None, newId, now).0;
      ListPaths(created, caller).0 == [newId] + ListPaths(paths, caller).0
  {
    var created := CreatePath(paths, caller, pathData, pyStr, title, None, None, None, None, newId, now).0;
    var pk := LookupStudent(caller).pk;
    assert OwnedBy(created, pk) == OwnedBy(paths, pk) + {newId};
    assert MaxOf(OwnedBy(created, pk)) == newId;
    assert OwnedBy(created, pk) - {newId} == OwnedBy(paths, pk);
  }

  /** Creating a path with the largest key and a clock that has not gone
      back keeps the table chronological. */
  lemma CreateKeepsChronological(paths: Paths, caller: Caller, pathData: JVal, pyStr: JVal -> string, title: Option<string>,
                                 newId: nat, now: int)
    requires Chronological(paths)
    requires forall k :: k in paths ==> k < newId && paths[k].createdAt <= now
    ensures Chronological(CreatePath(paths, caller, pathData, pyStr, title, None, None, None, None, newId, now).0)
  {
  }

  /** A path created with text that `json.loads` reads is listed, and its
      detail answers 200 with the parsed value. */
  lemma CreatedPathReadable(paths: Paths, caller: Caller, text: string, data: JVal, pyStr: JVal -> string,
                            parse: string -> Option<JVal>, title: Option<string>, newId: nat, now: int)
    requires newId !in paths && parse(text) == Some(data)
    requires CreatePath(paths, caller, JStr(text), pyStr, title, None, None, None, None, newId, now).1 == 201
    ensures var created := CreatePath(paths, caller, JStr(text), pyStr, title, None, None, None, None, newId, now).0;
      && newId in ListPaths(created, caller).0
      && PathDetail(created, caller, newId, parse).1 == 200
      && PathDetail(created, caller, newId, parse).0.value.data == data
  {
  }

  /** Stored text that `json.loads` rejects is accepted with 201, and then
      every read of the path fails with 500: `"hello"` is such a text. */
  lemma UnparsablePathDataFails(paths: Paths, caller: Caller, pathData: JVal, pyStr: JVal -> string,
                                parse: string -> Option<JVal>, title: Option<string>, newId: nat, now: int)
    requires newId !in paths && parse(StoredText(pathData, pyStr)).None?
    requires CreatePath(paths, caller, pathData, pyStr, title, None, None, None, None, newId, now).1 == 201
    ensures var created := CreatePath(paths, caller, pathData, pyStr, title, None, None, None, None, newId, now).0;
      && newId in ListPaths(created, caller).0
      && PathDetail(created, caller, newId, parse).1 == 500
  {
  }
}

=== FILE: learning_wizard.dfy ===
/** The personalised-learning page: the four-question wizard, the two ways a
    generated path is saved, and the Markdown export. The generator's reply,
    the save requests' outcome and today's date are parameters. */
module LearningWizard {
  import opened Wrappers
  import opened Text
  import opened Lists

  /** The question ids, in the order the wizard asks them. */
  const QuestionIds: seq<string> := ["goal", "background", "timeCommitment", "preferredStyle"]

  type Answers = map<string, string>

  /** `answers[id]` is truthy. */
  predicate Answered(answers: Answers, id: string) {
    id in answers && answers[id] != ""
  }

  datatype Tab = Questions | Result

  datatype Wizard = Wizard(index: nat, answers: Answers, hasPath: bool, tab: Tab)

  /** The page as first shown, and as `resetForm` leaves it. */
  const Fresh := Wizard(0, map[], false, Questions)

  /** The question index points at one of the four questions. */
  predicate Valid(w: Wizard) {
    w.index < |QuestionIds|
  }

  /** `handleAnswer`: the given key now holds the answer; every other key
      and the rest of the page are as before. */
  function Answer(w: Wizard, id: string, answer: string): (r: Wizard)
    ensures id in r.answers && r.answers[id] == answer
    ensures forall k :: k in r.answers <==> k in w.answers || k == id
    ensures forall k :: k in w.answers && k != id ==> r.answers[k] == w.answers[k]
    ensures r.index == w.index && r.hasPath == w.hasPath && r.tab == w.tab
  {
    w.(answers := w.answers[id := answer])
  }

  /** `handlePrevious`: one question back, unless already at the first. */
  function Previous(w: Wizard): (r: Wizard)
    ensures w.index > 0 ==> r.index == w.index - 1
    ensures w.index == 0 ==> r == w
    ensures r.answers == w.answers && r.hasPath == w.hasPath && r.tab == w.tab
    ensures Valid(w) ==> Valid(r)
  {
    if w.index > 0 then w.(index := w.index - 1) else w
  }

  /** What the backend receives to store a path; `None` is a field left
      `undefined` and so absent from the JSON body. */
  datatype PathRequest = PathRequest(title: string, learningGoal: Option<string>, background: Option<string>,
                                     timeCommitment: Option<string>, preferredStyle: Option<string>)

  function Lookup(answers: Answers, id: string): (r: Option<string>)
    ensures r.Some? <==> id in answers
    ensures r.Some? ==> r.value == answers[id]
  {
    if id in answers then Some(answers[id]) else None
  }

  /** The request `generateLearningPath` sends once the generated path has
      been parsed: the answers as they are, under the question ids. */
  function AutoSave(answers: Answers, date: string): (q: PathRequest)
    ensures q.title == "Learning Path - " + date
    ensures q.learningGoal == Lookup(answers, "goal") && q.background == Lookup(answers, "background")
    ensures q.timeCommitment == Lookup(answers, "timeCommitment") && q.preferredStyle == Lookup(answers, "preferredStyle")
  {
    PathRequest("Learning Path - " + date, Lookup(answers, "goal"), Lookup(answers, "background"),
                Lookup(answers, "timeCommitment"), Lookup(answers, "preferredStyle"))
  }

  datatype NextEffect = AskForAnswer | Advanced | Generated(save: Option<PathRequest>)

  datatype NextRun = NextRun(wizard: Wizard, effect: NextEffect)

  /** `handleNext`: without an answer to the current question only a toast
      appears; otherwise the wizard advances, or on the last question
      generates a path (`generated` is the parsed reply, absent when the
      generator failed) and switches to the result tab. */
  function Next(w: Wizard, generated: bool, date: string): (r: NextRun)
    requires Valid(w)
    ensures r.effect == AskForAnswer <==> !Answered(w.answers, QuestionIds[w.index])
    ensures r.effect == AskForAnswer ==> r.wizard == w
    ensures r.effect == Advanced <==> Answered(w.answers, QuestionIds[w.index]) && w.index < |QuestionIds| - 1
    ensures r.effect == Advanced ==> r.wizard == w.(index := w.index + 1)
    ensures r.effect.Generated? ==> && r.wizard == w.(hasPath := generated, tab := Result)
                                    && (r.effect.save.Some? <==> generated)
                                    && (generated ==> r.effect.save == Some(AutoSave(w.answers, date)))
    ensures Valid(r.wizard)
  {
    if !Answered(w.answers, QuestionIds[w.index]) then NextRun(w, AskForAnswer)
    else if w.index < |QuestionIds| - 1 then NextRun(w.(index := w.index + 1), Advanced)
    else NextRun(w.(hasPath := generated, tab := Result), Generated(if generated then Some(AutoSave(w.answers, date)) else None))
  }

  /** `resetForm`: no answers, the first question, no path, the questions
      tab. */
  function Reset(w: Wizard): (r: Wizard)
    ensures r.index == 0 && r.answers == map[] && !r.hasPath && r.tab == Questions
  {
    Fresh
  }

  datatype WizardAction = AnswerWith(id: string, answer: string) | PressNext(generated: bool) | PressPrevious | PressReset

  function Apply(w: Wizard, a: WizardAction, date: string): Wizard
    requires Valid(w)
  {
    match a
    case AnswerWith(id, answer) => Answer(w, id, answer)
    case PressNext(generated) => Next(w, generated, date).wizard
    case PressPrevious => Previous(w)
    case PressReset => Reset(w)
  }

  /** The wizard after a run of actions from a valid state. */
  function Run(w: Wizard, acts: seq<WizardAction>, date: string): Wizard
    requires Valid(w)
    decreases |acts|
  {
    if acts == [] then w
    else
      var v := Apply(w, acts[0], date);
      if Valid(v) then Run(v, acts[1..], date) else v
  }

  /** Whatever the visitor does, the index stays on one of the four
      questions. */
  lemma {:induction false} IndexStaysInRange(w: Wizard, acts: seq<WizardAction>, date: string)
    requires Valid(w)
    ensures Valid(Run(w, acts, date))
    decreases |acts|
  {
    if acts != [] {
      var v := Apply(w, acts[0], date);
      assert Valid(v);
      IndexStaysInRange(v, acts[1..], date);
    }
  }

  /** After a reset nothing is answered, so the next press only asks for an
      answer. */
  lemma ResetAsksAgain(w: Wizard, generated: bool, date: string)
    ensures Next(Reset(w), generated, date).effect == AskForAnswer
  {
  }

  // ---------------------------------------------------------------------------
  // Saving from the result tab

  /** The answers only ever hold question ids: the page calls `handleAnswer`
      with the id of the question on screen. */
  predicate OnlyQuestionKeys(answers: Answers) {
    forall k :: k in answers ==> k in QuestionIds
  }

  lemma AnswersStayOnQuestionIds(w: Wizard, id: string, answer: string)
    requires OnlyQuestionKeys(w.answers) && id in QuestionIds
    ensures OnlyQuestionKeys(Answer(w, id, answer).answers)
  {
  }

  /** `answers[id] || ""`. */
  function OrEmpty(answers: Answers, id: string): (r: string)
    ensures Answered(answers, id) ==> r == answers[id]
    ensures !Answered(answers, id) ==> r == ""
  {
    if id in answers then answers[id] else ""
  }

  /** The save title: "Learning Path: " and the goals up to their first
      full stop, or a dated title when there are no goals. */
  function SaveTitle(goals: Option<string>, date: string): (t: string)
    ensures goals.Some? && goals.value != "" ==>
      && IsPrefix("Learning Path: ", t)
      && var head := t[|"Learning Path: "|..];
         IsPrefix(head, goals.value) && '.' !in head && (|head| < |goals.value| ==> goals.value[|head|] == '.')
    ensures goals.None? || goals.value == "" ==> t == "Learning Path " + date
  {
    if goals.Some? && goals.value != "" then
      var head := Split(goals.value, '.')[0];
      SplitFirst(goals.value, '.');
      assert ("Learning Path: " + head)[|"Learning Path: "|..] == head;
      "Learning Path: " + head
    else "Learning Path " + date
  }

  /** The save button as written: the style is read from `learningStyle`,
      a key no question writes. */
  function ManualSaveAsWritten(answers: Answers, goals: Option<string>, date: string): (q: PathRequest)
    ensures q.title == SaveTitle(goals, date)
    ensures q.learningGoal == Some(OrEmpty(answers, "goal")) && q.background == Some(OrEmpty(answers, "background"))
    ensures q.timeCommitment == Some(OrEmpty(answers, "timeCommitment"))
    ensures q.preferredStyle == Some(OrEmpty(answers, "learningStyle"))
  {
    PathRequest(SaveTitle(goals, date), Some(OrEmpty(answers, "goal")), Some(OrEmpty(answers, "background")),
                Some(OrEmpty(answers, "timeCommitment")), Some(OrEmpty(answers, "learningStyle")))
  }

  /** Whatever style was chosen, the save button sends an empty one. */
  lemma StyleNeverSaved(answers: Answers, goals: Option<string>, date: string)
    requires OnlyQuestionKeys(answers)
    ensures ManualSaveAsWritten(answers, goals, date).preferredStyle == Some("")
  {
    assert "learningStyle" !in QuestionIds;
  }

  /** A visitor who picked "visual" has "" saved as their style. */
  lemma ChosenStyleLost(goals: Option<string>, date: string)
    ensures var answers := map["preferredStyle" := "visual"];
      && ManualSaveAsWritten(answers, goals, date).preferredStyle == Some("")
      && AutoSave(answers, date).preferredStyle == Some("visual")
  {
  }

  /** The save button reading the style from the question's own id. */
  function ManualSave(answers: Answers, goals: Option<string>, date: string): (q: PathRequest)
    ensures q.title == SaveTitle(goals, date)
    ensures q.learningGoal == Some(OrEmpty(answers, "goal")) && q.background == Some(OrEmpty(answers, "background"))
    ensures q.timeCommitment == Some(OrEmpty(answers, "timeCommitment"))
    ensures q.preferredStyle == Some(OrEmpty(answers, "preferredStyle"))
  {
    PathRequest(SaveTitle(goals, date), Some(OrEmpty(answers, "goal")), Some(OrEmpty(answers, "background")),
                Some(OrEmpty(answers, "timeCommitment")), Some(OrEmpty(answers, "preferredStyle")))
  }

  /** Once every question is answered, the save button stores the same
      answers as the automatic save after generation. */
  lemma ManualSaveAgreesWithAutoSave(answers: Answers, goals: Option<string>, date: string)
    requires forall i :: 0 <= i < |QuestionIds| ==> Answered(answers, QuestionIds[i])
    ensures var m, a := ManualSave(answers, goals, date), AutoSave(answers, date);
      m.learningGoal == a.learningGoal && m.background == a.background
      && m.timeCommitment == a.timeCommitment && m.preferredStyle == a.preferredStyle
  {
    assert Answered(answers, QuestionIds[0]) && Answered(answers, QuestionIds[1]);
    assert Answered(answers, QuestionIds[2]) && Answered(answers, QuestionIds[3]);
  }

  // ---------------------------------------------------------------------------
  // Markdown export

  datatype Milestone = Milestone(name: string, description: string)
  datatype Resource = Resource(name: string, url: Option<string>, kind: string, description: string)
  datatype Project = Project(name: string, description: string)
  datatype Stage = Stage(stage: string, duration: string, description: string,
                         milestones: seq<Milestone>, resources: seq<Resource>, projects: seq<Project>)
  datatype PathDoc = PathDoc(level: string, goals: string, totalDuration: string, breakdown: string,
                             stages: seq<Stage>, tips: seq<string>)

  /** A headed list: nothing at all for no items, else the heading, one line
      per item and a blank line. */
  function Block(heading: string, items: seq<string>): (r: seq<string>)
    ensures items == [] <==> r == []
    ensures items != [] ==> |r| == |items| + 2 && r[0] == heading && r[1..|r| - 1] == items && r[|r| - 1] == "\n"
  {
    if items == [] then [] else [heading] + items + ["\n"]
  }

  function MilestoneLine(m: Milestone): string {
    "- **" + m.name + ":** " + m.description + "\n"
  }

  function ProjectLine(p: Project): string {
    "- **" + p.name + ":** " + p.description + "\n"
  }

  /** A resource with a url is a link, one without is its name in bold;
      either way followed by its type and description. */
  function ResourceLine(r: Resource): (line: string)
    ensures |line| > 3 && (line[2] == '[' <==> r.url.Some? && r.url.value != "")
    ensures r.url.Some? && r.url.value != "" ==> IsPrefix("- [" + r.name + "](" + r.url.value + ")", line)
    ensures !(r.url.Some? && r.url.value != "") ==> IsPrefix("- **" + r.name + "**", line)
  {
    var tail := " (" + r.kind + "): " + r.description + "\n";
    if r.url.Some? && r.url.value != "" then
      var line := "- [" + r.name + "](" + r.url.value + ")" + tail;
      assert line[..|"- [" + r.name + "](" + r.url.value + ")"|] == "- [" + r.name + "](" + r.url.value + ")";
      line
    else
      var line := "- **" + r.name + "**" + tail;
      assert line[..|"- **" + r.name + "**"|] == "- **" + r.name + "**";
      line
  }

  /** One stage: its heading (numbered from 1) and description, then the
      milestones, resources and projects, each headed only when present. */
  function StageLines(number: nat, s: Stage): (r: seq<string>)
    ensures |r| >= 2 && r[0] == "### Stage " + NatToString(number) + ": " + s.stage + " (" + s.duration + ")\n\n"
    ensures s.milestones == [] && s.resources == [] && s.projects == [] ==> |r| == 2
  {
    ["### Stage " + NatToString(number) + ": " + s.stage + " (" + s.duration + ")\n\n", s.description + "\n\n"]
      + Block("#### Milestones\n\n", Map(s.milestones, MilestoneLine))
      + Block("#### Resources\n\n", Map(s.resources, ResourceLine))
      + Block("#### Practice Projects\n\n", Map(s.projects, ProjectLine))
  }

  /** The resources section of a stage holds one line per resource, in
      order, right after the milestones. */
  lemma ResourcesSection(number: nat, s: Stage)
    requires s.resources != []
    ensures var at := 2 + |Block("#### Milestones\n\n", Map(s.milestones, MilestoneLine))|;
      && at + |s.resources| + 2 <= |StageLines(number, s)|
      && StageLines(number, s)[at] == "#### Resources\n\n"
      && forall i :: 0 <= i < |s.resources| ==> StageLines(number, s)[at + 1 + i] == ResourceLine(s.resources[i])
  {
    var pre := ["### Stage " + NatToString(number) + ": " + s.stage + " (" + s.duration + ")\n\n", s.description + "\n\n"]
      + Block("#### Milestones\n\n", Map(s.milestones, MilestoneLine));
    var lines := Map(s.resources, ResourceLine);
    BlockInside(pre, "#### Resources\n\n", lines, Block("#### Practice Projects\n\n", Map(s.projects, ProjectLine)));
  }

  /** A non-empty block between other lines: its heading sits right after
      the lines before it, followed by its items in order. */
  lemma BlockInside(pre: seq<string>, heading: string, items: seq<string>, post: seq<string>)
    requires items != []
    ensures var all := pre + Block(heading, items) + post;
      && |pre| + |items| + 2 <= |all|
      && all[|pre|] == heading
      && forall i :: 0 <= i < |items| ==> all[|pre| + 1 + i] == items[i]
  {
    var b := Block(heading, items);
    var all := pre + b + post;
    forall i | 0 <= i < |items| ensures all[|pre| + 1 + i] == items[i] {
      assert all[|pre| + 1 + i] == b[1 + i] == b[1..|b| - 1][i];
    }
  }

  /** The stages in order, numbered from `first`. */
  function StagesLines(stages: seq<Stage>, first: nat): (r: seq<string>)
    ensures stages == [] <==> r == []
    ensures stages != [] ==> r[0] == StageLines(first, stages[0])[0]
    decreases |stages|
  {
    if stages == [] then [] else StageLines(first, stages[0]) + StagesLines(stages[1..], first + 1)
  }

  const HeaderCount := 8

  /** The assessment and timeline lines above the stages. */
  function Header(p: PathDoc): (r: seq<string>)
    ensures |r| == HeaderCount && r[0] == "# Personalized Learning Path\n\n" && r[1] == "## Assessment\n\n"
  {
    ["# Personalized Learning Path\n\n", "## Assessment\n\n",
     "**Current Knowledge Level:** " + p.level + "\n\n", "**Learning Goals:** " + p.goals + "\n\n",
     "## Timeline\n\n", "**Total Duration:** " + p.totalDuration + "\n\n", "**Breakdown:** " + p.breakdown + "\n\n",
     "## Learning Journey\n\n"]
  }

  function TipLine(tip: string): string {
    "- " + tip + "\n"
  }

  /** The tips, headed, only when there are any. */
  function TipsLines(tips: seq<string>): (r: seq<string>)
    ensures tips == [] <==> r == []
    ensures tips != [] ==> |r| == |tips| + 1 && r[0] == "## Tips for Success\n\n"
    ensures forall i :: 0 <= i < |tips| ==> r[1 + i] == "- " + tips[i] + "\n"
  {
    if tips == [] then [] else ["## Tips for Success\n\n"] + Map(tips, TipLine)
  }

  /** The whole export, line by line: the assessment and timeline, the
      stages, and the tips. */
  function ExportLines(p: PathDoc): (r: seq<string>)
    ensures |r| >= HeaderCount && r[0] == "# Personalized Learning Path\n\n" && r[1] == "## Assessment\n\n"
    ensures r[HeaderCount..] == StagesLines(p.stages, 1) + TipsLines(p.tips)
  {
    var h, rest := Header(p), StagesLines(p.stages, 1) + TipsLines(p.tips);
    assert (h + rest)[HeaderCount..] == rest;
    h + rest
  }

  /** Without tips the export ends with the last stage; with tips it ends
      with the tips heading and one line per tip. */
  lemma TipsOnlyWhenPresent(p: PathDoc)
    ensures p.tips == [] ==> ExportLines(p)[HeaderCount..] == StagesLines(p.stages, 1)
    ensures p.tips != [] ==> var r := ExportLines(p); var n := |r| - |p.tips|;
      && r[n - 1] == "## Tips for Success\n\n"
      && forall i :: 0 <= i < |p.tips| ==> r[n + i] == "- " + p.tips[i] + "\n"
  {
    var r, s, t := ExportLines(p), StagesLines(p.stages, 1), TipsLines(p.tips);
    LinesEndWith(r, HeaderCount, s, t);
    if p.tips != [] {
      var n := |r| - |p.tips|;
      assert n == HeaderCount + |s| + 1;
      forall i | 0 <= i < |p.tips|
        ensures r[n + i] == "- " + p.tips[i] + "\n"
      {
        assert r[n + i] == t[1 + i];
      }
      assert r[n - 1] == t[0];
    } else {
      assert s + t == s;
    }
  }

  /** Lines that end with `s` then `t` from position `k` on hold `t` last. */
  lemma LinesEndWith(r: seq<string>, k: nat, s: seq<string>, t: seq<string>)
    requires k <= |r| && r[k..] == s + t
    ensures |r| == k + |s| + |t|
    ensures forall i :: 0 <= i < |t| ==> r[k + |s| + i] == t[i]
  {
    forall i | 0 <= i < |t| ensures r[k + |s| + i] == t[i] {
      assert r[k + |s| + i] == r[k..][|s| + i] == (s + t)[|s| + i];
    }
  }

  function Concat(lines: seq<string>): string {
    if lines == [] then "" else lines[0] + Concat(lines[1..])
  }

  lemma {:induction false} ConcatAppend(a: seq<string>, b: seq<string>)
    ensures Concat(a + b) == Concat(a) + Concat(b)
    decreases |a|
  {
    if a == [] {
      assert a + b == b;
    } else {
      assert (a + b)[1..] == a[1..] + b;
      ConcatAppend(a[1..], b);
    }
  }

  lemma ConcatFirstTwo(lines: seq<string>)
    requires |lines| >= 2
    ensures Concat(lines) == lines[0] + lines[1] + Concat(lines[2..])
  {
    assert lines[1..][1..] == lines[2..];
  }

  /** The downloaded Markdown text: the export's lines, one after another. */
  function Markdown(p: PathDoc): (md: string)
    ensures IsPrefix("# Personalized Learning Path\n\n" + "## Assessment\n\n", md)
  {
    var lines := ExportLines(p);
    ConcatFirstTwo(lines);
    PrefixOfJoined(lines[0] + lines[1], Concat(lines[2..]));
    Concat(lines)
  }

  lemma PrefixOfJoined(a: string, b: string)
    ensures IsPrefix(a, a + b)
  {
    assert (a + b)[..|a|] == a;
  }
}

=== FILE: lists.dfy ===
/** Order-preserving filtering, counting, summing and first-occurrence
    de-duplication over sequences: `Array.prototype.filter`, `.length` of a
    filter, `reduce` with `+`, and `[...new Set(xs)]`. */
module Lists {

  /** `xs.filter(keep)`. */
  function Where<T(!new)>(xs: seq<T>, keep: T -> bool): (r: seq<T>)
    ensures |r| <= |xs|
    ensures forall x :: x in r <==> x in xs && keep(x)
  {
    if xs == [] then []
    else
      var rest := Where(xs[..|xs| - 1], keep);
      var last := xs[|xs| - 1];
      assert xs == xs[..|xs| - 1] + [last];
      if keep(last) then rest + [last] else rest
  }

  /** Filtering distributes over concatenation, so the kept elements stay in
      their original order. */
  lemma {:induction false} WhereConcat<T(!new)>(a: seq<T>, b: seq<T>, keep: T -> bool)
    ensures Where(a + b, keep) == Where(a, keep) + Where(b, keep)
    decreases |b|
  {
    if b != [] {
      var b' := b[..|b| - 1];
      assert (a + b)[..|a + b| - 1] == a + b';
      assert (a + b)[|a + b| - 1] == b[|b| - 1];
      WhereConcat(a, b', keep);
    } else {
      assert a + b == a;
    }
  }

  /** Filtering twice keeps what passes both tests. */
  lemma {:induction false} WhereWhere<T(!new)>(xs: seq<T>, p: T -> bool, q: T -> bool)
    ensures Where(Where(xs, p), q) == Where(xs, x => p(x) && q(x))
    decreases |xs|
  {
    if xs != [] {
      var init, last := xs[..|xs| - 1], xs[|xs| - 1];
      WhereWhere(init, p, q);
      if p(last) {
        WhereConcat(Where(init, p), [last], q);
      }
    }
  }

  /** A test every element passes keeps everything. */
  lemma {:induction false} WhereAll<T(!new)>(xs: seq<T>, keep: T -> bool)
    requires forall i :: 0 <= i < |xs| ==> keep(xs[i])
    ensures Where(xs, keep) == xs
    decreases |xs|
  {
    if xs != [] {
      WhereAll(xs[..|xs| - 1], keep);
      assert xs == xs[..|xs| - 1] + [xs[|xs| - 1]];
    }
  }

  /** Filters that agree on every element give the same result. */
  lemma {:induction false} WhereSame<T(!new)>(xs: seq<T>, p: T -> bool, q: T -> bool)
    requires forall i :: 0 <= i < |xs| ==> p(xs[i]) == q(xs[i])
    ensures Where(xs, p) == Where(xs, q)
    decreases |xs|
  {
    if xs != [] {
      WhereSame(xs[..|xs| - 1], p, q);
    }
  }

  /** `xs.filter(keep).length`. */
  function CountWhere<T(!new)>(xs: seq<T>, keep: T -> bool): (r: nat)
    ensures r <= |xs|
  {
    |Where(xs, keep)|
  }

  /** Counting splits over concatenation. */
  lemma CountConcat<T(!new)>(a: seq<T>, b: seq<T>, keep: T -> bool)
    ensures CountWhere(a + b, keep) == CountWhere(a, keep) + CountWhere(b, keep)
  {
    WhereConcat(a, b, keep);
  }

  /** `xs.reduce((s, x) => s + value(x), 0)`. */
  function Sum<T>(xs: seq<T>, value: T -> int): int {
    if xs == [] then 0 else Sum(xs[..|xs| - 1], value) + value(xs[|xs| - 1])
  }

  /** Sums split over concatenation. */
  lemma {:induction false} SumConcat<T>(a: seq<T>, b: seq<T>, value: T -> int)
    ensures Sum(a + b, value) == Sum(a, value) + Sum(b, value)
    decreases |b|
  {
    if b != [] {
      var b' := b[..|b| - 1];
      assert (a + b)[..|a + b| - 1] == a + b';
      assert (a + b)[|a + b| - 1] == b[|b| - 1];
      SumConcat(a, b', value);
    } else {
      assert a + b == a;
    }
  }

  /** Values that agree on every element give the same sum. */
  lemma {:induction false} SumSame<T>(xs: seq<T>, f: T -> int, g: T -> int)
    requires forall i :: 0 <= i < |xs| ==> f(xs[i]) == g(xs[i])
    ensures Sum(xs, f) == Sum(xs, g)
    decreases |xs|
  {
    if xs != [] {
      SumSame(xs[..|xs| - 1], f, g);
    }
  }

  /** A sum of non-negative values is non-negative. */
  lemma {:induction false} SumNonNegative<T>(xs: seq<T>, value: T -> int)
    requires forall i :: 0 <= i < |xs| ==> value(xs[i]) >= 0
    ensures Sum(xs, value) >= 0
    decreases |xs|
  {
    if xs != [] {
      SumNonNegative(xs[..|xs| - 1], value);
    }
  }

  /** Summing only the kept elements is summing with the others counted as
      0 (`masked`). */
  lemma {:induction false} SumWhere<T(!new)>(xs: seq<T>, keep: T -> bool, value: T -> int, masked: T -> int)
    requires forall i :: 0 <= i < |xs| ==> masked(xs[i]) == if keep(xs[i]) then value(xs[i]) else 0
    ensures Sum(Where(xs, keep), value) == Sum(xs, masked)
    decreases |xs|
  {
    if xs != [] {
      var init, last := xs[..|xs| - 1], xs[|xs| - 1];
      SumWhere(init, keep, value, masked);
      if keep(last) {
        SumConcat(Where(init, keep), [last], value);
        assert Sum([last], value) == value(last) by {
          assert [last][..0] == [];
        }
      }
    }
  }

  /** `xs.map(f)`. */
  function Map<T, U(!new)>(xs: seq<T>, f: T -> U): (r: seq<U>)
    ensures |r| == |xs| && forall i :: 0 <= i < |xs| ==> r[i] == f(xs[i])
    ensures forall y :: y in r <==> exists i :: 0 <= i < |xs| && f(xs[i]) == y
  {
    var r := seq(|xs|, i requires 0 <= i < |xs| => f(xs[i]));
    forall y
      ensures y in r <==> exists i :: 0 <= i < |xs| && f(xs[i]) == y
    {
      if y in r {
        var k :| 0 <= k < |r| && r[k] == y;
        assert f(xs[k]) == y;
      }
      if exists i :: 0 <= i < |xs| && f(xs[i]) == y {
        var i :| 0 <= i < |xs| && f(xs[i]) == y;
        assert r[i] == y;
      }
    }
    r
  }

  predicate NoDuplicates<T(==)>(xs: seq<T>) {
    forall i, j :: 0 <= i < j < |xs| ==> xs[i] != xs[j]
  }

  /** `[...new Set(xs)]`: each value once, at its first occurrence. */
  function Dedup<T(==,!new)>(xs: seq<T>): (r: seq<T>)
    ensures NoDuplicates(r)
    ensures forall x :: x in r <==> x in xs
  {
    if xs == [] then []
    else
      var d := Dedup(xs[..|xs| - 1]);
      var last := xs[|xs| - 1];
      assert xs == xs[..|xs| - 1] + [last];
      if last in d then d else d + [last]
  }

  /** Later elements never reorder or remove earlier ones: the distinct
      values of a prefix are a prefix of the distinct values, so the order
      is the order of first occurrence. */
  lemma {:induction false} DedupExtends<T(!new)>(a: seq<T>, b: seq<T>)
    ensures |Dedup(a)| <= |Dedup(a + b)| && Dedup(a + b)[..|Dedup(a)|] == Dedup(a)
    decreases |b|
  {
    if b == [] {
      assert a + b == a;
    } else {
      var b' := b[..|b| - 1];
      assert (a + b)[..|a + b| - 1] == a + b';
      DedupExtends(a, b');
    }
  }
}

=== FILE: notification_bridge.dfy ===
/** The bridge between persisted notifications and live sockets:
    `send_notification` and the two helpers that create a notification record
    and then try to push it. The notification table is a sequence of records;
    a failing send and a failing insert are parameters. */
module NotificationBridge {
  import opened Wrappers
  import opened Json
  import opened Consumer
  import opened Text

  /** A persisted notification (the fields the model reads). */
  datatype Notification = Notification(
    id: nat,
    recipientStaff: Option<nat>,
    recipientStudent: Option<nat>,
    senderStudent: Option<nat>,
    senderStaff: Option<nat>,
    kind: string,
    title: string,
    message: string,
    relatedItemType: string,
    isRead: bool)

  /** What a helper saw of a staff member: primary key, `staff_id`, `name`. */
  datatype StaffCard = StaffCard(pk: nat, staffId: string, name: string)

  /** What a helper saw of a student: primary key and `name`. */
  datatype StudentCard = StudentCard(pk: nat, name: string)

  /** A course as the helpers see it. */
  datatype CourseCard = CourseCard(id: nat, title: string, instructor: Option<StaffCard>)

  /** `send_notification` result: whether it reported success, and the frames
      actually sent. */
  datatype Delivery = Delivery(ok: bool, out: seq<Outbound>)

  /** `send_notification(user_id, data)`: looks the id up in the registry
      (which it only reads) and sends one `notification` frame; `sendRaises`
      stands for a send that throws. */
  function SendNotification(reg: Registry, userId: Key, data: JVal, sendRaises: bool): (r: Delivery)
    ensures r.ok <==> userId in reg && !sendRaises
    ensures r.ok ==> r.out == [Outbound(reg[userId], NotificationFrame(data))]
    ensures !r.ok ==> r.out == []
  {
    if userId in reg then
      if sendRaises then Delivery(false, []) else Delivery(true, [Outbound(reg[userId], NotificationFrame(data))])
    else Delivery(false, [])
  }

  /** The outcome of a helper: what it returned (`None` or the record), the
      notification table afterwards, the frames sent, and whether it raised. */
  datatype Outcome = Outcome(returned: Option<Notification>, table: seq<Notification>, out: seq<Outbound>, raised: bool)

  /** The websocket payload built from a record and a sender name. */
  function Payload(n: Notification, senderName: string): JVal {
    JObj(map[
      "id" := JInt(n.id),
      "type" := JStr(n.kind),
      "title" := JStr(n.title),
      "message" := JStr(n.message),
      "related_item_type" := JStr(n.relatedItemType),
      "sender_name" := JStr(senderName)])
  }

  /** `create_course_watch_notification`. With no instructor nothing happens.
      The message reads the student's name before the "Unknown" fallback is
      reached, so a missing student raises and creates nothing. */
  function CourseWatchNotification(
    table: seq<Notification>, reg: Registry, course: CourseCard, student: Option<StudentCard>,
    newId: nat, sendRaises: bool): (r: Outcome)
    ensures course.instructor.None? ==> r == Outcome(None, table, [], false)
    ensures course.instructor.Some? && student.None? ==> r.raised && r.table == table && r.out == []
    ensures course.instructor.Some? && student.Some? ==>
      && !r.raised && r.returned.Some?
      && r.table == table + [r.returned.value]
      && r.returned.value.kind == "course_viewed"
      && r.returned.value.recipientStaff == Some(course.instructor.value.pk)
      && r.returned.value.message == student.value.name + " has viewed your course: " + course.title
      && r.out == SendNotification(reg, KStr(course.instructor.value.staffId),
                                   Payload(r.returned.value, student.value.name), sendRaises).out
  {
    match course.instructor
    case None => Outcome(None, table, [], false)
    case Some(instructor) =>
      match student
      case None => Outcome(None, table, [], true)
      case Some(st) =>
        var n := Notification(newId, Some(instructor.pk), None, Some(st.pk), None,
                              "course_viewed", "Course Viewed",
                              st.name + " has viewed your course: " + course.title, "course", false);
        var d := SendNotification(reg, KStr(instructor.staffId), Payload(n, st.name), sendRaises);
        Outcome(Some(n), table + [n], d.out, false)
  }

  /** The comment shown in a notification: at most 50 characters, with "..."
      appended when it was cut. */
  function Excerpt(content: string): (r: string)
    ensures |r| <= 53
    ensures |content| <= 50 ==> r == content
    ensures |content| > 50 ==> |r| == 53 && IsPrefix(r[..50], content) && r[50..] == "..."
  {
    if |content| > 50 then content[..50] + "..." else content
  }

  /** The comment data the helper reads (dict or object form alike). */
  datatype CommentData = CommentData(
    id: JVal, content: string, course: Option<CourseCard>,
    student: Option<StudentCard>, staff: Option<StaffCard>)

  /** `sender_name`: the student's name, else the staff member's, else "Unknown". */
  function SenderName(c: CommentData): (r: string)
    ensures c.student.Some? ==> r == c.student.value.name
    ensures c.student.None? && c.staff.Some? ==> r == c.staff.value.name
    ensures c.student.None? && c.staff.None? ==> r == "Unknown"
  {
    match c.student
    case Some(s) => s.name
    case None => match c.staff
      case Some(s) => s.name
      case None => "Unknown"
  }

  /** The recipient: the one passed in, else the comment's course instructor. */
  function CommentRecipient(c: CommentData, recipient: Option<StaffCard>): Option<StaffCard> {
    if recipient.Some? then recipient
    else if c.course.Some? then c.course.value.instructor
    else None
  }

  /** The notification text: "New comment on <course title or 'content'>: <excerpt>". */
  function CommentMessage(c: CommentData): string {
    "New comment on " + (if c.course.Some? then c.course.value.title else "content") + ": " + Excerpt(c.content)
  }

  /** `create_comment_notification`. No recipient: nothing is created. A failed
      insert (`createRaises`): `None` and no delivery. Otherwise exactly one
      record is appended and returned whether or not delivery succeeds. */
  function CommentNotification(
    table: seq<Notification>, reg: Registry, c: CommentData, recipient: Option<StaffCard>,
    newId: nat, createRaises: bool, sendRaises: bool): (r: Outcome)
    ensures CommentRecipient(c, recipient).None? || createRaises ==> r == Outcome(None, table, [], false)
    ensures CommentRecipient(c, recipient).Some? && !createRaises ==>
      && r.returned.Some? && r.table == table + [r.returned.value]
      && r.returned.value.kind == "comment"
      && r.returned.value.recipientStaff == Some(CommentRecipient(c, recipient).value.pk)
      && r.returned.value.message == CommentMessage(c)
      && r.out == SendNotification(reg, KStr(CommentRecipient(c, recipient).value.staffId),
                                   Payload(r.returned.value, SenderName(c)), sendRaises).out
  {
    match CommentRecipient(c, recipient)
    case None => Outcome(None, table, [], false)
    case Some(to) =>
      if createRaises then Outcome(None, table, [], false)
      else
        var n := Notification(newId, Some(to.pk), None,
                              if c.student.Some? then Some(c.student.value.pk) else None,
                              if c.staff.Some? then Some(c.staff.value.pk) else None,
                              "comment", "New Comment", CommentMessage(c), "comment", false);
        var d := SendNotification(reg, KStr(to.staffId), Payload(n, SenderName(c)), sendRaises);
        Outcome(Some(n), table + [n], d.out, false)
  }

  /** Delivery failure does not affect the record: the same record is
      returned and stored whether or not the recipient is connected. */
  lemma CommentRecordIndependentOfDelivery(
    table: seq<Notification>, reg1: Registry, reg2: Registry, c: CommentData,
    recipient: Option<StaffCard>, newId: nat, send1: bool, send2: bool)
    ensures CommentNotification(table, reg1, c, recipient, newId, false, send1).returned
         == CommentNotification(table, reg2, c, recipient, newId, false, send2).returned
    ensures CommentNotification(table, reg1, c, recipient, newId, false, send1).table
         == CommentNotification(table, reg2, c, recipient, newId, false, send2).table
  {
  }
}

=== FILE: notification_counter.dfy ===
/** The bell counter: each `notification` window event adds one, a click
    resets it, and a badge shows the count, capped in display at "9+". */
module NotificationCounter {
  import opened Text

  datatype CounterEvent = Notified | Clicked

  function Step(count: nat, e: CounterEvent): (r: nat)
    ensures e.Notified? ==> r == count + 1
    ensures e.Clicked? ==> r == 0
  {
    match e
    case Notified => count + 1
    case Clicked => 0
  }

  /** The count after a run of events, starting from 0. */
  function Count(es: seq<CounterEvent>): nat {
    if es == [] then 0 else Step(Count(es[..|es| - 1]), es[|es| - 1])
  }

  /** The count is the number of notifications since the last click: all
      of them when there was no click. */
  lemma {:induction false} CountSinceLastClick(before: seq<CounterEvent>, after: seq<CounterEvent>)
    requires forall i :: 0 <= i < |after| ==> after[i].Notified?
    ensures Count(before + [Clicked] + after) == |after|
    ensures (forall i :: 0 <= i < |before| ==> before[i].Notified?) ==> Count(before) == |before|
    decreases |before| + |after|
  {
    if after != [] {
      var init := after[..|after| - 1];
      CountSinceLastClick(before, init);
      assert (before + [Clicked] + after)[..|before + [Clicked] + after| - 1] == before + [Clicked] + init;
    } else {
      assert (before + [Clicked])[..|before|] == before;
    }
    if before != [] && forall i :: 0 <= i < |before| ==> before[i].Notified? {
      CountSinceLastClick(before[..|before| - 1], []);
    }
  }

  /** The badge is shown only for a positive count. */
  predicate ShowsBadge(count: nat) {
    count > 0
  }

  /** A click always hides the badge and a notification always shows it. */
  lemma BadgeFollowsLastEvent(es: seq<CounterEvent>, e: CounterEvent)
    ensures ShowsBadge(Count(es + [e])) <==> e.Notified?
  {
    assert (es + [e])[..|es|] == es;
  }

  /** The badge text: the count up to 9, then "9+". */
  function BadgeLabel(count: nat): (r: string)
    ensures count > 9 <==> r == "9+"
    ensures count <= 9 ==> |r| == 1 && AllDigits(r) && DigitsValue(r) == count
  {
    if count > 9 then "9+" else NatToString(count)
  }
}

=== FILE: notification_inbox.dfy ===
/** The notification inbox views (`NotificationListView`): listing the
    caller's notifications and marking some of them read, and the
    `convert_uuids` pass the reply view runs before saving. The notification
    table is the sequence of `NotificationBridge` records. */
module NotificationInbox {
  import opened Wrappers
  import opened Text
  import opened Json
  import opened People
  import opened NotificationBridge

  /** The notifications a caller receives: those addressed to its staff
      record when it has one, otherwise those addressed to its student
      record. */
  predicate AddressedTo(caller: Caller, n: Notification) {
    && caller.Member?
    && (if caller.staffPk.Some? then n.recipientStaff == caller.staffPk
        else caller.studentPk.Some? && n.recipientStudent == caller.studentPk)
  }

  /** The caller's notifications, newest first. The table holds records in
      creation order (each helper appends the record it creates), so the
      model's `-created_at` ordering lists later rows before earlier ones. */
  function Inbox(table: seq<Notification>, caller: Caller): (r: seq<Notification>)
    ensures |r| <= |table|
    ensures forall n :: n in r <==> n in table && AddressedTo(caller, n)
    ensures |table| > 0 && AddressedTo(caller, table[|table| - 1]) ==> |r| > 0 && r[0] == table[|table| - 1]
  {
    if |table| == 0 then []
    else
      var last := table[|table| - 1];
      var rest := Inbox(table[..|table| - 1], caller);
      assert forall n :: n in table <==> n == last || n in table[..|table| - 1];
      if AddressedTo(caller, last) then [last] + rest else rest
  }

  /** Creating a notification puts it at the head of its recipient's list,
      ahead of everything stored before it, and leaves other callers' lists
      as they were. */
  lemma NewestListedFirst(table: seq<Notification>, n: Notification, caller: Caller)
    ensures AddressedTo(caller, n) ==> Inbox(table + [n], caller) == [n] + Inbox(table, caller)
    ensures !AddressedTo(caller, n) ==> Inbox(table + [n], caller) == Inbox(table, caller)
  {
    assert (table + [n])[..|table + [n]| - 1] == table;
  }

  /** Newest first, at every cut: splitting the table at any row, the
      caller's notifications stored after the cut are all listed before
      those stored up to it. */
  lemma {:induction false} InboxSplits(table: seq<Notification>, caller: Caller, k: nat)
    requires k <= |table|
    ensures Inbox(table, caller) == Inbox(table[k..], caller) + Inbox(table[..k], caller)
    decreases |table| - k
  {
    if k == |table| {
      assert table[k..] == [];
      assert table[..k] == table;
    } else {
      var init := table[..|table| - 1];
      var later := table[k..];
      var head := Newest(table, caller);
      assert later[..|later| - 1] == init[k..];
      assert later[|later| - 1] == table[|table| - 1];
      InboxUnfolds(later, caller);
      InboxUnfolds(table, caller);
      InboxSplits(init, caller, k);
      assert init[..k] == table[..k];
      Regroup(head, Inbox(init[k..], caller), Inbox(table[..k], caller));
    }
  }

  /** The last stored row, when it is addressed to the caller. */
  function Newest(table: seq<Notification>, caller: Caller): seq<Notification>
    requires |table| > 0
  {
    if AddressedTo(caller, table[|table| - 1]) then [table[|table| - 1]] else []
  }

  lemma InboxUnfolds(table: seq<Notification>, caller: Caller)
    requires |table| > 0
    ensures Inbox(table, caller) == Newest(table, caller) + Inbox(table[..|table| - 1], caller)
  {
  }

  lemma Regroup<T>(a: seq<T>, b: seq<T>, c: seq<T>)
    ensures a + (b + c) == (a + b) + c
  {
  }

  /** The `sender_name` the list shows: the sending staff member's name,
      else the sending student's, else "System". Names come from the staff
      and student tables. */
  function ListedSenderName(n: Notification, staffNames: map<nat, string>, studentNames: map<nat, string>): (r: string)
    requires n.senderStaff.Some? ==> n.senderStaff.value in staffNames
    requires n.senderStudent.Some? ==> n.senderStudent.value in studentNames
    ensures n.senderStaff.Some? ==> r == staffNames[n.senderStaff.value]
    ensures n.senderStaff.None? && n.senderStudent.Some? ==> r == studentNames[n.senderStudent.value]
    ensures n.senderStaff.None? && n.senderStudent.None? ==> r == "System"
  {
    if n.senderStaff.Some? then staffNames[n.senderStaff.value]
    else if n.senderStudent.Some? then studentNames[n.senderStudent.value]
    else "System"
  }

  /** `NotificationListView.get`: 401 when anonymous, else the caller's
      notifications; a caller with neither record gets an empty list. */
  function ListNotifications(table: seq<Notification>, caller: Caller): (r: (seq<Notification>, nat))
    ensures r.1 == 401 <==> caller.Anonymous?
    ensures r.1 != 401 ==> r.1 == 200
    ensures forall n :: n in r.0 <==> n in table && AddressedTo(caller, n)
    ensures caller.Member? && caller.staffPk.None? && caller.studentPk.None? ==> r.0 == []
    ensures caller.Member? ==> r.0 == Inbox(table, caller)
  {
    if caller.Anonymous? then ([], 401)
    else
      var r := Inbox(table, caller);
      assert |r| > 0 ==> r[0] in r;
      (r, 200)
  }

  /** A caller with both records sees only what was sent to its staff
      record, never what was sent to its student record alone. */
  lemma StaffRecordHidesStudentInbox(table: seq<Notification>, caller: Caller, n: Notification)
    requires caller.Member? && caller.staffPk.Some? && caller.studentPk.Some?
    requires n in table && n.recipientStudent == caller.studentPk && n.recipientStaff != caller.staffPk
    ensures n !in ListNotifications(table, caller).0
  {
  }

  /** The list view and the live push name senders in opposite orders: for
      a comment notification recording both a student and a staff sender,
      the pushed payload shows the student and the list shows the staff
      member. */
  lemma SenderPreferenceDiffers(
    table: seq<Notification>, reg: Consumer.Registry, c: CommentData, recipient: Option<StaffCard>,
    newId: nat, sendRaises: bool, staffNames: map<nat, string>, studentNames: map<nat, string>)
    requires CommentRecipient(c, recipient).Some?
    requires c.student.Some? && c.staff.Some?
    requires c.staff.value.pk in staffNames && staffNames[c.staff.value.pk] == c.staff.value.name
    requires c.student.value.pk in studentNames && studentNames[c.student.value.pk] == c.student.value.name
    requires c.student.value.name != c.staff.value.name
    ensures var n := CommentNotification(table, reg, c, recipient, newId, false, sendRaises).returned.value;
      && SenderName(c) == c.student.value.name
      && ListedSenderName(n, staffNames, studentNames) == c.staff.value.name
      && SenderName(c) != ListedSenderName(n, staffNames, studentNames)
  {
  }

  /** The ids an `id__in` filter receives from `notification_ids`, or `None`
      when building the filter raises: a list contributes each element read
      as a key (`None` elements are dropped), a string each of its
      characters, a dict each of its keys; a number or a boolean is not
      iterable. */
  function FilterIds(v: JVal): (r: Option<set<int>>)
    ensures v.JInt? || v.JBool? || v.JNull? ==> r.None?
    ensures v.JList? ==> (r.Some? <==> forall i :: 0 <= i < |v.items| ==> !CoerceId(v.items[i]).LookupRaises?)
    ensures v.JList? && r.Some? ==> forall x :: x in r.value <==> exists i :: 0 <= i < |v.items| && CoerceId(v.items[i]) == LookupId(x)
  {
    match v
    case JList(xs) => ListIds(xs)
    case JStr(s) =>
      if forall i :: 0 <= i < |s| ==> ParseInt([s[i]]).Some? then Some(set i | 0 <= i < |s| :: ParseInt([s[i]]).value)
      else None
    case JObj(m) =>
      if forall k :: k in m ==> ParseInt(k).Some? then Some(set k | k in m :: ParseInt(k).value)
      else None
    case _ => None
  }

  function ListIds(xs: seq<JVal>): (r: Option<set<int>>)
    ensures r.Some? <==> forall i :: 0 <= i < |xs| ==> !CoerceId(xs[i]).LookupRaises?
    ensures r.Some? ==> forall x :: x in r.value <==> exists i :: 0 <= i < |xs| && CoerceId(xs[i]) == LookupId(x)
  {
    if |xs| == 0 then Some({})
    else
      var rest := ListIds(xs[1..]);
      match CoerceId(xs[0])
      case LookupRaises => None
      case NoRowMatches =>
        if rest.None? then None
        else
          assert forall x :: (exists i :: 0 <= i < |xs| && CoerceId(xs[i]) == LookupId(x))
                         <==> (exists i :: 0 <= i < |xs[1..]| && CoerceId(xs[1..][i]) == LookupId(x)) by {
            forall x | exists i :: 0 <= i < |xs| && CoerceId(xs[i]) == LookupId(x)
              ensures exists i :: 0 <= i < |xs[1..]| && CoerceId(xs[1..][i]) == LookupId(x) {
              var i :| 0 <= i < |xs| && CoerceId(xs[i]) == LookupId(x);
              assert xs[1..][i - 1] == xs[i];
            }
          }
          rest
      case LookupId(n) =>
        if rest.None? then None
        else
          assert forall x :: (exists i :: 0 <= i < |xs| && CoerceId(xs[i]) == LookupId(x))
                         <==> (x == n || exists i :: 0 <= i < |xs[1..]| && CoerceId(xs[1..][i]) == LookupId(x)) by {
            forall x | exists i :: 0 <= i < |xs| && CoerceId(xs[i]) == LookupId(x)
              ensures x == n || exists i :: 0 <= i < |xs[1..]| && CoerceId(xs[1..][i]) == LookupId(x) {
              var i :| 0 <= i < |xs| && CoerceId(xs[i]) == LookupId(x);
              if i > 0 { assert xs[1..][i - 1] == xs[i]; }
            }
          }
          Some({n} + rest.value)
  }

  /** A notification the update touches: named, the caller's, and unread. */
  predicate Selected(n: Notification, ids: set<int>, caller: Caller) {
    n.id in ids && AddressedTo(caller, n) && !n.isRead
  }

  /** The number of unread notifications in a table. */
  function UnreadCount(t: seq<Notification>): nat {
    if |t| == 0 then 0 else (if t[0].isRead then 0 else 1) + UnreadCount(t[1..])
  }

  /** The queryset `update(is_read=True)`: every selected row becomes read,
      nothing else changes, and the count returned is exactly how many rows
      went from unread to read. */
  function MarkSelected(t: seq<Notification>, ids: set<int>, caller: Caller): (r: (seq<Notification>, nat))
    ensures |r.0| == |t|
    ensures forall i :: 0 <= i < |t| ==> r.0[i] == (if Selected(t[i], ids, caller) then t[i].(isRead := true) else t[i])
    ensures UnreadCount(r.0) + r.1 == UnreadCount(t)
    ensures forall i :: 0 <= i < |t| ==> !Selected(r.0[i], ids, caller)
  {
    if |t| == 0 then ([], 0)
    else
      var rest := MarkSelected(t[1..], ids, caller);
      var head := if Selected(t[0], ids, caller) then t[0].(isRead := true) else t[0];
      var r := [head] + rest.0;
      assert r[1..] == rest.0;
      (r, rest.1 + (if Selected(t[0], ids, caller) then 1 else 0))
  }

  /** The outcome of the mark-as-read request. */
  datatype Marked = Marked(table: seq<Notification>, code: nat, updated: nat)

  /** `NotificationListView.put`: 401, 400 when `notification_ids` is absent
      or falsy, 403 for a caller with neither record, 500 when the filter
      cannot be built; otherwise the caller's unread notifications among
      the ids are marked read and counted. */
  function MarkRead(table: seq<Notification>, caller: Caller, fields: map<string, JVal>): (r: Marked)
    ensures r.code == 401 <==> caller.Anonymous?
    ensures r.code == 400 <==> caller.Member? && !Truthy(GetOr(fields, "notification_ids", JList([])))
    ensures r.code == 403 <==> (caller.Member? && Truthy(GetOr(fields, "notification_ids", JList([])))
      && caller.staffPk.None? && caller.studentPk.None?)
    ensures r.code == 500 <==> (caller.Member? && Truthy(GetOr(fields, "notification_ids", JList([])))
      && (caller.staffPk.Some? || caller.studentPk.Some?)
      && FilterIds(GetOr(fields, "notification_ids", JList([]))).None?)
    ensures r.code != 200 ==> r.table == table && r.updated == 0
    ensures r.code == 200 ==>
      var ids := FilterIds(GetOr(fields, "notification_ids", JList([]))).value;
      && |r.table| == |table|
      && (forall i :: 0 <= i < |table| ==>
            r.table[i] == (if Selected(table[i], ids, caller) then table[i].(isRead := true) else table[i]))
      && UnreadCount(r.table) + r.updated == UnreadCount(table)
  {
    var v := GetOr(fields, "notification_ids", JList([]));
    if caller.Anonymous? then Marked(table, 401, 0)
    else if !Truthy(v) then Marked(table, 400, 0)
    else if caller.staffPk.None? && caller.studentPk.None? then Marked(table, 403, 0)
    else match FilterIds(v)
      case None => Marked(table, 500, 0)
      case Some(ids) =>
        var (t, n) := MarkSelected(table, ids, caller);
        Marked(t, 200, n)
  }

  /** The view around `MarkRead`, from the raw body: authentication is
      checked first; then a body `json.loads` rejects (`None`) gives 400
      "Invalid JSON format", and a parsed value that is not an object fails
      on `.get` with 500. */
  function MarkReadBody(table: seq<Notification>, caller: Caller, body: Option<JVal>): (r: Marked)
    ensures r.code == 401 <==> caller.Anonymous?
    ensures r.code == 400 <==>
      caller.Member? && (body.None? || (body.value.JObj? && !Truthy(GetOr(body.value.fields, "notification_ids", JList([])))))
    ensures caller.Member? && body.Some? && !body.value.JObj? ==> r.code == 500
    ensures r.code != 200 ==> r.table == table && r.updated == 0
    ensures caller.Member? && body.Some? && body.value.JObj? ==> r == MarkRead(table, caller, body.value.fields)
  {
    if caller.Anonymous? then Marked(table, 401, 0)
    else match body
      case None => Marked(table, 400, 0)
      case Some(JObj(fields)) => MarkRead(table, caller, fields)
      case Some(_) => Marked(table, 500, 0)
  }

  /** Repeating a successful mark-as-read reports 0 and changes nothing. */
  lemma MarkReadTwiceCountsZero(table: seq<Notification>, caller: Caller, fields: map<string, JVal>)
    requires MarkRead(table, caller, fields).code == 200
    ensures var once := MarkRead(table, caller, fields);
      MarkRead(once.table, caller, fields) == Marked(once.table, 200, 0)
  {
    var once := MarkRead(table, caller, fields);
    var ids := FilterIds(GetOr(fields, "notification_ids", JList([]))).value;
    var again := MarkSelected(once.table, ids, caller);
    assert again.0 == once.table;
    NothingSelectedCountsZero(once.table, ids, caller);
  }

  lemma {:induction false} NothingSelectedCountsZero(t: seq<Notification>, ids: set<int>, caller: Caller)
    requires forall i :: 0 <= i < |t| ==> !Selected(t[i], ids, caller)
    ensures MarkSelected(t, ids, caller).1 == 0
  {
    if |t| > 0 {
      assert forall i :: 0 <= i < |t[1..]| ==> !Selected(t[1..][i], ids, caller) by {
        forall i | 0 <= i < |t[1..]| ensures !Selected(t[1..][i], ids, caller) {
          assert t[1..][i] == t[i + 1];
        }
      }
      NothingSelectedCountsZero(t[1..], ids, caller);
    }
  }

  /** Another user's notifications are never marked read. */
  lemma OthersUntouched(table: seq<Notification>, caller: Caller, fields: map<string, JVal>, i: nat)
    requires i < |table| && !AddressedTo(caller, table[i])
    ensures MarkRead(table, caller, fields).table[i] == table[i]
  {
  }

  // ---------------------------------------------------------------------------
  // convert_uuids

  /** A Python value as the reply view holds it before saving: JSON-shaped
      data plus `UUID` objects, each carrying its canonical string form.
      Dictionary keys are strings. */
  datatype PyVal =
    | PNone
    | PBool(b: bool)
    | PInt(n: int)
    | PStr(s: string)
    | PUuid(text: string)
    | PList(items: seq<PyVal>)
    | PDict(entries: map<string, PyVal>)

  /** No `UUID` object anywhere inside. */
  predicate NoUuid(v: PyVal) {
    match v
    case PUuid(_) => false
    case PList(xs) => forall i :: 0 <= i < |xs| ==> NoUuid(xs[i])
    case PDict(m) => forall k :: k in m ==> NoUuid(m[k])
    case _ => true
  }

  /** `convert_uuids`: rebuilds dicts and lists with the same keys and
      lengths, turns every `UUID` into its string, and leaves other values
      alone; nothing of type `UUID` survives. */
  function ConvertUuids(v: PyVal): (r: PyVal)
    ensures NoUuid(r)
    ensures v.PUuid? ==> r == PStr(v.text)
    ensures v.PList? ==> r.PList? && |r.items| == |v.items|
    ensures v.PDict? ==> r.PDict? && r.entries.Keys == v.entries.Keys
    ensures !v.PUuid? && !v.PList? && !v.PDict? ==> r == v
  {
    match v
    case PUuid(t) => PStr(t)
    case PList(xs) => PList(seq(|xs|, i requires 0 <= i < |xs| => ConvertUuids(xs[i])))
    case PDict(m) => PDict(map k | k in m :: ConvertUuids(m[k]))
    case _ => v
  }

  /** On a value without `UUID`s the pass is the identity. */
  lemma {:induction false} ConvertUuidsIdentity(v: PyVal)
    requires NoUuid(v)
    ensures ConvertUuids(v) == v
  {
    match v
    case PList(xs) =>
      forall i | 0 <= i < |xs| ensures ConvertUuids(xs[i]) == xs[i] {
        ConvertUuidsIdentity(xs[i]);
      }
      assert ConvertUuids(v).items == xs;
    case PDict(m) =>
      forall k | k in m ensures ConvertUuids(m[k]) == m[k] {
        ConvertUuidsIdentity(m[k]);
      }
      assert ConvertUuids(v).entries == m;
    case _ =>
  }

  /** Running the pass twice is the same as running it once. */
  lemma ConvertUuidsIdempotent(v: PyVal)
    ensures ConvertUuids(ConvertUuids(v)) == ConvertUuids(v)
  {
    ConvertUuidsIdentity(ConvertUuids(v));
  }

  /** A JSON value seen as a Python value. */
  function FromJson(j: JVal): (r: PyVal)
    ensures NoUuid(r)
  {
    match j
    case JNull => PNone
    case JBool(b) => PBool(b)
    case JInt(n) => PInt(n)
    case JStr(s) => PStr(s)
    case JList(xs) => PList(seq(|xs|, i requires 0 <= i < |xs| => FromJson(xs[i])))
    case JObj(m) => PDict(map k | k in m :: FromJson(m[k]))
  }

  /** What `json.load` produced passes through the pass unchanged, so the
      reply view saves exactly the comments it updated. */
  lemma LoadedCommentsUnchanged(j: JVal)
    ensures ConvertUuids(FromJson(j)) == FromJson(j)
  {
    ConvertUuidsIdentity(FromJson(j));
  }
}

=== FILE: paging.dfy ===
/** Fixed-size pagination shared by the server's `Paginator` and the
    dashboards: page counts, the slice a page shows, its "from"/"to" labels
    and the clamped previous/next moves. Pages are numbered from 1. */
module Paging {

  function Min(a: int, b: int): int { if a <= b then a else b }
  function Max(a: int, b: int): int { if a >= b then a else b }

  /** The number of pages: `max(1, ceil(n / size))`. */
  function PageCount(n: nat, size: nat): (r: nat)
    requires size > 0
    ensures r >= 1
    ensures n <= r * size
    ensures r == 1 || (r - 1) * size < n
  {
    if n == 0 then 1
    else
      var r := (n + size - 1) / size;
      CeilFacts(n, size, r);
      r
  }

  lemma CeilFacts(n: nat, size: nat, r: nat)
    requires n > 0 && size > 0 && r == (n + size - 1) / size
    ensures r >= 1 && n <= r * size && (r - 1) * size < n
  {
    var q := n + size - 1;
    assert r * size <= q < r * size + size;
  }

  /** The index of the first item on page `p`. */
  function PageStart(p: nat, size: nat): nat
    requires p >= 1
  {
    (p - 1) * size
  }

  /** The "to" label of page `p`: `min(p * size, n)`. */
  function PageEnd(n: nat, p: nat, size: nat): nat {
    Min(p * size, n)
  }

  /** The items page `p` shows: `items[(p - 1) * size, min(p * size, n))`, or
      none when the page starts past the end. */
  function PageOf<T>(items: seq<T>, p: nat, size: nat): (r: seq<T>)
    requires p >= 1
    ensures |r| <= size
    ensures forall i :: 0 <= i < |r| ==> PageStart(p, size) + i < |items| && r[i] == items[PageStart(p, size) + i]
    ensures PageStart(p, size) < |items| ==> |r| == PageEnd(|items|, p, size) - PageStart(p, size)
    ensures PageStart(p, size) >= |items| ==> r == []
  {
    var lo := PageStart(p, size);
    if lo >= |items| then []
    else
      assert p * size == lo + size;
      items[lo..Min(p * size, |items|)]
  }

  /** Every item lies on the page its index divides into, at the matching
      position: consecutive pages cover the list without gaps or overlap. */
  lemma ItemOnItsPage<T>(items: seq<T>, size: nat, i: nat)
    requires size > 0 && i < |items|
    ensures var p := i / size + 1;
      && PageStart(p, size) <= i
      && i - PageStart(p, size) < |PageOf(items, p, size)|
      && PageOf(items, p, size)[i - PageStart(p, size)] == items[i]
  {
    var p := i / size + 1;
    assert PageStart(p, size) == (i / size) * size;
    assert (i / size) * size <= i < (i / size) * size + size;
    assert p * size == (i / size) * size + size;
  }

  /** The page an item lies on is one of the counted pages. */
  lemma ItemPageCounted(n: nat, size: nat, i: nat)
    requires size > 0 && i < n
    ensures 1 <= i / size + 1 <= PageCount(n, size)
  {
    var q, r := i / size, PageCount(n, size);
    assert q * size <= i;
    if q >= r {
      MulMono(r, q, size);
      assert false;
    }
  }

  lemma MulMono(a: nat, b: nat, c: nat)
    requires a <= b
    ensures a * c <= b * c
  {
  }

  /** Every page up to the count starts inside the list, unless the list is empty. */
  lemma PagesUpToCountAreFilled<T>(items: seq<T>, size: nat, p: nat)
    requires size > 0 && 1 <= p <= PageCount(|items|, size) && |items| > 0
    ensures |PageOf(items, p, size)| > 0
  {
    var c := PageCount(|items|, size);
    MulMono(p - 1, c - 1, size);
    assert PageStart(p, size) <= (c - 1) * size < |items|;
  }

  /** "Next" never moves past the last page. */
  function NextPage(p: nat, total: nat): (r: nat)
    ensures r == Min(p + 1, total)
  {
    if p + 1 <= total then p + 1 else total
  }

  /** "Previous" never moves before page 1. */
  function PrevPage(p: nat): (r: nat)
    ensures r == Max(p - 1, 1)
  {
    if p > 1 then p - 1 else 1
  }

  /** From a valid page, the moves stay within `1..total`, and one step
      forward then back returns to the page unless it was the last. */
  lemma MovesStayInRange(p: nat, total: nat)
    requires 1 <= p <= total
    ensures 1 <= NextPage(p, total) <= total && 1 <= PrevPage(p) <= total
    ensures p < total ==> PrevPage(NextPage(p, total)) == p
    ensures p > 1 ==> NextPage(PrevPage(p), total) == p
  {
  }
}

=== FILE: people.dfy ===
/** The two role records attached to an account: `Student` (its own name
    fields) and `Staff` (names taken from the account), their display names,
    and the uniqueness rules of their tables. */
module People {
  import opened Wrappers
  import opened Text

  /** The authentication account (Django `User`). */
  datatype Account = Account(id: nat, username: string, email: string, firstName: string, lastName: string)

  datatype Student = Student(
    id: nat, userId: nat, email: string,
    firstName: Option<string>, lastName: Option<string>, skills: seq<string>)

  datatype Staff = Staff(id: nat, userId: nat, staffId: string)

  /** The requesting user as a view sees it: anonymous, or an account with
      the primary keys of its staff and student records, if any. */
  datatype Caller = Anonymous | Member(userId: nat, staffPk: Option<nat>, studentPk: Option<nat>)

  /** A Python string field that is set and non-empty (truthy). */
  predicate Filled(o: Option<string>) {
    o.Some? && |o.value| > 0
  }

  /** The shared `name` rule: "first last" when both names are set, the first
      name alone when only it is set, otherwise the username (a last name on
      its own is never shown). */
  function DisplayName(first: Option<string>, last: Option<string>, username: string): (r: string)
    ensures !Filled(first) ==> r == username
    ensures Filled(first) ==> IsPrefix(first.value, r)
    ensures Filled(first) ==> (r == first.value <==> !Filled(last))
    ensures Filled(first) && Filled(last) ==> r[|first.value|..] == " " + last.value
  {
    if Filled(first) && Filled(last) then first.value + " " + last.value
    else if Filled(first) then first.value
    else username
  }

  /** `Student.name`: the student's own name fields, else the account's username. */
  function StudentName(s: Student, account: Account): string {
    DisplayName(s.firstName, s.lastName, account.username)
  }

  /** `Staff.name`: the account's name fields, else its username. */
  function StaffName(account: Account): string {
    DisplayName(Some(account.firstName), Some(account.lastName), account.username)
  }

  /** A student with only a last name is shown under the username. */
  lemma LastNameAloneIgnored(s: Student, account: Account)
    requires !Filled(s.firstName) && Filled(s.lastName)
    ensures StudentName(s, account) == account.username
  {
  }

  /** A new student starts with an empty skills list. */
  function NewStudent(id: nat, userId: nat, email: string): (s: Student)
    ensures s.skills == [] && s.email == email && s.firstName == None && s.lastName == None
  {
    Student(id, userId, email, None, None, [])
  }

  // ---------------------------------------------------------------------------
  // Table invariants

  /** `Student.email` is unique. */
  predicate UniqueEmails(students: seq<Student>) {
    forall i, j :: 0 <= i < j < |students| ==> students[i].email != students[j].email
  }

  /** `Staff.staff_id` is unique. */
  predicate UniqueStaffIds(staff: seq<Staff>) {
    forall i, j :: 0 <= i < j < |staff| ==> staff[i].staffId != staff[j].staffId
  }

  predicate StaffIdTaken(staff: seq<Staff>, sid: string) {
    exists i :: 0 <= i < |staff| && staff[i].staffId == sid
  }

  /** Inserting a staff row with a freshly generated `staff_id` (the UUIDv7
      generator is outside the model, so the value is a parameter). The
      unique index refuses a value already taken (`None`); otherwise the row is
      appended and uniqueness is kept. */
  function InsertStaff(staff: seq<Staff>, id: nat, userId: nat, generated: string): (r: Option<seq<Staff>>)
    requires UniqueStaffIds(staff)
    ensures r.None? <==> StaffIdTaken(staff, generated)
    ensures r.Some? ==> UniqueStaffIds(r.value) && r.value == staff + [Staff(id, userId, generated)]
  {
    if StaffIdTaken(staff, generated) then None
    else Some(staff + [Staff(id, userId, generated)])
  }

  predicate EmailTaken(students: seq<Student>, email: string) {
    exists i :: 0 <= i < |students| && students[i].email == email
  }

  /** Inserting a student row: the unique index on `email` refuses a duplicate. */
  function InsertStudent(students: seq<Student>, s: Student): (r: Option<seq<Student>>)
    requires UniqueEmails(students)
    ensures r.None? <==> EmailTaken(students, s.email)
    ensures r.Some? ==> UniqueEmails(r.value) && r.value == students + [s]
  {
    if EmailTaken(students, s.email) then None else Some(students + [s])
  }
}

=== FILE: role_guard.dfy ===
/** `RoleGuard`: the effect that decides, once the session store is
    initialised, whether to show the guarded page or to navigate away, and
    what is rendered meanwhile. `InstructorGuard`, `CandidateGuard` and
    `AuthGuard` are the guard with the role "staff", "student" and "all". */
module RoleGuard {
  import opened Wrappers

  /** The stored user as the guard reads it. */
  datatype GuardUser = GuardUser(role: string, token: string)

  /** The guard's own state: authorised, and still loading. */
  datatype GuardState = GuardState(authorized: bool, loading: bool)

  const GuardStart := GuardState(false, true)

  /** One run of the effect: the new state and the route it replaces the
      current one with, if any. */
  datatype EffectRun = EffectRun(state: GuardState, navigate: Option<string>)

  /** The user may see the page: signed in with a token, and the role fits. */
  predicate Allowed(user: Option<GuardUser>, allowedRole: string) {
    user.Some? && user.value.token != "" && (allowedRole == "all" || user.value.role == allowedRole)
  }

  /** Where a user who may not see the page is sent. */
  function Elsewhere(user: Option<GuardUser>, redirectTo: string): string {
    if user.None? || user.value.token == "" then redirectTo
    else if user.value.role == "student" then "/dashboard/candidate"
    else if user.value.role == "staff" then "/dashboard/instructor"
    else redirectTo
  }

  /** The effect: nothing before initialisation; without a user or token, a
      redirect that leaves the state as it was; otherwise authorise or send
      the user to their own dashboard, and stop loading. */
  function RunEffect(s: GuardState, initialized: bool, user: Option<GuardUser>, allowedRole: string, redirectTo: string): (r: EffectRun)
    ensures !initialized ==> r == EffectRun(s, None)
    ensures initialized ==> (r.navigate.None? <==> Allowed(user, allowedRole))
    ensures initialized && r.navigate.Some? ==> r.navigate.value == Elsewhere(user, redirectTo)
    ensures initialized && Allowed(user, allowedRole) ==> r.state == GuardState(true, false)
  {
    if !initialized then EffectRun(s, None)
    else if user.None? || user.value.token == "" then EffectRun(s, Some(redirectTo))
    else if allowedRole == "all" || user.value.role == allowedRole then EffectRun(s.(authorized := true, loading := false), None)
    else if user.value.role == "student" then EffectRun(s.(loading := false), Some("/dashboard/candidate"))
    else if user.value.role == "staff" then EffectRun(s.(loading := false), Some("/dashboard/instructor"))
    else EffectRun(s.(loading := false), Some(redirectTo))
  }

  datatype Screen = Loader | Guarded | Blank

  /** The loader while loading or not initialised, then the guarded page
      only when authorised. */
  function Render(s: GuardState, initialized: bool): (r: Screen)
    ensures r == Guarded <==> initialized && !s.loading && s.authorized
  {
    if s.loading || !initialized then Loader
    else if s.authorized then Guarded
    else Blank
  }

  /** On the first decision the page appears exactly for an allowed user;
      everyone else is navigated away, a signed-out visitor seeing the loader
      until the navigation happens. */
  lemma FirstDecision(user: Option<GuardUser>, allowedRole: string, redirectTo: string)
    ensures var run := RunEffect(GuardStart, true, user, allowedRole, redirectTo);
      && (Render(run.state, true) == Guarded <==> Allowed(user, allowedRole))
      && (run.navigate.Some? <==> !Allowed(user, allowedRole))
      && (user.None? ==> Render(run.state, true) == Loader)
  {
  }

  /** A staff member at a student page goes to the instructor dashboard and
      a student at a staff page to the candidate dashboard. */
  lemma WrongRoleGoesHome(token: string, redirectTo: string)
    requires token != ""
    ensures RunEffect(GuardStart, true, Some(GuardUser("staff", token)), "student", redirectTo).navigate == Some("/dashboard/instructor")
    ensures RunEffect(GuardStart, true, Some(GuardUser("student", token)), "staff", redirectTo).navigate == Some("/dashboard/candidate")
  {
  }

  /** Authorisation is never withdrawn: once the page shows, a later run
      without a user navigates away but the page stays rendered until the
      route changes. */
  lemma AuthorizationIsSticky(s: GuardState, allowedRole: string, redirectTo: string)
    requires s.authorized && !s.loading
    ensures var run := RunEffect(s, true, None, allowedRole, redirectTo);
      run.navigate == Some(redirectTo) && Render(run.state, true) == Guarded
  {
  }
}

=== FILE: socket_auth.dfy ===
/** The connection-time identity gate for websockets (`JwtAuthMiddleware`)
    and its token lookup. Signature checking of the token is a parameter:
    `decoded` maps each token that verifies to its payload. */
module SocketAuth {
  import opened Wrappers
  import opened Json

  /** The user a connection scope carries. */
  datatype ScopeUser = Unset | Anonymous | Authenticated(id: int)

  datatype Scope = Scope(kind: string, user: ScopeUser)

  /** A key of the dictionary `parse_qs` returns: the code can ask for `str`
      keys or `bytes` keys, and Python never finds one among the other. */
  datatype QueryKey = StrKey(name: string) | BytesKey(name: string)

  /** `parse_qs` of the decoded query string: its keys are all `str`. */
  function QueryParams(parsed: map<string, seq<string>>): (q: map<QueryKey, seq<string>>)
    ensures forall k :: k in q ==> k.StrKey?
    ensures forall n :: StrKey(n) in q <==> n in parsed
  {
    map k | k in (set n | n in parsed :: StrKey(n)) :: parsed[k.name]
  }

  /** The outcome of `get_user_from_token`: a user id, `None`, or an
      exception other than a token error. */
  datatype TokenUser = NoUser | FoundUser(id: int) | TokenRaises

  /** `get_user_from_token`: `None` when the token does not verify, when the
      payload has no truthy `user_id`, or when no user has that id. */
  function UserFromToken(token: string, decoded: map<string, map<string, JVal>>, users: set<int>): (r: TokenUser)
    ensures token !in decoded ==> r == NoUser
    ensures token in decoded && !Truthy(Get(decoded[token], "user_id")) ==> r == NoUser
    ensures r.FoundUser? ==> r.id in users && token in decoded
                              && CoerceId(Get(decoded[token], "user_id")) == LookupId(r.id)
  {
    if token !in decoded then NoUser
    else
      var uid := Get(decoded[token], "user_id");
      if !Truthy(uid) then NoUser
      else match CoerceId(uid)
        case NoRowMatches => NoUser
        case LookupRaises => TokenRaises
        case LookupId(n) => if n in users then FoundUser(n) else NoUser
  }

  /** The first value of a query parameter, if the key is present with a value. */
  function FirstValue(q: map<QueryKey, seq<string>>, k: QueryKey): Option<string> {
    if k in q && |q[k]| > 0 then Some(q[k][0]) else None
  }

  /** Token selection: `token` is consulted before `access_token`, under the
      given key spelling. */
  function SelectToken(q: map<QueryKey, seq<string>>, bytesKeys: bool): Option<string> {
    var tk := if bytesKeys then BytesKey("token") else StrKey("token");
    var ak := if bytesKeys then BytesKey("access_token") else StrKey("access_token");
    if tk in q then FirstValue(q, tk) else FirstValue(q, ak)
  }

  /** The middleware with a given key spelling: websocket scopes start
      anonymous and become authenticated only through a found user; any
      exception keeps them anonymous; other scopes pass through untouched.
      The handshake always continues (there is no rejecting outcome). */
  function Gate(scope: Scope, parsed: map<string, seq<string>>, decoded: map<string, map<string, JVal>>,
                users: set<int>, bytesKeys: bool): (r: Scope)
    ensures scope.kind != "websocket" ==> r == scope
    ensures scope.kind == "websocket" ==> r.kind == scope.kind && (r.user.Anonymous? || r.user.Authenticated?)
    ensures r.user.Authenticated? && scope.kind == "websocket" ==> r.user.id in users
  {
    if scope.kind != "websocket" then scope
    else
      var token := SelectToken(QueryParams(parsed), bytesKeys);
      if token.Some? && |token.value| > 0 then
        match UserFromToken(token.value, decoded, users)
        case FoundUser(id) => Scope(scope.kind, Authenticated(id))
        case _ => Scope(scope.kind, Anonymous)
      else Scope(scope.kind, Anonymous)
  }

  /** The middleware as written: the membership tests use `bytes` keys. */
  function GateAsWritten(scope: Scope, parsed: map<string, seq<string>>,
                         decoded: map<string, map<string, JVal>>, users: set<int>): Scope {
    Gate(scope, parsed, decoded, users, true)
  }

  /** The middleware with `str` keys, as the fallback comments describe. */
  function GateIntended(scope: Scope, parsed: map<string, seq<string>>,
                        decoded: map<string, map<string, JVal>>, users: set<int>): Scope {
    Gate(scope, parsed, decoded, users, false)
  }

  /** As written, no token is ever extracted: every websocket connection
      stays anonymous, whatever its query string and however valid its token. */
  lemma AsWrittenAlwaysAnonymous(scope: Scope, parsed: map<string, seq<string>>,
                                 decoded: map<string, map<string, JVal>>, users: set<int>)
    requires scope.kind == "websocket"
    ensures GateAsWritten(scope, parsed, decoded, users).user == Anonymous
  {
    var q := QueryParams(parsed);
    assert BytesKey("token") !in q && BytesKey("access_token") !in q;
  }

  /** Concretely: a valid token in `?token=` is ignored as written and
      honoured with `str` keys. */
  lemma ValidTokenIgnoredAsWritten()
    ensures var parsed := map["token" := ["t"]];
            var decoded := map["t" := map["user_id" := JInt(7)]];
            var ws := Scope("websocket", Unset);
      && GateAsWritten(ws, parsed, decoded, {7}).user == Anonymous
      && GateIntended(ws, parsed, decoded, {7}).user == Authenticated(7)
  {
    var parsed := map["token" := ["t"]];
    assert StrKey("token") in QueryParams(parsed);
    AsWrittenAlwaysAnonymous(Scope("websocket", Unset), parsed, map["t" := map["user_id" := JInt(7)]], {7});
  }

  /** With `str` keys a websocket is authenticated exactly when the selected
      token (from `token`, else `access_token`) resolves to a user. */
  lemma IntendedAuthenticatesIff(scope: Scope, parsed: map<string, seq<string>>,
                                 decoded: map<string, map<string, JVal>>, users: set<int>)
    requires scope.kind == "websocket"
    ensures var t := if "token" in parsed then FirstValue(QueryParams(parsed), StrKey("token"))
                     else FirstValue(QueryParams(parsed), StrKey("access_token"));
            var r := GateIntended(scope, parsed, decoded, users);
      r.user.Authenticated? <==> t.Some? && |t.value| > 0 && UserFromToken(t.value, decoded, users).FoundUser?
  {
    var q := QueryParams(parsed);
    assert StrKey("token") in q <==> "token" in parsed;
  }
}

=== FILE: streak_store.dfy ===
/** The learning-streak store (`useStreakStore`): one entry per day with a
    login count, the running streak and the day it was last extended. Days
    are whole day numbers (day 0 is 1970-01-01, a Thursday); the store keys
    days by their UTC date string, which is one day number each. */
module StreakStore {
  import opened Wrappers

  datatype StreakDay = StreakDay(date: int, count: int)

  /** What `lastStreakDate` holds: nothing, a `Date` of that day, the ISO
      text of that day (what the persisted store reads back after a page
      load, since JSON has no dates), or a `Date` that is not valid. */
  datatype LastDate = NoDate | At(day: int) | Text(day: int) | Invalid

  datatype Store = Store(streak: int, lastStreakDate: LastDate,
                         loginDates: seq<StreakDay>, currentWeekDays: seq<StreakDay>)

  const Initial := Store(0, NoDate, [], [])

  /** 0 for Sunday up to 6 for Saturday. */
  function DayOfWeek(d: int): (r: int)
    ensures 0 <= r < 7
  {
    (d + 4) % 7
  }

  /** The index of the first entry for `date`, as `find` picks it. */
  function FindDay(days: seq<StreakDay>, date: int): (r: Option<nat>)
    ensures r.Some? ==> r.value < |days| && days[r.value].date == date
                        && forall k :: 0 <= k < r.value ==> days[k].date != date
    ensures r.None? ==> forall k :: 0 <= k < |days| ==> days[k].date != date
  {
    if |days| == 0 then None
    else if days[0].date == date then Some(0)
    else match FindDay(days[1..], date)
      case None => None
      case Some(k) => Some(k + 1)
  }

  /** `hasVisitedToday`: some entry is for today. */
  function HasVisited(days: seq<StreakDay>, today: int): (r: bool)
    ensures r <==> exists k :: 0 <= k < |days| && days[k].date == today
  {
    FindDay(days, today).Some?
  }

  /** `getWeekDays`: Sunday to Saturday of the week holding `today`. */
  function WeekDays(today: int): (r: seq<int>)
    ensures |r| == 7 && DayOfWeek(r[0]) == 0 && r[0] <= today < r[0] + 7
    ensures forall i :: 0 <= i < 7 ==> r[i] == r[0] + i
  {
    var sunday := today - DayOfWeek(today);
    assert DayOfWeek(sunday) == 0 by {
      assert sunday + 4 == (today + 4) - (today + 4) % 7;
    }
    seq(7, i => sunday + i)
  }

  /** `getWeekStreak`: one entry per day of this week, the stored one when
      there is one and a zero count otherwise. */
  function WeekStreak(days: seq<StreakDay>, today: int): (r: seq<StreakDay>)
    ensures |r| == 7
    ensures forall i :: 0 <= i < 7 ==> r[i].date == WeekDays(today)[i]
    ensures forall i :: 0 <= i < 7 ==>
      (if HasVisited(days, r[i].date) then r[i] in days else r[i].count == 0)
  {
    var week := WeekDays(today);
    seq(7, i requires 0 <= i < 7 =>
      match FindDay(days, week[i])
      case Some(k) => days[k]
      case None => StreakDay(week[i], 0))
  }

  /** Days are stored at most once. */
  predicate UniqueDates(days: seq<StreakDay>) {
    forall i, j :: 0 <= i < j < |days| ==> days[i].date != days[j].date
  }

  /** The login-date part of `recordLogin`: today's entry counts one more
      login, or is appended with one. */
  function CountLogin(days: seq<StreakDay>, today: int): (r: seq<StreakDay>)
    ensures HasVisited(days, today) ==> (
      && |r| == |days|
      && forall k :: 0 <= k < |days| ==>
           r[k] == (if days[k].date == today then days[k].(count := days[k].count + 1) else days[k]))
    ensures !HasVisited(days, today) ==> r == days + [StreakDay(today, 1)]
    ensures UniqueDates(days) ==> UniqueDates(r)
    ensures HasVisited(r, today)
  {
    if HasVisited(days, today) then
      var r := seq(|days|, k requires 0 <= k < |days| =>
        if days[k].date == today then days[k].(count := days[k].count + 1) else days[k]);
      assert r[FindDay(days, today).value].date == today;
      r
    else
      var r := days + [StreakDay(today, 1)];
      assert r[|days|].date == today;
      r
  }

  /** The streak rule as written: a `Date` of yesterday extends the streak,
      one of today keeps it, and anything else (no date, another day, a
      stored text or an invalid `Date`) restarts it at 1. */
  function NextStreak(streak: int, last: LastDate, today: int): (r: int)
    ensures last.At? && last.day == today ==> r == streak
    ensures last.At? && last.day == today - 1 ==> r == streak + 1
    ensures !(last.At? && today - 1 <= last.day <= today) ==> r == 1
  {
    match last
    case At(d) => if d == today then streak else if d == today - 1 then streak + 1 else 1
    case _ => 1
  }

  /** `recordLogin` on day `today`. */
  function RecordLogin(s: Store, today: int): (r: Store)
    ensures r.lastStreakDate == At(today)
    ensures r.streak == NextStreak(s.streak, s.lastStreakDate, today)
    ensures r.loginDates == CountLogin(s.loginDates, today)
    ensures r.currentWeekDays == WeekStreak(r.loginDates, today)
  {
    var days := CountLogin(s.loginDates, today);
    Store(NextStreak(s.streak, s.lastStreakDate, today), At(today), days, WeekStreak(days, today))
  }

  /** What a page load makes of the persisted store: the `Date` comes back as
      its ISO text. */
  function Reload(s: Store): (r: Store)
    ensures r.lastStreakDate.Text? <==> s.lastStreakDate.At? || s.lastStreakDate.Text?
    ensures r.(lastStreakDate := s.lastStreakDate) == s
  {
    match s.lastStreakDate
    case At(d) => s.(lastStreakDate := Text(d))
    case _ => s
  }

  /** Once the store has been reloaded, a login on the next day restarts the
      streak instead of extending it. */
  lemma ReloadResetsStreak()
    ensures RecordLogin(RecordLogin(Initial, 10), 11).streak == 2
    ensures RecordLogin(Reload(RecordLogin(Initial, 10)), 11).streak == 1
  {
  }

  /** The streak rule reading the stored day whether it is a `Date` or its
      text. */
  function NextStreakRevived(streak: int, last: LastDate, today: int): (r: int)
    ensures (last.At? || last.Text?) && last.day == today ==> r == streak
    ensures (last.At? || last.Text?) && last.day == today - 1 ==> r == streak + 1
    ensures !((last.At? || last.Text?) && today - 1 <= last.day <= today) ==> r == 1
  {
    match last
    case At(d) => NextStreak(streak, At(d), today)
    case Text(d) => NextStreak(streak, At(d), today)
    case _ => 1
  }

  /** `recordLogin` with the stored day read back from its text. */
  function RecordLoginRevived(s: Store, today: int): (r: Store)
    ensures r.lastStreakDate == At(today)
    ensures r.streak == NextStreakRevived(s.streak, s.lastStreakDate, today)
    ensures r.loginDates == CountLogin(s.loginDates, today)
    ensures r.currentWeekDays == WeekStreak(r.loginDates, today)
  {
    var days := CountLogin(s.loginDates, today);
    Store(NextStreakRevived(s.streak, s.lastStreakDate, today), At(today), days, WeekStreak(days, today))
  }

  /** With the text read back, a page load changes nothing a login computes. */
  lemma ReloadHarmlessWhenRevived(s: Store, today: int)
    ensures RecordLoginRevived(Reload(s), today) == RecordLoginRevived(s, today)
  {
  }

  /** Both rules agree while the store holds a real `Date`. */
  lemma RevivedAgreesOnDates(s: Store, today: int)
    requires !s.lastStreakDate.Text?
    ensures RecordLoginRevived(s, today) == RecordLogin(s, today)
  {
  }

  /** `n` logins on consecutive days starting at `first`, the page loaded
      afresh before each. */
  function DailyLogins(s: Store, first: int, n: nat): Store {
    if n == 0 then s else RecordLoginRevived(Reload(DailyLogins(s, first, n - 1)), first + n - 1)
  }

  /** Logging in `n` days in a row from a fresh store, with page loads
      between them, builds a streak of `n`, and each day is stored once. */
  lemma {:induction false} ConsecutiveDaysBuildStreak(first: int, n: nat)
    requires n >= 1
    ensures DailyLogins(Initial, first, n).streak == n
    ensures DailyLogins(Initial, first, n).lastStreakDate == At(first + n - 1)
    ensures |DailyLogins(Initial, first, n).loginDates| == n
    ensures forall k :: 0 <= k < n ==> DailyLogins(Initial, first, n).loginDates[k] == StreakDay(first + k, 1)
  {
    if n > 1 {
      ConsecutiveDaysBuildStreak(first, n - 1);
      var prev := DailyLogins(Initial, first, n - 1);
      NextDayExtends(prev, first, n);
    }
  }

  /** After `n` daily logins from `first`: a streak of `n` ending on the last
      day, and one entry per day. */
  predicate BuiltDaily(s: Store, first: int, n: nat) {
    && s.streak == n
    && s.lastStreakDate == At(first + n - 1)
    && |s.loginDates| == n
    && forall k :: 0 <= k < n ==> s.loginDates[k] == StreakDay(first + k, 1)
  }

  lemma NextDayExtends(prev: Store, first: int, n: nat)
    requires n > 1 && BuiltDaily(prev, first, n - 1)
    ensures BuiltDaily(RecordLoginRevived(Reload(prev), first + n - 1), first, n)
  {
    assert !HasVisited(prev.loginDates, first + n - 1);
    ReloadHarmlessWhenRevived(prev, first + n - 1);
  }

  /** A second login on the same day leaves the streak as the first left it,
      and today's entry stays single. */
  lemma SameDayTwice(s: Store, today: int)
    requires UniqueDates(s.loginDates)
    ensures var once := RecordLogin(s, today);
      && RecordLogin(once, today).streak == once.streak
      && UniqueDates(RecordLogin(once, today).loginDates)
      && |RecordLogin(once, today).loginDates| == |once.loginDates|
  {
  }

  /** A store whose streak has been set holds a streak of at least one. */
  predicate StreakSet(s: Store) {
    (s.lastStreakDate.At? || s.lastStreakDate.Text?) ==> s.streak >= 1
  }

  /** Every login leaves a streak of at least one behind. */
  lemma LoginKeepsStreakSet(s: Store, today: int)
    requires StreakSet(s)
    ensures RecordLogin(s, today).streak >= 1 && StreakSet(RecordLogin(s, today))
    ensures RecordLoginRevived(s, today).streak >= 1 && StreakSet(RecordLoginRevived(s, today))
  {
  }
}

=== FILE: streak_views.dfy ===
/** The milestone and reminder toasts (`useStreakAchievements`,
    `useStreakReminders`). Browser storage is the `stored` value passed in
    and handed back; days are day numbers as in `StreakStore`. */
module StreakAlerts {
  import opened Wrappers
  import opened Text

  const Milestones: seq<int> := [3, 7, 14, 30, 60, 100, 365]

  /** `checkMilestone`: a toast for a milestone streak not yet announced, after
      which the streak is the announced one. `stored` is the text kept under
      `lastStreakMilestone`. */
  function CheckMilestone(streak: int, stored: Option<string>): (r: (bool, Option<string>))
    ensures r.0 <==> streak in Milestones && stored != Some(IntToString(streak))
    ensures r.0 ==> r.1 == Some(IntToString(streak))
    ensures !r.0 ==> r.1 == stored
  {
    if streak in Milestones && stored != Some(IntToString(streak)) then (true, Some(IntToString(streak)))
    else (false, stored)
  }

  /** Each milestone is announced once: asking again with what was stored
      shows nothing and stores nothing new. */
  lemma MilestoneAnnouncedOnce(streak: int, stored: Option<string>)
    ensures var (_, after) := CheckMilestone(streak, stored);
      CheckMilestone(streak, after) == (false, after)
  {
  }

  /** Reaching another milestone announces it even after an earlier one. */
  lemma NextMilestoneAnnounced(earlier: int, later: int, stored: Option<string>)
    requires earlier in Milestones && later in Milestones && earlier != later
    ensures var (_, after) := CheckMilestone(earlier, stored);
      CheckMilestone(later, after).0
  {
    if IntToString(later) == IntToString(earlier) {
      ParseIntOfString(later);
      ParseIntOfString(earlier);
    }
  }

  /** `checkStreakRisk`: a reminder when a streak of three or more is at risk
      today and none was given today. `stored` is the day kept under
      `lastStreakReminder`. */
  function CheckStreakRisk(streak: int, visitedToday: bool, stored: Option<int>, today: int): (r: (bool, Option<int>))
    ensures r.0 <==> streak >= 3 && !visitedToday && stored != Some(today)
    ensures r.0 ==> r.1 == Some(today)
    ensures !r.0 ==> r.1 == stored
  {
    if streak >= 3 && !visitedToday && stored != Some(today) then (true, Some(today)) else (false, stored)
  }

  /** At most one reminder a day, whatever happens in between. */
  lemma OneReminderPerDay(streak: int, streak': int, visited: bool, visited': bool, stored: Option<int>, today: int)
    ensures var (first, after) := CheckStreakRisk(streak, visited, stored, today);
      first ==> !CheckStreakRisk(streak', visited', after, today).0
  {
  }
}

/** The statistics card (`StreakStats`): total active days, the best streak
    over the sorted login days, and the activity calendar. */
module StreakStats {
  import opened StreakStore

  predicate Sorted(s: seq<int>) {
    forall i, j :: 0 <= i < j < |s| ==> s[i] <= s[j]
  }

  function Insert(x: int, s: seq<int>): (r: seq<int>)
    requires Sorted(s)
    ensures Sorted(r)
    ensures multiset(r) == multiset(s) + multiset{x}
    ensures |r| == |s| + 1 && (r[0] == x || (|s| > 0 && r[0] == s[0]))
  {
    if |s| == 0 then [x]
    else if x <= s[0] then
      PrependSmallest(x, s);
      [x] + s
    else
      var rest := Insert(x, s[1..]);
      assert s == [s[0]] + s[1..];
      PrependSmallest(s[0], rest);
      [s[0]] + rest
  }

  /** A day no later than the first of a sorted list may go first. */
  lemma PrependSmallest(x: int, s: seq<int>)
    requires Sorted(s) && (|s| == 0 || x <= s[0])
    ensures Sorted([x] + s)
  {
    forall i, j | 0 <= i < j < |s| + 1 ensures ([x] + s)[i] <= ([x] + s)[j] {
      assert ([x] + s)[j] == s[j - 1];
      if i > 0 {
        assert ([x] + s)[i] == s[i - 1];
      }
    }
  }

  /** The login days in chronological order. */
  function SortDays(s: seq<int>): (r: seq<int>)
    ensures Sorted(r) && multiset(r) == multiset(s)
  {
    if |s| == 0 then []
    else
      assert s == [s[0]] + s[1..];
      Insert(s[0], SortDays(s[1..]))
  }

  function Dates(days: seq<StreakDay>): (r: seq<int>)
    ensures |r| == |days| && forall k :: 0 <= k < |days| ==> r[k] == days[k].date
  {
    seq(|days|, k requires 0 <= k < |days| => days[k].date)
  }

  /** Indices `a..b` of a sorted list with no gap of more than a day: the days
      `s[a]` to `s[b]` are all logged. */
  predicate Unbroken(s: seq<int>, a: int, b: int) {
    0 <= a <= b < |s| && forall t :: a < t <= b ==> Gap(s, t) <= 1
  }

  /** Days between the login at `t` and the one before it. */
  function Gap(s: seq<int>, t: int): int
    requires 0 < t < |s|
  {
    s[t] - s[t - 1]
  }

  /** One iteration of the best-streak loop over the day `s[i]`: a gap of one
      day extends the current run and may raise the best, a repeated day
      changes nothing, a longer gap restarts the run. */
  function Step(s: seq<int>, i: nat, cur: int, best: int): (int, int)
    requires i < |s|
  {
    if i == 0 then (1, best)
    else if s[i] - s[i - 1] == 1 then (cur + 1, if cur + 1 > best then cur + 1 else best)
    else if s[i] - s[i - 1] > 1 then (1, best)
    else (cur, best)
  }

  /** What the loop keeps after `i` days: `cur` is the length of the run
      ending at day `i - 1`, which starts after a gap at `start`, and `best`
      is the starting streak or the length of the run `wa..wb`, and no run of
      two or more days seen so far is longer. */
  ghost predicate Scanned(s: seq<int>, streak: int, i: nat, cur: int, best: int, start: int, wa: int, wb: int) {
    && i <= |s|
    && (i > 0 ==> 0 <= start < i && Unbroken(s, start, i - 1) && cur == s[i - 1] - s[start] + 1)
    && (i > 0 ==> start == 0 || Gap(s, start) > 1)
    && best >= streak
    && (best == streak || (wb < i && Unbroken(s, wa, wb) && s[wb] > s[wa] && best == s[wb] - s[wa] + 1))
    && (forall a, b :: b < i && Unbroken(s, a, b) && s[b] > s[a] ==> s[b] - s[a] + 1 <= best)
  }

  /** Each iteration keeps `Scanned`, with the run start and the witness of
      the best moved along. */
  lemma StepScans(s: seq<int>, streak: int, i: nat, cur: int, best: int, start: int, wa: int, wb: int)
    returns (start': int, wa': int, wb': int)
    requires Sorted(s) && i < |s| && Scanned(s, streak, i, cur, best, start, wa, wb)
    ensures Scanned(s, streak, i + 1, Step(s, i, cur, best).0, Step(s, i, cur, best).1, start', wa', wb')
  {
    var (cur', best') := Step(s, i, cur, best);
    start', wa', wb' := start, wa, wb;
    if i == 0 {
      start' := 0;
    } else {
      if s[i] - s[i - 1] == 1 {
        if cur + 1 > best {
          wa', wb' := start, i;
        }
      } else if s[i] - s[i - 1] > 1 {
        start' := i;
      }
    }
    assert cur' == s[i] - s[start'] + 1;
    if i > 0 && s[i] - s[i - 1] <= 1 {
      ExtendRun(s, start', i);
    }
    assert i > 0 ==> Gap(s, i) >= 0;
    forall a, b | b < i + 1 && Unbroken(s, a, b) && s[b] > s[a] ensures s[b] - s[a] + 1 <= best' {
      if b == i {
        EndOfRunBound(s, a, i, start', best');
      }
    }
  }

  /** A run of two or more days ending at the newest day is no longer than the
      best once the step is taken: it lies within the current run. */
  lemma EndOfRunBound(s: seq<int>, a: int, i: int, start: int, best: int)
    requires Sorted(s) && Unbroken(s, a, i) && s[i] > s[a]
    requires 0 <= start <= i && Unbroken(s, start, i) && (start == 0 || Gap(s, start) > 1)
    requires i > 0 && Gap(s, i) == 1 ==> s[i] - s[start] + 1 <= best
    requires i > 0 && Gap(s, i) == 0 ==> forall a' :: Unbroken(s, a', i - 1) && s[i - 1] > s[a'] ==> s[i - 1] - s[a'] + 1 <= best
    ensures s[i] - s[a] + 1 <= best
  {
    RunWithinCurrent(s, a, i, start);
    assert a < i;
    assert s[start] <= s[a];
    if Gap(s, i) == 0 {
      ShrinkRun(s, a, i);
    }
  }

  /** The best-streak loop from day `i` on. */
  function Scan(s: seq<int>, i: nat, cur: int, best: int): int
    decreases |s| - i
  {
    if i >= |s| then best
    else
      var (cur', best') := Step(s, i, cur, best);
      Scan(s, i + 1, cur', best')
  }

  /** Whatever the loop has scanned so far, finishing it yields a best that
      is the starting streak or a logged run, and no run is longer. */
  lemma {:induction false} ScanFinds(s: seq<int>, streak: int, i: nat, cur: int, best: int, start: int, wa: int, wb: int)
    requires Sorted(s) && Scanned(s, streak, i, cur, best, start, wa, wb)
    ensures var r := Scan(s, i, cur, best);
      && r >= streak
      && (r == streak || exists a, b :: Unbroken(s, a, b) && s[b] > s[a] && r == s[b] - s[a] + 1)
      && forall a, b :: Unbroken(s, a, b) && s[b] > s[a] ==> s[b] - s[a] + 1 <= r
    decreases |s| - i
  {
    if i < |s| {
      var start', wa', wb' := StepScans(s, streak, i, cur, best, start, wa, wb);
      ScanFinds(s, streak, i + 1, Step(s, i, cur, best).0, Step(s, i, cur, best).1, start', wa', wb');
    } else {
      ScannedAll(s, streak, cur, best, start, wa, wb);
    }
  }

  /** The best streak of the effect, over the days in date order. It starts
      at the current streak, so it is that streak or the length of a logged
      run of two or more days, and no such run is longer. */
  function BestStreak(streak: int, s: seq<int>): (best: int)
    requires Sorted(s)
    ensures best >= streak
    ensures best == streak || exists a, b :: Unbroken(s, a, b) && s[b] > s[a] && best == s[b] - s[a] + 1
    ensures forall a, b :: Unbroken(s, a, b) && s[b] > s[a] ==> s[b] - s[a] + 1 <= best
  {
    ScanFinds(s, streak, 0, 0, streak, 0, 0, 0);
    Scan(s, 0, 0, streak)
  }

  lemma ScannedAll(s: seq<int>, streak: int, cur: int, best: int, start: int, wa: int, wb: int)
    requires Scanned(s, streak, |s|, cur, best, start, wa, wb)
    ensures best >= streak
    ensures best == streak || exists a, b :: Unbroken(s, a, b) && s[b] > s[a] && best == s[b] - s[a] + 1
    ensures forall a, b :: Unbroken(s, a, b) && s[b] > s[a] ==> s[b] - s[a] + 1 <= best
  {
  }

  lemma ExtendRun(s: seq<int>, a: int, b: int)
    requires 0 < b < |s| && Unbroken(s, a, b - 1) && s[b] - s[b - 1] <= 1
    ensures Unbroken(s, a, b)
  {
  }

  lemma ShrinkRun(s: seq<int>, a: int, b: int)
    requires Unbroken(s, a, b) && a < b
    ensures Unbroken(s, a, b - 1)
  {
  }

  /** A run ending at `i` starts no earlier than the current run, which
      begins after a gap. */
  lemma RunWithinCurrent(s: seq<int>, a: int, i: int, start: int)
    requires Unbroken(s, a, i) && 0 <= start <= i
    requires Unbroken(s, start, i)
    requires start == 0 || Gap(s, start) > 1
    ensures start <= a
  {
  }

  datatype Stats = Stats(totalDays: int, bestStreak: int)

  /** The effect: nothing is recomputed for an empty history; otherwise the
      total is the number of stored days and the best streak is computed over
      them in date order. */
  function Recompute(previous: Stats, streak: int, loginDates: seq<StreakDay>): (r: Stats)
    ensures |loginDates| == 0 ==> r == previous
    ensures |loginDates| > 0 ==> r.totalDays == |loginDates| && r.bestStreak >= streak
    ensures |loginDates| > 0 ==> forall a, b ::
      var sorted := SortDays(Dates(loginDates));
      Unbroken(sorted, a, b) && sorted[b] > sorted[a] ==> sorted[b] - sorted[a] + 1 <= r.bestStreak
    ensures |loginDates| > 0 ==>
      var sorted := SortDays(Dates(loginDates));
      || r.bestStreak == streak
      || exists a, b :: Unbroken(sorted, a, b) && sorted[b] > sorted[a] && r.bestStreak == sorted[b] - sorted[a] + 1
  {
    if |loginDates| == 0 then previous
    else Stats(|loginDates|, BestStreak(streak, SortDays(Dates(loginDates))))
  }

  /** A calendar cell's shade: half the logins, rounded up, at most 3. */
  function Intensity(count: int): (r: int)
    ensures r <= 3
    ensures count >= 0 ==> 0 <= r
    ensures r < 3 ==> 2 * r - 1 <= count <= 2 * r
    ensures r == 3 <==> count >= 5
    ensures r == 0 <==> count == 0 || count == -1
  {
    var half := if count >= 0 then (count + 1) / 2 else -((-count) / 2);
    if half < 3 then half else 3
  }

  /** The calendar shows the last 28 stored days. */
  function Calendar(days: seq<StreakDay>): (r: seq<StreakDay>)
    ensures |r| == if |days| < 28 then |days| else 28
    ensures days == days[..|days| - |r|] + r
  {
    if |days| <= 28 then days else days[|days| - 28..]
  }
}

/** The streak widget (`DashboardStreakWidget`): the progress ring and the
    next-milestone line. */
module StreakWidget {
  import opened Wrappers

  /** The ring's dash length: 30 per day, capped at the full circle of 283. */
  function ArcLength(streak: int): (r: int)
    ensures r <= 283
    ensures streak <= 9 ==> r == 30 * streak
    ensures streak >= 10 ==> r == 283
  {
    if 30 * streak < 283 then 30 * streak else 283
  }

  /** "day" for a streak of one, "days" otherwise. */
  function DayUnit(streak: int): (r: string)
    ensures r == "day" <==> streak == 1
    ensures r != "day" ==> r == "days"
  {
    if streak == 1 then "day" else "days"
  }

  /** The next milestone and how many days remain, shown only for a positive
      streak; past 99 days it names 365 without a count. */
  function NextMilestone(streak: int): (r: Option<(int, Option<int>)>)
    ensures r.Some? <==> streak > 0
    ensures r.Some? && r.value.1.Some? ==>
      && r.value.0 in [7, 30, 100] && r.value.1.value == r.value.0 - streak > 0
      && forall m :: m in [7, 30, 100] && m > streak ==> r.value.0 <= m
    ensures r.Some? && r.value.1.None? <==> streak >= 100
    ensures r.Some? && r.value.1.None? ==> r.value.0 == 365
  {
    if streak <= 0 then None
    else if streak < 7 then Some((7, Some(7 - streak)))
    else if streak < 30 then Some((30, Some(30 - streak)))
    else if streak < 100 then Some((100, Some(100 - streak)))
    else Some((365, None))
  }
}

=== FILE: text.dfy ===
/** String primitives shared by the backend (Python `str`) and the frontend
    (JavaScript `string`) models. Characters are compared exactly; case mapping
    and whitespace are ASCII only. */
module Text {
  import opened Wrappers

  // ---------------------------------------------------------------------------
  // Prefixes and substrings

  /** `p` is a prefix of `s` (Python `startswith`, JavaScript `startsWith`). */
  predicate IsPrefix(p: string, s: string) {
    |p| <= |s| && s[..|p|] == p
  }

  /** `sub` occurs inside `s` (Python `in`, JavaScript `includes`). */
  predicate Contains(s: string, sub: string) {
    exists i :: 0 <= i <= |s| - |sub| && IsPrefix(sub, s[i..])
  }

  /** A witness position establishes `Contains`. */
  lemma ContainsAt(s: string, sub: string, i: int)
    requires 0 <= i <= |s| - |sub| && IsPrefix(sub, s[i..])
    ensures Contains(s, sub)
  {
  }

  /** The empty string occurs in every string. */
  lemma ContainsEmpty(s: string)
    ensures Contains(s, "")
  {
    ContainsAt(s, "", 0);
  }

  /** Every occurrence of `sub` in `b` is an occurrence in `a + b`. */
  lemma ContainsRight(a: string, b: string, sub: string)
    requires Contains(b, sub)
    ensures Contains(a + b, sub)
  {
    var i :| 0 <= i <= |b| - |sub| && IsPrefix(sub, b[i..]);
    assert (a + b)[|a| + i..] == b[i..];
    ContainsAt(a + b, sub, |a| + i);
  }

  /** Every occurrence of `sub` in `a` is an occurrence in `a + b`. */
  lemma ContainsLeft(a: string, b: string, sub: string)
    requires Contains(a, sub)
    ensures Contains(a + b, sub)
  {
    var i :| 0 <= i <= |a| - |sub| && IsPrefix(sub, a[i..]);
    assert (a + b)[i..][..|sub|] == a[i..][..|sub|];
    ContainsAt(a + b, sub, i);
  }

  /** A pair of adjacent characters of `sub` that never stand side by side
      in `s` rules out every occurrence. */
  lemma AbsentPair(s: string, sub: string, k: nat)
    requires k + 1 < |sub|
    requires forall j :: 0 <= j < |s| - 1 ==> !(s[j] == sub[k] && s[j + 1] == sub[k + 1])
    ensures !Contains(s, sub)
  {
    forall i | 0 <= i <= |s| - |sub|
      ensures !IsPrefix(sub, s[i..])
    {
      var w := s[i..][..|sub|];
      assert w[k] == s[i + k] && w[k + 1] == s[i + k + 1];
      assert !(s[i + k] == sub[k] && s[i + k + 1] == sub[k + 1]);
    }
  }

  // ---------------------------------------------------------------------------
  // ASCII case mapping

  function LowerChar(c: char): char {
    if 'A' <= c <= 'Z' then (c as int + 32) as char else c
  }

  function UpperChar(c: char): char {
    if 'a' <= c <= 'z' then (c as int - 32) as char else c
  }

  /** Python `lower()` / JavaScript `toLowerCase()` on ASCII letters. */
  function Lower(s: string): (r: string)
    ensures |r| == |s|
    ensures forall i :: 0 <= i < |s| ==> r[i] == LowerChar(s[i])
  {
    seq(|s|, i requires 0 <= i < |s| => LowerChar(s[i]))
  }

  /** JavaScript `toUpperCase()` on ASCII letters. */
  function Upper(s: string): (r: string)
    ensures |r| == |s|
    ensures forall i :: 0 <= i < |s| ==> r[i] == UpperChar(s[i])
  {
    seq(|s|, i requires 0 <= i < |s| => UpperChar(s[i]))
  }

  // ---------------------------------------------------------------------------
  // Whitespace trimming

  predicate IsSpace(c: char) {
    c == ' ' || c == '\t' || c == '\n' || c == '\r' || c == '\U{B}' || c == '\U{C}'
  }

  predicate AllSpace(s: string) {
    forall i :: 0 <= i < |s| ==> IsSpace(s[i])
  }

  function TrimStart(s: string): (r: string)
    ensures |r| <= |s|
    ensures r == s[|s| - |r|..]
    ensures r == [] || !IsSpace(r[0])
    ensures AllSpace(s[..|s| - |r|])
  {
    if |s| > 0 && IsSpace(s[0]) then
      var t := TrimStart(s[1..]);
      assert s[..|s| - |t|] == [s[0]] + s[1..][..|s[1..]| - |t|];
      t
    else s
  }

  function TrimEnd(s: string): (r: string)
    ensures |r| <= |s|
    ensures r == s[..|r|]
    ensures r == [] || !IsSpace(r[|r| - 1])
    ensures AllSpace(s[|r|..])
  {
    if |s| > 0 && IsSpace(s[|s| - 1]) then
      var t := TrimEnd(s[..|s| - 1]);
      assert s[|t|..] == s[..|s| - 1][|t|..] + [s[|s| - 1]];
      t
    else s
  }

  /** Python `strip()` / JavaScript `trim()`. */
  function Trim(s: string): string {
    TrimEnd(TrimStart(s))
  }

  /** A string trims to nothing exactly when it consists of whitespace only. */
  lemma TrimEmptyIff(s: string)
    ensures Trim(s) == [] <==> AllSpace(s)
  {
    var a := TrimStart(s);
    if Trim(s) == [] {
      assert a[0..] == a;
      assert a == [];
      assert s[..|s|] == s;
    } else {
      var r := Trim(s);
      assert r == a[..|r|];
      assert !IsSpace(r[0]);
      assert s[|s| - |a|] == r[0];
    }
  }

  // ---------------------------------------------------------------------------
  // Splitting on one separator character

  /** The parts joined back with the separator between consecutive parts. */
  function Join(parts: seq<string>, sep: char): string {
    if |parts| == 0 then ""
    else if |parts| == 1 then parts[0]
    else parts[0] + [sep] + Join(parts[1..], sep)
  }

  /** Python `s.split(sep)` / JavaScript `s.split(sep)` for a one-character
      separator: always at least one part, no part contains the separator, and
      joining the parts gives `s` back. */
  function Split(s: string, sep: char): (r: seq<string>)
    ensures |r| >= 1
    ensures forall i :: 0 <= i < |r| ==> sep !in r[i]
    ensures Join(r, sep) == s
    ensures |r| == 1 <==> sep !in s
  {
    if |s| == 0 then [""]
    else if s[0] == sep then
      var rest := Split(s[1..], sep);
      assert s == [sep] + s[1..];
      [""] + rest
    else
      var rest := Split(s[1..], sep);
      var r := [[s[0]] + rest[0]] + rest[1..];
      assert r[1..] == rest[1..];
      assert s == [s[0]] + s[1..];
      r
  }

  /** A separator-free string splits into itself alone. */
  lemma SplitNoSep(p: string, sep: char)
    requires sep !in p
    ensures Split(p, sep) == [p]
  {
  }

  /** A separator-free first field is split off as one part. */
  lemma {:induction false} SplitAfter(p: string, rest: string, sep: char)
    requires sep !in p
    ensures Split(p + [sep] + rest, sep) == [p] + Split(rest, sep)
    decreases |p|
  {
    var s := p + [sep] + rest;
    if |p| == 0 {
      assert s[0] == sep && s[1..] == rest;
    } else {
      assert s[0] == p[0] && s[1..] == p[1..] + [sep] + rest;
      SplitAfter(p[1..], rest, sep);
      assert [p[0]] + p[1..] == p;
    }
  }

  /** Splitting a join of separator-free parts recovers the parts. */
  lemma {:induction false} SplitJoin(parts: seq<string>, sep: char)
    requires |parts| >= 1
    requires forall i :: 0 <= i < |parts| ==> sep !in parts[i]
    ensures Split(Join(parts, sep), sep) == parts
    decreases |parts|
  {
    if |parts| == 1 {
      SplitNoSep(parts[0], sep);
    } else {
      SplitJoin(parts[1..], sep);
      SplitAfter(parts[0], Join(parts[1..], sep), sep);
      assert parts == [parts[0]] + parts[1..];
    }
  }

  /** The first part is the text before the first separator: a prefix of
      the string, followed by the separator unless it is all of it. */
  lemma {:induction false} SplitFirst(s: string, sep: char)
    ensures IsPrefix(Split(s, sep)[0], s)
    ensures |Split(s, sep)[0]| < |s| ==> s[|Split(s, sep)[0]|] == sep
    decreases |s|
  {
    if |s| > 0 && s[0] != sep {
      SplitFirst(s[1..], sep);
      var head := Split(s[1..], sep)[0];
      assert Split(s, sep)[0] == [s[0]] + head;
      assert s == [s[0]] + s[1..];
    }
  }

  // ---------------------------------------------------------------------------
  // Decimal numerals

  predicate IsDigit(c: char) {
    '0' <= c <= '9'
  }

  predicate AllDigits(s: string) {
    forall i :: 0 <= i < |s| ==> IsDigit(s[i])
  }

  function DigitChar(d: nat): (c: char)
    requires d < 10
    ensures IsDigit(c) && c as int - '0' as int == d
  {
    ('0' as int + d) as char
  }

  /** The value of a string of decimal digits (leading zeros allowed). */
  function DigitsValue(s: string): nat
    requires AllDigits(s)
  {
    if |s| == 0 then 0
    else DigitsValue(s[..|s| - 1]) * 10 + (s[|s| - 1] as int - '0' as int)
  }

  /** The shortest decimal numeral of `n`. */
  function NatToString(n: nat): (r: string)
    ensures |r| >= 1 && AllDigits(r)
    ensures DigitsValue(r) == n
    ensures n < 10 <==> |r| == 1
  {
    if n < 10 then [DigitChar(n)]
    else
      var r := NatToString(n / 10) + [DigitChar(n % 10)];
      assert r[..|r| - 1] == NatToString(n / 10);
      r
  }

  /** The decimal numeral of an integer, with a leading "-" when negative
      (Python `str(int)`, JavaScript `String(number)` on integers). */
  function IntToString(n: int): string {
    if n < 0 then "-" + NatToString(-n) else NatToString(n)
  }

  /** Leading zeros never change the value of a digit string. */
  lemma {:induction false} DigitsValueZeroPrefix(s: string)
    requires AllDigits(s)
    ensures AllDigits("0" + s) && DigitsValue("0" + s) == DigitsValue(s)
    decreases |s|
  {
    var t := "0" + s;
    if |s| > 0 {
      assert t[..|t| - 1] == "0" + s[..|s| - 1];
      DigitsValueZeroPrefix(s[..|s| - 1]);
    }
  }

  /** Python `f"{n:02d}"` / JavaScript `String(n).padStart(2, "0")`: at least
      two characters, zero-padded; a negative value keeps its sign. */
  function Pad2(n: int): (r: string)
    ensures |r| >= 2
    ensures n >= 0 ==> AllDigits(r) && DigitsValue(r) == n
    ensures 0 <= n < 100 ==> |r| == 2
  {
    if n < 0 then "-" + NatToString(-n)
    else if n < 10 then
      DigitsValueZeroPrefix(NatToString(n));
      "0" + NatToString(n)
    else NatToString(n)
  }

  /** Python `int(s)` on a string: surrounding whitespace is ignored, an
      optional sign may precede at least one ASCII digit; anything else raises
      `ValueError` (here `None`). */
  function ParseInt(s: string): Option<int> {
    var t := Trim(s);
    if |t| > 0 && (t[0] == '-' || t[0] == '+') then
      var body := t[1..];
      if |body| > 0 && AllDigits(body) then
        var v: int := DigitsValue(body);
        Some(if t[0] == '-' then -v else v)
      else None
    else if |t| > 0 && AllDigits(t) then Some(DigitsValue(t))
    else None
  }

  /** A string with no whitespace at either end is its own trim. */
  lemma TrimNoEdgeSpace(t: string)
    requires |t| > 0 && !IsSpace(t[0]) && !IsSpace(t[|t| - 1])
    ensures Trim(t) == t
  {
    assert TrimStart(t) == t;
  }

  /** A non-empty digit string, leading zeros included, parses to its value. */
  lemma ParseIntOfDigits(s: string)
    requires AllDigits(s) && |s| > 0
    ensures ParseInt(s) == Some(DigitsValue(s))
  {
    TrimNoEdgeSpace(s);
  }

  /** Every numeral parses back to its value. */
  lemma ParseIntOfString(n: int)
    ensures ParseInt(IntToString(n)) == Some(n)
  {
    if n < 0 {
      var d := NatToString(-n);
      var t := "-" + d;
      TrimNoEdgeSpace(t);
      assert t[1..] == d;
    } else {
      ParseIntOfDigits(NatToString(n));
    }
  }
}

=== FILE: wrappers.dfy ===
/** Optional values, used wherever the system returns `None`/`null` or a lookup may miss. */
module Wrappers {

  datatype Option<+T> = None | Some(value: T) {

    /** The wrapped value, or `default` when there is none. */
    function GetOr(default: T): T {
      match this
      case Some(v) => v
      case None => default
    }
  }
}
